=== FILE: README.md ===
# Queue-Bot-2 core, modelled in Dafny

Queue-Bot-2 is a Discord bot that keeps queues of guild members. Each guild
has queues. A queue has members, displays and schedules, and whitelist,
blacklist, priority and admin entries. The bot posts a "display" of each
queue in one or more channels and keeps it up to date.

This project models the bot's core as pure functions and proves their
contracts:

- the SQLite schema (`schema.dfy`): tables, unique keys, column defaults and
  the ON DELETE CASCADE foreign keys;
- the per-guild `Store` (`store.dfy`): inserts, upserts, updates and the
  condition-driven deletes;
- the memoised reads of the `Store` (`memo.dfy`): each write clears its
  table's memo;
- the member ordering engine (`queries.dfy`, `members.dfy`, `reorder.dfy`):
  - the SQL order by priority and position time;
  - join (with the queue's role step), pull, move, shuffle and clear;
  - positions;
- the entry lists (`access.dfy`, `lists.dfy`): whitelist, blacklist, priority
  and admin matching, and the re-evaluation of members after a list changes;
- the display engine:
  - the debounced refresh scheduler (`display_scheduler.dfy`);
  - the embed pagination (`display_render.dfy`);
  - the description (`display_description.dfy`);
  - the send/edit/replace strategy and its error handling (`display_push.dfy`);
- the pure helpers:
  - mentions and tables of text (`strings.dfy`);
  - the queue settings listing (`queue_settings.dfy`);
  - member notifications (`notification.dfy`);
  - `toCollection` and friends (`misc.dfy`);
  - the slash-command option description and builder (`options.dfy`).

Generic pieces are modelled once and reused:
- `Option`/`Result` (`wrappers.dfy`);
- JavaScript string operations on code points (`text.dfy`);
- sorting by a total preorder (`sorting.dfy`);
- rows kept in rowid order with unique keys (`tables.dfy`).

A table is a sequence of rows in rowid order. The database is one value,
`Schema.Db`. `Schema.Valid` says that:
- every row's id is below the id counter;
- ids ascend;
- every UNIQUE key of the schema holds.

Each write is proved to keep `Valid`.

Discord itself is never called. What Discord would answer enters the model
as a parameter:
- a fetched channel or member;
- the outcome of sending or editing a message;
- a permission check.

Every error the source raises is a `Result` error value.

## Model

| member | source | states |
|---|---|---|
| Schema.QueueDefaults | src/db/schema.ts:55-71 | A queue inserted with only a name and guild gets the declared defaults: pull batch 1, buttons on, every other toggle off, grace period 0, edit updates, timestamps off, default log level, mention display, and the environment's colour |
| Schema.SuppliedValuesKept | src/db/schema.ts:55-71 | A value supplied on insert always wins over the column default |
| Schema.CascadeDeleteQueues | src/db/schema.ts:98-304 | Deleting queues removes every display, member, schedule, list entry and archived member that references a deleted queue. It keeps every row of a surviving queue and leaves admins and the id counter alone. It keeps the database valid |
| Schema.CascadeKeepsValid | src/db/schema.ts:98-304 | Removing the rows of deleted queues from every dependent table keeps the database valid |
| Store.CreateConditionMeans | src/core/store.ts:315-327 | A row satisfies `createCondition(params)` exactly when every key matches, a nil value matching only NULL |
| Store.OrOfIdsMeans | src/core/store.ts:379-381 | The OR of id equalities matches a row exactly when its id is among the ids, and an empty list matches every row |
| Store.OrOfIds | src/core/store.ts:379-381 | The OR of ids is the missing WHERE clause exactly when there are no ids |
| Store.InsertQueue | src/core/store.ts:136-149 | The insert fails with `QueueAlreadyExists`, leaving the database unchanged, exactly when the guild already has a queue of that name. Otherwise it appends the row with its defaults under the next id. Only the queue table changes and the database stays valid |
| Store.InsertSchedule | src/core/store.ts:178-191 | The insert fails with `ScheduleAlreadyExists` exactly when the queue has a schedule with the same command, cron and timezone. Otherwise it appends the row under the next id and the database stays valid |
| Store.InsertWhitelisted | src/core/store.ts:194-207 | The insert fails with `WhitelistedAlreadyExists` exactly when the (queue, subject) pair is already listed. Otherwise it appends the entry under the next id and the database stays valid |
| Store.InsertBlacklisted | src/core/store.ts:210-223 | The insert fails with `BlacklistedAlreadyExists` exactly when the (queue, subject) pair is already listed. Otherwise it appends the entry under the next id and the database stays valid |
| Store.InsertPrioritized | src/core/store.ts:226-239 | The insert fails with `PrioritizedAlreadyExists` exactly when the (guild, subject) pair is already prioritized, whatever the queue. Otherwise it appends the entry under the next id and the database stays valid |
| Store.InsertAdmin | src/core/store.ts:242-255 | The insert fails with `AdminAlreadyExists` exactly when the (guild, subject) pair is already an admin. Otherwise it appends the admin under the next id and the database stays valid |
| Store.MergeIdempotent | src/core/store.ts:165-175 | Upserting the same member values twice leaves the row the first upsert left |
| Store.MergeNothingKeepsRow | src/core/store.ts:165-175 | An upsert on a row's own key that supplies no message and no priority leaves the row as it was: the id and both times are never overwritten |
| Store.InsertMember | src/core/store.ts:165-175 | Inserting a member never creates a second row for a (queue, user) pair. A new pair is appended with a fresh id. An existing pair is merged in place, the table's length and every other row unchanged. The database stays valid |
| Store.InsertDisplay | src/core/store.ts:152-162 | Inserting a display never creates a second row for a (queue, channel) pair. A new pair is appended with a fresh id and an existing one is updated in place. The database stays valid |
| Store.UpdateMember | src/core/store.ts:283-292 | The row with the id is replaced and every other row is unchanged. The result is `None` when no row has the id. A (queue, user) pair that another row holds is a UNIQUE violation, and a key-preserving update always succeeds |
| Store.UpdateDisplay | src/core/store.ts:272-281 | Only the display with the id gets the new last message id. Every other row and table is unchanged |
| Store.UpdateQueue | src/core/store.ts:261-270 | A rename onto the name of another queue of the guild fails with a UNIQUE violation and changes nothing. Every other update replaces exactly the row with that id and keeps the database valid |
| Store.UpdateSchedule | src/core/store.ts:294-303 | An update that makes a schedule equal to another one fails and changes nothing. Every other update replaces exactly the row with that id and keeps the database valid |
| Store.DeleteMembers | src/core/store.ts:365-383 | A delete by condition returns the selected rows in table order and keeps exactly the others. The database stays valid |
| Store.DeleteMemberByQueueEmptiesQueue | src/core/store.ts:365-372 | `deleteMember({ queueId })` without a user deletes every member of the queue, not just one |
| Store.CountHitsMeans | src/core/store.ts:379-381 | The count delete's condition matches a row exactly when the count select picked its id, or when the select picked nothing |
| Store.DeleteMembersByCount | src/core/store.ts:374-383 | The count delete removes exactly the rows its condition matches, and the returned and kept rows add up to the table |
| Store.CountDeleteRemovesPicked | src/core/store.ts:374-383 | When the count select picks members, the delete removes exactly those rows |
| Store.EmptyCountDeletesEveryMember | src/core/store.ts:379-382 | When the count select picks nothing, the OR of no ids is no WHERE clause, and the delete empties the whole members table, of every guild |
| Store.DeleteDisplays | src/core/store.ts:345-363 | A display delete returns the displays the `by` names and keeps exactly the others. The database stays valid |
| Store.DeleteSchedules | src/core/store.ts:385-398 | A schedule delete returns the schedules the `by` names and keeps exactly the others. The database stays valid |
| Store.DeleteWhitelisted | src/core/store.ts:400-416 | A whitelist delete removes exactly the entries the `by` names. The database stays valid |
| Store.DeleteBlacklisted | src/core/store.ts:418-434 | A blacklist delete removes exactly the entries the `by` names. The database stays valid |
| Store.DeletePrioritized | src/core/store.ts:436-452 | A priority delete removes exactly the entries the `by` names. The database stays valid |
| Store.DeleteAdmins | src/core/store.ts:454-470 | An admin delete removes exactly the admins the `by` names, and a subject alone reaches every guild. The database stays valid |
| Store.DeleteQueues | src/core/store.ts:333-343 | A queue delete returns the selected queues and cascades to their rows. The database stays valid |
| Store.DeleteQueuesKeepsOthers | src/core/store.ts:333-343 | After a queue delete, exactly the queues the `by` does not name remain |
| Store.DeleteQueuesCascades | src/db/schema.ts:98-132 | After a queue delete, no member, display or schedule references a deleted queue, every member of a surviving queue remains, and the admins are untouched |
| Store.MemberNotFound | src/core/store.ts:107-117 | A member fetch that answers 404 deletes every member row of that user in the guild and keeps every other row. Only the members table changes |
| Store.ForgetMissingUsers | src/core/store.ts:107-116 | A run of user fetches deletes exactly the guild's member rows of the fetched users Discord answers 404 for, and nothing else. With no 404 nothing changes, and the database stays valid |
| Store.ChannelNotFound | src/core/store.ts:95-105 | A channel fetch that answers 404 deletes every display in that channel and keeps every other row. Only the displays table changes |
| Memo.Open | src/core/store.ts:69-89 | A new store starts with nothing memoised, so every memo holds what its read returns |
| Memo.ReadMembers | src/core/store.ts:83-84 | While the memos are coherent, `dbMembers()` returns the guild's members in member order, and the memo then holds them |
| Memo.Commit | src/core/store.ts:136-470 | A write that changes only table `t`, after clearing `t`'s memo, keeps every memo coherent with the database |
| Memo.ClearTable | src/core/store.ts:137 | Clearing one table's memo empties that memo and leaves every other memo as it was |
| Memo.ClearKeepsCoherent | src/core/store.ts:136-470 | After a write to one table, clearing that table's memo leaves every memo holding what its read returns |
| Memo.SessionInsertMember | src/core/store.ts:165-175 | The member upsert through the store keeps the memos coherent and the database valid |
| Memo.SessionDeleteMembers | src/core/store.ts:374-383 | A member delete through the store keeps the memos coherent and returns the selected rows |
| Memo.SessionDeleteQueue | src/core/store.ts:333-337 | Deleting a queue cascades in the database but clears only the queue memo |
| Memo.DeleteQueueLeavesMembersStale | src/core/store.ts:333-337 | After deleting a queue that had members, the members memo is stale: `dbMembers()` still returns rows the cascade deleted |
| Memo.ReadQueues | src/core/store.ts:81 | While the memos are coherent, `dbQueues()` returns the guild's queues as a fresh select would |
| Memo.ReadDisplays | src/core/store.ts:82 | While the memos are coherent, `dbDisplays()` returns the guild's displays as a fresh select would |
| Memo.ReadSchedules | src/core/store.ts:85 | While the memos are coherent, `dbSchedules()` returns the guild's schedules as a fresh select would |
| Memo.ReadWhitelisted | src/core/store.ts:86 | While the memos are coherent, `dbWhitelisted()` returns the guild's whitelist as a fresh select would |
| Memo.ReadBlacklisted | src/core/store.ts:87 | While the memos are coherent, `dbBlacklisted()` returns the guild's blacklist as a fresh select would |
| Memo.ReadPrioritized | src/core/store.ts:88 | While the memos are coherent, `dbPrioritized()` returns the guild's priority entries as a fresh select would |
| Memo.ReadAdmins | src/core/store.ts:89 | While the memos are coherent, `dbAdmins()` returns the guild's admins as a fresh select would |
| Queries.OrderMembers | src/db/queries.ts:489-494 | Ordering members yields a permutation of the rows, sorted by MEMBER_ORDER |
| Queries.QueueMembersOrder | src/db/queries.ts:526-534 | A queue's member list holds exactly its rows. Prioritized members come before unprioritized ones, lower priority values first, and earlier position times first among equal priorities |
| Queries.MemberLeMeans | src/db/queries.ts:489-494 | One MEMBER_ORDER comparison puts NULL priorities last, then orders by priority value, then by position time |
| Queries.SortedMembersMeans | src/db/queries.ts:489-494 | In a list sorted by MEMBER_ORDER, prioritized members come first, priorities never decrease, and equal priorities keep position-time order |
| Queries.GuildLineIsQueueMembers | src/db/queries.ts:506-534 | Restricting the guild's ordered members to one queue gives exactly that queue's own ordered list, because the sort is stable |
| Queries.Limit | src/db/queries.ts:523 | `LIMIT count` keeps a prefix of `count` rows, or every row when the count is negative or too large |
| Queries.CountQueryIsFirst | src/db/queries.ts:515-524 | The count query returns the first `count` members of the queue in MEMBER_ORDER. Each member it returns is ordered before every member it leaves out |
| Queries.NextMember | src/db/queries.ts:479-487 | The next-member query answers nothing exactly when the queue is empty. Otherwise it gives a member of the queue that comes first by (priority, position time), with NULL priority first |
| Queries.NextMemberDiffersFromHead | src/db/queries.ts:479-494 | The next-member query and MEMBER_ORDER disagree: an unprioritized member is first under one and last under the other |
| Queries.MembersQueryOf | src/db/queries.ts:137-153 | `selectManyMembers` picks its branch by the first key test that passes: guild and user, then guild, then queue and count, then queue, and no query otherwise |
| Queries.GuildCallsReadWholeGuild | src/db/queries.ts:141-146 | A call with a guild id and no user id reads the whole guild, whatever queue or count it names |
| Queries.SelectManyMembers | src/db/queries.ts:137-153 | Each branch returns its ordered select: the guild branch gives every guild member and the queue branch the queue's members. With no key it returns nothing |
| Queries.DisplaysQueryOf | src/db/queries.ts:101-115 | `selectManyDisplays` always takes the guild branch when a guild id is given. Only a call without one reaches the queue or channel branch |
| Queries.IncrementGuildStat | src/db/queries.ts:796-804 | Incrementing adds the amount to one (guild, stat) counter, starting from zero, and leaves every other counter as it was |
| Queries.FlushPending | src/db/queries.ts:806-838 | After a flush every pending counter reads zero |
| Queries.IncrementAfterFlush | src/db/queries.ts:796-838 | After a flush, one increment is the whole pending value of its counter |
| Members.QueueLine | src/utils/member.utils.ts:298 | Cutting the guild's ordered members down to one queue gives that queue's own ordered list, which holds exactly the queue's rows |
| Members.VerifyMemberEligibility | src/utils/member.utils.ts:293-309 | Eligibility fails on the first failing check, in order: `QueueLocked` exactly when the queue is locked, then `QueueFull`, then `NotOnQueueWhitelist`, then `OnQueueBlacklist`. It succeeds exactly when no check fails |
| Members.ModifyRole | src/utils/member.utils.ts:264-287 | Without a role nothing happens. Otherwise the change goes through exactly when Discord returns the member and applies it. An absent member fails with `MemberUnavailable`, a permission refusal with the "Missing Permissions" error, and any other refusal with `RoleChangeFailed`. Only a 404 on the fetch changes the store, by removing that user's rows in the guild |
| Members.JoinRow | src/utils/member.utils.ts:60-68 | The write of a join upserts one row for (queue, user) in the guild with the computed priority. It adds a row only when the user had none. A re-join keeps the row's id and times, and keeps its old message when none is given and its old priority when none is computed. Other rows keep their places. It writes only the members table and keeps the database valid |
| Members.InsertJsMember | src/utils/member.utils.ts:47-75 | A join succeeds exactly when it is forced or eligible and the role step succeeds. When the checks fail, the error is eligibility's and nothing is written. When the role step throws, the error is that step's, the row stays written unless the fetch's 404 removed the user's guild rows, and no refresh is requested. A success returns the written row and refreshes that queue once. It writes only the members table and keeps the database valid |
| Members.JoinedUserHasPosition | src/utils/member.utils.ts:47-75 | After a successful join the user has a place in the queue |
| Members.ForcedJoinIgnoresLock | src/utils/member.utils.ts:56-72 | On a locked queue a forced join skips the checks and fails only when the role step does, while the unforced join fails with `QueueLocked` and writes nothing |
| Members.PositionOf | src/utils/member.utils.ts:314 | `indexOf` gives the first index holding the element, or -1 exactly when it is absent |
| Members.GetMemberPosition | src/utils/member.utils.ts:311-316 | The position is 0 with no row exactly when the user has no row in the queue. Otherwise it is the 1-based place of the user's first row in the queue's ordered list |
| Members.FoundAtFirstIndex | src/utils/member.utils.ts:313-314 | `indexOf` of the row `find` returned is the index where `find` stopped |
| Members.ClearMembers | src/utils/member.utils.ts:198-202 | Clearing returns exactly the queue's rows, leaves no row of the queue and keeps every other row. It refreshes the queue and keeps the database valid |
| Members.ClearedQueueHasNoPositions | src/utils/member.utils.ts:198-202 | After a clear nobody has a place in the queue |
| Members.DeleteUsersFromQueue | src/utils/member.utils.ts:105-110 | Deleting a list of users from one queue removes exactly that queue's rows of those users. The rows it returns are exactly the removed ones, and absent users are skipped |
| Members.DeleteUsersFromQueues | src/utils/member.utils.ts:103-116 | Over several queues, exactly the rows of the listed users in the listed queues go. Each queue's list holds only its own rows, and the returned and kept rows add up to the table |
| Members.DeleteNextMember | src/utils/member.utils.ts:140 | Deleting the next member removes the head of the queue's ordered list and leaves the rest in order. An empty queue is left alone, and other queues' rows are kept |
| Members.HeadDeleted | src/utils/member.utils.ts:140 | Deleting the head by id deletes exactly that row, and the queue's ordered list becomes the rest of the old one |
| Members.Taken | src/utils/member.utils.ts:139 | A loop of `n` pulls takes nothing for a non-positive `n`, `n` rows when there are enough, and every row otherwise |
| Members.PullHeads | src/utils/member.utils.ts:139-147 | Pulling `n` times returns the first rows of the queue's ordered list and leaves the rest in order. Other queues keep their rows |
| Members.PullCountAsWritten | src/utils/member.utils.ts:139-147 | The loop as written: a positive count deletes every row of the queue and returns only the first of them in table order; a count of zero or less changes nothing |
| Members.DeleteByQueueSplits | src/core/store.ts:365-372 | `deleteMember({ queueId })` selects exactly the rows with that queue id and keeps exactly the others |
| Members.PullOneAsWrittenEmptiesQueue | src/utils/member.utils.ts:140 | As written, pulling one member from a queue of two or more empties the queue, while deleting the next member leaves all but one |
| Members.PullCounts | src/utils/member.utils.ts:131-148 | The count branch as written fails only with `NotEnoughMembers`, and only when not forced. A short first queue throws before any deletion. On success, every row of each queue with a positive batch is gone and every other row is kept. It returns at most one row per queue, each a deleted row |
| Members.SingleQueuePull | src/utils/member.utils.ts:131-148 | As written, a count pull from one queue fails exactly when it is not forced and the queue has fewer members than `count ?? pullBatchSize ?? 1`. Otherwise a positive batch empties the queue and returns one row, or none from an empty queue. Other queues keep their rows |
| Members.ThrowKeepsEarlierPulls | src/utils/member.utils.ts:132-147 | When the second queue is short, the pull throws, and as written the first queue has already lost all its rows while every other row is kept |
| Members.SecondQueueThrows | src/utils/member.utils.ts:132-147 | The throw on a short second queue leaves the database exactly as the first queue's loop, as written, left it |
| Members.PullCountsCorrected | src/utils/member.utils.ts:131-148 | With each pass deleting the next member, a count pull fails only with `NotEnoughMembers` and only when not forced. A short first queue throws before any deletion, and it only ever deletes members |
| Members.SingleQueuePullCorrected | src/utils/member.utils.ts:131-148 | With the loop corrected, a count pull from one queue fails exactly when it is not forced and the queue is short. Otherwise it returns the queue's first rows and leaves the rest in order |
| Members.PulledComeFirst | src/utils/member.utils.ts:139-147 | Every pulled row comes no later in MEMBER_ORDER than any row left in the queue |
| Members.ToggledNotify | src/utils/member.utils.ts:119-129 | The role branch's notify list holds exactly the rows deleted from queues with notifications on |
| Members.CumulativeNotify | src/utils/member.utils.ts:105-115 | The user-id branch's notify list holds only deleted rows, and is empty when no queue notifies |
| Members.NotifyListsAgreeOnOneQueue | src/utils/member.utils.ts:103-130 | With one queue the user-id and role branches build the same notify list |
| Members.CumulativeNotifyRepeatsEarlierRows | src/utils/member.utils.ts:111-114 | With two notifying queues the user-id branch lists the first queue's rows twice, where the role branch lists every row once |
| Members.UserIdsOf | src/utils/member.utils.ts:104 | A single user id wins over the list of user ids |
| Members.DeleteBranch | src/utils/member.utils.ts:98-149 | An absent `by` throws. The user-id and role branches remove exactly the listed users' rows in the listed queues and return exactly those rows. An uncached role throws. The count branch fails only as the count pull does, keeping that pull's deletions; on success it empties each queue with a positive batch and notifies nobody |
| Members.DeleteMembersBy | src/utils/member.utils.ts:90-169 | The branch's deletions happen, then every user of a deleted row whom Discord answers 404 for loses all their rows in the guild. A throw happens before any fetch. When Discord knows every deleted row's user, the user-id and role branches leave exactly the rows not targeted. Every success refreshes each queue, and the database stays valid |
| Members.MissingDeletedIsForgotten | src/utils/member.utils.ts:151-156 | When the deleted rows are exactly the targeted ones, the users the clean-up removes are exactly the targeted users Discord answers 404 for |
| Members.UserPullForgetsMissing | src/utils/member.utils.ts:103-156 | On a valid store a user-id pull removes the targeted rows and every guild row of each targeted user Discord answers 404 for. When Discord knows every listed user, exactly the targeted rows go |
| Members.PulledUserHasNoPosition | src/utils/member.utils.ts:103-116 | After a user-id pull from a queue, none of the listed users has a place in it |
| Reorder.SpliceStart | src/utils/member.utils.ts:178-186 | `splice` counts a negative start from the end and clamps both ends of the list |
| Reorder.SpliceOut | src/utils/member.utils.ts:178 | `splice(start, 1)` removes the element at the clamped start, and nothing when the start is past the end |
| Reorder.SpliceIn | src/utils/member.utils.ts:179 | `splice(start, 0, x)` puts `x` at the clamped start and keeps every other element in order |
| Reorder.Positions | src/utils/member.utils.ts:173 | The position times are read along the queue's order |
| Reorder.MoveOrder | src/utils/member.utils.ts:171-191 | Moving to the member's own place changes nothing. Moving a member found in the queue permutes the queue |
| Reorder.MovePlacesMember | src/utils/member.utils.ts:174-191 | A member from further back lands at index `newPosition`, and one from further forward at `newPosition - 1`. The others keep their relative order |
| Reorder.MissingMemberDropsLast | src/utils/member.utils.ts:174-179 | A member that `indexOf` does not find makes the first splice remove the queue's last member instead |
| Reorder.Patch | src/utils/member.utils.ts:181 | `{ ...member, positionTime: positions[i] }` changes only the position time, and leaves the row as it is past the end of the times |
| Reorder.AssignedFrom | src/utils/member.utils.ts:180-182 | A row that no later update names keeps its values |
| Reorder.AssignedFromMatch | src/utils/member.utils.ts:180-182 | With distinct ids, a row ends up as the patch of the one member with its id |
| Reorder.ApplyPositions | src/utils/member.utils.ts:176-191 | The transaction either rolls back on a UNIQUE violation or rewrites the members in place. The table keeps its length and the database stays valid |
| Reorder.ApplyPositionsMeans | src/utils/member.utils.ts:176-191 | When the members' keys agree with the store, the transaction succeeds and each row ends up as the member-by-member reference says |
| Reorder.MoveMember | src/utils/member.utils.ts:171-196 | The move returns the queue's new order and refreshes the queue. Moving to the member's own place changes nothing. A failed transaction leaves the database unchanged, and the database stays valid |
| Reorder.MoveSucceeds | src/utils/member.utils.ts:171-196 | Moving a member found in the queue succeeds, and the new order holds the same rows |
| Reorder.MoveConservesKeys | src/utils/member.utils.ts:176-191 | After a move, the i-th member of the new order carries the i-th position time of the old order, with every other column unchanged. Rows of other queues are untouched |
| Reorder.RewriteQueue | src/utils/member.utils.ts:210-214 | Handing times out along any permutation of a queue's members succeeds. It rewrites each member with its time and leaves other queues' rows alone |
| Reorder.Reverse | src/utils/member.utils.ts:212 | `pop()` hands the times out from the end: the reversed list is a permutation with index i holding element n-1-i |
| Reorder.ShuffleMembers | src/utils/member.utils.ts:204-219 | The shuffle returns the queue's members and refreshes the queue. A failed transaction leaves the database unchanged, and the database stays valid |
| Reorder.ShuffleSucceeds | src/utils/member.utils.ts:204-219 | Given any permutation of the queue's own position times, the shuffle succeeds and hands out exactly the times the queue had |
| Reorder.ShuffleConservesKeys | src/utils/member.utils.ts:204-219 | After a shuffle, the i-th member receives the i-th time from the end of the shuffled times, with every other column unchanged. Rows of other queues are untouched |
| Access.MinPresent | src/utils/priority.utils.ts:69 | lodash `min` skips missing values. It is absent exactly when no value is present, and otherwise is a present value no greater than any other |
| Access.GetMemberPriority | src/utils/priority.utils.ts:63-70 | A member's priority is the least order among the queue's priority entries naming the user or a role of theirs. It is absent exactly when no such entry carries an order |
| Access.ScopedMinimum | src/utils/priority.utils.ts:63-70 | The least order among the matching entries exists exactly when some matching entry has an order. It is one of those orders and no greater than any of them |
| Access.IsBlockedByWhitelist | src/utils/whitelist.utils.ts:25-34 | The whitelist check is true exactly when some whitelist entry of the queue names the user or one of their roles |
| Access.IsBlockedByBlacklist | src/utils/blacklist.utils.ts:38-46 | The blacklist check is true exactly when some blacklist entry of the queue names the user or one of their roles |
| Access.WhitelistBlocksListedUsers | src/utils/whitelist.utils.ts:25-34 | As written, a user the whitelist names is blocked by it |
| Access.EmptyWhitelistNeverBlocks | src/utils/whitelist.utils.ts:27 | A queue without whitelist entries blocks nobody |
| Access.IsAdmin | src/utils/admin.utils.ts:23-32 | A user is an admin exactly when they have the Administrator permission or an admin row of the guild names them or one of their roles |
| Access.AnyAdmin | src/utils/admin.utils.ts:25-31 | Some admin row of the guild names the user or one of the user's roles |
| Access.VerifyIsAdmin | src/utils/admin.utils.ts:34-38 | The admin check fails with `AdminAccess` exactly when the user is not an admin |
| Lists.InsertEntries | src/utils/whitelist.utils.ts:9-18 | Listing a subject on several queues succeeds exactly when every (queue, subject) key is new. It appends one entry per queue, in order. A repeated key throws and keeps the entries inserted before it. Other tables are untouched and the database stays valid |
| Lists.InsertWhitelistedAll | src/utils/whitelist.utils.ts:9-18 | Whitelisting succeeds exactly when the subject is new on every queue. It then appends one entry per queue, for the subject, marked as a role when it is one |
| Lists.KickBy | src/utils/blacklist.utils.ts:26 | A blacklisted role is kicked by role and a blacklisted user by user id |
| Lists.KickedIds | src/utils/blacklist.utils.ts:26 | The users a blacklisting kicks are the user, or every cached holder of the role |
| Lists.InsertBlacklistedAll | src/utils/blacklist.utils.ts:12-31 | Blacklisting fails when the subject is already listed on a queue. Otherwise it appends one entry per queue and force-removes the kicked users' rows from those queues; each kicked user Discord answers 404 for also loses every row in the guild. When Discord knows every kicked user, exactly the targeted rows go. An uncached role throws. The queues are refreshed, twice |
| Lists.KickForgets | src/utils/blacklist.utils.ts:26 | The kick of a blacklisting removes the targeted rows and the guild rows of the kicked users Discord answers 404 for |
| Lists.BlacklistedUserIsKickedAndBlocked | src/utils/blacklist.utils.ts:12-46 | After a user is blacklisted on some queues, they have no place in any of them, and the blacklist turns away every later join to them |
| Lists.DeleteEntriesByIds | src/utils/whitelist.utils.ts:20-23 | Deleting by ids gives one result per id, in input order, holding the entry with that id when there was one. The list loses exactly the entries with those ids |
| Lists.DeleteWhitelistedByIds | src/utils/whitelist.utils.ts:20-23 | `deleteWhitelisted` removes exactly the whitelist entries with the given ids and returns each one under its id. The database stays valid |
| Lists.DeleteBlacklistedByIds | src/utils/blacklist.utils.ts:33-36 | `deleteBlacklisted` removes exactly the blacklist entries with the given ids and returns each one under its id. The database stays valid |
| Lists.DeletedEntryFoundIffPresent | src/utils/whitelist.utils.ts:20-23 | With distinct ids, the i-th result holds an entry exactly when the list had an entry with the i-th id |
| Lists.SpreadOverPriority | src/utils/priority.utils.ts:78 | `{ priority, ...member }` keeps the member's own priority |
| Lists.ReEvaluatePrioritized | src/utils/priority.utils.ts:72-81 | Re-evaluation only ever writes the members table. On a valid database it keeps it valid, deletes only the guild's member rows of users Discord answers 404 for, and the only error it can throw is that a member was unavailable |
| Lists.ReEvaluateQueue | src/utils/priority.utils.ts:73-80 | One queue, over its rows as read at its start: it throws only when the guild has prioritized rows on the queue. Without such rows it deletes exactly the guild's rows of the queue's users that 404. When Discord returns everyone on the queue it changes nothing |
| Lists.UpdateWithStoredRow | src/core/store.ts:283-292 | Writing back a stored row unchanged succeeds and changes nothing |
| Lists.WriteBackSettled | src/utils/priority.utils.ts:78 | Writing back a row that is stored, or whose id no longer exists after a 404 deleted it, succeeds and changes nothing |
| Lists.SettledAfterNotFound | src/core/store.ts:107-116 | A 404's deletion of a user's rows keeps every row stored or gone: none is half-changed |
| Lists.ReEvaluateMembersMeans | src/utils/priority.utils.ts:75-79 | Re-evaluating a queue's members equals an account that rewrites nothing: members are fetched up to the first one Discord does not return; that read throws when the guild has prioritized rows on the queue; and every fetched user's 404 deletes their rows |
| Lists.QueueReEvaluation | src/utils/priority.utils.ts:63-79 | Over a line of exactly the queue's rows, the read of an unreturned member throws only when the guild has prioritized rows on the queue, and only the guild's rows of users that 404 are deleted |
| Lists.QueueAllFoundIsNoOp | src/utils/priority.utils.ts:75-79 | When Discord returns every member on the queue, re-evaluating it changes nothing, whatever the priority list says |
| Lists.QueueWithoutPriorityRows | src/utils/priority.utils.ts:63-79 | On a queue without prioritized rows nothing throws, and exactly the guild's rows of the queue's users that 404 are deleted |
| Lists.ReEvaluateWithoutPriorityRows | src/utils/priority.utils.ts:72-81 | When none of the queues has prioritized rows, nothing throws and exactly the guild's rows of users that 404 and are on one of the queues are deleted |
| Lists.ReEvaluateIsNoOp | src/utils/priority.utils.ts:72-81 | As written, when Discord returns every member on the queues, re-evaluating them on a valid database changes nothing |
| Lists.InsertPrioritizedEntries | src/utils/priority.utils.ts:13-20 | Prioritizing appends one entry per queue, in order, with the subject and the order. The first failure throws `PrioritizedAlreadyExists` and keeps the entries already written |
| Lists.AffectedQueues | src/utils/priority.utils.ts:23-25 | The affected queues are the queues of the rows, each listed once |
| Lists.InsertPrioritizedAll | src/utils/priority.utils.ts:11-31 | A failed insert throws `PrioritizedAlreadyExists` and keeps the entries written before it. A successful insert appends one entry per queue, and refreshes only queues it wrote to |
| Lists.InsertPrioritizedForgets | src/utils/priority.utils.ts:11-31 | On a valid database, prioritizing keeps it valid and deletes only the guild's member rows of users Discord answers 404 for. When Discord returns every member of the guild, the member rows are unchanged and exactly the queues written to are refreshed |
| Lists.ReEvaluated | src/utils/priority.utils.ts:26-30 | The changed rows are always reported. The affected queues are refreshed unless the re-evaluation throws, and always when they have no prioritized rows. Only 404'd users' rows are deleted, and when Discord returns everyone on the queues the store is as the write left it |
| Lists.MultiQueuePrioritizeFails | src/db/schema.ts:250 | Priority entries are unique per guild and subject, not per queue. Prioritizing a new subject on two queues fails on the second, after the first queue's entry was written |
| Lists.UpdatePrioritizedAll | src/utils/priority.utils.ts:33-46 | `updatePrioritized` with any id throws, because the `Store` class has no `updatePrioritized` method. Nothing is written. With no ids nothing happens |
| Lists.DeletePrioritizedByIds | src/utils/priority.utils.ts:50 | Deleting priority entries by ids gives one result per id, holding the entry with that id when there was one. The table loses exactly those ids |
| Lists.DeletePrioritizedAll | src/utils/priority.utils.ts:48-61 | Every listed id is deleted. It throws exactly when some id matched nothing, because reading that row's queue fails. Otherwise it returns the deleted rows in id order |
| Lists.DeletePrioritizedKeepsMembers | src/utils/priority.utils.ts:48-61 | On a valid database, deleting priority entries deletes only the guild's member rows of users Discord answers 404 for, and when Discord returns every member of the guild, every member row stays as it was |
| Lists.InsertAdminFor | src/utils/admin.utils.ts:9-16 | Adding an admin fails exactly when the (guild, subject) pair is already an admin. Otherwise it appends one admin row for the subject, marked as a role when it is one |
| Lists.AdminRowGrantsAccess | src/utils/admin.utils.ts:9-38 | After adding an admin, every user it names, by id or through a role, passes the admin check |
| Lists.DeleteAdminsByIds | src/utils/admin.utils.ts:18-21 | Deleting admins by ids gives one result per id, holding the admin with that id when there was one. The table loses exactly those ids and stays valid |
| Strings.JsRem | src/utils/string.utils.ts:81 | JavaScript's `%` agrees with the mathematical remainder on non-negative dividends, and is never positive on negative ones |
| Strings.Duration | src/utils/string.utils.ts:77-87 | The duration text is empty exactly when the number of seconds is zero or negative |
| Strings.CountPhrase | src/utils/string.utils.ts:82-86 | A count phrase is empty exactly when the count is not positive |
| Strings.DurationRoundTrip | src/utils/string.utils.ts:77-87 | Every duration text reads back as the number of seconds it was made from. A positive count gives its "m minute(s) and s second(s)" text, and the empty text gives 0 or less |
| Strings.QueueMention | src/utils/string.utils.ts:24-30 | A queue mention is the bold name followed, for each toggle that is on, by a space and its badge |
| Strings.QueueMentionBadges | src/utils/string.utils.ts:24-30 | After the bold name, the mention shows exactly the badges whose toggles are on, in the order lock, bell, autopull. The suffix is empty exactly when no toggle is on and otherwise starts with a space |
| Strings.Mentions | src/utils/string.utils.ts:33 | Mentioning a list of queues mentions each queue, in order |
| Strings.QueuesMention | src/utils/string.utils.ts:32-34 | No queues give the empty text and one queue gives its own mention |
| Strings.QueuesMentionIgnoresOrder | src/utils/string.utils.ts:32-34 | The list of queues reads the same whatever order the queues come in, because the mentions are sorted |
| Strings.MentionableMention | src/utils/string.utils.ts:57-59 | A mention has the shape `<@...>`, one character longer for a role |
| Strings.MentionRoundTrip | src/utils/string.utils.ts:57-59 | A mention reads back as whether it names a role and which id |
| Strings.StyleOf | src/utils/string.utils.ts:137-142 | Every timestamp type except Off has a style letter. Off and an unset type have none |
| Strings.FormatTimestamp | src/utils/string.utils.ts:144-148 | Off gives the empty text. Every other type, set or not, gives Discord's time text with the type's style |
| Strings.PriorityMarker | src/utils/string.utils.ts:45 | The sparkle is shown exactly for a priority that is set and non-zero |
| Strings.MessageSuffix | src/utils/string.utils.ts:46 | A non-empty message is appended after " -- ", and an empty or absent one adds nothing |
| Strings.MemberName | src/utils/string.utils.ts:49-52 | The name is a mention unless the queue shows plain text and a username is known. In that case it starts with the username |
| Strings.MemberMention | src/utils/string.utils.ts:42-55 | A member line is the timestamp, priority marker, name and message, in that order |
| Strings.ZeroPriorityShowsNoMarker | src/utils/string.utils.ts:45 | As written, a member with priority 0 is shown exactly like an unprioritized one, while any other priority changes the line |
| Strings.AscendingKeys | src/utils/string.utils.ts:98 | The distinct ids, in strictly ascending order |
| Strings.ScopedIds | src/utils/string.utils.ts:98 | The queue ids the entries carry, and none when no entry carries one |
| Strings.GroupKeys | src/utils/string.utils.ts:98 | `Object.entries(groupBy(entries, "queueId"))` enumerates each key that some entry has exactly once. Queue ids come in ascending order, and the key of rows without a queue id comes last |
| Strings.ItemStrings | src/utils/string.utils.ts:107-117 | For rows with an `isRole` column, the role lines come first, then the user lines, each block a sorted permutation of its lines. Otherwise the lines are exactly the `mentionFn` mentions of the rows, sorted, or there are none without it |
| Strings.QueueById | src/core/store.ts:81 | A queue lookup by id finds a queue with that id, or none exactly when no queue has it |
| Strings.QueueGroup | src/utils/string.utils.ts:98 | A `groupBy` group holds exactly the entries with its key, and is every entry, in order, when they all share the key |
| Strings.EntryInOwnGroup | src/utils/string.utils.ts:98 | Every entry lies in the group of its own queue, and that group has a key |
| Strings.DescribeTable | src/utils/string.utils.ts:89-135 | Without entries there is a single "No ..." embed. Otherwise there is one embed per key, queues in ascending id order and then rows without a queue, each describing its group |
| Strings.UnscopedTableIsOneEmbed | src/utils/string.utils.ts:98-121 | A table whose rows carry no queue id, like the admins table, is one embed titled "... of all queues" that describes every row, because `BigInt("undefined")` throws and the catch leaves no queue |
| Strings.UnscopedKeys | src/utils/string.utils.ts:98 | Rows without a queue id all fall under one key |
| QueueSettings.FormatValue | src/utils/queue.utils.ts:46-57 | A NULL value prints as nothing and every other value as inline code. Inside the code span is the plain value, or its role or channel mention for the four id columns |
| QueueSettings.DefaultString | src/utils/queue.utils.ts:40 | The default is shown as the default's `String` value in inline code, struck through; a column with no default shows "undefined" |
| QueueSettings.FormatSetting | src/utils/queue.utils.ts:28-44 | A setting is left out exactly when both its value and its column default are nil |
| QueueSettings.SettingLineShape | src/utils/queue.utils.ts:38-43 | A printed line holds the column name, the connector, the formatted value and the default. The name is bold and the default is shown exactly when the value differs from the default, and the connector is always present |
| QueueSettings.BoldIffChanged | src/utils/queue.utils.ts:32-38 | A line begins with a bold name exactly when the queue's value is not the column's default |
| QueueSettings.SettingLines | src/utils/queue.utils.ts:24-26 | Every listed line is the line of one of the printed columns, and there are no more lines than columns |
| QueueSettings.SettingLinesCount | src/utils/queue.utils.ts:24-26 | `compact` keeps exactly one line for each column that has a value or a default |
| QueueSettings.PropertiesLineCount | src/utils/queue.utils.ts:13-26 | The settings listing has one line for each of the twelve columns with a default, plus one for each of the six optional columns that is set |
| QueueSettings.InsertTakesSuppliedOrDefault | src/db/schema.ts:55-75 | Every column of an inserted queue holds the supplied value, or else the default the settings listing shows for it, or NULL for a nullable column without one |
| QueueSettings.DefaultsMatchSchema | src/db/schema.ts:55-71 | A queue inserted with only a name holds every printed column's listed default, so its settings list in plain text |
| Notification.Recipients | src/utils/notification.utils.ts:18 | Grouping by user id yields each user with a row exactly once, and no other user |
| Notification.RowsOf | src/utils/notification.utils.ts:18 | A user's group holds exactly that user's rows |
| Notification.QueuesOfRows | src/utils/notification.utils.ts:19 | The lookup fails exactly when some row names an unknown queue. Otherwise it gives, row by row, the queue that row names |
| Notification.QueuesText | src/utils/notification.utils.ts:20-22 | No queues read "whole server", and one queue reads as its mention followed by " queue" |
| Notification.QueuesTextPlural | src/utils/notification.utils.ts:21 | The text ends in "queues" exactly when more than one queue is named, and in " queue" otherwise |
| Notification.MessageText | src/utils/notification.utils.ts:24 | Every message begins "You were just " |
| Notification.MessageFor | src/utils/notification.utils.ts:19-24 | A user's message exists exactly when all of that user's queues are known, and it names those queues |
| Notification.MessagesFor | src/utils/notification.utils.ts:18-31 | Messages are built in user order. The first user whose text cannot be built stops the run with `QueueNotFound`, and the messages before that user stand |
| Notification.Notify | src/utils/notification.utils.ts:9-25 | Messages are built in recipient order, and each carries the text for that user's rows, with the channel or guild link |
| Notification.NotifyAndSend | src/utils/notification.utils.ts:9-34 | Each built message fetches its user. A 404 deletes exactly that user's member rows in the guild, and only users Discord returns, whose send succeeds, get their message. The database stays valid and only its members table changes |
| Notification.NotifyForgetsMissing | src/utils/notification.utils.ts:18-30 | With every queue known, nothing throws and exactly the guild's rows of users with a row that 404 are deleted |
| Notification.NotifyReachesFound | src/utils/notification.utils.ts:26-30 | With every queue known, a user with a row gets the message exactly when Discord returns them and the send succeeds |
| Notification.FetchedAreMissing | src/utils/notification.utils.ts:27 | The fetched users that 404 are exactly the ids Discord answers 404 for |
| Notification.RowsOfUsers | src/utils/notification.utils.ts:18 | The rows of some users are exactly the rows whose user is among them |
| Notification.KnownQueuesGiveMessage | src/utils/notification.utils.ts:19-24 | A user whose rows all name known queues gets a message |
| Notification.MessagesForAll | src/utils/notification.utils.ts:18-31 | When every user has a text, nothing throws and every user gets a message, in order |
| Notification.NotifyOncePerUser | src/utils/notification.utils.ts:18-31 | With every queue known, each user with a row gets exactly one message and nobody else gets one |
| Notification.MessagesForStops | src/utils/notification.utils.ts:18-31 | Any user without a text makes the run throw `QueueNotFound` |
| Notification.NotifyUnknownQueueThrows | src/utils/notification.utils.ts:19-21 | A row naming a queue the guild does not hold makes `notify` throw |
| Notification.MessageNamesUserQueues | src/utils/notification.utils.ts:19-24 | A message names the user's queues in row order and says "queues" exactly when the user had more than one row |
| Notification.MessageUsers | src/utils/notification.utils.ts:26-30 | The recipients are listed in message order |
| Notification.Delivered | src/utils/notification.utils.ts:28 | A failed send drops only that user's message: the delivered messages are exactly those whose send succeeds |
| Misc.Keys | src/utils/misc.utils.ts:4-6 | A collection's keys, in order |
| Misc.Set | src/utils/misc.utils.ts:4-6 | Setting a key keeps the keys distinct. A present key keeps its place and an absent key is appended; only that key's entry changes |
| Misc.KeyList | src/utils/misc.utils.ts:4-6 | The items' keys, item by item |
| Misc.LastWith | src/utils/misc.utils.ts:4-6 | The item found is the last one with the key, and there is none exactly when no item has the key |
| Misc.ToCollection | src/utils/misc.utils.ts:4-6 | The keys are distinct and in first-occurrence order, and each key holds the last item with that key |
| Misc.UniqSnoc | src/utils/misc.utils.ts:4-6 | Appending an item adds its key to the distinct keys unless the key is already there |
| Misc.Get | src/utils/misc.utils.ts:4-6 | A lookup misses exactly when the key is absent. A hit returns a value stored under that key |
| Misc.ToCollectionGet | src/utils/misc.utils.ts:4-6 | Looking a key up in `toCollection` gives the last item with that key |
| Misc.Values | src/utils/misc.utils.ts:12-22 | Iterating an array gives its elements and iterating a collection gives its values, in order |
| Misc.Size | src/utils/misc.utils.ts:12-14 | The size is the number of items, and 0 for a missing input |
| Misc.MapSeq | src/utils/misc.utils.ts:16-18 | `fn` is applied to every element, in order |
| Misc.Map | src/utils/misc.utils.ts:16-18 | `fn` is applied to every value, in iteration order, for arrays and collections alike |
| Misc.MapPermutes | src/utils/misc.utils.ts:16-18 | Mapping a permutation gives a permutation of the images |
| Misc.Find | src/utils/misc.utils.ts:20-22 | The result is the first value that satisfies `fn`, and there is none exactly when no value does |
| Misc.ToChoices | src/utils/misc.utils.ts:8-10 | There is one choice per value, in order, whose name and value are both that value |
| Options.GetOption | src/options/base.options.ts:54-61 | A cached non-null selection is returned and the cache is left unchanged. Otherwise the interaction's value is returned and stored under the option's name, and no other entry changes |
| Options.GetIsStable | src/options/base.options.ts:54-61 | Once a read returns a non-null selection, later reads in the same interaction return it, whatever the interaction now holds |
| Options.GetRetriesNull | src/options/base.options.ts:56 | A null selection is not kept: the next read asks the interaction again |
| Options.BuildDescription | src/options/base.options.ts:82-91 | A built description is at most 100 UTF-16 code units long. It is the description, or "undefined" followed by the default suffix. With neither a description nor a default the build throws, and a text that is too long throws with its length |
| Options.DescriptionBudget | src/options/base.options.ts:84-88 | An option with a default builds exactly when its description and default fit together in 88 code units |
| Options.PlainDescriptionBudget | src/options/base.options.ts:87-88 | An option without a default builds exactly when its description fits in 100 code units |
| Options.Build | src/options/base.options.ts:63-80 | `build` fails exactly when the description does. Otherwise it names and describes the builder and sets each flag only when the option gives it |
| Options.BuildSetsOnlyGiven | src/options/base.options.ts:67-78 | On a fresh builder, each flag is set exactly when the option sets it |
| DisplayScheduler.Request | src/utils/display.utils.ts:89-99 | A request marks the queue updated. A queue not yet updated refreshes at once with the request's options. An updated queue becomes pending without a refresh, keeping the earlier pending order. Consistency is kept |
| DisplayScheduler.Tick | src/utils/display.utils.ts:81-87 | A tick refreshes every pending queue once, in pending order and without options, and leaves the scheduler idle |
| DisplayScheduler.RequestAll | src/utils/display.utils.ts:89-99 | A run of requests keeps consistency and only adds to the updated set |
| DisplayScheduler.RequestMany | src/utils/display.utils.ts:101-106 | With no queue updated yet, each distinct id refreshes once, in first-occurrence order with the given options, and nothing becomes pending |
| DisplayScheduler.Refreshes | src/utils/display.utils.ts:101-106 | One refresh per id, in order, each with the same options |
| DisplayScheduler.FreshRequests | src/utils/display.utils.ts:89-99 | Distinct requests for queues not yet updated in this interval each refresh at once, with their options |
| DisplayScheduler.RequestsRefreshAtMostOnce | src/utils/display.utils.ts:89-99 | Between two ticks the requests refresh a queue at most once, and not at all if it was already updated. A queue newly marked updated was refreshed exactly once |
| DisplayScheduler.TickRefreshesAtMostOnce | src/utils/display.utils.ts:81-87 | A tick refreshes a queue once when it is pending and not at all otherwise |
| DisplayScheduler.EveryRequestServed | src/utils/display.utils.ts:81-99 | Every requested queue is either refreshed at once or left pending for the next tick |
| DisplayScheduler.PendingGrows | src/utils/display.utils.ts:95-97 | Requests never remove a pending queue |
| DisplayScheduler.OptionsOnlyOnImmediateRefresh | src/utils/display.utils.ts:89-99 | Every immediate refresh belongs to one request for a queue not updated before the run, and carries that request's options |
| DisplayRender.MemberDisplayLine | src/utils/display.utils.ts:108-116 | A line opens with a backtick and the position's digits, pads to the padding width, and ends with the member's mention and a newline. Its length is fixed by those parts |
| DisplayRender.LinePositionReadBack | src/utils/display.utils.ts:108-116 | The position can be read back from a line as the run of digits after the opening backtick |
| DisplayRender.NumberedLines | src/utils/display.utils.ts:256-263 | Line `i` is member `i`'s line, numbered `i + 1` and padded to the member count |
| DisplayRender.NumberedLinesInOrder | src/utils/display.utils.ts:256-263 | Line `i` reads back as position `i + 1` and ends with mention `i`, so the lines are the members, numbered in queue order |
| DisplayRender.MemberMentions | src/utils/display.utils.ts:256-263 | One mention per member, in queue order, each built from that member's Discord user |
| DisplayRender.MemberLines | src/utils/display.utils.ts:256-263 | Building the lines fails with `MemberUnavailable` exactly when some member is no longer known to Discord. Otherwise they are the numbered lines of the members' mentions |
| DisplayRender.SizeText | src/utils/display.utils.ts:276 | The size text reads "size: " and the count, followed by " / " and the limit exactly when the queue's size is set and non-zero |
| DisplayRender.Flushed | src/utils/display.utils.ts:297-302 | A full page is pushed with only its finished fields and the running length is kept. Otherwise nothing changes |
| DisplayRender.Closed | src/utils/display.utils.ts:303-307 | A field that the line would take to 1024 code units is closed and a new one begun. Otherwise nothing changes |
| DisplayRender.Place | src/utils/display.utils.ts:295-310 | Each turn adds the line's length to the running length and leaves the line at the end of the field being filled |
| DisplayRender.PlacePages | src/utils/display.utils.ts:297-302 | A turn pushes a page exactly when the page is full. The page it pushes is the finished fields, and earlier pages are untouched |
| DisplayRender.PlaceText | src/utils/display.utils.ts:303-309 | Without a flush, the current page's text grows by exactly the line |
| DisplayRender.PlaceAllText | src/utils/display.utils.ts:295-310 | Until a page is pushed, the current page holds the lines' text exactly, in order |
| DisplayRender.PlaceAllStays | src/utils/display.utils.ts:297 | Lines that fit the page's length and its field count all stay on the current page |
| DisplayRender.PlaceAllEndsWithLast | src/utils/display.utils.ts:308 | After at least one line, the field being filled ends with the last line |
| DisplayRender.Paginate | src/utils/display.utils.ts:295-318 | There is always at least one page, and the last page has at least one field |
| DisplayRender.PaginateFieldCount | src/utils/display.utils.ts:297 | No page has more than 25 fields |
| DisplayRender.PaginateFieldsFit | src/utils/display.utils.ts:303 | When every line is under 1024 code units, every field value is too |
| DisplayRender.PaginateOnePage | src/utils/display.utils.ts:295-318 | A queue whose text fits the page, in at most 24 lines, is one page holding exactly its lines, in order |
| DisplayRender.PaginateEmpty | src/utils/display.utils.ts:312-315 | An empty queue is one page with a single zero-width-space field |
| DisplayRender.FlushDropsLines | src/utils/display.utils.ts:297-302 | As written, a flush drops the field being filled and keeps the running length. A line that reaches 6000 pushes a page without the lines before it, and so does every later line |
| DisplayRender.Pages | src/utils/display.utils.ts:281-318 | Every page carries the title, color and description, and each field carries its value and the inline flag. The first field of the last page is named with the size text and every other field with the zero-width space |
| DisplayRender.DisplayPages | src/utils/display.utils.ts:273-320 | There is at least one page, and the last page's first field is named with the size text |
| DisplayRender.QueueDisplay | src/utils/display.utils.ts:252-321 | The last page's first field names the number of lines shown against the queue's size |
| DisplayRender.DisplayFieldCount | src/utils/display.utils.ts:295-318 | No embed has more than 25 fields |
| DisplayRender.DisplayFieldsFit | src/utils/display.utils.ts:295-318 | Lines under 1024 code units keep every field under the limit |
| DisplayRender.DisplayOnePage | src/utils/display.utils.ts:273-320 | A short queue is shown on one embed, with its lines in order |
| DisplayRender.EmptyDisplay | src/utils/display.utils.ts:312-318 | An empty queue shows one embed with one blank field named with the size text |
| DisplayDescription.LowerFirst | src/utils/string.utils.ts:73 | The text keeps its length, with only its first character lower-cased |
| DisplayDescription.ScheduleMention | src/utils/string.utils.ts:71-75 | A schedule line starts "will <command> ". It ends with " - <reason>" when the reason is non-empty, and with the closing parenthesis of the timezone otherwise |
| DisplayDescription.ScheduleCommandReadBack | src/utils/string.utils.ts:74 | Schedules with different commands never produce the same line |
| DisplayDescription.ScheduleLines | src/utils/display.utils.ts:368 | The schedule lines are a sorted permutation of the schedules' mentions |
| DisplayDescription.ScheduleLinesIgnoreOrder | src/utils/display.utils.ts:368 | The schedule lines depend only on which schedules the queue has, not on the order in which they are stored |
| DisplayDescription.JoinPart | src/utils/display.utils.ts:337-352 | How to join is always the third kind of part |
| DisplayDescription.OwnSchedules | src/utils/display.utils.ts:324 | Only the queue's own schedules are kept, and there are some exactly when the guild has a schedule for the queue |
| DisplayDescription.ScheduleListing | src/utils/display.utils.ts:367-369 | A schedule listing exists exactly when the queue has a schedule, and it lists the sorted lines of the queue's own schedules |
| DisplayDescription.Slots | src/utils/display.utils.ts:329-369 | There are seven slots in description order, and each one is either empty or holds a part of its own kind |
| DisplayDescription.QueueSlots | src/utils/display.utils.ts:323-369 | A queue's slots are seven, each empty or holding a part of its own kind |
| DisplayDescription.Filled | src/utils/display.utils.ts:327 | The filled slots' parts, and no other |
| DisplayDescription.FilledOrdered | src/utils/display.utils.ts:327 | The parts follow the slot order |
| DisplayDescription.Parts | src/utils/display.utils.ts:323-369 | The parts come in description order, and are exactly the parts the queue's slots hold |
| DisplayDescription.SlotsPresent | src/utils/display.utils.ts:327 | A part is present exactly when the slot of its rank holds it |
| DisplayDescription.PartsPresent | src/utils/display.utils.ts:329-356 | The header appears exactly when it is non-empty, and the lock notice exactly when the queue is locked. The grace-period line appears exactly on an unlocked queue with a non-zero grace period |
| DisplayDescription.NotesPresent | src/utils/display.utils.ts:359-365 | The priority legend appears exactly when some member of the queue has a priority, and the role note exactly when the queue has a role |
| DisplayDescription.JoinLinePresent | src/utils/display.utils.ts:336-352 | There is a line on how to join exactly when the queue is unlocked and, if it has both voice channels, both can be fetched |
| DisplayDescription.ScheduleListPresent | src/utils/display.utils.ts:367-369 | The schedule list is present exactly when the queue has a schedule, and it comes last with the sorted mentions |
| DisplayDescription.LegendWithoutMarker | src/utils/display.utils.ts:359-361 | As written, a queue whose only prioritized member has priority 0 shows the priority legend, yet no member line carries the marker |
| DisplayDescription.DescriptionText | src/utils/display.utils.ts:371 | The description is the parts' texts joined with newlines: it begins with the first part's text, and its length is the texts' total length plus one newline between each pair |
| DisplayDescription.LegendMarkIsNotSparkle | src/utils/display.utils.ts:360 | As written, the priority legend prints a three-character marker, not the one-character sparkle the member lines print |
| DisplayDescription.HeaderFirst | src/utils/display.utils.ts:329-371 | A queue with a header begins its description with the header and a newline |
| DisplayDescription.ButtonRow | src/utils/display.utils.ts:381-399 | There is no row exactly when buttons are off. Otherwise the row ends with the positions and pull buttons, and the join and leave buttons appear exactly when the queue has no voice row |
| DisplayDescription.ButtonsPromisedButMissing | src/utils/display.utils.ts:337-390 | As written, a voice row that names no channels removes the join buttons while the description still tells members to click them |
| DisplayPush.FailureReport | src/utils/display.utils.ts:219-236 | The report is titled and colored as a failure and ends with the error in a code block. It carries the "logged" footer exactly when the error is not a permission error |
| DisplayPush.PermissionErrorIgnoresCase | src/utils/display.utils.ts:222 | The permission-error classification ignores case |
| DisplayPush.PermissionErrorAnywhere | src/utils/display.utils.ts:222 | A message is a permission error wherever in it the word appears |
| DisplayPush.MissingAccessIsPermissionError | src/utils/display.utils.ts:222 | Discord's "Missing Access" counts as a permission error |
| DisplayPush.MissingPermissionsIsPermissionError | src/utils/display.utils.ts:222 | Discord's "Missing Permissions" counts as a permission error |
| DisplayPush.PostNewDisplay | src/utils/display.utils.ts:151-170 | The embeds and button row are sent first. A message is recorded exactly when the send returns one, and a failure exactly when it throws. The only strip is of the last message, after a successful send |
| DisplayPush.Reported | src/utils/display.utils.ts:219-236 | A failure is reported only to an initiator, as one failure report |
| DisplayPush.DisplayOutcome | src/utils/display.utils.ts:132-207 | A display is removed exactly when the permission check fails. A new message is recorded only after the check passes, the channel is fetched and the send succeeds |
| DisplayPush.Apply | src/utils/display.utils.ts:139-168 | A turn writes only the displays table and keeps the database valid |
| DisplayPush.ReplaceDeletesFirst | src/utils/display.utils.ts:189-196 | A forced or `Replace` update deletes the last message before it sends the new one |
| DisplayPush.ReplaceStripsDeletedMessage | src/utils/display.utils.ts:157-192 | As written, a replace whose send succeeds then strips the buttons off the message it deleted first |
| DisplayPush.ForceNewSends | src/utils/display.utils.ts:194-196 | A forced update always sends a new message and never edits. It records the message the send returns |
| DisplayPush.NewSendsFirst | src/utils/display.utils.ts:197-198 | A `New` update sends first, and never edits or deletes |
| DisplayPush.EditInPlace | src/utils/display.utils.ts:172-178 | An `Edit` update whose last message takes the edit makes one edit in place, sends nothing and records nothing |
| DisplayPush.EditFallsBack | src/utils/display.utils.ts:172-187 | An `Edit` update without a last message, or whose edit fails, sends a new message and records what the send returns |
| DisplayPush.StripOnlyAfterSend | src/utils/display.utils.ts:157-162 | Buttons are stripped off a message only once its replacement was sent |
| DisplayPush.StrategyStripsAfterSend | src/utils/display.utils.ts:189-202 | Whatever the strategy, buttons are stripped only after a successful send |
| DisplayPush.NoPostWithoutPermission | src/utils/display.utils.ts:135-144 | A display the bot may not post in gets only the forwarded embeds, nothing is recorded, and its row is removed |
| DisplayPush.ReportOnlyOnFailure | src/utils/display.utils.ts:204-206 | A failure report goes only to the initiator, and only for a turn that recorded no message and removed nothing |
| DisplayPush.FailedSendReported | src/utils/display.utils.ts:153-206 | A failed send ends the turn with a report of the send's error to the initiator |
| DisplayPush.UpdateAll | src/utils/display.utils.ts:132-207 | Running every display writes only the displays table and keeps the database valid |
| DisplayPush.UpdateAllActions | src/utils/display.utils.ts:132-207 | The requests of a run do not depend on what earlier turns wrote |
| DisplayPush.EveryDisplayServed | src/utils/display.utils.ts:132-207 | Each display gets its own turn, whatever happened to the displays before it |
| DisplayPush.ApplyKeeps | src/utils/display.utils.ts:139-168 | A turn leaves every row it does not touch in place |
| DisplayPush.UpdateAllKeeps | src/utils/display.utils.ts:132-207 | A row that no turn touches survives the run |
| DisplayPush.ApplyAddsNothing | src/utils/display.utils.ts:139-168 | No turn adds a row |
| DisplayPush.UpdateAllAddsNothing | src/utils/display.utils.ts:132-207 | No run adds a row |
| DisplayPush.ApplyRemoves | src/utils/display.utils.ts:139 | After a turn that removed the display, its id is gone |
| DisplayPush.ApplyRecords | src/utils/display.utils.ts:164-168 | After a turn that sent a message, the display's row records that message |
| DisplayPush.SentIsRecorded | src/utils/display.utils.ts:132-207 | A display whose turn sent a message shows that message at the end of the run |
| DisplayPush.RefusedIsRemoved | src/utils/display.utils.ts:132-207 | A display whose permission check failed is gone at the end of the run |
| DisplayPush.Selected | src/utils/display.utils.ts:123-127 | Exactly the queue's displays in the guild are selected, narrowed to `displayIds` when they are given |
| DisplayPush.SelectedSeparate | src/utils/display.utils.ts:123-127 | In a valid database the selected displays are distinct rows |
| DisplayPush.Known | src/utils/string.utils.ts:48-52 | A user can be mentioned exactly when Discord returned them, and the mention uses what it returned |
| DisplayPush.Reachable | src/utils/display.utils.ts:339-341 | A voice channel can be named exactly when Discord returned it |
| DisplayPush.Render | src/utils/display.utils.ts:252-321 | Rendering fails exactly when Discord does not return some queued member's user. Otherwise the last embed's first field names the member count against the queue size |
| DisplayPush.VoiceFetches | src/utils/display.utils.ts:336-340 | The description fetches two voice channels, source then destination, exactly when the queue is unlocked and its voice row names both |
| DisplayPush.ForgetMissingChannels | src/utils/display.utils.ts:339-340 | The voice fetches delete exactly the displays in a fetched channel that answers 404, and nothing else |
| DisplayPush.RenderCleanUp | src/utils/display.utils.ts:252-262 | The render writes only the members and displays tables, only deletes, and keeps the database valid |
| DisplayPush.RenderedFindsEveryone | src/utils/display.utils.ts:258-262 | A render that succeeds deletes no member row |
| DisplayPush.UpdateDisplays | src/utils/display.utils.ts:118-217 | A missing queue leaves everything unchanged. The update writes only the members and displays tables, never adds a member row, and keeps the database valid |
| DisplayPush.UpdateDisplaysRuns | src/utils/display.utils.ts:118-209 | With the queue found and rendered, the update is the run over the displays selected beforehand, on the database less the displays of voice channels that answered 404, plus one stat increment by their number |
| DisplayPush.FailedRenderForgetsMissingUsers | src/utils/display.utils.ts:128-216 | A failed render sends nothing and moves no counter. It deletes exactly the guild's member rows of queued users Discord answers 404 for, and changes nothing else |
| DisplayPush.VoiceNotFoundRemovesDisplays | src/utils/display.utils.ts:339-340 | After a successful render no member row has changed, and a display in a voice channel that answered 404 is gone |
| DisplayPush.CountsEverySelected | src/utils/display.utils.ts:209 | `displaysAdded` grows by the number of selected displays, including those that failed or were removed, and no other counter moves |
| DisplayPush.SendsNewRecords | src/utils/display.utils.ts:157-168 | A turn that sends and gets a message back records that message |
| DisplayPush.SentDisplayRecorded | src/utils/display.utils.ts:118-209 | In a valid database, every selected display whose turn sent a message records it afterwards, unless the voice fetches deleted it |
| DisplayPush.RefusedDisplayRemoved | src/utils/display.utils.ts:118-209 | Every selected display that failed the permission check is gone afterwards |
| Text.NatToString | src/utils/display.utils.ts:114 | A position prints as decimal digits, with no leading zero |
| Text.ParseNatToString | src/utils/display.utils.ts:114 | Reading a printed position's digits back gives the position |
| Text.Utf16Length | src/options/base.options.ts:87 | A string's JavaScript length lies between its character count and twice that count, and equals the count when every character is in the Basic Multilingual Plane |
| Text.PadEnd | src/utils/display.utils.ts:114 | `padEnd` keeps the string as a prefix and fills with spaces up to the width, and a string already that long is left as it is |
| Text.SortStrings | src/utils/string.utils.ts:33 | `sort()` gives a sorted permutation of the strings |
| Text.SortedStringsUnique | src/utils/string.utils.ts:33 | Two sorted permutations of the same strings are equal, so sorted output does not depend on input order |
| Sorting.SortBy | src/db/queries.ts:489-494 | The sort returns a permutation of its input, ordered by the given total preorder |
| Tables.Uniq | src/utils/display.utils.ts:105 | `uniq` keeps exactly the elements of its input, each once, and never grows the list |

## Left out

- Discord itself. Fetched channels, users and messages, the send-permission check, the result of each send, edit and delete, and the live command ids all enter the model as parameters (`World`, `Env`) rather than calls.
- `verifyCanSendMessages` is not part of this model. Its answer is the `check` parameter of a display's turn, carrying the embeds it would forward.
- Direct messages are assumed to reach Discord. `Notification.Delivered` takes the result of each send as a parameter.
- Logging to the console is not modelled; it changes no state.
- Timers. The 1.5-second interval is the `DisplayScheduler.Tick` event, and cron jobs, backups and clean-up jobs are not modelled.
- `Promise.all` concurrency. The displays of one update, and the sends of `notify`, run one after another in list order. No turn reads what another writes, so the order does not change the outcome.
- `Math.random` in `shuffle` is a permutation parameter of `Reorder.ShuffleMembers`.
- Discord's `time()` formatter is a parameter of the member mention, and the cron-to-English translation is the `describe` parameter of `DisplayDescription.ScheduleMention`.
- The ORM, SQL text and SQLite storage are modelled as tables of rows with ids. The selection branches and ordering are kept.
- The option subclasses and their `getUncached` parsing are not part of this model. Only `BaseOptions` is.
- `Text.SortStrings` compares strings by code point, while JavaScript compares UTF-16 code units. The two orders differ only for characters outside the Basic Multilingual Plane.
- `Text.Lower` lower-cases ASCII letters only. JavaScript's `toLowerCase` also folds other scripts. The permission-error words are ASCII, so classification is unaffected.
- The display update type is exactly the three values `New`, `Edit` and `Replace`, so the strategy has no fourth branch.
- The 404 clean-ups inside `jsMember` and `jsChannel` are modelled in `Store.MemberNotFound` and `Store.ChannelNotFound`. During a display update, a priority re-evaluation, `notify`, the role step of a join and the role removals of `deleteMembers`, Discord's answer to each user and channel fetch enters as a parameter (`UserFetch`, `ChannelFetch`).
- Store.ForgetMissingUsers: applies the 404 clean-ups of all the user fetches in list order. During a display render and in `notify` the source starts them all at once, and the render's failure does not wait for them. The rows deleted are the same in any order.
- Discord's answer to each user fetch is one function of the user id for the whole operation (`UserFetch`). A user who answers differently on two fetches in the same run is not modelled.
- Lists.ReEvaluatePrioritized: runs inside the prioritizing command's own step. The source does not await it and returns the rows first, so its writes land after the reply. When it throws, the rejection is left unhandled; the model only drops the display refresh.
- Notification.NotifyAndSend: applies the 404 deletions after all messages are built and does not say in which order the sends complete.
- Queries.OrderMembers: breaks ties in MEMBER_ORDER by row id. SQLite leaves the order of rows with equal priority and position time undefined, so the model picks the order a table scan gives. Queries.GuildLineIsQueueMembers and Members.QueueLine depend on that choice.
- Queries.GuildLineIsQueueMembers: holds for the row-id tie-break of `Queries.OrderMembers`. SQLite does not promise that two selects order tied rows the same way.
- Members.QueueLine: is the queue's line under the row-id tie-break of `Queries.OrderMembers`.
- `flushPendingGuildStats` is modelled only as the reset of the pending counters after a flush. The SQL update it sends is not modelled.
- Members.ModifyRole: models Discord's answers as parameters. The role itself is not stored, so a granted or removed role leaves no trace in the model.
- `updateMembers`, `insertMentionable`, `formatPulledMemberEmbeds`, `getPositions` and `getMemberPositionString` in member.utils.ts are not part of this model, and neither is `membersMention` in string.utils.ts. They are Discord glue around the modelled operations.
- `insertDisplays` and `deleteDisplays` in display.utils.ts are not part of this model. They only call `Store.InsertDisplay` or `Store.DeleteDisplays` and then `DisplayScheduler.RequestMany`.
- `Store.updatePrioritized` is not part of this model because the `Store` class does not define it. `Lists.UpdatePrioritizedAll` models the call as the TypeError it raises.
- Store.DeleteMembers: returns every deleted row. It stands for both `deleteMember`, whose query ends in `.get()` and returns only the first row, and `deleteManyMembers`, which returns them all. Callers of `deleteMember` take the first row with `Tables.First`.
- Store.DeleteBlacklisted: returns every deleted row, where `deleteManyBlacklisted` ends in `.get()` and returns only the first. The rows deleted are the same, and nothing in the repository calls `deleteManyBlacklisted`.
- Store.DeletePrioritized: returns every deleted row, where `deleteManyPrioritized` ends in `.get()` and returns only the first. The rows deleted are the same, and nothing in the repository calls `deleteManyPrioritized`.
- Store.DeleteAdmins: returns every deleted row, where `deleteManyAdmin` ends in `.get()` and returns only the first. The rows deleted are the same, and nothing in the repository calls `deleteManyAdmin`.
- Members.DeleteNextMember: deletes the next member by id. The source's `deleteMember({ queueId })` deletes every member of the queue (see "## Findings"); `Members.PullCountAsWritten` models that.
- Members.HeadDeleted: states the corrected deletion by id, not the as-written delete by queue, which `Members.PullOneAsWrittenEmptiesQueue` covers.
- Members.PullHeads: is the corrected count loop. As written, the loop empties the queue and returns one row; see `Members.PullCountAsWritten`.
- Members.SingleQueuePullCorrected: returns the queue's first rows in order, as the corrected loop does, not the single row the written loop returns.
- Members.PullCountsCorrected: composes the corrected loop. `Members.PullCounts` and `Members.DeleteMembersBy` follow the loop as written.
- Members.Taken: counts what the corrected loop takes. The written loop takes at most one row.
- Members.DeleteMembersBy: applies the 404 clean-ups of the role-removal fetches before it returns. The source does not await them, so they land after the call returns. A rejection of the removal itself is left unhandled and is not modelled.
- Lists.InsertBlacklistedAll: applies the kick's 404 clean-ups before it returns, as `Members.DeleteMembersBy` does.
- Members.PulledComeFirst: holds of the corrected loop only. The written loop leaves no row in the queue.
- Members.PullCountAsWritten: takes the row `.get()` returns to be the first in table order. SQLite does not fix the order of the rows a `RETURNING` clause yields.
- Strings.GroupKeys: lists the keys in ascending numeric order. JavaScript enumerates a key in that order only when it is an array index, below 2^32 - 1; larger row ids would come after them in insertion order. Row ids stay far below that bound.
- Insert errors other than a UNIQUE violation are not modelled. The source swallows them and returns `undefined`, and the model has no such error to raise.

## Behaviour kept as written

These are places where the code does something other than its evident intent. The model follows the code, and a lemma shows the effect.

- `DisplayRender.FlushDropsLines`: when a page fills, the field being filled is dropped and the running length is not reset. The lines before the flush are never shown, and every later line pushes another page.
- `DisplayDescription.LegendWithoutMarker`, `Strings.ZeroPriorityShowsNoMarker`: a priority of 0 triggers the priority legend, but no member line shows the marker.
- `DisplayDescription.ButtonsPromisedButMissing`: a voice row with no channels hides the join buttons, while the description still tells members to click them.
- `Options.BuildDescription`: appending a default to an undefined description prints "undefined". With no default, reading the undefined description's length throws.
- `Notification.MessagesFor`: an unknown queue throws part-way through `notify`. Messages to earlier users have already gone out.
- `Access.WhitelistBlocksListedUsers`: the whitelist check blocks the users who are on the whitelist, not the ones missing from it.
- `Lists.ReEvaluateIsNoOp`: re-evaluating priority spreads `{priority, ...member}`, so the stored priority overwrites the new one. When Discord returns every member, nothing changes.
- `Lists.ReEvaluateMembersMeans`: a member Discord does not return makes `getMemberPriority` throw when the queue has prioritized rows, and the rest of the re-evaluation, with the display refresh, is skipped.
- `Strings.UnscopedTableIsOneEmbed`: the admins table is grouped under the key "undefined", and the failed `BigInt` parse is what titles it "all queues".
- `Store.DeleteMemberByQueueEmptiesQueue`: deleting a member by queue id alone deletes every member of the queue.
- `Store.EmptyCountDeletesEveryMember`: when the count select picks no rows, the delete has no WHERE clause and empties the members table of every guild.
- `Memo.DeleteQueueLeavesMembersStale`: deleting a queue does not clear the memoised members, so the session still lists the members the cascade removed.
- `Queries.NextMemberDiffersFromHead`: the next-member query orders differently from the member display, so the member pulled can differ from the member shown first.
- `DisplayPush.ReplaceStripsDeletedMessage`: under `Replace`, the buttons are stripped off the last message after that message was already deleted. The request fails and is swallowed.
- `DisplayPush.CountsEverySelected`: `displaysAdded` counts every selected display, including those that failed or were removed.
- `DisplayPush.DisplayOutcome`: a channel that fetches as undefined fails on its first use, with a TypeError that is reported like any other error.
- `Reorder.MissingMemberDropsLast`: moving a member who is not in the queue splices out the last member instead.
- `Members.CumulativeNotifyRepeatsEarlierRows`: pulling from several queues builds the notify list cumulatively, so earlier rows are repeated.
- `Members.DeleteMembersBy`: a count pull always has an empty notify list, so the pulled members are never notified.
- `Members.InsertJsMember`: when the role step throws, the row stays written but no display refresh is requested, so the queue's displays do not show the new member until another update.
- `Lists.MultiQueuePrioritizeFails`: the unique key on prioritized entries does not include the queue, so prioritizing a subject on a second queue of the guild fails.
- `Lists.UpdatePrioritizedAll`: updating prioritized entries always throws, because the store method it calls does not exist.
- `Lists.DeletePrioritizedAll`: deleting a prioritized id that does not exist throws.
- `Lists.InsertBlacklistedAll`: blacklisting refreshes every affected queue twice, once for the kick and once for the list.
- `DisplayDescription.LegendMarkIsNotSparkle`: the priority legend's marker is stored in the source file as the UTF-8 bytes of the sparkle read as Windows-1252 ("âœ¨"). The legend prints those three characters, while the member lines print the sparkle itself.

## Findings

| source | as written | input that shows it | evidently intended | confidence | as-written member | corrected member |
|---|---|---|---|---|---|---|
| src/utils/member.utils.ts:139-147 | Each pass of the count loop calls `deleteMember({ queueId })`, which names no user and deletes every member row of the queue; `.get()` returns one of them | a queue of three members and a count of 1: all three rows are deleted and one is returned | each pass deletes the next member of the queue, so a count of `n` pulls `n` members and the rest stay queued | high, not executed | Members.PullCountAsWritten, Members.PullOneAsWrittenEmptiesQueue, Members.PullCounts | Members.PullHeads, Members.PullCountsCorrected |

=== FILE: access.dfy ===
/**
 * Who a list entry applies to: the member priority computed from the
 * prioritized entries, the whitelist and blacklist checks of a join, and the
 * admin check. All of them read the store's guild-scoped rows.
 */
module Access {
  import opened Wrappers
  import opened Tables
  import opened Schema

  /** The parts of a Discord guild member the checks look at. */
  datatype GuildUser = GuildUser(id: Snowflake, roleIds: seq<Snowflake>, isAdministrator: bool)

  /** A user or a role, as picked in a command (`mentionable instanceof Role`). */
  datatype Mentionable = UserSubject(id: Snowflake) | RoleSubject(id: Snowflake)

  /** The whitelist, blacklist and admin rule: the subject is the user or one of their roles. */
  predicate Names(subjectId: Snowflake, u: GuildUser) {
    subjectId == u.id || subjectId in u.roleIds
  }

  /** The prioritized rule: a role subject counts only on a row marked as a role. */
  predicate PriorityApplies(p: Prioritized, u: GuildUser) {
    p.subjectId == u.id || (p.isRole && p.subjectId in u.roleIds)
  }

  /** A prioritized row of the store's guild and of the given queue that applies to `u`. */
  predicate PriorityFor(p: Prioritized, guildId: Snowflake, queueId: RowId, u: GuildUser) {
    p.guildId == guildId && p.queueId == queueId && PriorityApplies(p, u)
  }

  /** An applicable row that carries an order. */
  predicate OrderFor(p: Prioritized, guildId: Snowflake, queueId: RowId, u: GuildUser) {
    PriorityFor(p, guildId, queueId, u) && p.priorityOrder.Some?
  }

  /**
   * lodash `min`: the least of the values that are present, skipping missing
   * ones; absent when none is present.
   */
  function MinPresent(xs: seq<Option<int>>): (r: Option<int>)
    ensures r.None? <==> forall i :: 0 <= i < |xs| ==> xs[i].None?
    ensures r.Some? ==> exists i :: 0 <= i < |xs| && xs[i] == r
    ensures r.Some? ==> forall i :: 0 <= i < |xs| && xs[i].Some? ==> r.value <= xs[i].value
  {
    if |xs| == 0 then None
    else
      var rest := MinPresent(xs[1..]);
      assert forall i :: 1 <= i < |xs| ==> xs[i] == xs[1..][i - 1];
      if xs[0].None? then rest
      else if rest.None? || xs[0].value <= rest.value then xs[0]
      else rest
  }

  function PriorityOrders(rows: seq<Prioritized>): (r: seq<Option<int>>)
    ensures |r| == |rows|
    ensures forall i :: 0 <= i < |rows| ==> r[i] == rows[i].priorityOrder
  {
    seq(|rows|, i requires 0 <= i < |rows| => rows[i].priorityOrder)
  }

  /**
   * `getMemberPriority`: the least `priorityOrder` of the queue's prioritized
   * rows that apply to the user; absent when none applies or none of those
   * carries an order.
   */
  function GetMemberPriority(db: Db, guildId: Snowflake, queueId: RowId, u: GuildUser): (r: Option<int>)
    ensures r.Some? <==> exists i :: 0 <= i < |db.prioritized| && OrderFor(db.prioritized[i], guildId, queueId, u)
    ensures r.Some? ==> exists i :: (0 <= i < |db.prioritized| && OrderFor(db.prioritized[i], guildId, queueId, u)
      && db.prioritized[i].priorityOrder == r)
    ensures r.Some? ==> forall i :: (0 <= i < |db.prioritized| && OrderFor(db.prioritized[i], guildId, queueId, u)
      ==> r.value <= db.prioritized[i].priorityOrder.value)
  {
    var scoped := Filter(db.prioritized, (p: Prioritized) => PriorityFor(p, guildId, queueId, u));
    ScopedMinimum(db.prioritized, scoped, guildId, queueId, u);
    if |scoped| > 0 then MinPresent(PriorityOrders(scoped)) else None
  }

  lemma ScopedMinimum(rows: seq<Prioritized>, scoped: seq<Prioritized>, guildId: Snowflake, queueId: RowId, u: GuildUser)
    requires scoped == Filter(rows, (p: Prioritized) => PriorityFor(p, guildId, queueId, u))
    ensures var r := MinPresent(PriorityOrders(scoped));
      && (r.Some? <==> exists i :: 0 <= i < |rows| && OrderFor(rows[i], guildId, queueId, u))
      && (r.Some? ==> exists i :: 0 <= i < |rows| && OrderFor(rows[i], guildId, queueId, u) && rows[i].priorityOrder == r)
      && (r.Some? ==> forall i :: 0 <= i < |rows| && OrderFor(rows[i], guildId, queueId, u) ==> r.value <= rows[i].priorityOrder.value)
  {
    var xs := PriorityOrders(scoped);
    var r := MinPresent(xs);
    forall i | 0 <= i < |rows| && OrderFor(rows[i], guildId, queueId, u)
      ensures r.Some? && r.value <= rows[i].priorityOrder.value
    {
      FilterMembership(rows, (p: Prioritized) => PriorityFor(p, guildId, queueId, u), rows[i]);
      var j :| 0 <= j < |scoped| && scoped[j] == rows[i];
      assert xs[j].Some?;
    }
    if r.Some? {
      var j :| 0 <= j < |xs| && xs[j] == r;
      FilterMembership(rows, (p: Prioritized) => PriorityFor(p, guildId, queueId, u), scoped[j]);
      var k :| 0 <= k < |rows| && rows[k] == scoped[j];
      assert OrderFor(rows[k], guildId, queueId, u);
    }
  }

  /** A row of the store's guild on the given queue that names the user. */
  predicate EntryNames(e: ListEntry, guildId: Snowflake, queueId: RowId, u: GuildUser) {
    e.guildId == guildId && e.queueId == queueId && Names(e.subjectId, u)
  }

  /**
   * `isBlockedByWhitelist`: false when the queue has no whitelist rows;
   * otherwise true when some row names the user.
   */
  function IsBlockedByWhitelist(db: Db, guildId: Snowflake, queueId: RowId, u: GuildUser): (r: bool)
    ensures r <==> exists i :: 0 <= i < |db.whitelisted| && EntryNames(db.whitelisted[i], guildId, queueId, u)
  {
    var scoped := Filter(db.whitelisted, (e: ListEntry) => e.guildId == guildId && e.queueId == queueId);
    if |scoped| == 0 then
      assert forall i :: 0 <= i < |db.whitelisted| ==> !EntryNames(db.whitelisted[i], guildId, queueId, u) by {
        forall i | 0 <= i < |db.whitelisted|
          ensures !EntryNames(db.whitelisted[i], guildId, queueId, u)
        {
          FilterMembership(db.whitelisted, (e: ListEntry) => e.guildId == guildId && e.queueId == queueId, db.whitelisted[i]);
        }
      }
      false
    else
      AnyNames(db.whitelisted, guildId, queueId, u)
  }

  /** `isBlockedByBlacklist`: some row of the queue names the user. */
  function IsBlockedByBlacklist(db: Db, guildId: Snowflake, queueId: RowId, u: GuildUser): (r: bool)
    ensures r <==> exists i :: 0 <= i < |db.blacklisted| && EntryNames(db.blacklisted[i], guildId, queueId, u)
  {
    AnyNames(db.blacklisted, guildId, queueId, u)
  }

  /** `scoped.some(...)` over the queue's rows, written as a scan. */
  function AnyNames(rows: seq<ListEntry>, guildId: Snowflake, queueId: RowId, u: GuildUser): (r: bool)
    ensures r <==> exists i :: 0 <= i < |rows| && EntryNames(rows[i], guildId, queueId, u)
  {
    if |rows| == 0 then false
    else
      assert forall i :: 1 <= i < |rows| ==> rows[i] == rows[1..][i - 1];
      EntryNames(rows[0], guildId, queueId, u) || AnyNames(rows[1..], guildId, queueId, u)
  }

  /**
   * As written, the whitelist check is true for a user the whitelist names,
   * so a join turns away exactly the users who are on the whitelist.
   */
  lemma WhitelistBlocksListedUsers(db: Db, guildId: Snowflake, queueId: RowId, u: GuildUser, k: nat)
    requires k < |db.whitelisted| && EntryNames(db.whitelisted[k], guildId, queueId, u)
    ensures IsBlockedByWhitelist(db, guildId, queueId, u)
  {
  }

  /** A queue without whitelist rows never blocks anyone. */
  lemma EmptyWhitelistNeverBlocks(db: Db, guildId: Snowflake, queueId: RowId, u: GuildUser)
    requires forall i :: 0 <= i < |db.whitelisted| ==> db.whitelisted[i].queueId != queueId
    ensures !IsBlockedByWhitelist(db, guildId, queueId, u)
  {
  }

  /** An admin row of the guild naming the user or one of their roles. */
  predicate BotAdmin(db: Db, guildId: Snowflake, u: GuildUser) {
    exists i :: 0 <= i < |db.admins| && db.admins[i].guildId == guildId && Names(db.admins[i].subjectId, u)
  }

  /** `isAdmin`: the Administrator permission, or an admin row naming the user or a role of theirs. */
  function IsAdmin(db: Db, guildId: Snowflake, u: GuildUser): (r: bool)
    ensures r <==> u.isAdministrator || BotAdmin(db, guildId, u)
    ensures u.isAdministrator ==> r
  {
    u.isAdministrator || AnyAdmin(db.admins, guildId, u)
  }

  function AnyAdmin(rows: seq<Admin>, guildId: Snowflake, u: GuildUser): (r: bool)
    ensures r <==> exists i :: 0 <= i < |rows| && rows[i].guildId == guildId && Names(rows[i].subjectId, u)
  {
    if |rows| == 0 then false
    else
      assert forall i :: 1 <= i < |rows| ==> rows[i] == rows[1..][i - 1];
      (rows[0].guildId == guildId && Names(rows[0].subjectId, u)) || AnyAdmin(rows[1..], guildId, u)
  }

  /** `verifyIsAdmin`: fails with `AdminAccess` exactly when the user is not an admin. */
  function VerifyIsAdmin(db: Db, guildId: Snowflake, u: GuildUser): (r: Result<(), Error>)
    ensures r.Err? <==> !u.isAdministrator && !BotAdmin(db, guildId, u)
    ensures r.Err? ==> r.error == AdminAccess
  {
    if IsAdmin(db, guildId, u) then Ok(()) else Err(AdminAccess)
  }
}

=== FILE: display_description.dfy ===
/**
 * The text above a queue display and the buttons below it
 * (`buildDescription`, `getButtonRow` and `scheduleMention`). The
 * description is a list of parts, each present under its own condition
 * and always in the same order, joined with newlines.
 */
module DisplayDescription {
  import opened Wrappers
  import opened Text
  import opened Schema
  import opened Strings
  import opened Tables
  import opened Sorting
  import Misc

  /** The queue's first voice row, as far as the display reads it. */
  datatype VoiceLink = VoiceLink(sourceChannelId: Option<Snowflake>, destinationChannelId: Option<Snowflake>)

  /** `chatInputApplicationCommandMention(name, id)`: a clickable slash command. */
  function CommandMention(name: string, id: Snowflake): string {
    "</" + name + ":" + id + ">"
  }

  function CommandName(c: ScheduleCommand): string {
    match c
    case Clear => "clear"
    case Pull => "pull"
    case Show => "show"
    case Shuffle => "shuffle"
  }

  /** The first character lower-cased, the rest kept. */
  function LowerFirst(s: string): (r: string)
    ensures |r| == |s|
    ensures |s| > 0 ==> r[0] == LowerChar(s[0]) && r[1..] == s[1..]
  {
    if |s| == 0 then s else [LowerChar(s[0])] + s[1..]
  }

  /**
   * `scheduleMention`: "will <command> <when> (<timezone>)", then " - <reason>"
   * for a non-empty reason. `describe` is the cron-to-English translation.
   */
  function ScheduleMention(s: Schedule, describe: string -> string): (r: string)
    ensures |r| >= 5 + |CommandName(s.command)| + 1
    ensures r[..5 + |CommandName(s.command)| + 1] == "will " + CommandName(s.command) + " "
    ensures Truthy(s.reason) ==> |r| > |s.reason.value| + 3 && r[|r| - |s.reason.value| - 3..] == " - " + s.reason.value
    ensures !Truthy(s.reason) ==> r[|r| - 1] == ')'
  {
    var head := "will " + CommandName(s.command) + " ";
    var body := LowerFirst(describe(s.cron)) + " (" + s.timezone + ")";
    var tail := if Truthy(s.reason) then " - " + s.reason.value else "";
    var r := head + body + tail;
    assert r[..|head|] == head;
    assert r[|r| - |tail|..] == tail;
    r
  }

  /** The command of a scheduled run can be read back from its mention. */
  lemma ScheduleCommandReadBack(a: Schedule, b: Schedule, describe: string -> string)
    requires a.command != b.command
    ensures ScheduleMention(a, describe) != ScheduleMention(b, describe)
  {
    var ma := ScheduleMention(a, describe);
    var mb := ScheduleMention(b, describe);
    var pa := "will " + CommandName(a.command) + " ";
    var pb := "will " + CommandName(b.command) + " ";
    assert ma[..8] == pa[..8] by {
      assert ma[..8] == ma[..|pa|][..8];
    }
    assert mb[..8] == pb[..8] by {
      assert mb[..8] == mb[..|pb|][..8];
    }
    CommandsApart(a.command, b.command);
  }

  /** The first three letters tell the commands apart. */
  lemma CommandsApart(c: ScheduleCommand, d: ScheduleCommand)
    requires c != d
    ensures ("will " + CommandName(c) + " ")[..8] != ("will " + CommandName(d) + " ")[..8]
  {
    var pc := "will " + CommandName(c) + " ";
    var pd := "will " + CommandName(d) + " ";
    if CommandName(c)[0] != CommandName(d)[0] {
      assert pc[5] != pd[5];
    } else {
      assert pc[7] != pd[7];
    }
  }

  /** The sorted mentions of a queue's schedules. */
  function ScheduleLines(schedules: seq<Schedule>, describe: string -> string): (r: seq<string>)
    ensures multiset(r) == multiset(Misc.MapSeq(schedules, s => ScheduleMention(s, describe)))
    ensures SortedBy(LexLe, r)
  {
    SortStrings(Misc.MapSeq(schedules, s => ScheduleMention(s, describe)))
  }

  /** The schedule lines depend only on which schedules the queue has, not on their order. */
  lemma ScheduleLinesIgnoreOrder(a: seq<Schedule>, b: seq<Schedule>, describe: string -> string)
    requires multiset(a) == multiset(b)
    ensures ScheduleLines(a, describe) == ScheduleLines(b, describe)
  {
    Misc.MapPermutes(a, b, s => ScheduleMention(s, describe));
    SortedStringsUnique(ScheduleLines(a, describe), ScheduleLines(b, describe));
  }

  // Description parts.

  datatype Part =
    | HeaderText(text: string)
    | Locked
    | Pulling(automatic: bool, sourceChannelId: Snowflake, destinationChannelId: Snowflake)
    | JoinWithButtons
    | JoinWithCommands
    | Grace(seconds: int)
    | PriorityLegend
    | RoleNote(roleId: Snowflake)
    | ScheduleList(lines: seq<string>)

  /** Where each part goes: parts of a lower rank come first. */
  function Rank(p: Part): nat {
    match p
    case HeaderText(_) => 0
    case Locked => 1
    case Pulling(_, _, _) => 2
    case JoinWithButtons => 2
    case JoinWithCommands => 2
    case Grace(_) => 3
    case PriorityLegend => 4
    case RoleNote(_) => 5
    case ScheduleList(_) => 6
  }

  predicate Ordered(parts: seq<Part>) {
    forall i, j :: 0 <= i < j < |parts| ==> Rank(parts[i]) < Rank(parts[j])
  }

  /** The voice row names both channels. */
  predicate Linked(voice: Option<VoiceLink>) {
    voice.Some? && Truthy(voice.value.sourceChannelId) && Truthy(voice.value.destinationChannelId)
  }

  /**
   * How members get on an unlocked queue. With both voice channels named,
   * the pulling line appears only when both channels can be fetched.
   */
  function JoinPart(q: Queue, voice: Option<VoiceLink>, fetched: Snowflake -> bool): (r: Option<Part>)
    ensures r.Some? ==> Rank(r.value) == 2
  {
    if Linked(voice) then
      if BothFetched(voice.value, fetched)
      then Some(Pulling(q.autopullToggle, voice.value.sourceChannelId.value, voice.value.destinationChannelId.value))
      else None
    else if q.buttonsToggle then Some(JoinWithButtons)
    else Some(JoinWithCommands)
  }

  /** Both named voice channels can be fetched. */
  predicate BothFetched(v: VoiceLink, fetched: Snowflake -> bool)
    requires v.sourceChannelId.Some? && v.destinationChannelId.Some?
  {
    fetched(v.sourceChannelId.value) && fetched(v.destinationChannelId.value)
  }

  /** Some member of the queue has a priority, zero included. */
  predicate AnyPriority(q: Queue, members: seq<Member>) {
    exists i :: 0 <= i < |members| && members[i].queueId == q.id && members[i].priority.Some?
  }

  /** The queue's own schedules. */
  function OwnSchedules(q: Queue, schedules: seq<Schedule>): (r: seq<Schedule>)
    ensures |r| > 0 <==> exists k :: 0 <= k < |schedules| && schedules[k].queueId == q.id
    ensures forall k :: 0 <= k < |r| ==> r[k].queueId == q.id
  {
    var r := Filter(schedules, (s: Schedule) => s.queueId == q.id);
    assert (exists k :: 0 <= k < |schedules| && schedules[k].queueId == q.id) <==> |r| > 0 by {
      if exists k :: 0 <= k < |schedules| && schedules[k].queueId == q.id {
        var k :| 0 <= k < |schedules| && schedules[k].queueId == q.id;
        assert schedules[k] in r;
      }
      if |r| > 0 {
        assert r[0] in schedules;
        var k :| 0 <= k < |schedules| && schedules[k] == r[0];
      }
    }
    r
  }

  /** The schedule lines, when the queue has any schedule. */
  function ScheduleListing(q: Queue, schedules: seq<Schedule>, describe: string -> string): (r: Option<seq<string>>)
    ensures r.Some? <==> exists k :: 0 <= k < |schedules| && schedules[k].queueId == q.id
    ensures r.Some? ==> r.value == ScheduleLines(OwnSchedules(q, schedules), describe)
  {
    var own := OwnSchedules(q, schedules);
    if |own| > 0 then Some(ScheduleLines(own, describe)) else None
  }

  /**
   * One slot per kind of part, in description order; slot `i` is empty or
   * holds a part of rank `i`.
   */
  function Slots(q: Queue, join: Option<Part>, anyPriority: bool, listing: Option<seq<string>>): (r: seq<Option<Part>>)
    requires join.Some? ==> Rank(join.value) == 2
    ensures |r| == 7 && forall i :: 0 <= i < 7 && r[i].Some? ==> Rank(r[i].value) == i
  {
    [ if Truthy(q.header) then Some(HeaderText(q.header.value)) else None,
      if q.lockToggle then Some(Locked) else None,
      if q.lockToggle then None else join,
      if !q.lockToggle && q.gracePeriod != 0 then Some(Grace(q.gracePeriod)) else None,
      if anyPriority then Some(PriorityLegend) else None,
      if Truthy(q.roleId) then Some(RoleNote(q.roleId.value)) else None,
      if listing.Some? then Some(ScheduleList(listing.value)) else None ]
  }

  /** The slots of a queue's description. */
  function QueueSlots(q: Queue, members: seq<Member>, schedules: seq<Schedule>, voice: Option<VoiceLink>,
                      fetched: Snowflake -> bool, describe: string -> string): (r: seq<Option<Part>>)
    ensures |r| == 7 && forall i :: 0 <= i < 7 && r[i].Some? ==> Rank(r[i].value) == i
  {
    Slots(q, JoinPart(q, voice, fetched), AnyPriority(q, members), ScheduleListing(q, schedules, describe))
  }

  /** The filled slots, in order. */
  function Filled(slots: seq<Option<Part>>): (r: seq<Part>)
    ensures forall p :: p in r <==> Some(p) in slots
  {
    if |slots| == 0 then []
    else
      var rest := Filled(slots[1..]);
      assert forall p :: Some(p) in slots <==> slots[0] == Some(p) || Some(p) in slots[1..];
      if slots[0].Some? then [slots[0].value] + rest else rest
  }

  /** Slots whose parts rank by position fill in rank order. */
  lemma {:induction false} FilledOrdered(slots: seq<Option<Part>>, base: nat)
    requires forall i :: 0 <= i < |slots| && slots[i].Some? ==> Rank(slots[i].value) == base + i
    ensures Ordered(Filled(slots))
    ensures forall i :: 0 <= i < |Filled(slots)| ==> Rank(Filled(slots)[i]) >= base
    decreases |slots|
  {
    if |slots| > 0 {
      FilledOrdered(slots[1..], base + 1);
      var rest := Filled(slots[1..]);
      if slots[0].Some? {
        var r := [slots[0].value] + rest;
        assert forall i :: 1 <= i < |r| ==> r[i] == rest[i - 1];
      }
    }
  }

  /**
   * The parts of `buildDescription`, from the guild's members and schedules
   * (only the queue's own count), its first voice row, and which channels
   * can be fetched.
   */
  function Parts(q: Queue, members: seq<Member>, schedules: seq<Schedule>, voice: Option<VoiceLink>,
                 fetched: Snowflake -> bool, describe: string -> string): (r: seq<Part>)
    ensures Ordered(r)
    ensures forall p :: p in r <==> Some(p) in QueueSlots(q, members, schedules, voice, fetched, describe)
  {
    var slots := QueueSlots(q, members, schedules, voice, fetched, describe);
    FilledOrdered(slots, 0);
    Filled(slots)
  }

  /** Some part of rank `k` is present. */
  predicate HasRank(parts: seq<Part>, k: nat) {
    exists i :: 0 <= i < |parts| && Rank(parts[i]) == k
  }

  /** A part is present exactly when the slot of its rank holds it. */
  lemma SlotsPresent(slots: seq<Option<Part>>, p: Part)
    requires forall i :: 0 <= i < |slots| && slots[i].Some? ==> Rank(slots[i].value) == i
    ensures p in Filled(slots) <==> Rank(p) < |slots| && slots[Rank(p)] == Some(p)
  {
    if Some(p) in slots {
      var i :| 0 <= i < |slots| && slots[i] == Some(p);
    }
  }

  /** A rank is present exactly when its slot is filled. */
  lemma SlotFilled(slots: seq<Option<Part>>, r: seq<Part>, k: nat)
    requires forall i :: 0 <= i < |slots| && slots[i].Some? ==> Rank(slots[i].value) == i
    requires r == Filled(slots) && k < |slots|
    ensures HasRank(r, k) <==> slots[k].Some?
    ensures slots[k].Some? ==> slots[k].value in r
  {
    if HasRank(r, k) {
      var i :| 0 <= i < |r| && Rank(r[i]) == k;
      SlotsPresent(slots, r[i]);
    }
    if slots[k].Some? {
      assert Some(slots[k].value) in slots;
    }
  }

  /** The parts are the filled slots of the queue's description. */
  lemma PartsFromSlots(q: Queue, members: seq<Member>, schedules: seq<Schedule>, voice: Option<VoiceLink>,
                       fetched: Snowflake -> bool, describe: string -> string)
    ensures Parts(q, members, schedules, voice, fetched, describe)
      == Filled(Slots(q, JoinPart(q, voice, fetched), AnyPriority(q, members), ScheduleListing(q, schedules, describe)))
  {
  }

  /** The header, the lock notice and the grace period, each condition in both directions. */
  lemma PartsPresent(q: Queue, members: seq<Member>, schedules: seq<Schedule>, voice: Option<VoiceLink>,
                     fetched: Snowflake -> bool, describe: string -> string)
    ensures var r := Parts(q, members, schedules, voice, fetched, describe);
      && (Truthy(q.header) <==> HasRank(r, 0)) && (Truthy(q.header) ==> HeaderText(q.header.value) in r)
      && (q.lockToggle <==> HasRank(r, 1)) && (q.lockToggle ==> Locked in r)
      && (!q.lockToggle && q.gracePeriod != 0 <==> HasRank(r, 3)) && (!q.lockToggle && q.gracePeriod != 0 ==> Grace(q.gracePeriod) in r)
  {
    var r := Parts(q, members, schedules, voice, fetched, describe);
    var slots := QueueSlots(q, members, schedules, voice, fetched, describe);
    PartsFromSlots(q, members, schedules, voice, fetched, describe);
    SlotFilled(slots, r, 0);
    SlotFilled(slots, r, 1);
    SlotFilled(slots, r, 3);
  }

  /** The priority legend and the role note, each condition in both directions. */
  lemma NotesPresent(q: Queue, members: seq<Member>, schedules: seq<Schedule>, voice: Option<VoiceLink>,
                     fetched: Snowflake -> bool, describe: string -> string)
    ensures var r := Parts(q, members, schedules, voice, fetched, describe);
      && (AnyPriority(q, members) <==> HasRank(r, 4)) && (AnyPriority(q, members) ==> PriorityLegend in r)
      && (Truthy(q.roleId) <==> HasRank(r, 5)) && (Truthy(q.roleId) ==> RoleNote(q.roleId.value) in r)
  {
    var r := Parts(q, members, schedules, voice, fetched, describe);
    var slots := QueueSlots(q, members, schedules, voice, fetched, describe);
    PartsFromSlots(q, members, schedules, voice, fetched, describe);
    SlotFilled(slots, r, 4);
    SlotFilled(slots, r, 5);
  }

  /**
   * The line on how to join: never on a locked queue, and of the kind the
   * voice row and the buttons decide.
   */
  lemma JoinLinePresent(q: Queue, members: seq<Member>, schedules: seq<Schedule>, voice: Option<VoiceLink>,
                        fetched: Snowflake -> bool, describe: string -> string)
    ensures var r := Parts(q, members, schedules, voice, fetched, describe);
      && (HasRank(r, 2) <==> !q.lockToggle && (Linked(voice) ==> BothFetched(voice.value, fetched)))
      && (HasRank(r, 2) ==> JoinPart(q, voice, fetched).value in r)
  {
    var r := Parts(q, members, schedules, voice, fetched, describe);
    PartsFromSlots(q, members, schedules, voice, fetched, describe);
    SlotFilled(QueueSlots(q, members, schedules, voice, fetched, describe), r, 2);
  }

  /** The schedule list is present exactly when the queue has schedules, and comes last with their sorted mentions. */
  lemma ScheduleListPresent(q: Queue, members: seq<Member>, schedules: seq<Schedule>, voice: Option<VoiceLink>,
                            fetched: Snowflake -> bool, describe: string -> string)
    ensures var r := Parts(q, members, schedules, voice, fetched, describe);
      && (HasRank(r, 6) <==> exists k :: 0 <= k < |schedules| && schedules[k].queueId == q.id)
      && (HasRank(r, 6) ==> r[|r| - 1] == ScheduleList(ScheduleLines(OwnSchedules(q, schedules), describe)))
  {
    var r := Parts(q, members, schedules, voice, fetched, describe);
    var listing := ScheduleListing(q, schedules, describe);
    var join := JoinPart(q, voice, fetched);
    var any := AnyPriority(q, members);
    PartsFromSlots(q, members, schedules, voice, fetched, describe);
    ListingSlot(q, join, any, listing, r);
  }

  /** The schedule list is present exactly when there is a listing, and then it is last. */
  lemma ListingSlot(q: Queue, join: Option<Part>, anyPriority: bool, listing: Option<seq<string>>, r: seq<Part>)
    requires join.Some? ==> Rank(join.value) == 2
    requires r == Filled(Slots(q, join, anyPriority, listing))
    ensures HasRank(r, 6) <==> listing.Some?
    ensures listing.Some? ==> |r| > 0 && r[|r| - 1] == ScheduleList(listing.value)
  {
    var slots := Slots(q, join, anyPriority, listing);
    SlotFilled(slots, r, 6);
    if listing.Some? {
      FilledOrdered(slots, 0);
      HighestIsLast(r, ScheduleList(listing.value));
    }
  }

  /** A part of the highest rank in an ordered list is its last. */
  lemma HighestIsLast(r: seq<Part>, p: Part)
    requires Ordered(r) && p in r && Rank(p) == 6
    ensures |r| > 0 && r[|r| - 1] == p
  {
    var i :| 0 <= i < |r| && r[i] == p;
    var last := r[|r| - 1];
    assert Rank(last) <= 6 == Rank(r[i]);
    assert i == |r| - 1;
  }

  /**
   * As written, the legend counts any priority while the member lines mark
   * only a non-zero one: a queue whose one prioritized member has priority
   * 0 explains a marker that appears nowhere.
   */
  lemma LegendWithoutMarker(q: Queue, members: seq<Member>, schedules: seq<Schedule>, voice: Option<VoiceLink>,
                            fetched: Snowflake -> bool, describe: string -> string, k: nat)
    requires k < |members| && members[k].queueId == q.id && members[k].priority == Some(0)
    ensures PriorityLegend in Parts(q, members, schedules, voice, fetched, describe)
    ensures PriorityMarker(members[k].priority) == ""
  {
    NotesPresent(q, members, schedules, voice, fetched, describe);
    assert AnyPriority(q, members);
  }

  // Rendering.

  /**
   * The marker the priority legend prints. The source file holds the UTF-8
   * bytes of the sparkle read as Windows-1252, so the legend shows three
   * other characters.
   */
  const LegendMark: string := "\U{00E2}\U{0153}\U{00A8}"

  /** The legend's marker is not the one the member lines print. */
  lemma LegendMarkIsNotSparkle()
    ensures LegendMark != Sparkle && |LegendMark| == 3 && |Sparkle| == 1
  {
  }

  /** The text of one part; `commandId` gives each slash command's live id. */
  function PartText(p: Part, commandId: string -> Snowflake): string {
    match p
    case HeaderText(text) => text + "\n"
    case Locked => "- Queue is locked."
    case Pulling(automatic, src, dst) =>
      "- " + (if automatic then "Automatically pulling" else "Manually pulling")
      + " members from " + ChannelMention(src) + " to " + ChannelMention(dst) + "."
    case JoinWithButtons =>
      CommandMention("join", commandId("join")) + ", " + CommandMention("leave", commandId("leave"))
      + ", or click the buttons below."
    case JoinWithCommands =>
      CommandMention("join", commandId("join")) + " or " + CommandMention("leave", commandId("leave")) + "."
    case Grace(seconds) => "- If you leave, you have '" + Bold(Duration(seconds)) + "' to reclaim your spot."
    case PriorityLegend => "- '" + LegendMark + "' indicates priority."
    case RoleNote(roleId) => "- Members are assigned the " + RoleMention(roleId) + " role."
    case ScheduleList(lines) => Join(lines, "\n")
  }

  /** The parts' texts joined with newlines. */
  function DescriptionText(parts: seq<Part>, commandId: string -> Snowflake): (r: string)
    ensures r == Join(Misc.MapSeq(parts, p => PartText(p, commandId)), "\n")
    ensures |parts| > 0 ==> |r| >= |PartText(parts[0], commandId)| && r[..|PartText(parts[0], commandId)|] == PartText(parts[0], commandId)
    ensures |parts| > 0 ==> |r| == SumLengths(Misc.MapSeq(parts, p => PartText(p, commandId))) + |parts| - 1
  {
    var texts := Misc.MapSeq(parts, p => PartText(p, commandId));
    JoinStartsWithFirst(texts, "\n");
    if |texts| == 0 then Join(texts, "\n")
    else
      JoinLength(texts, "\n");
      Join(texts, "\n")
  }

  lemma JoinStartsWithFirst(parts: seq<string>, sep: string)
    ensures |parts| > 0 ==> |Join(parts, sep)| >= |parts[0]| && Join(parts, sep)[..|parts[0]|] == parts[0]
  {
    if |parts| > 1 {
      var r := Join(parts, sep);
      assert r == parts[0] + (sep + Join(parts[1..], sep));
    }
  }

  /** A queue with a header shows it first, followed by a blank line when anything else is said. */
  lemma HeaderFirst(q: Queue, members: seq<Member>, schedules: seq<Schedule>, voice: Option<VoiceLink>,
                    fetched: Snowflake -> bool, describe: string -> string, commandId: string -> Snowflake)
    requires Truthy(q.header)
    ensures var text := DescriptionText(Parts(q, members, schedules, voice, fetched, describe), commandId);
      |text| >= |q.header.value| + 1 && text[..|q.header.value| + 1] == q.header.value + "\n"
  {
    var r := Parts(q, members, schedules, voice, fetched, describe);
    assert r[0] == HeaderText(q.header.value);
    var text := DescriptionText(r, commandId);
    assert text[..|q.header.value| + 1] == text[..|PartText(r[0], commandId)|];
  }

  // Buttons.

  datatype Button = JoinButton | LeaveButton | MyPositionsButton | PullButton

  /** `getButtonRow`: no row without buttons; the join and leave buttons only when the queue has no voice row. */
  function ButtonRow(q: Queue, voice: Option<VoiceLink>): (r: Option<seq<Button>>)
    ensures r.None? <==> !q.buttonsToggle
    ensures r.Some? ==> |r.value| >= 2 && r.value[|r.value| - 2..] == [MyPositionsButton, PullButton]
    ensures r.Some? ==> (JoinButton in r.value <==> voice.None?) && (LeaveButton in r.value <==> voice.None?)
  {
    if !q.buttonsToggle then None
    else if voice.None? then Some([JoinButton, LeaveButton, MyPositionsButton, PullButton])
    else Some([MyPositionsButton, PullButton])
  }

  /**
   * As written, the description and the buttons test the voice row
   * differently: a voice row that names no channels suppresses the join
   * buttons while the description still says to click them.
   */
  lemma ButtonsPromisedButMissing(q: Queue, members: seq<Member>, schedules: seq<Schedule>,
                                  fetched: Snowflake -> bool, describe: string -> string)
    requires q.buttonsToggle && !q.lockToggle
    ensures var voice := Some(VoiceLink(None, None));
      && JoinWithButtons in Parts(q, members, schedules, voice, fetched, describe)
      && JoinButton !in ButtonRow(q, voice).value
  {
    JoinLinePresent(q, members, schedules, Some(VoiceLink(None, None)), fetched, describe);
  }
}

=== FILE: display_push.dfy ===
/**
 * Pushing a queue's display to its channels (`updateDisplays` and
 * `handleFailedDisplayUpdate` in `display.utils.ts`). Every display of the
 * queue gets the same embeds; how it gets them depends on the queue's
 * update type: edit the last message in place, send a new one, or delete
 * the last one and send a new one. Discord's answers to each call are not
 * computed here: they are the `World` of each display, and what the bot
 * asks of Discord comes back as a log of `Action`s. The displays are
 * served one after another.
 */
module DisplayPush {
  import opened Wrappers
  import opened Text
  import opened Tables
  import opened Schema
  import opened Strings
  import opened Queries
  import opened Store
  import opened Memo
  import opened DisplayScheduler
  import opened DisplayRender
  import opened DisplayDescription

  // Discord's side.

  /**
   * `jsChannel`: the channel, a 404 (which also deletes the channel's
   * displays), or another failure. Both failures leave the channel undefined.
   */
  datatype ChannelFetch = Fetched | NotFound | FetchFailed

  /** `verifyCanSendMessages`: passes, or throws an error carrying embeds for the initiator. */
  datatype PermissionCheck = CanSend | CannotSend(extraEmbeds: seq<Embed>)

  /** `jsChannel.send`: a message, nothing, or an error with its message. */
  datatype SendOutcome = Sent(messageId: Snowflake) | SentNothing | SendFailed(message: string)

  /**
   * Everything Discord answers while one display is updated. `lastMessage`
   * is what fetching the display's last message gives (`None` for a failed
   * fetch); `editFailure` is the error of editing it in place, if any.
   */
  datatype World = World(
    channel: ChannelFetch,
    check: PermissionCheck,
    lastMessage: Option<Snowflake>,
    editFailure: Option<string>,
    send: SendOutcome)

  /** The embed `handleFailedDisplayUpdate` sends to the initiator. */
  datatype Report = Report(title: string, color: string, description: string, footer: Option<string>)

  /** What the initiator is sent: the permission check's own embeds, or a failure report. */
  datatype Notice = Forwarded(embeds: seq<Embed>) | Failure(report: Report)

  /**
   * One request to Discord. Deleting the last message and stripping its
   * buttons are best effort: their failures are swallowed. An edit in
   * place keeps the message's buttons.
   */
  datatype Action =
    | DeleteMessage(messageId: Snowflake)
    | SendMessage(channelId: Snowflake, pages: seq<Page>, buttons: Option<seq<Button>>)
    | EditMessage(messageId: Snowflake, pages: seq<Page>)
    | StripButtons(messageId: Snowflake, pages: seq<Page>)
    | NotifyUser(userId: Snowflake, notice: Notice)

  // The failure report.

  const FailureTitle := "Failed to display queue"
  /** `Color.Red`. */
  const Red := "#FF0000"
  const LoggedFooter := "This error has been logged and will be investigated by the developers."

  /**
   * `/access|permission/i.test(message)`. Without the `u` flag a
   * case-insensitive match never maps a non-ASCII character onto an ASCII
   * one, so ASCII lower-casing decides it exactly.
   */
  predicate IsPermissionError(message: string) {
    Contains(Lower(message), "access") || Contains(Lower(message), "permission")
  }

  function CodeBlock(s: string): string { "```\n" + s + "\n```" }

  function PermissionHint(channelId: Snowflake): string {
    Bold("It looks like a permission issue, please check the bot's perms in " + ChannelMention(channelId) + ". ")
  }

  /**
   * The report on a display that could not be updated: it greets the
   * initiator, names the queue and the channel, adds a hint when the error
   * looks like a permission problem, and quotes the error. Only errors that
   * are not about permissions are logged, and only their report says so.
   */
  function FailureReport(q: Queue, channelId: Snowflake, initiator: Snowflake, message: string): (r: Report)
    ensures r.title == FailureTitle && r.color == Red
    ensures r.footer.None? <==> IsPermissionError(message)
    ensures r.footer.Some? ==> r.footer.value == LoggedFooter
    ensures |r.description| >= |CodeBlock(message)|
      && r.description[|r.description| - |CodeBlock(message)|..] == CodeBlock(message)
  {
    var perm := IsPermissionError(message);
    var greeting := "Hey " + UserMention(initiator) + ", I just tried to display the '" + QueueMention(q)
      + "' queue in " + ChannelMention(channelId) + ", but something went wrong. ";
    var description := greeting + (if perm then PermissionHint(channelId) else "") + "Here's the error:" + CodeBlock(message);
    Report(FailureTitle, Red, description, if perm then None else Some(LoggedFooter))
  }

  /** The classification ignores case. */
  lemma PermissionErrorIgnoresCase(message: string)
    ensures IsPermissionError(message) <==> IsPermissionError(Lower(message))
  {
    assert Lower(Lower(message)) == Lower(message);
  }

  /** A message is a permission error as soon as the word appears in it, wherever that is. */
  lemma PermissionErrorAnywhere(before: string, message: string, after: string)
    requires IsPermissionError(message)
    ensures IsPermissionError(before + message + after)
  {
    LowerAppend(before, message);
    LowerAppend(before + message, after);
    var word := if Contains(Lower(message), "access") then "access" else "permission";
    ContainsWithin(Lower(before), Lower(message), Lower(after), word);
  }

  /** Discord's "Missing Access" is a permission error. */
  lemma MissingAccessIsPermissionError()
    ensures IsPermissionError("Missing Access")
  {
    var s := Lower("Missing Access");
    assert s == "missing access";
    assert OccursAt(s, "access", 8);
    ContainsMeans(s, "access");
  }

  /** Discord's "Missing Permissions" is a permission error. */
  lemma MissingPermissionsIsPermissionError()
    ensures IsPermissionError("Missing Permissions")
  {
    var s := Lower("Missing Permissions");
    assert s == "missing permissions";
    assert OccursAt(s, "permission", 8);
    ContainsMeans(s, "permission");
  }

  // One display.

  /** What every display of one update shares. */
  datatype Context = Context(
    queue: Queue,
    pages: seq<Page>,
    buttons: Option<seq<Button>>,
    initiator: Option<Snowflake>,
    forceNew: bool)

  /** The requests of a strategy, the id of a message it sent, and the error that stopped it. */
  datatype Step = Step(actions: seq<Action>, newMessage: Option<Snowflake>, failure: Option<string>)

  /**
   * `newDisplay`: send the embeds with the button row; once a message is
   * back, strip the buttons off the last message.
   */
  function PostNewDisplay(ctx: Context, channelId: Snowflake, last: Option<Snowflake>, send: SendOutcome): (r: Step)
    ensures |r.actions| >= 1 && r.actions[0] == SendMessage(channelId, ctx.pages, ctx.buttons)
    ensures r.newMessage.Some? <==> send.Sent?
    ensures send.Sent? ==> r.newMessage == Some(send.messageId)
    ensures r.failure.Some? <==> send.SendFailed?
    ensures forall a :: a in r.actions ==> a.SendMessage? || (a.StripButtons? && send.Sent? && last == Some(a.messageId))
  {
    var sendIt := SendMessage(channelId, ctx.pages, ctx.buttons);
    match send
    case Sent(id) => Step([sendIt] + (if last.Some? then [StripButtons(last.value, ctx.pages)] else []), Some(id), None)
    case SentNothing => Step([sendIt], None, None)
    case SendFailed(m) => Step([sendIt], None, Some(m))
  }

  /** Forced or `Replace`: the last message is deleted first. */
  predicate Replaces(ctx: Context) {
    ctx.forceNew || ctx.queue.updateType == DisplayUpdateType.Replace
  }

  /**
   * The update strategy, once the channel is known and `last` is the last
   * message found. `Replace` also tries to strip the buttons off the message
   * it just deleted; that request fails and is swallowed.
   */
  function Strategy(ctx: Context, channelId: Snowflake, last: Option<Snowflake>, w: World): (r: Step)
  {
    if Replaces(ctx) then
      var st := PostNewDisplay(ctx, channelId, last, w.send);
      st.(actions := (if last.Some? then [DeleteMessage(last.value)] else []) + st.actions)
    else if ctx.queue.updateType == DisplayUpdateType.New then
      PostNewDisplay(ctx, channelId, last, w.send)
    else if last.Some? then
      if w.editFailure.None? then Step([EditMessage(last.value, ctx.pages)], None, None)
      else
        var st := PostNewDisplay(ctx, channelId, last, w.send);
        st.(actions := [EditMessage(last.value, ctx.pages)] + st.actions)
    else
      PostNewDisplay(ctx, channelId, last, w.send)
  }

  /**
   * The TypeError of reading a property of an undefined channel, in V8's
   * wording.
   */
  function UndefinedRead(property: string): string {
    "Cannot read properties of undefined (reading '" + property + "')"
  }

  /** `handleFailedDisplayUpdate`: the report, when someone asked for the update. */
  function Reported(ctx: Context, d: Display, message: string): (r: seq<Action>)
    ensures ctx.initiator.None? ==> r == []
    ensures ctx.initiator.Some? ==>
      r == [NotifyUser(ctx.initiator.value, Failure(FailureReport(ctx.queue, d.displayChannelId, ctx.initiator.value, message)))]
  {
    if ctx.initiator.Some? then
      [NotifyUser(ctx.initiator.value, Failure(FailureReport(ctx.queue, d.displayChannelId, ctx.initiator.value, message)))]
    else []
  }

  /** What happened to one display: the requests made, whether its row goes, and the message it now shows. */
  datatype PushOutcome = PushOutcome(actions: seq<Action>, removed: bool, newMessage: Option<Snowflake>)

  /**
   * One display's turn. A failed permission check removes the display and
   * forwards the check's embeds; with the check passed, an undefined
   * channel fails on its first use. Any error ends the turn with a report.
   */
  function DisplayOutcome(ctx: Context, d: Display, w: World): (r: PushOutcome)
    ensures r.removed <==> w.check.CannotSend?
    ensures r.newMessage.Some? ==> w.check.CanSend? && w.channel.Fetched? && w.send == Sent(r.newMessage.value)
  {
    match w.check
    case CannotSend(extra) =>
      PushOutcome(if ctx.initiator.Some? then [NotifyUser(ctx.initiator.value, Forwarded(extra))] else [], true, None)
    case CanSend =>
      if !w.channel.Fetched? then
        PushOutcome(Reported(ctx, d, UndefinedRead(if Truthy(d.lastMessageId) then "messages" else "send")), false, None)
      else
        var last := if Truthy(d.lastMessageId) then w.lastMessage else None;
        var st := Strategy(ctx, d.displayChannelId, last, w);
        PushOutcome(st.actions + (if st.failure.Some? then Reported(ctx, d, st.failure.value) else []), false, st.newMessage)
  }

  /**
   * The database after one display's turn: a 404 deletes the channel's
   * displays, a failed check deletes the display (matched on all its
   * columns, which single out its row), and a sent message is recorded.
   */
  function Apply(db: Db, d: Display, w: World, o: PushOutcome): (r: Db)
    ensures r == db.(displays := r.displays)
    ensures Valid(db) ==> Valid(r)
  {
    var db1 := if w.channel.NotFound? then ChannelNotFound(db, d.displayChannelId) else db;
    if o.removed then DeleteDisplays(db1, DisplayById(d.id)).1
    else if o.newMessage.Some? then UpdateDisplay(db1, d.id, o.newMessage.value).1
    else db1
  }

  // The strategies.

  /** Forced or `Replace`: the last message, when there is one, is deleted before the new one is sent. */
  lemma ReplaceDeletesFirst(ctx: Context, d: Display, w: World)
    requires Replaces(ctx) && w.check.CanSend? && w.channel.Fetched?
    requires Truthy(d.lastMessageId) && w.lastMessage.Some?
    ensures var r := DisplayOutcome(ctx, d, w);
      |r.actions| >= 2 && r.actions[0] == DeleteMessage(w.lastMessage.value)
      && r.actions[1] == SendMessage(d.displayChannelId, ctx.pages, ctx.buttons)
  {
  }

  /**
   * As written, a replace whose send succeeds then asks to strip the
   * buttons off the message it deleted first.
   */
  lemma ReplaceStripsDeletedMessage(ctx: Context, d: Display, w: World)
    requires Replaces(ctx) && w.check.CanSend? && w.channel.Fetched?
    requires Truthy(d.lastMessageId) && w.lastMessage.Some? && w.send.Sent?
    ensures var r := DisplayOutcome(ctx, d, w);
      |r.actions| == 3 && r.actions[0] == DeleteMessage(w.lastMessage.value)
      && r.actions[2] == StripButtons(w.lastMessage.value, ctx.pages)
  {
  }

  /** A forced update always sends a new message and never edits. */
  lemma ForceNewSends(ctx: Context, d: Display, w: World)
    requires ctx.forceNew && w.check.CanSend? && w.channel.Fetched?
    ensures var r := DisplayOutcome(ctx, d, w);
      SendMessage(d.displayChannelId, ctx.pages, ctx.buttons) in r.actions
      && (forall a :: a in r.actions ==> !a.EditMessage?)
      && r.newMessage == (if w.send.Sent? then Some(w.send.messageId) else None)
  {
  }

  /** `New`: a new message is sent first, and nothing is edited or deleted. */
  lemma NewSendsFirst(ctx: Context, d: Display, w: World)
    requires !ctx.forceNew && ctx.queue.updateType == DisplayUpdateType.New
    requires w.check.CanSend? && w.channel.Fetched?
    ensures var r := DisplayOutcome(ctx, d, w);
      |r.actions| >= 1 && r.actions[0] == SendMessage(d.displayChannelId, ctx.pages, ctx.buttons)
      && forall a :: a in r.actions ==> !a.EditMessage? && !a.DeleteMessage?
  {
  }

  /** `Edit` with a last message that takes the edit: one edit in place, nothing sent, nothing recorded. */
  lemma EditInPlace(ctx: Context, d: Display, w: World)
    requires !ctx.forceNew && ctx.queue.updateType == DisplayUpdateType.Edit
    requires w.check.CanSend? && w.channel.Fetched?
    requires Truthy(d.lastMessageId) && w.lastMessage.Some? && w.editFailure.None?
    ensures DisplayOutcome(ctx, d, w) == PushOutcome([EditMessage(w.lastMessage.value, ctx.pages)], false, None)
  {
  }

  /** `Edit` falls back to sending a new message when there is no last message or the edit fails. */
  lemma EditFallsBack(ctx: Context, d: Display, w: World)
    requires !ctx.forceNew && ctx.queue.updateType == DisplayUpdateType.Edit
    requires w.check.CanSend? && w.channel.Fetched?
    requires !(Truthy(d.lastMessageId) && w.lastMessage.Some?) || w.editFailure.Some?
    ensures var r := DisplayOutcome(ctx, d, w);
      SendMessage(d.displayChannelId, ctx.pages, ctx.buttons) in r.actions
      && r.newMessage == (if w.send.Sent? then Some(w.send.messageId) else None)
  {
  }

  /** Buttons are only stripped off a message once its replacement was sent. */
  lemma StripOnlyAfterSend(ctx: Context, d: Display, w: World)
    ensures var r := DisplayOutcome(ctx, d, w);
      forall a :: a in r.actions && a.StripButtons? ==> w.send.Sent? && r.newMessage == Some(w.send.messageId)
  {
    var r := DisplayOutcome(ctx, d, w);
    if w.check.CanSend? && w.channel.Fetched? {
      var last := if Truthy(d.lastMessageId) then w.lastMessage else None;
      var st := Strategy(ctx, d.displayChannelId, last, w);
      StrategyStripsAfterSend(ctx, d.displayChannelId, last, w);
      assert forall a :: a in r.actions && a.StripButtons? ==> a in st.actions;
    }
  }

  /** Whatever the strategy, a strip request comes only with a sent replacement. */
  lemma StrategyStripsAfterSend(ctx: Context, channelId: Snowflake, last: Option<Snowflake>, w: World)
    ensures var st := Strategy(ctx, channelId, last, w);
      forall a :: a in st.actions && a.StripButtons? ==> w.send.Sent? && st.newMessage == Some(w.send.messageId)
  {
    var st := Strategy(ctx, channelId, last, w);
    var nd := PostNewDisplay(ctx, channelId, last, w.send);
    assert forall a :: a in st.actions && a.StripButtons? ==> a in nd.actions;
  }

  /** A display the bot may not post in gets nothing but the forwarded embeds, and its row goes. */
  lemma NoPostWithoutPermission(ctx: Context, d: Display, w: World)
    requires w.check.CannotSend?
    ensures var r := DisplayOutcome(ctx, d, w);
      r.removed && r.newMessage.None?
      && forall a :: a in r.actions ==> a == NotifyUser(ctx.initiator.value, Forwarded(w.check.extraEmbeds))
  {
  }

  /** A failure report goes out only when the turn produced no new message, and only to an initiator. */
  lemma ReportOnlyOnFailure(ctx: Context, d: Display, w: World)
    ensures var r := DisplayOutcome(ctx, d, w);
      forall a :: a in r.actions && a.NotifyUser? && a.notice.Failure? ==>
        ctx.initiator == Some(a.userId) && r.newMessage.None? && !r.removed
  {
  }

  /** A failed send is reported to the initiator, with the send's error. */
  lemma FailedSendReported(ctx: Context, d: Display, w: World)
    requires w.check.CanSend? && w.channel.Fetched? && w.send.SendFailed? && ctx.initiator.Some?
    requires Replaces(ctx) || ctx.queue.updateType == DisplayUpdateType.New
    ensures var r := DisplayOutcome(ctx, d, w);
      |r.actions| >= 1 && r.actions[|r.actions| - 1] ==
        NotifyUser(ctx.initiator.value, Failure(FailureReport(ctx.queue, d.displayChannelId, ctx.initiator.value, w.send.message)))
  {
  }

  // All displays.

  /** The displays, one after another, on the database as each leaves it. */
  function UpdateAll(db: Db, ctx: Context, ds: seq<Display>, world: RowId -> World): (r: (Db, seq<Action>))
    ensures r.0 == db.(displays := r.0.displays)
    ensures Valid(db) ==> Valid(r.0)
    decreases |ds|
  {
    if |ds| == 0 then (db, [])
    else
      var w := world(ds[0].id);
      var o := DisplayOutcome(ctx, ds[0], w);
      var rest := UpdateAll(Apply(db, ds[0], w, o), ctx, ds[1..], world);
      (rest.0, o.actions + rest.1)
  }

  /** The requests each display makes on its own, in display order. */
  function AllActions(ctx: Context, ds: seq<Display>, world: RowId -> World): seq<Action>
    decreases |ds|
  {
    if |ds| == 0 then []
    else DisplayOutcome(ctx, ds[0], world(ds[0].id)).actions + AllActions(ctx, ds[1..], world)
  }

  /** The requests do not depend on the database, so nothing one display does changes another's. */
  lemma {:induction false} UpdateAllActions(db: Db, ctx: Context, ds: seq<Display>, world: RowId -> World)
    ensures UpdateAll(db, ctx, ds, world).1 == AllActions(ctx, ds, world)
    decreases |ds|
  {
    if |ds| > 0 {
      var w := world(ds[0].id);
      UpdateAllActions(Apply(db, ds[0], w, DisplayOutcome(ctx, ds[0], w)), ctx, ds[1..], world);
    }
  }

  lemma {:induction false} AllActionsAppend(ctx: Context, a: seq<Display>, b: seq<Display>, world: RowId -> World)
    ensures AllActions(ctx, a + b, world) == AllActions(ctx, a, world) + AllActions(ctx, b, world)
    decreases |a|
  {
    if |a| == 0 {
      assert a + b == b;
    } else {
      assert (a + b)[1..] == a[1..] + b;
      AllActionsAppend(ctx, a[1..], b, world);
    }
  }

  /**
   * Every display gets its turn whatever happened to the ones before it:
   * the requests are those of the displays before, this display's own, and
   * those of the displays after.
   */
  lemma EveryDisplayServed(db: Db, ctx: Context, ds: seq<Display>, world: RowId -> World, i: nat)
    requires i < |ds|
    ensures UpdateAll(db, ctx, ds, world).1 ==
      AllActions(ctx, ds[..i], world) + DisplayOutcome(ctx, ds[i], world(ds[i].id)).actions + AllActions(ctx, ds[i + 1..], world)
  {
    UpdateAllActions(db, ctx, ds, world);
    AllActionsAround(ctx, ds, world, i);
  }

  /** The requests of a run, split around one display. */
  lemma AllActionsAround(ctx: Context, ds: seq<Display>, world: RowId -> World, i: nat)
    requires i < |ds|
    ensures AllActions(ctx, ds, world) ==
      AllActions(ctx, ds[..i], world) + DisplayOutcome(ctx, ds[i], world(ds[i].id)).actions + AllActions(ctx, ds[i + 1..], world)
  {
    var pre, tail := ds[..i], ds[i..];
    assert ds == pre + tail;
    AllActionsAppend(ctx, pre, tail, world);
    AllActionsCons(ctx, tail, world);
    assert tail[0] == ds[i] && tail[1..] == ds[i + 1..];
  }

  lemma AllActionsCons(ctx: Context, ds: seq<Display>, world: RowId -> World)
    requires |ds| > 0
    ensures AllActions(ctx, ds, world) == DisplayOutcome(ctx, ds[0], world(ds[0].id)).actions + AllActions(ctx, ds[1..], world)
  {
  }

  // What the turns do to the displays table.

  /** Which rows a display's turn may touch: its own, and its channel's on a 404. */
  predicate Untouched(x: Display, d: Display, w: World) {
    x.id != d.id && (w.channel.NotFound? ==> x.displayChannelId != d.displayChannelId)
  }

  /** A turn leaves every row it does not touch in place. */
  lemma ApplyKeeps(db: Db, d: Display, w: World, o: PushOutcome, x: Display)
    requires x in db.displays && Untouched(x, d, w)
    ensures x in Apply(db, d, w, o).displays
  {
    var db1 := if w.channel.NotFound? then ChannelNotFound(db, d.displayChannelId) else db;
    var k :| 0 <= k < |db.displays| && db.displays[k] == x;
    assert x in db1.displays;
    var k1 :| 0 <= k1 < |db1.displays| && db1.displays[k1] == x;
    if o.removed {
      assert x in Filter(db1.displays, (e: Display) => !DisplaySelected(DisplayById(d.id), e));
    } else if o.newMessage.Some? {
      assert UpdateDisplay(db1, d.id, o.newMessage.value).1.displays[k1] == x;
    }
  }

  /** The ids of a run of displays. */
  function Ids(ds: seq<Display>): (r: seq<RowId>)
    ensures |r| == |ds| && forall i :: 0 <= i < |ds| ==> r[i] == ds[i].id
  {
    seq(|ds|, i requires 0 <= i < |ds| => ds[i].id)
  }

  /** A row none of the turns touches survives the run. */
  lemma {:induction false} UpdateAllKeeps(db: Db, ctx: Context, ds: seq<Display>, world: RowId -> World, x: Display)
    requires x in db.displays
    requires forall j :: 0 <= j < |ds| ==> Untouched(x, ds[j], world(ds[j].id))
    ensures x in UpdateAll(db, ctx, ds, world).0.displays
    decreases |ds|
  {
    if |ds| > 0 {
      var w := world(ds[0].id);
      var o := DisplayOutcome(ctx, ds[0], w);
      ApplyKeeps(db, ds[0], w, o, x);
      assert forall j :: 0 <= j < |ds[1..]| ==> ds[1..][j] == ds[j + 1];
      UpdateAllKeeps(Apply(db, ds[0], w, o), ctx, ds[1..], world, x);
    }
  }

  /** No row of the table has the id. */
  predicate Absent(rows: seq<Display>, id: RowId) {
    forall k :: 0 <= k < |rows| ==> rows[k].id != id
  }

  /** No turn adds a row: an id missing before a turn is missing after it. */
  lemma ApplyAddsNothing(db: Db, d: Display, w: World, o: PushOutcome, id: RowId)
    requires Absent(db.displays, id)
    ensures Absent(Apply(db, d, w, o).displays, id)
  {
    var db1 := if w.channel.NotFound? then ChannelNotFound(db, d.displayChannelId) else db;
    assert Absent(db1.displays, id);
  }

  lemma {:induction false} UpdateAllAddsNothing(db: Db, ctx: Context, ds: seq<Display>, world: RowId -> World, id: RowId)
    requires Absent(db.displays, id)
    ensures Absent(UpdateAll(db, ctx, ds, world).0.displays, id)
    decreases |ds|
  {
    if |ds| > 0 {
      var w := world(ds[0].id);
      var o := DisplayOutcome(ctx, ds[0], w);
      ApplyAddsNothing(db, ds[0], w, o, id);
      UpdateAllAddsNothing(Apply(db, ds[0], w, o), ctx, ds[1..], world, id);
    }
  }

  /** After a turn that removed the display, its id is gone. */
  lemma ApplyRemoves(db: Db, d: Display, w: World, o: PushOutcome)
    requires o.removed
    ensures Absent(Apply(db, d, w, o).displays, d.id)
  {
  }

  /** After a turn that sent a message, the display's row records it. */
  lemma ApplyRecords(db: Db, d: Display, w: World, o: PushOutcome)
    requires d in db.displays && !w.channel.NotFound? && !o.removed && o.newMessage.Some?
    ensures d.(lastMessageId := o.newMessage) in Apply(db, d, w, o).displays
  {
    var k :| 0 <= k < |db.displays| && db.displays[k] == d;
    assert Apply(db, d, w, o).displays[k] == d.(lastMessageId := o.newMessage);
  }

  /** Distinct rows of one queue: their ids and their channels differ. */
  predicate Separate(ds: seq<Display>) {
    forall i, j :: 0 <= i < j < |ds| ==> ds[i].id != ds[j].id && ds[i].displayChannelId != ds[j].displayChannelId
  }

  /**
   * A display whose turn sent a message shows it at the end of the run:
   * no other turn touches its row.
   */
  lemma {:induction false} SentIsRecorded(db: Db, ctx: Context, ds: seq<Display>, world: RowId -> World, i: nat)
    requires i < |ds| && Separate(ds) && ds[i] in db.displays
    requires DisplayOutcome(ctx, ds[i], world(ds[i].id)).newMessage.Some?
    ensures ds[i].(lastMessageId := DisplayOutcome(ctx, ds[i], world(ds[i].id)).newMessage) in UpdateAll(db, ctx, ds, world).0.displays
    decreases |ds|
  {
    var w := world(ds[0].id);
    var o := DisplayOutcome(ctx, ds[0], w);
    var db1 := Apply(db, ds[0], w, o);
    assert forall j :: 0 <= j < |ds[1..]| ==> ds[1..][j] == ds[j + 1];
    if i == 0 {
      ApplyRecords(db, ds[0], w, o);
      var x := ds[0].(lastMessageId := o.newMessage);
      assert forall j :: 0 <= j < |ds[1..]| ==> Untouched(x, ds[1..][j], world(ds[1..][j].id));
      UpdateAllKeeps(db1, ctx, ds[1..], world, x);
    } else {
      ApplyKeeps(db, ds[0], w, o, ds[i]);
      SentIsRecorded(db1, ctx, ds[1..], world, i - 1);
    }
  }

  /** A display whose permission check failed is gone at the end of the run. */
  lemma {:induction false} RefusedIsRemoved(db: Db, ctx: Context, ds: seq<Display>, world: RowId -> World, i: nat)
    requires i < |ds| && world(ds[i].id).check.CannotSend?
    ensures Absent(UpdateAll(db, ctx, ds, world).0.displays, ds[i].id)
    decreases |ds|
  {
    var w := world(ds[0].id);
    var o := DisplayOutcome(ctx, ds[0], w);
    var db1 := Apply(db, ds[0], w, o);
    if i == 0 {
      ApplyRemoves(db, ds[0], w, o);
      UpdateAllAddsNothing(db1, ctx, ds[1..], world, ds[0].id);
    } else {
      assert ds[1..][i - 1] == ds[i];
      RefusedIsRemoved(db1, ctx, ds[1..], world, i - 1);
    }
  }

  // The whole update.

  /** What the render and the requests need from outside the database. */
  datatype Env = Env(
    users: Snowflake -> UserFetch<DiscordUser>,
    time: (int, Option<char>) -> string,
    voice: Option<VoiceLink>,
    channels: Snowflake -> ChannelFetch,
    describe: string -> string,
    commandId: string -> Snowflake,
    initiator: Option<Snowflake>)

  /** The users a mention can name: those Discord found. */
  function Known(users: Snowflake -> UserFetch<DiscordUser>): (r: Snowflake -> Option<DiscordUser>)
    ensures forall u :: r(u).Some? <==> users(u).UserFound?
    ensures forall u :: users(u).UserFound? ==> r(u) == Some(users(u).user)
  {
    (u: Snowflake) => if users(u).UserFound? then Some(users(u).user) else None
  }

  /** Discord returned the user of every member. */
  predicate AllFound(members: seq<Member>, users: Snowflake -> UserFetch<DiscordUser>) {
    forall i :: 0 <= i < |members| ==> users(members[i].userId).UserFound?
  }

  /** The channels the description can name: those Discord fetched. */
  function Reachable(channels: Snowflake -> ChannelFetch): (r: Snowflake -> bool)
    ensures forall c :: r(c) <==> channels(c).Fetched?
  {
    (c: Snowflake) => channels(c).Fetched?
  }

  /** The displays to update: the guild's displays of the queue, narrowed to `displayIds` when given. */
  function Selected(db: Db, guildId: Snowflake, queueId: RowId, opts: Option<RefreshOpts>): (r: seq<Display>)
    ensures forall i :: 0 <= i < |r| ==> r[i] in db.displays && r[i].guildId == guildId && r[i].queueId == queueId
    ensures forall i :: 0 <= i < |r| && opts.Some? && opts.value.displayIds.Some? ==> r[i].id in opts.value.displayIds.value
    ensures forall d :: (d in db.displays && d.guildId == guildId && d.queueId == queueId
      && (opts.Some? && opts.value.displayIds.Some? ==> d.id in opts.value.displayIds.value)) ==> d in r
  {
    var mine := Filter(FreshDisplays(db, guildId), (d: Display) => d.queueId == queueId);
    if opts.Some? && opts.value.displayIds.Some? then
      Filter(mine, (d: Display) => d.id in opts.value.displayIds.value)
    else mine
  }

  /** In a valid database the selected displays are separate rows. */
  lemma SelectedSeparate(db: Db, guildId: Snowflake, queueId: RowId, opts: Option<RefreshOpts>)
    requires Valid(db)
    ensures Separate(Selected(db, guildId, queueId, opts))
  {
    var guild := FreshDisplays(db, guildId);
    var mine := Filter(guild, (d: Display) => d.queueId == queueId);
    FilterKeepsTable(db.displays, (d: Display) => d.guildId == guildId, DisplayId, DisplayKey, db.nextId);
    FilterKeepsTable(guild, (d: Display) => d.queueId == queueId, DisplayId, DisplayKey, db.nextId);
    if opts.Some? && opts.value.displayIds.Some? {
      FilterKeepsTable(mine, (d: Display) => d.id in opts.value.displayIds.value, DisplayId, DisplayKey, db.nextId);
    }
    var r := Selected(db, guildId, queueId, opts);
    assert IdsAscending(r, DisplayId) && UniqueBy(r, DisplayKey);
  }

  /**
   * `generateQueueDisplay`: the queue's members in member order as
   * numbered lines, under the description. A member Discord does not
   * return fails the whole render.
   */
  function Render(db: Db, guildId: Snowflake, q: Queue, env: Env): (r: Result<seq<Page>, Error>)
    ensures r.Err? <==> !AllFound(QueueOf(db, guildId, q), env.users)
    ensures r.Ok? ==> (|r.value| >= 1 && |r.value[|r.value| - 1].fields| >= 1
      && r.value[|r.value| - 1].fields[0].name == SizeText(|QueueOf(db, guildId, q)|, q.size))
  {
    var members := QueueOf(db, guildId, q);
    assert AllKnown(members, Known(env.users)) <==> AllFound(members, env.users);
    match MemberLines(q, members, Known(env.users), env.time)
    case Err(e) => Err(e)
    case Ok(lines) => Ok(QueueDisplay(q, Description(db, guildId, q, env), lines))
  }

  /** `buildDescription`: the parts of the queue's description, as text. */
  function Description(db: Db, guildId: Snowflake, q: Queue, env: Env): string {
    var parts := Parts(q, QueueOf(db, guildId, q), FreshSchedules(db, guildId), env.voice, Reachable(env.channels), env.describe);
    DescriptionText(parts, env.commandId)
  }

  /**
   * The voice channels `buildDescription` fetches: on an unlocked queue
   * whose voice row names both, the source and then the destination.
   */
  function VoiceFetches(q: Queue, voice: Option<VoiceLink>): (r: seq<Snowflake>)
    ensures |r| == 0 || |r| == 2
    ensures |r| == 2 <==> !q.lockToggle && Linked(voice)
    ensures |r| == 2 ==> r == [voice.value.sourceChannelId.value, voice.value.destinationChannelId.value]
  {
    if !q.lockToggle && Linked(voice) then [voice.value.sourceChannelId.value, voice.value.destinationChannelId.value]
    else []
  }

  /** `c` is one of `ids` and Discord answers 404 for it. */
  predicate Gone(ids: seq<Snowflake>, channels: Snowflake -> ChannelFetch, c: Snowflake) {
    channels(c).NotFound? && c in ids
  }

  /** The fetches of `ids` in turn: each 404 deletes that channel's displays. */
  function ForgetMissingChannels(db: Db, ids: seq<Snowflake>, channels: Snowflake -> ChannelFetch): (r: Db)
    ensures r == db.(displays := r.displays)
    ensures forall d :: d in r.displays <==> d in db.displays && !Gone(ids, channels, d.displayChannelId)
    ensures Valid(db) ==> Valid(r)
    decreases |ids|
  {
    if |ids| == 0 then db
    else
      var db1 := if channels(ids[0]).NotFound? then ChannelNotFound(db, ids[0]) else db;
      assert forall c :: c in ids <==> c == ids[0] || c in ids[1..] by {
        assert ids == [ids[0]] + ids[1..];
      }
      ForgetMissingChannels(db1, ids[1..], channels)
  }

  /** In a table with unique ids, a display whose channel is gone leaves no row with its id. */
  lemma GoneDisplayLeavesNoId(db: Db, ids: seq<Snowflake>, channels: Snowflake -> ChannelFetch, d: Display)
    requires Valid(db) && d in db.displays && Gone(ids, channels, d.displayChannelId)
    ensures Absent(ForgetMissingChannels(db, ids, channels).displays, d.id)
  {
    var rows := ForgetMissingChannels(db, ids, channels).displays;
    AscendingIdsUnique(db.displays, DisplayId);
    forall k | 0 <= k < |rows|
      ensures rows[k].id != d.id
    {
      var x := rows[k];
      assert x in db.displays && x != d;
    }
  }

  /**
   * The store writes of the render: the member rows of users that 404;
   * when every user is found, the render reaches the description, and the
   * displays of a voice channel that 404s.
   */
  function RenderCleanUp(db: Db, guildId: Snowflake, q: Queue, env: Env): (r: Db)
    ensures r == db.(members := r.members, displays := r.displays)
    ensures forall m :: m in r.members ==> m in db.members
    ensures forall d :: d in r.displays ==> d in db.displays
    ensures Valid(db) ==> Valid(r)
  {
    var members := QueueOf(db, guildId, q);
    var db1 := ForgetMissingUsers(db, guildId, members, env.users);
    if Render(db, guildId, q, env).Ok? then ForgetMissingChannels(db1, VoiceFetches(q, env.voice), env.channels)
    else db1
  }

  /** `dbMembers()` narrowed to the queue. */
  function QueueOf(db: Db, guildId: Snowflake, q: Queue): seq<Member> {
    Filter(GuildMembers(db, guildId), (m: Member) => m.queueId == q.id)
  }

  const DisplaysAdded := "displaysAdded"

  /** What the displays of one update share: the queue, its embeds and its button row. */
  function ContextOf(q: Queue, pages: seq<Page>, opts: Option<RefreshOpts>, env: Env): Context {
    Context(q, pages, ButtonRow(q, env.voice), env.initiator, opts.Some? && opts.value.forceNew)
  }

  /**
   * `updateDisplays`. Reading the id of a missing queue throws, and the
   * outer handler only logs, so nothing changes. Otherwise the displays are
   * selected first, then the render runs and its 404s delete what they
   * delete; a failed render ends the update there. After a successful one
   * every selected display takes its turn on the database the render left,
   * and the guild's `displaysAdded` counter grows by the number selected,
   * whatever their turns did.
   */
  function UpdateDisplays(db: Db, pending: PendingStats, guildId: Snowflake, queueId: RowId,
                          opts: Option<RefreshOpts>, env: Env, world: RowId -> World): (r: (Db, PendingStats, seq<Action>))
    ensures QueueById(FreshQueues(db, guildId), queueId).None? ==> r == (db, pending, [])
    ensures r.0 == db.(members := r.0.members, displays := r.0.displays)
    ensures forall m :: m in r.0.members ==> m in db.members
    ensures Valid(db) ==> Valid(r.0)
  {
    match QueueById(FreshQueues(db, guildId), queueId)
    case None => (db, pending, [])
    case Some(q) =>
      var ds := Selected(db, guildId, q.id, opts);
      var db1 := RenderCleanUp(db, guildId, q, env);
      match Render(db, guildId, q, env)
      case Err(_) => (db1, pending, [])
      case Ok(pages) =>
        var run := UpdateAll(db1, ContextOf(q, pages, opts, env), ds, world);
        (run.0, IncrementGuildStat(pending, guildId, DisplaysAdded, |ds|), run.1)
  }

  /**
   * With the queue found and rendered, the update is the run over the
   * selected displays, on the database less the displays of the voice
   * channels that 404.
   */
  lemma UpdateDisplaysRuns(db: Db, pending: PendingStats, guildId: Snowflake, queueId: RowId,
                           opts: Option<RefreshOpts>, env: Env, world: RowId -> World)
    requires QueueById(FreshQueues(db, guildId), queueId).Some?
    requires Render(db, guildId, QueueById(FreshQueues(db, guildId), queueId).value, env).Ok?
    ensures var q := QueueById(FreshQueues(db, guildId), queueId).value;
      var ctx := ContextOf(q, Render(db, guildId, q, env).value, opts, env);
      var db1 := ForgetMissingChannels(db, VoiceFetches(q, env.voice), env.channels);
      var run := UpdateAll(db1, ctx, Selected(db, guildId, queueId, opts), world);
      UpdateDisplays(db, pending, guildId, queueId, opts, env, world)
        == (run.0, IncrementGuildStat(pending, guildId, DisplaysAdded, |Selected(db, guildId, queueId, opts)|), run.1)
  {
    var q := QueueById(FreshQueues(db, guildId), queueId).value;
    RenderedFindsEveryone(db, guildId, QueueOf(db, guildId, q), env.users);
  }

  /** When every queued user is found, which a successful render needs, no member row is deleted. */
  lemma RenderedFindsEveryone(db: Db, guildId: Snowflake, members: seq<Member>, users: Snowflake -> UserFetch<DiscordUser>)
    requires AllFound(members, users)
    ensures ForgetMissingUsers(db, guildId, members, users) == db
  {
    assert forall k :: 0 <= k < |members| ==> !users(members[k].userId).UserNotFound?;
  }

  /**
   * A render that fails (a member Discord does not return) ends the update
   * with no request and no counter moved. The member rows of every queued
   * user that Discord answers 404 for are deleted in the guild, and nothing
   * else changes.
   */
  lemma FailedRenderForgetsMissingUsers(db: Db, pending: PendingStats, guildId: Snowflake, queueId: RowId,
                                        opts: Option<RefreshOpts>, env: Env, world: RowId -> World)
    requires QueueById(FreshQueues(db, guildId), queueId).Some?
    requires Render(db, guildId, QueueById(FreshQueues(db, guildId), queueId).value, env).Err?
    ensures var r := UpdateDisplays(db, pending, guildId, queueId, opts, env, world);
      var members := QueueOf(db, guildId, QueueById(FreshQueues(db, guildId), queueId).value);
      && r.1 == pending && r.2 == []
      && r.0 == db.(members := r.0.members)
      && forall m :: m in r.0.members <==> m in db.members && !(m.guildId == guildId && Missing(members, env.users, m.userId))
  {
  }

  /**
   * With the queue found and rendered, no member row changes, and a display
   * in a voice channel that Discord answers 404 for is gone afterwards.
   */
  lemma VoiceNotFoundRemovesDisplays(db: Db, pending: PendingStats, guildId: Snowflake, queueId: RowId,
                                     opts: Option<RefreshOpts>, env: Env, world: RowId -> World, d: Display)
    requires Valid(db)
    requires QueueById(FreshQueues(db, guildId), queueId).Some?
    requires Render(db, guildId, QueueById(FreshQueues(db, guildId), queueId).value, env).Ok?
    requires d in db.displays
    requires Gone(VoiceFetches(QueueById(FreshQueues(db, guildId), queueId).value, env.voice), env.channels, d.displayChannelId)
    ensures var r := UpdateDisplays(db, pending, guildId, queueId, opts, env, world);
      r.0.members == db.members && Absent(r.0.displays, d.id)
  {
    var q := QueueById(FreshQueues(db, guildId), queueId).value;
    var db1 := ForgetMissingChannels(db, VoiceFetches(q, env.voice), env.channels);
    UpdateDisplaysRuns(db, pending, guildId, queueId, opts, env, world);
    GoneDisplayLeavesNoId(db, VoiceFetches(q, env.voice), env.channels, d);
    var ctx := ContextOf(q, Render(db, guildId, q, env).value, opts, env);
    UpdateAllAddsNothing(db1, ctx, Selected(db, guildId, queueId, opts), world, d.id);
  }

  /**
   * With the queue found and rendered, `displaysAdded` counts every
   * selected display, those that failed or were removed included, and no
   * other counter moves.
   */
  lemma CountsEverySelected(db: Db, pending: PendingStats, guildId: Snowflake, queueId: RowId,
                            opts: Option<RefreshOpts>, env: Env, world: RowId -> World)
    requires QueueById(FreshQueues(db, guildId), queueId).Some?
    requires Render(db, guildId, QueueById(FreshQueues(db, guildId), queueId).value, env).Ok?
    ensures var r := UpdateDisplays(db, pending, guildId, queueId, opts, env, world);
      && StatOf(r.1, guildId, DisplaysAdded) == StatOf(pending, guildId, DisplaysAdded) + |Selected(db, guildId, queueId, opts)|
      && forall g, s :: (g != guildId || s != DisplaysAdded) ==> StatOf(r.1, g, s) == StatOf(pending, g, s)
  {
  }

  /** The turn ends in a send: the strategy is not an edit in place of a message that took it. */
  predicate SendsNew(forceNew: bool, q: Queue, d: Display, w: World) {
    forceNew || q.updateType != DisplayUpdateType.Edit
    || !(Truthy(d.lastMessageId) && w.lastMessage.Some?) || w.editFailure.Some?
  }

  /** A turn that sends and is answered with a message records that message. */
  lemma SendsNewRecords(ctx: Context, d: Display, w: World)
    requires w.check.CanSend? && w.channel.Fetched? && w.send.Sent? && SendsNew(ctx.forceNew, ctx.queue, d, w)
    ensures DisplayOutcome(ctx, d, w).newMessage == Some(w.send.messageId)
  {
  }

  /**
   * In a valid database, every selected display whose turn sent a message
   * shows that message afterwards, unless its channel was a voice channel
   * the render found gone.
   */
  lemma SentDisplayRecorded(db: Db, pending: PendingStats, guildId: Snowflake, queueId: RowId,
                            opts: Option<RefreshOpts>, env: Env, world: RowId -> World, i: nat)
    requires Valid(db)
    requires QueueById(FreshQueues(db, guildId), queueId).Some?
    requires Render(db, guildId, QueueById(FreshQueues(db, guildId), queueId).value, env).Ok?
    requires i < |Selected(db, guildId, queueId, opts)|
    requires var d := Selected(db, guildId, queueId, opts)[i]; var w := world(d.id);
      var q := QueueById(FreshQueues(db, guildId), queueId).value;
      && w.check.CanSend? && w.channel.Fetched? && w.send.Sent?
      && SendsNew(opts.Some? && opts.value.forceNew, q, d, w)
      && !Gone(VoiceFetches(q, env.voice), env.channels, d.displayChannelId)
    ensures var d := Selected(db, guildId, queueId, opts)[i];
      d.(lastMessageId := Some(world(d.id).send.messageId)) in UpdateDisplays(db, pending, guildId, queueId, opts, env, world).0.displays
  {
    var q := QueueById(FreshQueues(db, guildId), queueId).value;
    var pages := Render(db, guildId, q, env).value;
    var ds := Selected(db, guildId, q.id, opts);
    var ctx := ContextOf(q, pages, opts, env);
    UpdateDisplaysRuns(db, pending, guildId, queueId, opts, env, world);
    SelectedSeparate(db, guildId, queueId, opts);
    var db1 := ForgetMissingChannels(db, VoiceFetches(q, env.voice), env.channels);
    SendsNewRecords(ctx, ds[i], world(ds[i].id));
    SentIsRecorded(db1, ctx, ds, world, i);
  }

  /** Every selected display that failed the permission check is gone afterwards. */
  lemma RefusedDisplayRemoved(db: Db, pending: PendingStats, guildId: Snowflake, queueId: RowId,
                              opts: Option<RefreshOpts>, env: Env, world: RowId -> World, i: nat)
    requires QueueById(FreshQueues(db, guildId), queueId).Some?
    requires Render(db, guildId, QueueById(FreshQueues(db, guildId), queueId).value, env).Ok?
    requires i < |Selected(db, guildId, queueId, opts)|
    requires world(Selected(db, guildId, queueId, opts)[i].id).check.CannotSend?
    ensures Absent(UpdateDisplays(db, pending, guildId, queueId, opts, env, world).0.displays, Selected(db, guildId, queueId, opts)[i].id)
  {
    var q := QueueById(FreshQueues(db, guildId), queueId).value;
    var pages := Render(db, guildId, q, env).value;
    var ds := Selected(db, guildId, q.id, opts);
    var ctx := ContextOf(q, pages, opts, env);
    UpdateDisplaysRuns(db, pending, guildId, queueId, opts, env, world);
    RefusedIsRemoved(ForgetMissingChannels(db, VoiceFetches(q, env.voice), env.channels), ctx, ds, world, i);
  }
}

=== FILE: display_render.dfy ===
/**
 * How a queue display is laid out (`generateQueueDisplay` and
 * `createMemberDisplayLine` in `display.utils.ts`): one line per member,
 * packed into embed fields of under 1024 characters, with pages of at most
 * 25 fields and 6000 characters. Discord counts characters in UTF-16 code
 * units, and so does the model.
 */
module DisplayRender {
  import opened Wrappers
  import opened Text
  import opened Schema
  import opened Strings

  /** The name of every field but the size field, and the value of an empty queue's field. */
  const ZeroWidthSpace: string := "\U{200B}"
  const MaxPageLength := 6000
  const MaxFieldLength := 1024
  const MaxFields := 25

  // Member lines.

  /**
   * `createMemberDisplayLine`: the position in inline code, padded on the
   * right to `rightPadding` characters, then the member's mention and a
   * newline.
   */
  function MemberDisplayLine(position: nat, rightPadding: int, mention: string): (r: string)
    ensures |r| == 3 + (if |NatToString(position)| >= rightPadding then |NatToString(position)| else rightPadding) + |mention|
    ensures r[0] == '`' && r[|r| - 1] == '\n'
    ensures r[1..|NatToString(position)| + 1] == NatToString(position)
    ensures r[|r| - 1 - |mention|..|r| - 1] == mention
  {
    var code := PadEnd(NatToString(position), rightPadding);
    var r := InlineCode(code) + mention + "\n";
    assert r[1..|code| + 1] == code;
    assert r[|r| - 1 - |mention|..|r| - 1] == mention;
    r
  }

  /** The position can be read back from a line: it is the run of digits after the opening backtick. */
  lemma LinePositionReadBack(position: nat, rightPadding: int, mention: string)
    ensures var r := MemberDisplayLine(position, rightPadding, mention);
      DigitRun(r[1..]) == |NatToString(position)| && ParseNat(r[1..|NatToString(position)| + 1]) == position
  {
    var r := MemberDisplayLine(position, rightPadding, mention);
    var digits := NatToString(position);
    var code := PadEnd(digits, rightPadding);
    assert r == "`" + code + "`" + mention + "\n";
    var rest := r[|digits| + 1..];
    assert r[1..] == digits + rest;
    assert rest[0] == ' ' || rest[0] == '`' by {
      if |code| > |digits| {
        assert rest[0] == code[|digits|];
      } else {
        assert rest[0] == r[|code| + 1];
      }
    }
    DigitRunOf(digits, rest);
    ParseNatToString(position);
  }

  /** The lines of the given mentions, numbered from 1 and padded to their number. */
  function NumberedLines(mentions: seq<string>): (r: seq<string>)
    ensures |r| == |mentions|
    ensures forall i :: 0 <= i < |mentions| ==> r[i] == MemberDisplayLine(i + 1, |mentions|, mentions[i])
  {
    seq(|mentions|, i requires 0 <= i < |mentions| => MemberDisplayLine(i + 1, |mentions|, mentions[i]))
  }

  /** Line `i` reads back as position `i + 1` and ends with mention `i`: the lines are the mentions, numbered in order. */
  lemma NumberedLinesInOrder(mentions: seq<string>, i: nat)
    requires i < |mentions|
    ensures var line := NumberedLines(mentions)[i];
      && ParseNat(line[1..DigitRun(line[1..]) + 1]) == i + 1
      && line[|line| - 1 - |mentions[i]|..|line| - 1] == mentions[i]
  {
    LinePositionReadBack(i + 1, |mentions|, mentions[i]);
  }

  /** Every member of the queue is still known to Discord. */
  predicate AllKnown(members: seq<Member>, users: Snowflake -> Option<DiscordUser>) {
    forall i :: 0 <= i < |members| ==> users(members[i].userId).Some?
  }

  /** Each member's mention, in queue order. */
  function MemberMentions(q: Queue, members: seq<Member>, users: Snowflake -> Option<DiscordUser>,
                    time: (int, Option<char>) -> string): (r: seq<string>)
    requires AllKnown(members, users)
    ensures |r| == |members|
    ensures forall i :: 0 <= i < |members| ==> r[i] == MemberMention(q, members[i], users(members[i].userId).value, time)
  {
    seq(|members|, i requires 0 <= i < |members| => MemberMention(q, members[i], users(members[i].userId).value, time))
  }

  /**
   * The member lines of a queue. A member Discord no longer knows makes
   * `memberMention` read a property of `undefined`, which throws.
   */
  function MemberLines(q: Queue, members: seq<Member>, users: Snowflake -> Option<DiscordUser>,
                       time: (int, Option<char>) -> string): (r: Result<seq<string>, Error>)
    ensures r.Err? <==> !AllKnown(members, users)
    ensures r.Err? ==> r.error == MemberUnavailable
    ensures r.Ok? ==> r.value == NumberedLines(MemberMentions(q, members, users, time))
  {
    if AllKnown(members, users) then Ok(NumberedLines(MemberMentions(q, members, users, time)))
    else Err(MemberUnavailable)
  }

  // Size text.

  /** `size: N`, followed by ` / S` when the queue's size is truthy (set and non-zero). */
  function SizeText(count: nat, size: Option<int>): (r: string)
    ensures |r| >= 6 + |NatToString(count)| && r[..6 + |NatToString(count)|] == "size: " + NatToString(count)
    ensures size.Some? && size.value != 0 ==> r[6 + |NatToString(count)|..] == " / " + IntToString(size.value)
    ensures !(size.Some? && size.value != 0) ==> |r| == 6 + |NatToString(count)|
  {
    var head := "size: " + NatToString(count);
    if size.Some? && size.value != 0 then
      var r := head + " / " + IntToString(size.value);
      assert r[..|head|] == head && r[|head|..] == " / " + IntToString(size.value);
      r
    else head
  }

  // Pagination.

  /**
   * The loop state: the finished pages (field values only), the finished
   * fields of the current page, the field being filled, `fieldIdx` and the
   * running `embedLength`.
   */
  datatype Layout = Layout(pages: seq<seq<string>>, fields: seq<string>, value: string, fieldIdx: nat, embedLength: nat)

  function StartLayout(embedLength: nat): Layout {
    Layout([], [], "", 1, embedLength)
  }

  /** The page-full test at the top of the loop. */
  predicate PageFull(st: Layout, line: string) {
    st.embedLength + Utf16Length(line) >= MaxPageLength || st.fieldIdx == MaxFields
  }

  /** `fieldIdx` counts the current page's fields, the one being filled included; finished pages hold at most 24. */
  predicate FieldsCounted(st: Layout) {
    && |st.fields| + 1 == st.fieldIdx <= MaxFields
    && forall p :: 0 <= p < |st.pages| ==> |st.pages[p]| < MaxFields
  }

  /** Every field value, finished or being filled, is under the field limit. */
  predicate ValuesFit(st: Layout) {
    && Utf16Length(st.value) < MaxFieldLength
    && (forall j :: 0 <= j < |st.fields| ==> Utf16Length(st.fields[j]) < MaxFieldLength)
    && (forall p, j :: 0 <= p < |st.pages| && 0 <= j < |st.pages[p]| ==> Utf16Length(st.pages[p][j]) < MaxFieldLength)
  }

  /** A full page is pushed with the finished fields only: the field being filled is dropped and the running length kept. */
  function Flushed(st: Layout, line: string): (r: Layout)
    ensures PageFull(st, line) ==> r.pages == st.pages + [st.fields] && r.fields == [] && r.value == "" && r.fieldIdx == 1
    ensures !PageFull(st, line) ==> r == st
    ensures r.embedLength == st.embedLength
  {
    if PageFull(st, line) then Layout(st.pages + [st.fields], [], "", 1, st.embedLength) else st
  }

  /** A field that would reach the limit with the line is closed first. */
  function Closed(a: Layout, line: string): (r: Layout)
    ensures r.pages == a.pages && r.embedLength == a.embedLength
    ensures Utf16Length(a.value) + Utf16Length(line) >= MaxFieldLength ==>
      r.fields == a.fields + [a.value] && r.value == "" && r.fieldIdx == a.fieldIdx + 1
    ensures Utf16Length(a.value) + Utf16Length(line) < MaxFieldLength ==> r == a
  {
    if Utf16Length(a.value) + Utf16Length(line) >= MaxFieldLength
    then a.(fields := a.fields + [a.value], value := "", fieldIdx := a.fieldIdx + 1) else a
  }

  /** One turn of the loop: flush a full page, close a full field, then append the line. */
  function Place(st: Layout, line: string): (r: Layout)
    ensures r.embedLength == st.embedLength + Utf16Length(line)
    ensures |r.value| >= |line| && r.value[|r.value| - |line|..] == line
  {
    var b := Closed(Flushed(st, line), line);
    var r := b.(value := b.value + line, embedLength := b.embedLength + Utf16Length(line));
    assert r.value[|r.value| - |line|..] == line;
    r
  }

  /** A turn pushes a page exactly when the page is full, and the page it pushes is the finished fields. */
  lemma PlacePages(st: Layout, line: string)
    ensures |st.pages| <= |Place(st, line).pages| && Place(st, line).pages[..|st.pages|] == st.pages
    ensures PageFull(st, line) <==> |Place(st, line).pages| == |st.pages| + 1
    ensures PageFull(st, line) ==> Place(st, line).pages[|st.pages|] == st.fields
    ensures !PageFull(st, line) ==> |Place(st, line).pages| == |st.pages|
    ensures Place(st, line).fieldIdx <= (if PageFull(st, line) then 1 else st.fieldIdx) + 1
  {
  }

  /** Without a flush, the text of the current page grows by exactly the line. */
  lemma PlaceText(st: Layout, line: string)
    requires !PageFull(st, line)
    ensures Concat(Place(st, line).fields) + Place(st, line).value == Concat(st.fields) + st.value + line
  {
    ConcatAppend(st.fields, st.value);
  }

  /** A turn keeps the field count: the open field is counted, no page over 24 finished fields. */
  lemma PlaceCounted(st: Layout, line: string)
    requires FieldsCounted(st)
    ensures |Place(st, line).fields| + 1 == Place(st, line).fieldIdx <= MaxFields
    ensures forall p :: 0 <= p < |Place(st, line).pages| ==> |Place(st, line).pages[p]| < MaxFields
  {
  }

  lemma PlaceFits(st: Layout, line: string)
    requires ValuesFit(st) && Utf16Length(line) < MaxFieldLength
    ensures ValuesFit(Place(st, line))
  {
    var a := Flushed(st, line);
    FlushedFits(st, line);
    ClosedFits(a, line);
    Utf16LengthAppend(Closed(a, line).value, line);
  }

  lemma FlushedFits(st: Layout, line: string)
    requires ValuesFit(st)
    ensures ValuesFit(Flushed(st, line))
  {
    if PageFull(st, line) {
      var a := Flushed(st, line);
      forall p, j | 0 <= p < |a.pages| && 0 <= j < |a.pages[p]|
        ensures Utf16Length(a.pages[p][j]) < MaxFieldLength
      {
        if p == |st.pages| {
          assert a.pages[p][j] == st.fields[j];
        } else {
          assert a.pages[p] == st.pages[p];
        }
      }
    }
  }

  lemma ClosedFits(a: Layout, line: string)
    requires ValuesFit(a)
    ensures ValuesFit(Closed(a, line))
    ensures Utf16Length(Closed(a, line).value) + Utf16Length(line) < MaxFieldLength || Closed(a, line).value == ""
  {
    var b := Closed(a, line);
    if b != a {
      forall j | 0 <= j < |b.fields|
        ensures Utf16Length(b.fields[j]) < MaxFieldLength
      {
        if j < |a.fields| {
          assert b.fields[j] == a.fields[j];
        }
      }
    }
  }

  /** The whole loop. */
  function PlaceAll(st: Layout, lines: seq<string>): Layout
    decreases |lines|
  {
    if |lines| == 0 then st else PlaceAll(Place(st, lines[0]), lines[1..])
  }

  lemma {:induction false} PlaceAllPages(st: Layout, lines: seq<string>)
    ensures |st.pages| <= |PlaceAll(st, lines).pages| && PlaceAll(st, lines).pages[..|st.pages|] == st.pages
    decreases |lines|
  {
    if |lines| > 0 {
      var next := Place(st, lines[0]);
      PlacePages(st, lines[0]);
      PlaceAllPages(next, lines[1..]);
      assert PlaceAll(st, lines).pages[..|st.pages|] == PlaceAll(st, lines).pages[..|next.pages|][..|st.pages|];
    }
  }

  /** Until a page is pushed, the current page holds the lines' text, exactly and in order. */
  lemma {:induction false} PlaceAllText(st: Layout, lines: seq<string>)
    requires |PlaceAll(st, lines).pages| == |st.pages|
    ensures Concat(PlaceAll(st, lines).fields) + PlaceAll(st, lines).value == Concat(st.fields) + st.value + Concat(lines)
    decreases |lines|
  {
    if |lines| > 0 {
      var next := Place(st, lines[0]);
      PlacePages(st, lines[0]);
      PlaceAllPages(next, lines[1..]);
      PlaceText(st, lines[0]);
      PlaceAllText(next, lines[1..]);
    }
  }

  lemma {:induction false} PlaceAllCounted(st: Layout, lines: seq<string>)
    requires FieldsCounted(st)
    ensures FieldsCounted(PlaceAll(st, lines))
    decreases |lines|
  {
    if |lines| > 0 {
      PlaceCounted(st, lines[0]);
      PlaceAllCounted(Place(st, lines[0]), lines[1..]);
    }
  }

  lemma {:induction false} PlaceAllFits(st: Layout, lines: seq<string>)
    requires ValuesFit(st) && forall i :: 0 <= i < |lines| ==> Utf16Length(lines[i]) < MaxFieldLength
    ensures ValuesFit(PlaceAll(st, lines))
    decreases |lines|
  {
    if |lines| > 0 {
      PlaceFits(st, lines[0]);
      PlaceAllFits(Place(st, lines[0]), lines[1..]);
    }
  }

  /** Lines that fit the page's length and field count all stay on the current page. */
  lemma {:induction false} PlaceAllStays(st: Layout, lines: seq<string>)
    requires st.embedLength + Utf16Length(Concat(lines)) < MaxPageLength && st.fieldIdx + |lines| <= MaxFields
    ensures |PlaceAll(st, lines).pages| == |st.pages|
    decreases |lines|
  {
    if |lines| > 0 {
      var next := Place(st, lines[0]);
      PlacePages(st, lines[0]);
      Utf16LengthAppend(lines[0], Concat(lines[1..]));
      PlaceAllStays(next, lines[1..]);
    }
  }

  /** After at least one line, the field being filled ends with the last line. */
  lemma {:induction false} PlaceAllEndsWithLast(st: Layout, lines: seq<string>)
    requires |lines| > 0
    ensures var v := PlaceAll(st, lines).value;
      |v| >= |lines[|lines| - 1]| && v[|v| - |lines[|lines| - 1]|..] == lines[|lines| - 1]
    decreases |lines|
  {
    if |lines| > 1 {
      PlaceAllEndsWithLast(Place(st, lines[0]), lines[1..]);
    }
  }

  /**
   * The field values of every page. After the loop the field being filled
   * is pushed, the zero-width space standing in for an empty value.
   */
  function Paginate(start: nat, lines: seq<string>): (r: seq<seq<string>>)
    ensures |r| >= 1 && |r[|r| - 1]| >= 1
  {
    var st := PlaceAll(StartLayout(start), lines);
    st.pages + [st.fields + [if st.value == "" then ZeroWidthSpace else st.value]]
  }

  /** No page has more than 25 fields. */
  lemma PaginateFieldCount(start: nat, lines: seq<string>)
    ensures forall p :: 0 <= p < |Paginate(start, lines)| ==> |Paginate(start, lines)[p]| <= MaxFields
  {
    PlaceAllCounted(StartLayout(start), lines);
  }

  /** Lines under 1024 code units give field values under 1024 code units. */
  lemma PaginateFieldsFit(start: nat, lines: seq<string>)
    requires forall i :: 0 <= i < |lines| ==> Utf16Length(lines[i]) < MaxFieldLength
    ensures forall p, j :: 0 <= p < |Paginate(start, lines)| && 0 <= j < |Paginate(start, lines)[p]| ==>
      Utf16Length(Paginate(start, lines)[p][j]) < MaxFieldLength
  {
    var st := PlaceAll(StartLayout(start), lines);
    PlaceAllFits(StartLayout(start), lines);
    assert Utf16Length(ZeroWidthSpace) == 1;
    var r := Paginate(start, lines);
    forall p, j | 0 <= p < |r| && 0 <= j < |r[p]|
      ensures Utf16Length(r[p][j]) < MaxFieldLength
    {
      if p < |st.pages| {
        assert r[p] == st.pages[p];
      } else if j < |st.fields| {
        assert r[p][j] == st.fields[j];
      }
    }
  }

  /**
   * A queue whose text fits the page, in at most 24 lines, is one page,
   * and that page holds exactly its lines, in order.
   */
  lemma PaginateOnePage(start: nat, lines: seq<string>)
    requires start + Utf16Length(Concat(lines)) < MaxPageLength && |lines| <= MaxFields - 1
    requires |lines| > 0 && lines[|lines| - 1] != ""
    ensures |Paginate(start, lines)| == 1
    ensures Concat(Paginate(start, lines)[0]) == Concat(lines)
  {
    var st := PlaceAll(StartLayout(start), lines);
    PlaceAllStays(StartLayout(start), lines);
    PlaceAllText(StartLayout(start), lines);
    PlaceAllEndsWithLast(StartLayout(start), lines);
    assert st.value != "";
    ConcatAppend(st.fields, st.value);
  }

  /** An empty queue is one page with one empty field. */
  lemma PaginateEmpty(start: nat)
    ensures Paginate(start, []) == [[ZeroWidthSpace]]
  {
    var st := PlaceAll(StartLayout(start), []);
    assert st == StartLayout(start);
    assert st.pages == [] && st.fields == [];
    assert st.value == "";
    var only: seq<string> := [ZeroWidthSpace];
    assert st.fields + only == only;
    assert Paginate(start, []) == [] + [only];
  }

  /**
   * As written, a flush drops the field being filled and keeps the running
   * length: a line that reaches 6000 pushes an empty page, so do all later
   * lines, and the lines before it are never shown.
   */
  lemma FlushDropsLines()
    ensures Paginate(5994, ["aaaaa", "b", "c"]) == [[], [], ["c"]]
  {
    var s0 := StartLayout(5994);
    var s1 := Layout([], [], "aaaaa", 1, 5999);
    var s2 := Layout([[]], [], "b", 1, 6000);
    var s3 := Layout([[], []], [], "c", 1, 6001);
    PlaceStep(s0, "aaaaa", s1);
    PlaceStep(s1, "b", s2);
    PlaceStep(s2, "c", s3);
    assert ["aaaaa", "b", "c"][1..] == ["b", "c"];
    assert ["b", "c"][1..] == ["c"];
    assert PlaceAll(s0, ["aaaaa", "b", "c"]) == s3;
    var last: seq<string> := ["c"];
    assert s3.fields + last == last;
    assert Paginate(5994, ["aaaaa", "b", "c"]) == [[], []] + [last];
  }

  /** One turn on a short line of characters from the Basic Multilingual Plane, spelled out. */
  lemma PlaceStep(st: Layout, line: string, next: Layout)
    requires |line| <= 5 && forall i :: 0 <= i < |line| ==> line[i] as int < 0x10000
    requires Utf16Length(st.value) + |line| < MaxFieldLength && st.fieldIdx < MaxFields
    requires next.embedLength == st.embedLength + |line|
    requires st.embedLength + |line| >= MaxPageLength ==>
      next.pages == st.pages + [st.fields] && next.fields == [] && next.value == line && next.fieldIdx == 1
    requires st.embedLength + |line| < MaxPageLength ==>
      next.pages == st.pages && next.fields == st.fields && next.value == st.value + line && next.fieldIdx == st.fieldIdx
    ensures Place(st, line) == next
  {
    var a := Flushed(st, line);
    assert Closed(a, line) == a;
    assert "" + line == line;
  }

  // Embeds.

  datatype Field = Field(name: string, value: string, inline: bool)
  datatype Page = Page(title: string, color: string, description: string, fields: seq<Field>)

  /**
   * The embeds: every page carries the title, color and description; the
   * first field of the last page is named with the size text, every other
   * field with the zero-width space.
   */
  function Pages(title: string, color: string, description: string, inline: bool, sizeText: string,
                 values: seq<seq<string>>): (r: seq<Page>)
    ensures |r| == |values|
    ensures forall p :: 0 <= p < |r| ==> r[p].title == title && r[p].color == color && r[p].description == description
    ensures forall p :: 0 <= p < |r| ==> |r[p].fields| == |values[p]| && forall j :: 0 <= j < |values[p]| ==>
      r[p].fields[j].value == values[p][j] && r[p].fields[j].inline == inline
    ensures forall p, j :: 0 <= p < |r| && 0 <= j < |r[p].fields| ==>
      r[p].fields[j].name == (if p == |r| - 1 && j == 0 then sizeText else ZeroWidthSpace)
  {
    seq(|values|, p requires 0 <= p < |values| =>
      Page(title, color, description, seq(|values[p]|, j requires 0 <= j < |values[p]| =>
        Field(if p == |values| - 1 && j == 0 then sizeText else ZeroWidthSpace, values[p][j], inline))))
  }

  /**
   * `generateQueueDisplay` once the title, description, size text and
   * lines are known: their lengths count towards the first page, and
   * towards every later one.
   */
  function DisplayPages(title: string, color: string, description: string, inline: bool, size: string,
                   lines: seq<string>): (r: seq<Page>)
    ensures |r| >= 1 && |r[|r| - 1].fields| >= 1
    ensures r[|r| - 1].fields[0].name == size
  {
    Pages(title, color, description, inline, size,
      Paginate(HeadLength(title, description, size), lines))
  }

  /** What every page's length starts from: the title, the description and the size text. */
  function HeadLength(title: string, description: string, size: string): nat {
    Utf16Length(title) + Utf16Length(description) + Utf16Length(size)
  }

  /** The display of a queue: titled with its mention, sized by the number of lines. */
  function QueueDisplay(q: Queue, description: string, lines: seq<string>): (r: seq<Page>)
    ensures |r| >= 1 && |r[|r| - 1].fields| >= 1
    ensures r[|r| - 1].fields[0].name == SizeText(|lines|, q.size)
  {
    DisplayPages(QueueMention(q), q.color, description, q.inlineToggle, SizeText(|lines|, q.size), lines)
  }

  function FieldValues(fields: seq<Field>): (r: seq<string>)
    ensures |r| == |fields| && forall j :: 0 <= j < |fields| ==> r[j] == fields[j].value
  {
    seq(|fields|, j requires 0 <= j < |fields| => fields[j].value)
  }

  /** The displayed text of a page: its field values in order, the zero-width space of an empty field included. */
  function PageText(page: Page): string {
    Concat(FieldValues(page.fields))
  }

  /** No page has more than 25 fields. */
  lemma DisplayFieldCount(title: string, color: string, description: string, inline: bool, size: string, lines: seq<string>)
    ensures var r := DisplayPages(title, color, description, inline, size, lines);
      forall p :: 0 <= p < |r| ==> |r[p].fields| <= MaxFields
  {
    var values := Paginate(HeadLength(title, description, size), lines);
    PaginateFieldCount(HeadLength(title, description, size), lines);
    var r := Pages(title, color, description, inline, size, values);
    assert DisplayPages(title, color, description, inline, size, lines) == r;
    assert forall p :: 0 <= p < |r| ==> |r[p].fields| == |values[p]|;
  }

  /** Lines under 1024 code units keep every field under the limit. */
  lemma DisplayFieldsFit(title: string, color: string, description: string, inline: bool, size: string, lines: seq<string>)
    requires forall i :: 0 <= i < |lines| ==> Utf16Length(lines[i]) < MaxFieldLength
    ensures var r := DisplayPages(title, color, description, inline, size, lines);
      forall p, j :: 0 <= p < |r| && 0 <= j < |r[p].fields| ==> Utf16Length(r[p].fields[j].value) < MaxFieldLength
  {
    var start := HeadLength(title, description, size);
    var values := Paginate(start, lines);
    PaginateFieldsFit(start, lines);
    PagesFit(title, color, description, inline, size, values);
  }

  lemma PagesFit(title: string, color: string, description: string, inline: bool, size: string, values: seq<seq<string>>)
    requires forall p, j :: 0 <= p < |values| && 0 <= j < |values[p]| ==> Utf16Length(values[p][j]) < MaxFieldLength
    ensures var r := Pages(title, color, description, inline, size, values);
      forall p, j :: 0 <= p < |r| && 0 <= j < |r[p].fields| ==> Utf16Length(r[p].fields[j].value) < MaxFieldLength
  {
  }

  /** A short queue is shown on one page, its lines in order. */
  lemma DisplayOnePage(title: string, color: string, description: string, inline: bool, size: string, lines: seq<string>)
    requires HeadLength(title, description, size) + Utf16Length(Concat(lines)) < MaxPageLength
    requires 0 < |lines| < MaxFields && lines[|lines| - 1] != ""
    ensures |DisplayPages(title, color, description, inline, size, lines)| == 1
    ensures PageText(DisplayPages(title, color, description, inline, size, lines)[0]) == Concat(lines)
  {
    var start := HeadLength(title, description, size);
    var values := Paginate(start, lines);
    PaginateOnePage(start, lines);
    PagesText(title, color, description, inline, size, values);
  }

  lemma PagesText(title: string, color: string, description: string, inline: bool, size: string, values: seq<seq<string>>)
    requires |values| == 1
    ensures PageText(Pages(title, color, description, inline, size, values)[0]) == Concat(values[0])
  {
    var r := Pages(title, color, description, inline, size, values);
    assert FieldValues(r[0].fields) == values[0];
  }

  /** An empty queue shows one page with one blank field named with the size text. */
  lemma EmptyDisplay(title: string, color: string, description: string, inline: bool, size: string)
    ensures DisplayPages(title, color, description, inline, size, []) ==
      [Page(title, color, description, [Field(size, ZeroWidthSpace, inline)])]
  {
    PaginateEmpty(HeadLength(title, description, size));
    PagesSingle(title, color, description, inline, size, ZeroWidthSpace);
  }

  lemma PagesSingle(title: string, color: string, description: string, inline: bool, size: string, value: string)
    ensures Pages(title, color, description, inline, size, [[value]]) == [Page(title, color, description, [Field(size, value, inline)])]
  {
    var r := Pages(title, color, description, inline, size, [[value]]);
    assert |r| == 1 && |r[0].fields| == 1;
    assert r[0].fields == [Field(size, value, inline)];
  }
}

=== FILE: display_scheduler.dfy ===
/**
 * The display debouncer of `display.utils.ts`. A request for a queue not
 * refreshed since the last tick refreshes it at once; a request for one
 * that was only marks it pending, dropping the request's options. Every
 * 1.5 seconds the interval refreshes each pending queue once, without
 * options, and forgets both sets. The interval itself is the `Tick` event.
 */
module DisplayScheduler {
  import opened Wrappers
  import opened Tables
  import opened Schema

  /** The options a request may pass on to `updateDisplays`. */
  datatype RefreshOpts = RefreshOpts(displayIds: Option<seq<RowId>>, forceNew: bool)

  /** One `updateDisplays(store, queueId, opts)` call. */
  datatype Refresh = Refresh(queueId: RowId, opts: Option<RefreshOpts>)

  /**
   * `UPDATED_QUEUE_IDS` and `PENDING_QUEUE_IDS`. Both are JavaScript maps;
   * only the pending one is iterated, in insertion order, so it is kept as
   * a sequence.
   */
  datatype Scheduler = Scheduler(updated: set<RowId>, pending: seq<RowId>)

  /** Both maps empty, as at start-up and after every tick. */
  const Idle := Scheduler({}, [])

  predicate Distinct(xs: seq<RowId>) {
    forall i, j :: 0 <= i < j < |xs| ==> xs[i] != xs[j]
  }

  /** Every pending queue has been refreshed since the last tick, and no queue is pending twice. */
  predicate Consistent(s: Scheduler) {
    (forall q :: q in s.pending ==> q in s.updated) && Distinct(s.pending)
  }

  /**
   * `requestDisplayUpdate`. `updateDisplays` marks the queue updated before
   * its first await, so the mark is in place as soon as the request returns.
   */
  function Request(s: Scheduler, queueId: RowId, opts: Option<RefreshOpts>): (r: (Scheduler, seq<Refresh>))
    ensures queueId in r.0.updated && r.0.updated == s.updated + {queueId}
    ensures queueId !in s.updated ==> r.1 == [Refresh(queueId, opts)] && r.0.pending == s.pending
    ensures queueId in s.updated ==> r.1 == [] && queueId in r.0.pending
    ensures |s.pending| <= |r.0.pending| <= |s.pending| + 1 && r.0.pending[..|s.pending|] == s.pending
    ensures forall q :: q in r.0.pending ==> q in s.pending || q == queueId
    ensures Consistent(s) ==> Consistent(r.0)
  {
    if queueId in s.updated then
      // `Map.set` on a key already present keeps its place.
      var pending := if queueId in s.pending then s.pending else s.pending + [queueId];
      assert pending[..|s.pending|] == s.pending;
      (s.(pending := pending), [])
    else
      (s.(updated := s.updated + {queueId}), [Refresh(queueId, opts)])
  }

  /** The interval: one refresh without options per pending queue, in insertion order, then both sets cleared. */
  function Tick(s: Scheduler): (r: (Scheduler, seq<Refresh>))
    ensures r.0 == Idle
    ensures |r.1| == |s.pending|
    ensures forall i :: 0 <= i < |r.1| ==> r.1[i] == Refresh(s.pending[i], None)
  {
    (Idle, seq(|s.pending|, i requires 0 <= i < |s.pending| => Refresh(s.pending[i], None)))
  }

  /** A run of requests between two ticks; the refreshes they start, in order. */
  function RequestAll(s: Scheduler, reqs: seq<(RowId, Option<RefreshOpts>)>): (r: (Scheduler, seq<Refresh>))
    ensures Consistent(s) ==> Consistent(r.0)
    ensures s.updated <= r.0.updated
    decreases |reqs|
  {
    if |reqs| == 0 then (s, [])
    else
      var first := Request(s, reqs[0].0, reqs[0].1);
      var rest := RequestAll(first.0, reqs[1..]);
      (rest.0, first.1 + rest.1)
  }

  /** `requestDisplaysUpdate`: the ids de-duplicated first, each requested with the same options. */
  function RequestMany(s: Scheduler, queueIds: seq<RowId>, opts: Option<RefreshOpts>): (r: (Scheduler, seq<Refresh>))
    ensures Consistent(s) ==> Consistent(r.0)
    ensures (forall i :: 0 <= i < |queueIds| ==> queueIds[i] !in s.updated) ==>
      r.1 == Refreshes(Uniq(queueIds), opts) && r.0.pending == s.pending
  {
    var ids := Uniq(queueIds);
    var unseen := (forall i :: 0 <= i < |queueIds| ==> queueIds[i] !in s.updated);
    var r := RequestAll(s, Tagged(ids, opts));
    assert unseen ==> (r.1 == Refreshes(ids, opts) && r.0.pending == s.pending) by {
      if unseen {
        forall i | 0 <= i < |ids|
          ensures ids[i] !in s.updated
        {
          assert ids[i] in queueIds;
        }
        FreshRequests(s, ids, opts);
      }
    }
    r
  }

  /** One refresh with the same options for each id, in order. */
  function Refreshes(ids: seq<RowId>, opts: Option<RefreshOpts>): (r: seq<Refresh>)
    ensures |r| == |ids| && forall i :: 0 <= i < |ids| ==> r[i] == Refresh(ids[i], opts)
  {
    seq(|ids|, i requires 0 <= i < |ids| => Refresh(ids[i], opts))
  }

  /** Distinct requests for queues not refreshed in this interval each refresh at once, with their options. */
  lemma {:induction false} FreshRequests(s: Scheduler, ids: seq<RowId>, opts: Option<RefreshOpts>)
    requires Distinct(ids) && forall i :: 0 <= i < |ids| ==> ids[i] !in s.updated
    ensures RequestAll(s, Tagged(ids, opts)).1 == Refreshes(ids, opts)
    ensures RequestAll(s, Tagged(ids, opts)).0.pending == s.pending
    decreases |ids|
  {
    if |ids| > 0 {
      var first := Request(s, ids[0], opts);
      assert Tagged(ids, opts)[1..] == Tagged(ids[1..], opts);
      forall i | 0 <= i < |ids[1..]|
        ensures ids[1..][i] !in first.0.updated
      {
        assert ids[1..][i] == ids[i + 1] != ids[0];
      }
      FreshRequests(first.0, ids[1..], opts);
      assert Refreshes(ids, opts) == [Refresh(ids[0], opts)] + Refreshes(ids[1..], opts);
    }
  }

  function Tagged(ids: seq<RowId>, opts: Option<RefreshOpts>): (r: seq<(RowId, Option<RefreshOpts>)>)
    ensures |r| == |ids| && forall i :: 0 <= i < |ids| ==> r[i] == (ids[i], opts)
  {
    seq(|ids|, i requires 0 <= i < |ids| => (ids[i], opts))
  }

  /** How many of the refreshes are for queue `q`. */
  function Count(refreshes: seq<Refresh>, q: RowId): nat {
    if |refreshes| == 0 then 0
    else (if refreshes[0].queueId == q then 1 else 0) + Count(refreshes[1..], q)
  }

  lemma {:induction false} CountAppend(a: seq<Refresh>, b: seq<Refresh>, q: RowId)
    ensures Count(a + b, q) == Count(a, q) + Count(b, q)
  {
    if |a| == 0 {
      assert a + b == b;
    } else {
      assert (a + b)[1..] == a[1..] + b;
      CountAppend(a[1..], b, q);
    }
  }

  /**
   * Between two ticks the requests refresh a queue at most once, and not at
   * all if it was refreshed earlier in the same interval.
   */
  lemma {:induction false} RequestsRefreshAtMostOnce(s: Scheduler, reqs: seq<(RowId, Option<RefreshOpts>)>, q: RowId)
    ensures Count(RequestAll(s, reqs).1, q) <= (if q in s.updated then 0 else 1)
    ensures q in RequestAll(s, reqs).0.updated && q !in s.updated ==> Count(RequestAll(s, reqs).1, q) == 1
    decreases |reqs|
  {
    if |reqs| > 0 {
      var first := Request(s, reqs[0].0, reqs[0].1);
      var rest := RequestAll(first.0, reqs[1..]);
      RequestsRefreshAtMostOnce(first.0, reqs[1..], q);
      CountAppend(first.1, rest.1, q);
      assert Count(first.1, q) == (if reqs[0].0 == q && q !in s.updated then 1 else 0) by {
        if |first.1| == 1 {
          assert first.1[1..] == [];
        }
      }
    }
  }

  /** A tick refreshes each queue at most once. */
  lemma TickRefreshesAtMostOnce(s: Scheduler, q: RowId)
    requires Consistent(s)
    ensures Count(Tick(s).1, q) <= 1
    ensures Count(Tick(s).1, q) == (if q in s.pending then 1 else 0)
  {
    TickCount(s.pending, q);
  }

  lemma {:induction false} TickCount(pending: seq<RowId>, q: RowId)
    requires Distinct(pending)
    ensures Count(Tick(Scheduler({}, pending)).1, q) == (if q in pending then 1 else 0)
    decreases |pending|
  {
    var out := Tick(Scheduler({}, pending)).1;
    if |pending| > 0 {
      TickCount(pending[1..], q);
      assert out[1..] == Tick(Scheduler({}, pending[1..])).1;
      assert q in pending <==> q == pending[0] || q in pending[1..];
    }
  }

  /**
   * No request goes unserved: after a run of requests every requested queue
   * was either refreshed at once or is pending, so the next tick refreshes it.
   */
  lemma {:induction false} EveryRequestServed(s: Scheduler, reqs: seq<(RowId, Option<RefreshOpts>)>, i: nat)
    requires i < |reqs|
    ensures Count(RequestAll(s, reqs).1, reqs[i].0) > 0 || reqs[i].0 in RequestAll(s, reqs).0.pending
    decreases |reqs|
  {
    var q := reqs[i].0;
    var first := Request(s, reqs[0].0, reqs[0].1);
    var rest := RequestAll(first.0, reqs[1..]);
    CountAppend(first.1, rest.1, q);
    PendingGrows(first.0, reqs[1..]);
    if i == 0 {
      if q !in s.updated {
        assert first.1[0].queueId == q;
        assert Count(first.1, q) > 0;
      }
    } else {
      assert reqs[1..][i - 1] == reqs[i];
      EveryRequestServed(first.0, reqs[1..], i - 1);
    }
  }

  /** Requests only ever add to the pending queues. */
  lemma {:induction false} PendingGrows(s: Scheduler, reqs: seq<(RowId, Option<RefreshOpts>)>)
    ensures forall q :: q in s.pending ==> q in RequestAll(s, reqs).0.pending
    decreases |reqs|
  {
    if |reqs| > 0 {
      var first := Request(s, reqs[0].0, reqs[0].1);
      PendingGrows(first.0, reqs[1..]);
      forall q | q in s.pending
        ensures q in first.0.pending
      {
        var k :| 0 <= k < |s.pending| && s.pending[k] == q;
        assert first.0.pending[k] == q;
      }
    }
  }

  /** The options of a request for a queue already refreshed in this interval are lost: its refresh at the tick carries none. */
  lemma {:induction false} OptionsOnlyOnImmediateRefresh(s: Scheduler, reqs: seq<(RowId, Option<RefreshOpts>)>, k: nat)
    requires k < |RequestAll(s, reqs).1|
    ensures exists i :: 0 <= i < |reqs| && reqs[i].0 !in s.updated && RequestAll(s, reqs).1[k] == Refresh(reqs[i].0, reqs[i].1)
    decreases |reqs|
  {
    var first := Request(s, reqs[0].0, reqs[0].1);
    var rest := RequestAll(first.0, reqs[1..]);
    var out := RequestAll(s, reqs).1;
    if k < |first.1| {
      assert out[k] == first.1[k] == Refresh(reqs[0].0, reqs[0].1);
    } else {
      assert out[k] == rest.1[k - |first.1|];
      OptionsOnlyOnImmediateRefresh(first.0, reqs[1..], k - |first.1|);
      var i :| 0 <= i < |reqs[1..]| && rest.1[k - |first.1|] == Refresh(reqs[1..][i].0, reqs[1..][i].1)
        && reqs[1..][i].0 !in first.0.updated;
      assert reqs[i + 1] == reqs[1..][i];
    }
  }
}

=== FILE: lists.dfy ===
/**
 * Adding and removing whitelist, blacklist, prioritized and admin entries.
 * Inserts run once per queue, one after another, and the first failing
 * insert throws with the earlier ones kept. Blacklisting force-removes the
 * subject's members from the queues; changes to the prioritized list
 * re-evaluate the priorities of the affected queues' members.
 */
module Lists {
  import opened Wrappers
  import opened Tables
  import opened Schema
  import opened Queries
  import opened Store
  import opened Access
  import opened Members

  /** The two lists that name users and roles per queue. */
  datatype ListKind = Whitelist | Blacklist

  /** What an insert or delete returns: the rows it wrote and the queues it refreshes. */
  datatype Listing<R> = Listing(rows: seq<R>, refresh: seq<RowId>)

  function Entries(db: Db, kind: ListKind): seq<ListEntry> {
    match kind
    case Whitelist => db.whitelisted
    case Blacklist => db.blacklisted
  }

  /** `b` differs from `a` at most in the list of the kind and the id counter. */
  predicate ListFrame(a: Db, b: Db, kind: ListKind) {
    match kind
    case Whitelist => b == a.(whitelisted := b.whitelisted, nextId := b.nextId)
    case Blacklist => b == a.(blacklisted := b.blacklisted, nextId := b.nextId)
  }

  function AlreadyListed(kind: ListKind): Error {
    match kind
    case Whitelist => WhitelistedAlreadyExists
    case Blacklist => BlacklistedAlreadyExists
  }

  /** The list holds an entry for the (queue, subject) key. */
  predicate Listed(rows: seq<ListEntry>, queueId: RowId, subjectId: Snowflake) {
    exists i :: 0 <= i < |rows| && EntryKey(rows[i]) == (queueId, subjectId)
  }

  /** The entry a command writes for one queue: `isRole` says whether the subject is a role. */
  function EntryFor(guildId: Snowflake, queueId: RowId, subject: Mentionable, reason: Option<string>): NewEntry {
    NewEntry(guildId, queueId, subject.id, subject.RoleSubject?, reason)
  }

  /** The store insert of the list. */
  function InsertEntry(db: Db, kind: ListKind, ne: NewEntry): (r: (Result<ListEntry, Error>, Db))
    ensures r.0.Err? <==> Listed(Entries(db, kind), ne.queueId, ne.subjectId)
    ensures r.0.Err? ==> r.0.error == AlreadyListed(kind) && r.1 == db
    ensures r.0.Ok? ==> (Entries(r.1, kind) == Entries(db, kind) + [r.0.value]
      && r.0.value == ListEntry(db.nextId, ne.guildId, ne.queueId, ne.subjectId, ne.isRole, ne.reason))
    ensures ListFrame(db, r.1, kind)
    ensures Valid(db) ==> Valid(r.1)
  {
    match kind
    case Whitelist => InsertWhitelisted(db, ne)
    case Blacklist => InsertBlacklisted(db, ne)
  }

  /** None of the queues has an entry for the subject yet, and no queue repeats. */
  predicate AllFresh(rows: seq<ListEntry>, queues: seq<Queue>, subjectId: Snowflake) {
    && (forall i :: 0 <= i < |queues| ==> !Listed(rows, queues[i].id, subjectId))
    && (forall i, j :: 0 <= i < j < |queues| ==> queues[i].id != queues[j].id)
  }

  /**
   * `map(queues, queue => store.insert…({ … }))`: one entry per queue, in
   * order. It succeeds exactly when every key is new; a repeated key throws
   * and the entries inserted before it stay.
   */
  function InsertEntries(db: Db, kind: ListKind, guildId: Snowflake, queues: seq<Queue>, subject: Mentionable,
                         reason: Option<string>): (r: (Result<seq<ListEntry>, Error>, Db))
    ensures r.0.Ok? <==> AllFresh(Entries(db, kind), queues, subject.id)
    ensures r.0.Err? ==> r.0.error == AlreadyListed(kind)
    ensures r.0.Ok? ==> |r.0.value| == |queues| && Entries(r.1, kind) == Entries(db, kind) + r.0.value
    ensures r.0.Ok? ==> EntriesFor(r.0.value, guildId, queues, subject, reason)
    ensures |Entries(db, kind)| <= |Entries(r.1, kind)| && Entries(r.1, kind)[..|Entries(db, kind)|] == Entries(db, kind)
    ensures ListFrame(db, r.1, kind)
    ensures Valid(db) ==> Valid(r.1)
    decreases |queues|
  {
    if |queues| == 0 then (Ok([]), db)
    else
      var first := InsertEntry(db, kind, EntryFor(guildId, queues[0].id, subject, reason));
      if first.0.Err? then
        (Err(first.0.error), first.1)
      else
        var rest := InsertEntries(first.1, kind, guildId, queues[1..], subject, reason);
        AllFreshStep(Entries(db, kind), first.0.value, queues, subject.id);
        AppendStep(Entries(db, kind), first.0.value, Entries(rest.1, kind), rest.0);
        ListFrameTrans(db, first.1, rest.1, kind);
        if rest.0.Err? then (Err(rest.0.error), rest.1)
        else
          EntriesForCons(first.0.value, rest.0.value, guildId, queues, subject, reason);
          (Ok([first.0.value] + rest.0.value), rest.1)
  }

  /** Entry `i` is the one written for `queues[i]`. */
  predicate EntriesFor(es: seq<ListEntry>, guildId: Snowflake, queues: seq<Queue>, subject: Mentionable, reason: Option<string>) {
    |es| == |queues| &&
    forall i :: 0 <= i < |queues| ==>
      es[i].guildId == guildId && es[i].queueId == queues[i].id && es[i].subjectId == subject.id
      && es[i].isRole == subject.RoleSubject? && es[i].reason == reason
  }

  lemma EntriesForCons(e: ListEntry, es: seq<ListEntry>, guildId: Snowflake, queues: seq<Queue>,
                       subject: Mentionable, reason: Option<string>)
    requires |queues| > 0 && EntriesFor(es, guildId, queues[1..], subject, reason)
    requires e.guildId == guildId && e.queueId == queues[0].id && e.subjectId == subject.id
    requires e.isRole == subject.RoleSubject? && e.reason == reason
    ensures EntriesFor([e] + es, guildId, queues, subject, reason)
  {
    forall i | 1 <= i < |queues|
      ensures ([e] + es)[i] == es[i - 1] && queues[i] == queues[1..][i - 1]
    {
    }
  }

  lemma ListFrameTrans(a: Db, b: Db, c: Db, kind: ListKind)
    requires ListFrame(a, b, kind) && ListFrame(b, c, kind)
    ensures ListFrame(a, c, kind)
  {
  }

  /** Rows appended after `x` sit after `rows + [x]`, and `rows` stays a prefix. */
  lemma AppendStep<T, E>(rows: seq<T>, x: T, after: seq<T>, rest: Result<seq<T>, E>)
    requires |rows| + 1 <= |after| && after[..|rows| + 1] == rows + [x]
    ensures after[..|rows|] == rows
    ensures rest.Ok? && after == rows + [x] + rest.value ==> after == rows + ([x] + rest.value)
  {
    assert after[..|rows| + 1][..|rows|] == rows;
  }

  /** Freshness of all the queues is freshness of the first and of the rest once the first is listed. */
  lemma AllFreshStep(rows: seq<ListEntry>, e: ListEntry, queues: seq<Queue>, subjectId: Snowflake)
    requires |queues| > 0 && EntryKey(e) == (queues[0].id, subjectId)
    ensures AllFresh(rows, queues, subjectId) <==>
      !Listed(rows, queues[0].id, subjectId) && AllFresh(rows + [e], queues[1..], subjectId)
  {
    var rows' := rows + [e];
    forall i | 0 <= i < |queues| - 1
      ensures Listed(rows', queues[1..][i].id, subjectId) <==>
        Listed(rows, queues[i + 1].id, subjectId) || queues[i + 1].id == queues[0].id
    {
      if Listed(rows', queues[1..][i].id, subjectId) {
        var k :| 0 <= k < |rows'| && EntryKey(rows'[k]) == (queues[1..][i].id, subjectId);
        if k < |rows| {
          assert rows'[k] == rows[k];
        }
      }
      if Listed(rows, queues[i + 1].id, subjectId) {
        var k :| 0 <= k < |rows| && EntryKey(rows[k]) == (queues[i + 1].id, subjectId);
        assert rows'[k] == rows[k];
      }
      if queues[i + 1].id == queues[0].id {
        assert rows'[|rows|] == e;
      }
    }
    if AllFresh(rows, queues, subjectId) {
      forall i, j | 0 <= i < j < |queues| - 1
        ensures queues[1..][i].id != queues[1..][j].id
      {
        assert queues[i + 1].id != queues[j + 1].id;
      }
    }
    if !Listed(rows, queues[0].id, subjectId) && AllFresh(rows', queues[1..], subjectId) {
      forall i, j | 0 <= i < j < |queues|
        ensures queues[i].id != queues[j].id
      {
        if i > 0 {
          assert queues[1..][i - 1].id != queues[1..][j - 1].id;
        }
      }
      forall i | 0 <= i < |queues|
        ensures !Listed(rows, queues[i].id, subjectId)
      {
        if i > 0 {
          assert !Listed(rows', queues[1..][i - 1].id, subjectId);
        }
      }
    }
  }

  /** `insertWhitelisted`: one whitelist entry per queue. */
  function InsertWhitelistedAll(db: Db, guildId: Snowflake, queues: seq<Queue>, subject: Mentionable,
                                reason: Option<string>): (r: (Result<seq<ListEntry>, Error>, Db))
    ensures r.0.Ok? <==> AllFresh(db.whitelisted, queues, subject.id)
    ensures r.0.Err? ==> r.0.error == WhitelistedAlreadyExists
    ensures r.0.Ok? ==> |r.0.value| == |queues| && r.1.whitelisted == db.whitelisted + r.0.value
    ensures r.0.Ok? ==> forall i :: 0 <= i < |queues| ==>
      (r.0.value[i].queueId == queues[i].id && r.0.value[i].subjectId == subject.id
      && r.0.value[i].isRole == subject.RoleSubject?)
    ensures r.1 == db.(whitelisted := r.1.whitelisted, nextId := r.1.nextId)
    ensures Valid(db) ==> Valid(r.1)
  {
    InsertEntries(db, Whitelist, guildId, queues, subject, reason)
  }

  /** The `by` of the kick that follows a blacklisting: the role, or the user. */
  function KickBy(subject: Mentionable): (kick: DeleteBy)
    ensures subject.RoleSubject? ==> !ByUsers(kick) && kick.roleId == Some(subject.id)
    ensures subject.UserSubject? ==> ByUsers(kick) && UserIdsOf(kick) == [subject.id]
  {
    if subject.RoleSubject? then DeleteBy(None, None, Some(subject.id), None)
    else DeleteBy(Some(subject.id), None, None, None)
  }

  /** The users a blacklisting kicks: the user, or every cached holder of the role. */
  function KickedIds(subject: Mentionable, roleHolders: map<Snowflake, seq<Snowflake>>): (ids: seq<Snowflake>)
    ensures subject.UserSubject? ==> ids == [subject.id]
    ensures subject.RoleSubject? && subject.id in roleHolders ==> ids == roleHolders[subject.id]
  {
    if subject.UserSubject? then [subject.id]
    else if subject.id in roleHolders then roleHolders[subject.id]
    else []
  }

  /**
   * `insertBlacklisted`: one blacklist entry per queue, then a forced
   * removal of the subject's members (the user, or every holder of the role)
   * from those queues, then a refresh of their displays. `users` is
   * Discord's answer to the removal's fetch of each kicked user.
   */
  function InsertBlacklistedAll(db: Db, guildId: Snowflake, queues: seq<Queue>, subject: Mentionable,
                                reason: Option<string>, roleHolders: map<Snowflake, seq<Snowflake>>,
                                users: Snowflake -> UserFetch<GuildUser>)
    : (r: (Result<Listing<ListEntry>, Error>, Db))
    ensures r.0.Ok? ==> AllFresh(db.blacklisted, queues, subject.id)
    ensures !AllFresh(db.blacklisted, queues, subject.id) ==> r.0 == Err(BlacklistedAlreadyExists)
    ensures r.0.Ok? ==> |r.0.value.rows| == |queues| && r.1.blacklisted == db.blacklisted + r.0.value.rows
    ensures r.0.Ok? ==> r.0.value.refresh == QueueIdsOf(queues) + QueueIdsOf(queues)
    ensures r.0.Ok? && subject.RoleSubject? ==> subject.id in roleHolders
    ensures r.0.Ok? && Valid(db) ==> var qs, ids := QueueIdsOf(queues), KickedIds(subject, roleHolders);
      forall m :: m in r.1.members <==>
        m in db.members && !Targeted(qs, ids, m) && !(m.guildId == guildId && Forgotten(db, qs, ids, users, m.userId))
    ensures r.0.Ok? && Valid(db) && (forall i :: 0 <= i < |KickedIds(subject, roleHolders)| ==>
        !users(KickedIds(subject, roleHolders)[i]).UserNotFound?) ==>
      r.1.members == Filter(db.members, (m: Member) => !Targeted(QueueIdsOf(queues), KickedIds(subject, roleHolders), m))
    ensures AllFresh(db.blacklisted, queues, subject.id) && subject.RoleSubject? && subject.id !in roleHolders ==>
      r.0 == Err(RoleNotCached)
    ensures Valid(db) ==> Valid(r.1)
  {
    var ins := InsertEntries(db, Blacklist, guildId, queues, subject, reason);
    if ins.0.Err? then (Err(ins.0.error), ins.1)
    else
      var del := DeleteMembersBy(ins.1, guildId, queues, Some(KickBy(subject)), roleHolders, users, false, true);
      if del.0.Err? then (Err(del.0.error), del.1)
      else
        if Valid(db) then
          KickForgets(ins.1, guildId, queues, subject, roleHolders, users, del);
          (Ok(Listing(ins.0.value, QueueIdsOf(queues) + QueueIdsOf(queues))), del.1)
        else (Ok(Listing(ins.0.value, QueueIdsOf(queues) + QueueIdsOf(queues))), del.1)
  }

  /** The kick of a blacklisting, in terms of its inputs: the targeted rows and the forgotten users' rows go. */
  lemma KickForgets(db: Db, guildId: Snowflake, queues: seq<Queue>, subject: Mentionable,
                    roleHolders: map<Snowflake, seq<Snowflake>>, users: Snowflake -> UserFetch<GuildUser>,
                    del: (Result<Deletion, Error>, Db))
    requires Valid(db)
    requires del == DeleteMembersBy(db, guildId, queues, Some(KickBy(subject)), roleHolders, users, false, true)
    requires del.0.Ok?
    ensures subject.RoleSubject? ==> subject.id in roleHolders
    ensures var qs, ids := QueueIdsOf(queues), KickedIds(subject, roleHolders);
      && (forall m :: m in del.1.members <==>
            m in db.members && !Targeted(qs, ids, m) && !(m.guildId == guildId && Forgotten(db, qs, ids, users, m.userId)))
      && ((forall i :: 0 <= i < |ids| ==> !users(ids[i]).UserNotFound?) ==>
            del.1.members == Filter(db.members, (m: Member) => !Targeted(qs, ids, m)))
  {
    var qs, ids := QueueIdsOf(queues), KickedIds(subject, roleHolders);
    assert forall m :: m in del.0.value.deleted <==> m in db.members && Targeted(qs, ids, m);
    forall u {
      MissingDeletedIsForgotten(db, qs, ids, del.0.value.deleted, users, u);
    }
    if forall i :: 0 <= i < |ids| ==> !users(ids[i]).UserNotFound? {
      forall k | 0 <= k < |del.0.value.deleted| ensures !users(del.0.value.deleted[k].userId).UserNotFound? {
        assert del.0.value.deleted[k] in del.0.value.deleted;
      }
    }
  }

  /**
   * After a user is blacklisted on some queues, the user has no place in any
   * of them and every later join to them is turned away by the blacklist.
   */
  lemma BlacklistedUserIsKickedAndBlocked(db: Db, guildId: Snowflake, queues: seq<Queue>, subject: Mentionable,
                                          reason: Option<string>, roleHolders: map<Snowflake, seq<Snowflake>>,
                                          users: Snowflake -> UserFetch<GuildUser>, k: nat, u: GuildUser)
    requires subject.UserSubject? && u.id == subject.id && k < |queues|
    requires InsertBlacklistedAll(db, guildId, queues, subject, reason, roleHolders, users).0.Ok?
    ensures var r := InsertBlacklistedAll(db, guildId, queues, subject, reason, roleHolders, users);
      && GetMemberPosition(r.1, guildId, queues[k].id, u.id).0 == 0
      && IsBlockedByBlacklist(r.1, guildId, queues[k].id, u)
  {
    var ins := InsertEntries(db, Blacklist, guildId, queues, subject, reason);
    var r := InsertBlacklistedAll(db, guildId, queues, subject, reason, roleHolders, users);
    PulledUserHasNoPosition(ins.1, guildId, queues, KickBy(subject), roleHolders, users, false, true, k, u.id);
    var e := ins.0.value[k];
    assert r.1.blacklisted[|db.blacklisted| + k] == e;
    assert EntryNames(e, guildId, queues[k].id, u);
  }

  // Deleting entries by id.

  /**
   * `ids.map(id => store.delete…({ id }))` on one list: one result per id,
   * in input order, holding the deleted entry when one had the id; the list
   * loses exactly the entries with those ids.
   */
  function DeleteEntriesByIds(rows: seq<ListEntry>, ids: seq<RowId>): (r: (seq<Option<ListEntry>>, seq<ListEntry>))
    ensures |r.0| == |ids|
    ensures forall i :: 0 <= i < |ids| && r.0[i].Some? ==> r.0[i].value.id == ids[i] && r.0[i].value in rows
    ensures r.1 == Filter(rows, (e: ListEntry) => e.id !in ids)
    decreases |ids|
  {
    if |ids| == 0 then
      FilterAll(rows, (e: ListEntry) => e.id !in ids);
      ([], rows)
    else
      var step := DeleteEntries(rows, EntryById(ids[0]));
      var rest := DeleteEntriesByIds(step.0, ids[1..]);
      assert ids == [ids[0]] + ids[1..];
      FilterFilterExt(rows, (e: ListEntry) => !ListEntrySelected(EntryById(ids[0]), e),
        (e: ListEntry) => e.id !in ids[1..], (e: ListEntry) => e.id !in ids);
      DeleteByIdsStep(rows, (e: ListEntry) => ListEntrySelected(EntryById(ids[0]), e),
        (e: ListEntry) => !ListEntrySelected(EntryById(ids[0]), e), step.1, step.0, rest.0);
      ConsFound(First(step.1), rest.0, ids, rows, (e: ListEntry) => e.id);
      ([First(step.1)] + rest.0, rest.1)
  }

  /** Prepending the first delete's result to the later ones keeps each result matched with its id. */
  lemma ConsFound<R>(first: Option<R>, rest: seq<Option<R>>, ids: seq<RowId>, rows: seq<R>, id: R -> RowId)
    requires |ids| > 0 && |rest| == |ids| - 1
    requires first.Some? ==> id(first.value) == ids[0] && first.value in rows
    requires forall i :: 0 <= i < |rest| && rest[i].Some? ==> id(rest[i].value) == ids[1..][i] && rest[i].value in rows
    ensures forall i :: 0 <= i < |ids| && ([first] + rest)[i].Some? ==>
      id(([first] + rest)[i].value) == ids[i] && ([first] + rest)[i].value in rows
  {
    forall i | 1 <= i < |ids|
      ensures ([first] + rest)[i] == rest[i - 1] && ids[i] == ids[1..][i - 1]
    {
    }
  }

  /**
   * One step of deleting by ids: the first deleted row (if any) is a row of
   * the table the criterion selects, and whatever the later deletes return
   * came from the rows the first one kept.
   */
  lemma DeleteByIdsStep<R>(rows: seq<R>, sel: R -> bool, unsel: R -> bool, picked: seq<R>, kept: seq<R>,
                           rest: seq<Option<R>>)
    requires picked == Filter(rows, sel) && kept == Filter(rows, unsel)
    requires forall i :: 0 <= i < |rest| && rest[i].Some? ==> rest[i].value in kept
    ensures |picked| > 0 ==> picked[0] in rows && sel(picked[0])
    ensures forall i :: 0 <= i < |rest| && rest[i].Some? ==> rest[i].value in rows
  {
    if |picked| > 0 {
      FilterMembership(rows, sel, picked[0]);
    }
    forall i | 0 <= i < |rest| && rest[i].Some?
      ensures rest[i].value in rows
    {
      FilterMembership(rows, unsel, rest[i].value);
    }
  }

  /** `deleteWhitelisted`. */
  function DeleteWhitelistedByIds(db: Db, ids: seq<RowId>): (r: (seq<Option<ListEntry>>, Db))
    ensures |r.0| == |ids|
    ensures forall i :: 0 <= i < |ids| && r.0[i].Some? ==> r.0[i].value.id == ids[i] && r.0[i].value in db.whitelisted
    ensures r.1 == db.(whitelisted := Filter(db.whitelisted, (e: ListEntry) => e.id !in ids))
    ensures Valid(db) ==> Valid(r.1)
  {
    var d := DeleteEntriesByIds(db.whitelisted, ids);
    FilterKeepsTable(db.whitelisted, (e: ListEntry) => e.id !in ids, EntryId, EntryKey, db.nextId);
    (d.0, db.(whitelisted := d.1))
  }

  /** `deleteBlacklisted`. */
  function DeleteBlacklistedByIds(db: Db, ids: seq<RowId>): (r: (seq<Option<ListEntry>>, Db))
    ensures |r.0| == |ids|
    ensures forall i :: 0 <= i < |ids| && r.0[i].Some? ==> r.0[i].value.id == ids[i] && r.0[i].value in db.blacklisted
    ensures r.1 == db.(blacklisted := Filter(db.blacklisted, (e: ListEntry) => e.id !in ids))
    ensures Valid(db) ==> Valid(r.1)
  {
    var d := DeleteEntriesByIds(db.blacklisted, ids);
    FilterKeepsTable(db.blacklisted, (e: ListEntry) => e.id !in ids, EntryId, EntryKey, db.nextId);
    (d.0, db.(blacklisted := d.1))
  }

  /**
   * With distinct ids, the `i`-th result holds an entry exactly when the
   * list had an entry with the `i`-th id.
   */
  lemma {:induction false} DeletedEntryFoundIffPresent(rows: seq<ListEntry>, ids: seq<RowId>, i: nat)
    requires i < |ids| && forall a, b :: 0 <= a < b < |ids| ==> ids[a] != ids[b]
    ensures DeleteEntriesByIds(rows, ids).0[i].Some? <==> exists k :: 0 <= k < |rows| && rows[k].id == ids[i]
    decreases |ids|
  {
    var step := DeleteEntries(rows, EntryById(ids[0]));
    var rest := DeleteEntriesByIds(step.0, ids[1..]);
    var r := DeleteEntriesByIds(rows, ids);
    assert r.0 == [First(step.1)] + rest.0;
    if i == 0 {
      FirstDeletedFound(rows, ids[0]);
    } else {
      DeletedEntryFoundIffPresent(step.0, ids[1..], i - 1);
      assert r.0[i] == rest.0[i - 1];
      assert ids[1..][i - 1] == ids[i] && ids[i] != ids[0];
      KeptHasId(rows, ids[0], ids[i]);
    }
  }

  /** A delete by id returns a row exactly when the list has a row with that id. */
  lemma FirstDeletedFound(rows: seq<ListEntry>, id: RowId)
    ensures First(DeleteEntries(rows, EntryById(id)).1).Some? <==> exists k :: 0 <= k < |rows| && rows[k].id == id
  {
    if exists k :: 0 <= k < |rows| && rows[k].id == id {
      var k :| 0 <= k < |rows| && rows[k].id == id;
      FilterMembership(rows, (e: ListEntry) => ListEntrySelected(EntryById(id), e), rows[k]);
    }
  }

  /** Deleting the rows with one id keeps every row with another id. */
  lemma KeptHasId(rows: seq<ListEntry>, gone: RowId, id: RowId)
    requires id != gone
    ensures (exists k :: 0 <= k < |DeleteEntries(rows, EntryById(gone)).0| && DeleteEntries(rows, EntryById(gone)).0[k].id == id)
      <==> (exists k :: 0 <= k < |rows| && rows[k].id == id)
  {
    var kept := DeleteEntries(rows, EntryById(gone)).0;
    if exists k :: 0 <= k < |rows| && rows[k].id == id {
      var k :| 0 <= k < |rows| && rows[k].id == id;
      FilterMembership(rows, (e: ListEntry) => !ListEntrySelected(EntryById(gone), e), rows[k]);
    }
    if exists k :: 0 <= k < |kept| && kept[k].id == id {
      var k :| 0 <= k < |kept| && kept[k].id == id;
      FilterMembership(rows, (e: ListEntry) => !ListEntrySelected(EntryById(gone), e), kept[k]);
    }
  }

  // Prioritized entries.

  /** `{ priority, ...member }`: the member's own `priority` key comes later and wins. */
  function SpreadOverPriority(priority: Option<int>, m: Member): (r: Member)
    ensures r.priority == m.priority
  {
    Member(m.id, m.guildId, m.queueId, m.userId, m.message, m.positionTime, m.joinTime, m.priority)
  }

  /**
   * The guild has prioritized rows on the queue. `getMemberPriority` then
   * reads the id of the member Discord returned, which throws when Discord
   * returned none.
   */
  predicate HasPriorityRows(db: Db, guildId: Snowflake, queueId: RowId) {
    exists i :: 0 <= i < |db.prioritized| && db.prioritized[i].guildId == guildId && db.prioritized[i].queueId == queueId
  }

  /** The user has a member row in the guild on one of the queues. */
  predicate OnQueues(db: Db, guildId: Snowflake, userId: Snowflake, queueIds: seq<RowId>) {
    exists k :: 0 <= k < |db.members| && db.members[k].guildId == guildId && db.members[k].userId == userId
      && db.members[k].queueId in queueIds
  }

  /** Discord returns the user of every member row of the guild on the queues. */
  predicate AllOnQueuesFound(db: Db, guildId: Snowflake, queueIds: seq<RowId>, users: Snowflake -> UserFetch<GuildUser>) {
    forall k :: 0 <= k < |db.members| && db.members[k].guildId == guildId && db.members[k].queueId in queueIds
      ==> users(db.members[k].userId).UserFound?
  }

  /** Discord returns the user of every member row of the guild. */
  predicate AllGuildFound(db: Db, guildId: Snowflake, users: Snowflake -> UserFetch<GuildUser>) {
    forall k :: 0 <= k < |db.members| && db.members[k].guildId == guildId ==> users(db.members[k].userId).UserFound?
  }

  /**
   * `b`'s member rows are `a`'s less some of the guild's rows of users
   * Discord answers 404 for.
   */
  predicate OnlyForgetsMissing(a: Db, b: Db, guildId: Snowflake, users: Snowflake -> UserFetch<GuildUser>) {
    && (forall m :: m in b.members ==> m in a.members)
    && (forall m :: m in a.members && m !in b.members ==> m.guildId == guildId && users(m.userId).UserNotFound?)
  }

  /**
   * `reEvaluatePrioritized`: queue after queue, the queue's current member
   * rows are read, and each is written back as `{ priority, ...member }`
   * with `priority` recomputed for the member Discord returns. `users`
   * stands for `jsMember`: a 404 deletes the user's member rows in the
   * guild, and reading the priority of a member Discord did not return
   * throws when the guild has prioritized rows on the queue, which ends the
   * whole re-evaluation there.
   */
  function ReEvaluatePrioritized(db: Db, guildId: Snowflake, queueIds: seq<RowId>, users: Snowflake -> UserFetch<GuildUser>)
    : (r: (Option<Error>, Db))
    ensures r.1 == db.(members := r.1.members)
    ensures Valid(db) ==> Valid(r.1)
    ensures Valid(db) ==> OnlyForgetsMissing(db, r.1, guildId, users) && (r.0.Some? ==> r.0.value == MemberUnavailable)
    decreases |queueIds|
  {
    if |queueIds| == 0 then (None, db)
    else
      var one := ReEvaluateQueue(db, guildId, queueIds[0], users);
      if one.0.Some? then one else ReEvaluatePrioritized(one.1, guildId, queueIds[1..], users)
  }

  /** One queue of `reEvaluatePrioritized`, over the member rows read at its start. */
  function ReEvaluateMembers(db: Db, guildId: Snowflake, queueId: RowId, members: seq<Member>,
                             users: Snowflake -> UserFetch<GuildUser>): (r: (Option<Error>, Db))
    ensures r.1 == db.(members := r.1.members)
    ensures Valid(db) ==> Valid(r.1)
    decreases |members|
  {
    if |members| == 0 then (None, db)
    else
      var m := members[0];
      var fetch := users(m.userId);
      var db1 := if fetch.UserNotFound? then MemberNotFound(db, guildId, m.userId) else db;
      if !fetch.UserFound? && HasPriorityRows(db1, guildId, queueId) then (Some(MemberUnavailable), db1)
      else
        var priority := if fetch.UserFound? then GetMemberPriority(db1, guildId, queueId, fetch.user) else None;
        var w := UpdateMember(db1, SpreadOverPriority(priority, m));
        if w.0.Err? then (Some(w.0.error), w.1) else ReEvaluateMembers(w.1, guildId, queueId, members[1..], users)
  }

  /** The index of the first member Discord does not return, or `|members|` when it returns them all. */
  function FirstUnfound(members: seq<Member>, users: Snowflake -> UserFetch<GuildUser>): (r: nat)
    ensures r <= |members|
    ensures forall k :: 0 <= k < r ==> users(members[k].userId).UserFound?
    ensures r < |members| ==> !users(members[r].userId).UserFound?
    decreases |members|
  {
    if |members| == 0 then 0
    else if users(members[0].userId).UserFound? then 1 + FirstUnfound(members[1..], users)
    else 0
  }

  /** Writing `m` back is harmless: `m` is a stored row, or no row has its id. */
  predicate Settled(db: Db, m: Member) {
    m in db.members || forall k :: 0 <= k < |db.members| ==> db.members[k].id != m.id
  }

  /** Writing back a stored row unchanged changes nothing. */
  lemma UpdateWithStoredRow(db: Db, m: Member)
    requires Valid(db) && m in db.members
    ensures UpdateMember(db, m) == (Ok(Some(m)), db)
  {
    AscendingIdsUnique(db.members, MemberId);
    var k :| 0 <= k < |db.members| && db.members[k] == m;
    forall j | 0 <= j < |db.members| && db.members[j].id == m.id
      ensures j == k
    {
      var a, b := MemberId(db.members[j]), MemberId(db.members[k]);
    }
    var r := UpdateMember(db, m);
    assert r.1.members == db.members;
  }

  /** Writing back a settled row succeeds and changes nothing. */
  lemma WriteBackSettled(db: Db, m: Member)
    requires Valid(db) && Settled(db, m)
    ensures UpdateMember(db, m).0.Ok? && UpdateMember(db, m).1 == db
  {
    if m in db.members {
      UpdateWithStoredRow(db, m);
    } else {
      AscendingIdsUnique(db.members, MemberId);
      var r := UpdateMember(db, m);
      assert r.1.members == db.members;
    }
  }

  /** A 404's clean-up keeps every row settled. */
  lemma SettledAfterNotFound(db: Db, guildId: Snowflake, userId: Snowflake, m: Member)
    requires Valid(db) && Settled(db, m)
    ensures Settled(MemberNotFound(db, guildId, userId), m)
  {
    var r := MemberNotFound(db, guildId, userId);
    AscendingIdsUnique(db.members, MemberId);
    if m !in r.members {
      forall k | 0 <= k < |r.members|
        ensures r.members[k].id != m.id
      {
        assert r.members[k] in db.members;
      }
    }
  }

  /** The 404 clean-up of one member keeps every row settled. */
  lemma SettledAfterForget(db: Db, guildId: Snowflake, one: seq<Member>, users: Snowflake -> UserFetch<GuildUser>, m: Member)
    requires Valid(db) && Settled(db, m) && |one| == 1
    ensures Settled(ForgetMissingUsers(db, guildId, one, users), m)
  {
    assert one[1..] == [];
    if users(one[0].userId).UserNotFound? {
      SettledAfterNotFound(db, guildId, one[0].userId, m);
    }
  }

  /**
   * A step of a queue's re-evaluation that does not throw: the member's
   * fetch and its 404 clean-up, then a write-back that changes nothing.
   */
  lemma ReEvaluateStep(db: Db, guildId: Snowflake, queueId: RowId, members: seq<Member>, users: Snowflake -> UserFetch<GuildUser>)
    requires Valid(db) && |members| > 0 && Settled(db, members[0])
    requires users(members[0].userId).UserFound? || !HasPriorityRows(db, guildId, queueId)
    ensures ReEvaluateMembers(db, guildId, queueId, members, users)
      == ReEvaluateMembers(ForgetMissingUsers(db, guildId, members[..1], users), guildId, queueId, members[1..], users)
  {
    var m := members[0];
    var fetch := users(m.userId);
    var db1 := if fetch.UserNotFound? then MemberNotFound(db, guildId, m.userId) else db;
    assert members[..1][1..] == [];
    assert db1 == ForgetMissingUsers(db, guildId, members[..1], users);
    var priority := if fetch.UserFound? then GetMemberPriority(db1, guildId, queueId, fetch.user) else None;
    assert SpreadOverPriority(priority, m) == m;
    SettledAfterForget(db, guildId, members[..1], users, m);
    WriteBackSettled(db1, m);
  }

  /**
   * An account of one queue's re-evaluation that does not follow its
   * steps: nothing is rewritten; the members are fetched up to the first
   * one Discord does not return, whose read throws when the guild has
   * prioritized rows on the queue; and the fetched users' 404s delete
   * their rows.
   */
  function QueueAccount(db: Db, guildId: Snowflake, queueId: RowId, members: seq<Member>,
                        users: Snowflake -> UserFetch<GuildUser>): (Option<Error>, Db)
  {
    var n := FirstUnfound(members, users);
    if HasPriorityRows(db, guildId, queueId) && n < |members| then
      (Some(MemberUnavailable), ForgetMissingUsers(db, guildId, members[..n + 1], users))
    else (None, ForgetMissingUsers(db, guildId, members, users))
  }

  /** The account of a line is the account of its tail, after the first member's fetch. */
  lemma AccountStep(db: Db, guildId: Snowflake, queueId: RowId, members: seq<Member>, users: Snowflake -> UserFetch<GuildUser>)
    requires |members| > 0
    requires users(members[0].userId).UserFound? || !HasPriorityRows(db, guildId, queueId)
    ensures QueueAccount(db, guildId, queueId, members, users)
      == QueueAccount(ForgetMissingUsers(db, guildId, members[..1], users), guildId, queueId, members[1..], users)
  {
    var db1 := ForgetMissingUsers(db, guildId, members[..1], users);
    var rest := members[1..];
    assert members[..1][1..] == [];
    assert HasPriorityRows(db1, guildId, queueId) == HasPriorityRows(db, guildId, queueId);
    var n := FirstUnfound(rest, users);
    if users(members[0].userId).UserFound? && HasPriorityRows(db, guildId, queueId) && n < |rest| {
      var cut := members[..n + 2];
      assert cut[..1] == members[..1] && cut[1..] == rest[..n + 1];
      assert cut[..1][1..] == [];
    }
  }

  /**
   * One queue's re-evaluation follows the account above, on any line of
   * rows that are stored or gone.
   */
  lemma {:induction false} ReEvaluateMembersMeans(db: Db, guildId: Snowflake, queueId: RowId, members: seq<Member>,
                                                  users: Snowflake -> UserFetch<GuildUser>)
    requires Valid(db)
    requires forall i :: 0 <= i < |members| ==> Settled(db, members[i])
    ensures ReEvaluateMembers(db, guildId, queueId, members, users) == QueueAccount(db, guildId, queueId, members, users)
    decreases |members|
  {
    if |members| > 0 {
      var m := members[0];
      if users(m.userId).UserFound? || !HasPriorityRows(db, guildId, queueId) {
        ReEvaluateStep(db, guildId, queueId, members, users);
        AccountStep(db, guildId, queueId, members, users);
        var db1 := ForgetMissingUsers(db, guildId, members[..1], users);
        var rest := members[1..];
        forall i | 0 <= i < |rest|
          ensures Settled(db1, rest[i])
        {
          SettledAfterForget(db, guildId, members[..1], users, rest[i]);
        }
        ReEvaluateMembersMeans(db1, guildId, queueId, rest, users);
      } else {
        assert members[..1][1..] == [];
      }
    }
  }

  /** The users of a queue's line that 404 are those with a row on the queue. */
  lemma LineMissing(db: Db, guildId: Snowflake, queueId: RowId, line: seq<Member>,
                    users: Snowflake -> UserFetch<GuildUser>, u: Snowflake)
    requires forall m :: m in line <==> m in db.members && InQueue(m, guildId, queueId)
    ensures Missing(line, users, u) <==> users(u).UserNotFound? && OnQueues(db, guildId, u, [queueId])
  {
    if Missing(line, users, u) {
      var k :| 0 <= k < |line| && line[k].userId == u;
      assert line[k] in db.members;
      var i :| 0 <= i < |db.members| && db.members[i] == line[k];
      assert db.members[i].queueId in [queueId];
    }
    if users(u).UserNotFound? && OnQueues(db, guildId, u, [queueId]) {
      var k :| 0 <= k < |db.members| && db.members[k].guildId == guildId && db.members[k].userId == u
        && db.members[k].queueId in [queueId];
      assert db.members[k] in line;
      var j :| 0 <= j < |line| && line[j] == db.members[k];
    }
  }

  /** Being on some of the queues is being on the first or on one of the rest. */
  lemma OnQueuesSplit(db: Db, guildId: Snowflake, u: Snowflake, queueIds: seq<RowId>)
    requires |queueIds| > 0
    ensures OnQueues(db, guildId, u, queueIds) <==> OnQueues(db, guildId, u, [queueIds[0]]) || OnQueues(db, guildId, u, queueIds[1..])
  {
    if OnQueues(db, guildId, u, queueIds) {
      var k :| 0 <= k < |db.members| && db.members[k].guildId == guildId && db.members[k].userId == u
        && db.members[k].queueId in queueIds;
      var j :| 0 <= j < |queueIds| && queueIds[j] == db.members[k].queueId;
      if j > 0 {
        assert queueIds[1..][j - 1] == queueIds[j];
      }
    }
  }

  /** Whether a user is on the queues does not change while all their rows stay. */
  lemma OnQueuesKept(a: Db, b: Db, guildId: Snowflake, u: Snowflake, queueIds: seq<RowId>)
    requires forall x :: x in b.members ==> x in a.members
    requires forall x :: x in a.members && x.guildId == guildId && x.userId == u ==> x in b.members
    ensures OnQueues(b, guildId, u, queueIds) <==> OnQueues(a, guildId, u, queueIds)
  {
    if OnQueues(b, guildId, u, queueIds) {
      var k :| 0 <= k < |b.members| && b.members[k].guildId == guildId && b.members[k].userId == u
        && b.members[k].queueId in queueIds;
      assert b.members[k] in a.members;
      var i :| 0 <= i < |a.members| && a.members[i] == b.members[k];
    }
    if OnQueues(a, guildId, u, queueIds) {
      var k :| 0 <= k < |a.members| && a.members[k].guildId == guildId && a.members[k].userId == u
        && a.members[k].queueId in queueIds;
      assert a.members[k] in b.members;
      var i :| 0 <= i < |b.members| && b.members[i] == a.members[k];
    }
  }

  /** What the account deletes and when it throws. */
  lemma AccountForgets(db: Db, guildId: Snowflake, queueId: RowId, members: seq<Member>, users: Snowflake -> UserFetch<GuildUser>)
    ensures var r := QueueAccount(db, guildId, queueId, members, users);
      && (r.0.Some? ==> r.0.value == MemberUnavailable && HasPriorityRows(db, guildId, queueId))
      && OnlyForgetsMissing(db, r.1, guildId, users)
      && (!HasPriorityRows(db, guildId, queueId) ==> r == (None, ForgetMissingUsers(db, guildId, members, users)))
      && ((forall k :: 0 <= k < |members| ==> users(members[k].userId).UserFound?) ==> r == (None, db))
  {
    var n := FirstUnfound(members, users);
    if forall k :: 0 <= k < |members| ==> users(members[k].userId).UserFound? {
      assert n == |members|;
    }
  }

  /** The rows of a line holding exactly the queue's rows are stored rows, so they are settled. */
  lemma LineSettled(db: Db, guildId: Snowflake, queueId: RowId, line: seq<Member>)
    requires forall m :: m in line <==> m in db.members && InQueue(m, guildId, queueId)
    ensures forall i :: 0 <= i < |line| ==> Settled(db, line[i])
  {
    forall i | 0 <= i < |line|
      ensures Settled(db, line[i])
    {
      assert line[i] in line;
    }
  }

  /**
   * One queue's re-evaluation over a line holding exactly the queue's rows:
   * it throws only on a queue with prioritized rows, and it deletes only
   * the guild's rows of users that 404.
   */
  lemma QueueReEvaluation(db: Db, guildId: Snowflake, queueId: RowId, line: seq<Member>, users: Snowflake -> UserFetch<GuildUser>)
    requires Valid(db)
    requires forall m :: m in line <==> m in db.members && InQueue(m, guildId, queueId)
    ensures var r := ReEvaluateMembers(db, guildId, queueId, line, users);
      && (r.0.Some? ==> r.0.value == MemberUnavailable && HasPriorityRows(db, guildId, queueId))
      && OnlyForgetsMissing(db, r.1, guildId, users)
  {
    LineSettled(db, guildId, queueId, line);
    ReEvaluateMembersMeans(db, guildId, queueId, line, users);
    AccountForgets(db, guildId, queueId, line, users);
  }

  /** When Discord returns everyone on the queue, one queue's re-evaluation changes nothing. */
  lemma QueueAllFoundIsNoOp(db: Db, guildId: Snowflake, queueId: RowId, line: seq<Member>, users: Snowflake -> UserFetch<GuildUser>)
    requires Valid(db) && AllOnQueuesFound(db, guildId, [queueId], users)
    requires forall m :: m in line <==> m in db.members && InQueue(m, guildId, queueId)
    ensures ReEvaluateMembers(db, guildId, queueId, line, users) == (None, db)
  {
    LineSettled(db, guildId, queueId, line);
    ReEvaluateMembersMeans(db, guildId, queueId, line, users);
    forall k | 0 <= k < |line|
      ensures users(line[k].userId).UserFound?
    {
      assert line[k] in line;
      var i :| 0 <= i < |db.members| && db.members[i] == line[k];
      assert db.members[i].queueId in [queueId];
    }
    AccountForgets(db, guildId, queueId, line, users);
  }

  /**
   * On a queue without prioritized rows, one queue's re-evaluation does not
   * throw and deletes exactly the guild's rows of the users on the queue
   * that 404.
   */
  lemma QueueWithoutPriorityRows(db: Db, guildId: Snowflake, queueId: RowId, line: seq<Member>,
                                 users: Snowflake -> UserFetch<GuildUser>)
    requires Valid(db) && !HasPriorityRows(db, guildId, queueId)
    requires forall m :: m in line <==> m in db.members && InQueue(m, guildId, queueId)
    ensures var r := ReEvaluateMembers(db, guildId, queueId, line, users);
      && r.0.None?
      && forall m :: m in r.1.members <==>
           m in db.members && !(m.guildId == guildId && users(m.userId).UserNotFound? && OnQueues(db, guildId, m.userId, [queueId]))
  {
    LineSettled(db, guildId, queueId, line);
    ReEvaluateMembersMeans(db, guildId, queueId, line, users);
    AccountForgets(db, guildId, queueId, line, users);
    forall u {
      LineMissing(db, guildId, queueId, line, users, u);
    }
  }

  /** The two conditional outcomes of one queue's re-evaluation, for a caller that only knows the database is valid. */
  lemma QueueOutcome(db: Db, guildId: Snowflake, queueId: RowId, line: seq<Member>, users: Snowflake -> UserFetch<GuildUser>)
    requires Valid(db)
    requires forall m :: m in line <==> m in db.members && InQueue(m, guildId, queueId)
    ensures var r := ReEvaluateMembers(db, guildId, queueId, line, users);
      && (!HasPriorityRows(db, guildId, queueId) ==> r.0.None? && forall m :: m in r.1.members <==>
            m in db.members && !(m.guildId == guildId && users(m.userId).UserNotFound? && OnQueues(db, guildId, m.userId, [queueId])))
      && (AllOnQueuesFound(db, guildId, [queueId], users) ==> r == (None, db))
  {
    if !HasPriorityRows(db, guildId, queueId) {
      QueueWithoutPriorityRows(db, guildId, queueId, line, users);
    }
    if AllOnQueuesFound(db, guildId, [queueId], users) {
      QueueAllFoundIsNoOp(db, guildId, queueId, line, users);
    }
  }

  /**
   * One queue of `reEvaluatePrioritized`, over the queue's member rows as
   * read at its start.
   */
  function ReEvaluateQueue(db: Db, guildId: Snowflake, queueId: RowId, users: Snowflake -> UserFetch<GuildUser>)
    : (r: (Option<Error>, Db))
    ensures r.1 == db.(members := r.1.members)
    ensures Valid(db) ==> Valid(r.1)
    ensures Valid(db) ==>
      && (r.0.Some? ==> r.0.value == MemberUnavailable && HasPriorityRows(db, guildId, queueId))
      && OnlyForgetsMissing(db, r.1, guildId, users)
      && (!HasPriorityRows(db, guildId, queueId) ==> r.0.None? && forall m :: m in r.1.members <==>
            m in db.members && !(m.guildId == guildId && users(m.userId).UserNotFound? && OnQueues(db, guildId, m.userId, [queueId])))
      && (AllOnQueuesFound(db, guildId, [queueId], users) ==> r == (None, db))
  {
    var line := QueueLine(db, guildId, queueId);
    if Valid(db) then
      QueueReEvaluation(db, guildId, queueId, line, users);
      QueueOutcome(db, guildId, queueId, line, users);
      ReEvaluateMembers(db, guildId, queueId, line, users)
    else ReEvaluateMembers(db, guildId, queueId, line, users)
  }

  /**
   * With no prioritized rows on the queues nothing throws, and exactly the
   * guild's rows of the users that 404 and have a row on one of the queues
   * are deleted.
   */
  lemma {:induction false} ReEvaluateWithoutPriorityRows(db: Db, guildId: Snowflake, queueIds: seq<RowId>,
                                                         users: Snowflake -> UserFetch<GuildUser>)
    requires Valid(db)
    requires forall j :: 0 <= j < |queueIds| ==> !HasPriorityRows(db, guildId, queueIds[j])
    ensures var r := ReEvaluatePrioritized(db, guildId, queueIds, users);
      && r.0.None?
      && forall m :: m in r.1.members <==>
           m in db.members && !(m.guildId == guildId && users(m.userId).UserNotFound? && OnQueues(db, guildId, m.userId, queueIds))
    decreases |queueIds|
  {
    if |queueIds| > 0 {
      var one := ReEvaluateQueue(db, guildId, queueIds[0], users);
      var rest := queueIds[1..];
      forall j | 0 <= j < |rest|
        ensures !HasPriorityRows(one.1, guildId, rest[j])
      {
        assert rest[j] == queueIds[j + 1];
      }
      ReEvaluateWithoutPriorityRows(one.1, guildId, rest, users);
      forall m | m in db.members && m.guildId == guildId && users(m.userId).UserNotFound?
        ensures OnQueues(db, guildId, m.userId, queueIds) <==>
          OnQueues(db, guildId, m.userId, [queueIds[0]]) || OnQueues(one.1, guildId, m.userId, rest)
      {
        OnQueuesSplit(db, guildId, m.userId, queueIds);
        if !OnQueues(db, guildId, m.userId, [queueIds[0]]) {
          OnQueuesKept(db, one.1, guildId, m.userId, rest);
        }
      }
    }
  }

  /**
   * When Discord returns every member of the guild on the queues, nothing
   * changes: the spread keeps each row's own priority, so whatever the
   * prioritized list now says, every row is written back as it was.
   */
  lemma {:induction false} ReEvaluateIsNoOp(db: Db, guildId: Snowflake, queueIds: seq<RowId>,
                                            users: Snowflake -> UserFetch<GuildUser>)
    requires Valid(db)
    ensures AllOnQueuesFound(db, guildId, queueIds, users) ==> ReEvaluatePrioritized(db, guildId, queueIds, users) == (None, db)
    decreases |queueIds|
  {
    if |queueIds| > 0 && AllOnQueuesFound(db, guildId, queueIds, users) {
      assert AllOnQueuesFound(db, guildId, [queueIds[0]], users) by {
        forall k | 0 <= k < |db.members| && db.members[k].guildId == guildId && db.members[k].queueId in [queueIds[0]]
          ensures users(db.members[k].userId).UserFound?
        {
          assert db.members[k].queueId in queueIds;
        }
      }
      ReEvaluateIsNoOp(db, guildId, queueIds[1..], users);
      assert AllOnQueuesFound(db, guildId, queueIds[1..], users) by {
        forall k | 0 <= k < |db.members| && db.members[k].guildId == guildId && db.members[k].queueId in queueIds[1..]
          ensures users(db.members[k].userId).UserFound?
        {
          assert db.members[k].queueId in queueIds;
        }
      }
    }
  }

  /** One prioritized entry per queue, in order; the first failure throws with the earlier ones kept. */
  function InsertPrioritizedEntries(db: Db, guildId: Snowflake, queues: seq<Queue>, subject: Mentionable,
                                    reason: Option<string>, priorityOrder: Option<int>)
    : (r: (Result<seq<Prioritized>, Error>, Db))
    ensures r.0.Err? ==> r.0.error == PrioritizedAlreadyExists
    ensures r.0.Ok? ==> |r.0.value| == |queues| && r.1.prioritized == db.prioritized + r.0.value
    ensures r.0.Ok? ==> forall i :: 0 <= i < |queues| ==>
      r.0.value[i].queueId == queues[i].id && r.0.value[i].subjectId == subject.id
      && r.0.value[i].isRole == subject.RoleSubject? && r.0.value[i].priorityOrder == priorityOrder
    ensures |db.prioritized| <= |r.1.prioritized| && r.1.prioritized[..|db.prioritized|] == db.prioritized
    ensures r.1 == db.(prioritized := r.1.prioritized, nextId := r.1.nextId)
    ensures Valid(db) ==> Valid(r.1)
    decreases |queues|
  {
    if |queues| == 0 then (Ok([]), db)
    else
      var first := InsertPrioritized(db, EntryFor(guildId, queues[0].id, subject, reason), priorityOrder);
      if first.0.Err? then (Err(first.0.error), first.1)
      else
        var rest := InsertPrioritizedEntries(first.1, guildId, queues[1..], subject, reason, priorityOrder);
        AppendStep(db.prioritized, first.0.value, rest.1.prioritized, rest.0);
        if rest.0.Err? then (Err(rest.0.error), rest.1) else (Ok([first.0.value] + rest.0.value), rest.1)
  }

  /** The queue ids of the rows, each once, in first-occurrence order (`uniq`). */
  function AffectedQueues(rows: seq<Prioritized>): (r: seq<RowId>)
    ensures forall q :: q in r <==> exists i :: 0 <= i < |rows| && rows[i].queueId == q
    ensures forall i, j :: 0 <= i < j < |r| ==> r[i] != r[j]
  {
    var ids: seq<RowId> := seq(|rows|, i requires 0 <= i < |rows| => rows[i].queueId);
    assert forall q :: q in ids <==> exists i :: 0 <= i < |rows| && rows[i].queueId == q by {
      forall i | 0 <= i < |rows|
        ensures rows[i].queueId in ids
      {
        assert ids[i] == rows[i].queueId;
      }
      forall q | q in ids
        ensures exists i :: 0 <= i < |rows| && rows[i].queueId == q
      {
        var i :| 0 <= i < |ids| && ids[i] == q;
        assert rows[i].queueId == q;
      }
    }
    Uniq(ids)
  }

  /**
   * `insertPrioritized`: one entry per queue, then a re-evaluation of the
   * affected queues and, once it is done, a refresh of their displays. The
   * command returns its rows without waiting for either.
   */
  function InsertPrioritizedAll(db: Db, guildId: Snowflake, queues: seq<Queue>, subject: Mentionable,
                                reason: Option<string>, priorityOrder: Option<int>, users: Snowflake -> UserFetch<GuildUser>)
    : (r: (Result<Listing<Prioritized>, Error>, Db))
    ensures |db.prioritized| <= |r.1.prioritized| && r.1.prioritized[..|db.prioritized|] == db.prioritized
    ensures r.0.Err? ==> r.0.error == PrioritizedAlreadyExists
    ensures r.0.Ok? ==> |r.0.value.rows| == |queues| && r.1.prioritized == db.prioritized + r.0.value.rows
    ensures r.0.Ok? ==> forall q :: q in r.0.value.refresh ==> exists i :: 0 <= i < |queues| && queues[i].id == q
  {
    var ins := InsertPrioritizedEntries(db, guildId, queues, subject, reason, priorityOrder);
    if ins.0.Err? then (Err(ins.0.error), ins.1)
    else
      var re := ReEvaluated(ins.1, guildId, ins.0.value, AffectedQueues(ins.0.value), users);
      (Ok(re.0), re.1)
  }

  /**
   * On a valid database, prioritizing keeps it valid and only forgets the
   * guild's member rows of users Discord answers 404 for. When Discord
   * returns every member of the guild, the member rows stay as they were
   * and exactly the queues written to are refreshed.
   */
  lemma InsertPrioritizedForgets(db: Db, guildId: Snowflake, queues: seq<Queue>, subject: Mentionable,
                                 reason: Option<string>, priorityOrder: Option<int>, users: Snowflake -> UserFetch<GuildUser>)
    requires Valid(db)
    ensures var r := InsertPrioritizedAll(db, guildId, queues, subject, reason, priorityOrder, users);
      && Valid(r.1) && OnlyForgetsMissing(db, r.1, guildId, users)
      && (AllGuildFound(db, guildId, users) ==>
        && r.1.members == db.members
        && (r.0.Ok? ==> forall q :: q in r.0.value.refresh <==> exists i :: 0 <= i < |queues| && queues[i].id == q))
  {
    var ins := InsertPrioritizedEntries(db, guildId, queues, subject, reason, priorityOrder);
    assert ins.1.members == db.members;
  }

  /**
   * The re-evaluation that follows a change to the prioritized list, and
   * the rows and queues the change reports. The displays are refreshed
   * only when the re-evaluation finishes; when it throws, the rejection is
   * left unhandled and the rows are still returned.
   */
  function ReEvaluated(after: Db, guildId: Snowflake, rows: seq<Prioritized>, affected: seq<RowId>,
                       users: Snowflake -> UserFetch<GuildUser>)
    : (r: (Listing<Prioritized>, Db))
    ensures r.0.rows == rows
    ensures r.0.refresh == affected || r.0.refresh == []
    ensures r.1 == after.(members := r.1.members)
    ensures Valid(after) ==> Valid(r.1) && OnlyForgetsMissing(after, r.1, guildId, users)
    ensures Valid(after) && (forall j :: 0 <= j < |affected| ==> !HasPriorityRows(after, guildId, affected[j])) ==>
      r.0.refresh == affected
    ensures Valid(after) && AllOnQueuesFound(after, guildId, affected, users) ==> r == (Listing(rows, affected), after)
  {
    var re := ReEvaluatePrioritized(after, guildId, affected, users);
    ReEvaluationOutcome(after, guildId, affected, users);
    (Listing(rows, if re.0.None? then affected else []), re.1)
  }

  /** What the lemmas above give a caller that only knows whether the database is valid. */
  lemma ReEvaluationOutcome(db: Db, guildId: Snowflake, queueIds: seq<RowId>, users: Snowflake -> UserFetch<GuildUser>)
    ensures var r := ReEvaluatePrioritized(db, guildId, queueIds, users);
      && (Valid(db) ==> OnlyForgetsMissing(db, r.1, guildId, users))
      && (Valid(db) && (forall j :: 0 <= j < |queueIds| ==> !HasPriorityRows(db, guildId, queueIds[j])) ==> r.0.None?)
      && (Valid(db) && AllOnQueuesFound(db, guildId, queueIds, users) ==> r == (None, db))
  {
    if Valid(db) {
      ReEvaluateIsNoOp(db, guildId, queueIds, users);
      if forall j :: 0 <= j < |queueIds| ==> !HasPriorityRows(db, guildId, queueIds[j]) {
        ReEvaluateWithoutPriorityRows(db, guildId, queueIds, users);
      }
    }
  }


  /**
   * Prioritized entries are unique per guild and subject, not per queue: a
   * subject prioritized on two queues at once fails on the second, after the
   * first queue's entry has been written.
   */
  lemma MultiQueuePrioritizeFails(db: Db, guildId: Snowflake, q0: Queue, q1: Queue, subject: Mentionable,
                                  reason: Option<string>, priorityOrder: Option<int>, users: Snowflake -> UserFetch<GuildUser>)
    requires forall i :: 0 <= i < |db.prioritized| ==> PrioritizedKey(db.prioritized[i]) != (guildId, subject.id)
    ensures var r := InsertPrioritizedAll(db, guildId, [q0, q1], subject, reason, priorityOrder, users);
      && r.0 == Err(PrioritizedAlreadyExists)
      && |r.1.prioritized| == |db.prioritized| + 1
      && r.1.prioritized[|db.prioritized|].queueId == q0.id
  {
    var first := InsertPrioritized(db, EntryFor(guildId, q0.id, subject, reason), priorityOrder);
    assert first.1.prioritized[|db.prioritized|] == first.0.value;
    var second := InsertPrioritized(first.1, EntryFor(guildId, q1.id, subject, reason), priorityOrder);
    assert PrioritizedKey(first.1.prioritized[|db.prioritized|]) == (guildId, subject.id);
    assert second == (Err(PrioritizedAlreadyExists), first.1);
    assert [q0, q1][1..] == [q1] && [q1][1..] == [];
    var rest := InsertPrioritizedEntries(first.1, guildId, [q1], subject, reason, priorityOrder);
    assert rest == (Err(PrioritizedAlreadyExists), first.1);
    var ins := InsertPrioritizedEntries(db, guildId, [q0, q1], subject, reason, priorityOrder);
    assert ins == (Err(PrioritizedAlreadyExists), first.1);
  }

  /**
   * `deletePrioritized`: every id is deleted first; then the affected queues
   * are looked up from the deleted rows, which throws (reading a field of
   * `undefined`) when some id matched nothing. Otherwise the affected queues
   * are re-evaluated and refreshed.
   */
  function DeletePrioritizedAll(db: Db, guildId: Snowflake, ids: seq<RowId>, users: Snowflake -> UserFetch<GuildUser>)
    : (r: (Result<Listing<Prioritized>, Error>, Db))
    ensures r.1.prioritized == Filter(db.prioritized, (p: Prioritized) => p.id !in ids)
    ensures r.0.Ok? ==> |r.0.value.rows| == |ids| && forall i :: 0 <= i < |ids| ==> r.0.value.rows[i].id == ids[i]
    ensures !AllFound(DeletePrioritizedByIds(db, ids).0) ==> r.0 == Err(MissingRow)
    ensures AllFound(DeletePrioritizedByIds(db, ids).0) ==> r.0.Ok?
  {
    var del := DeletePrioritizedByIds(db, ids);
    if !AllFound(del.0) then (Err(MissingRow), del.1)
    else
      var rows := FoundRows(del.0);
      var re := ReEvaluated(del.1, guildId, rows, AffectedQueues(rows), users);
      (Ok(re.0), re.1)
  }

  /**
   * On a consistent database, deleting priority entries only forgets the
   * guild's member rows of users Discord answers 404 for; when Discord
   * returns every member of the guild, every member row stays as it was.
   */
  lemma DeletePrioritizedKeepsMembers(db: Db, guildId: Snowflake, ids: seq<RowId>, users: Snowflake -> UserFetch<GuildUser>)
    requires Valid(db)
    ensures OnlyForgetsMissing(db, DeletePrioritizedAll(db, guildId, ids, users).1, guildId, users)
    ensures AllGuildFound(db, guildId, users) ==> DeletePrioritizedAll(db, guildId, ids, users).1.members == db.members
  {
    var del := DeletePrioritizedByIds(db, ids);
    assert del.1.members == db.members;
  }

  /**
   * `updatePrioritized`: the ids are mapped through `store.updatePrioritized`,
   * which the `Store` class does not define, so the first id throws before
   * anything is written or refreshed. With no ids nothing happens.
   */
  function UpdatePrioritizedAll(db: Db, ids: seq<RowId>): (r: (Result<Listing<Prioritized>, Error>, Db))
    ensures r.1 == db
    ensures r.0.Err? <==> |ids| > 0
    ensures r.0.Err? ==> r.0.error == StoreMethodMissing
    ensures r.0.Ok? ==> r.0.value.rows == [] && r.0.value.refresh == []
  {
    if |ids| == 0 then (Ok(Listing([], [])), db) else (Err(StoreMethodMissing), db)
  }

  /** Every lookup of the run found a row. */
  predicate AllFound<R>(found: seq<Option<R>>) {
    forall i :: 0 <= i < |found| ==> found[i].Some?
  }

  /** The rows held by a run of lookups that all found one. */
  function FoundRows<R>(found: seq<Option<R>>): (r: seq<R>)
    requires AllFound(found)
    ensures |r| == |found| && forall i :: 0 <= i < |found| ==> found[i] == Some(r[i])
  {
    seq(|found|, i requires 0 <= i < |found| => found[i].value)
  }

  /** `prioritizedIds.map(id => store.deletePrioritized({ id }))`. */
  function DeletePrioritizedByIds(db: Db, ids: seq<RowId>): (r: (seq<Option<Prioritized>>, Db))
    ensures |r.0| == |ids|
    ensures forall i :: 0 <= i < |ids| && r.0[i].Some? ==> r.0[i].value.id == ids[i] && r.0[i].value in db.prioritized
    ensures r.1 == db.(prioritized := Filter(db.prioritized, (p: Prioritized) => p.id !in ids))
    ensures Valid(db) ==> Valid(r.1)
    decreases |ids|
  {
    if |ids| == 0 then
      FilterAll(db.prioritized, (p: Prioritized) => p.id !in ids);
      ([], db)
    else
      var step := DeletePrioritized(db, EntryById(ids[0]));
      var rest := DeletePrioritizedByIds(step.1, ids[1..]);
      DeletePrioritizedStep(db, ids, step, rest);
      ([First(step.0)] + rest.0, rest.1)
  }

  /** One step of `DeletePrioritizedByIds`: the first id's delete followed by the others'. */
  lemma DeletePrioritizedStep(db: Db, ids: seq<RowId>, step: (seq<Prioritized>, Db), rest: (seq<Option<Prioritized>>, Db))
    requires |ids| > 0 && step == DeletePrioritized(db, EntryById(ids[0]))
    requires |rest.0| == |ids| - 1
    requires forall i :: 0 <= i < |rest.0| && rest.0[i].Some? ==>
      rest.0[i].value.id == ids[1..][i] && rest.0[i].value in step.1.prioritized
    requires rest.1 == step.1.(prioritized := Filter(step.1.prioritized, (p: Prioritized) => p.id !in ids[1..]))
    ensures forall i :: 0 <= i < |ids| && ([First(step.0)] + rest.0)[i].Some? ==>
      ([First(step.0)] + rest.0)[i].value.id == ids[i] && ([First(step.0)] + rest.0)[i].value in db.prioritized
    ensures rest.1 == db.(prioritized := Filter(db.prioritized, (p: Prioritized) => p.id !in ids))
  {
    DeletePrioritizedStepFound(db, ids, step, rest.0);
    DeletePrioritizedStepKept(db, ids, step.1, rest.1);
  }

  /** One step of `DeletePrioritizedByIds`: each result found by the first id's delete or a later one is a priority row with that id. */
  lemma DeletePrioritizedStepFound(db: Db, ids: seq<RowId>, step: (seq<Prioritized>, Db), rest: seq<Option<Prioritized>>)
    requires |ids| > 0 && step == DeletePrioritized(db, EntryById(ids[0]))
    requires |rest| == |ids| - 1
    requires forall i :: 0 <= i < |rest| && rest[i].Some? ==>
      rest[i].value.id == ids[1..][i] && rest[i].value in step.1.prioritized
    ensures forall i :: 0 <= i < |ids| && ([First(step.0)] + rest)[i].Some? ==>
      ([First(step.0)] + rest)[i].value.id == ids[i] && ([First(step.0)] + rest)[i].value in db.prioritized
  {
    DeleteByIdsStep(db.prioritized, (p: Prioritized) => PrioritizedSelected(EntryById(ids[0]), p),
      (p: Prioritized) => !PrioritizedSelected(EntryById(ids[0]), p), step.0, step.1.prioritized, rest);
    ConsFound(First(step.0), rest, ids, db.prioritized, (p: Prioritized) => p.id);
  }

  /** One step of `DeletePrioritizedByIds`: the first id's delete and the later ones together drop every listed id. */
  lemma DeletePrioritizedStepKept(db: Db, ids: seq<RowId>, step: Db, rest: Db)
    requires |ids| > 0
    requires step == db.(prioritized := Filter(db.prioritized, (p: Prioritized) => !PrioritizedSelected(EntryById(ids[0]), p)))
    requires rest == step.(prioritized := Filter(step.prioritized, (p: Prioritized) => p.id !in ids[1..]))
    ensures rest == db.(prioritized := Filter(db.prioritized, (p: Prioritized) => p.id !in ids))
  {
    assert ids == [ids[0]] + ids[1..];
    FilterFilterExt(db.prioritized, (p: Prioritized) => !PrioritizedSelected(EntryById(ids[0]), p),
      (p: Prioritized) => p.id !in ids[1..], (p: Prioritized) => p.id !in ids);
  }

  // Admins.

  /** `insertAdmin`: one admin row for the guild and subject. */
  function InsertAdminFor(db: Db, guildId: Snowflake, subject: Mentionable): (r: (Result<Admin, Error>, Db))
    ensures r.0.Err? <==> exists i :: 0 <= i < |db.admins| && AdminKey(db.admins[i]) == (guildId, subject.id)
    ensures r.0.Ok? ==> (r.0.value.subjectId == subject.id && r.0.value.isRole == subject.RoleSubject?
      && r.1.admins == db.admins + [r.0.value])
    ensures r.1 == db.(admins := r.1.admins, nextId := r.1.nextId)
  {
    InsertAdmin(db, guildId, subject.id, subject.RoleSubject?)
  }

  /**
   * An admin row makes every user it names an admin of the guild, through
   * their id or one of their roles, whatever `isRole` says.
   */
  lemma AdminRowGrantsAccess(db: Db, guildId: Snowflake, subject: Mentionable, u: GuildUser)
    requires Names(subject.id, u)
    requires InsertAdminFor(db, guildId, subject).0.Ok?
    ensures VerifyIsAdmin(InsertAdminFor(db, guildId, subject).1, guildId, u).Ok?
  {
    var r := InsertAdminFor(db, guildId, subject);
    assert r.1.admins[|db.admins|] == r.0.value;
  }

  /** `deleteAdmins`: `adminIds.map(id => store.deleteAdmin({ id }))`. */
  function DeleteAdminsByIds(db: Db, ids: seq<RowId>): (r: (seq<Option<Admin>>, Db))
    ensures |r.0| == |ids|
    ensures forall i :: 0 <= i < |ids| && r.0[i].Some? ==> r.0[i].value.id == ids[i] && r.0[i].value in db.admins
    ensures r.1 == db.(admins := Filter(db.admins, (a: Admin) => a.id !in ids))
    ensures Valid(db) ==> Valid(r.1)
    decreases |ids|
  {
    if |ids| == 0 then
      FilterAll(db.admins, (a: Admin) => a.id !in ids);
      ([], db)
    else
      var step := DeleteAdmins(db, AdminById(ids[0]));
      var rest := DeleteAdminsByIds(step.1, ids[1..]);
      DeleteAdminsStepFound(db, ids, step, rest.0);
      DeleteAdminsStepKept(db, ids, step.1, rest.1);
      ([First(step.0)] + rest.0, rest.1)
  }

  /** One step of `DeleteAdminsByIds`: each result found by the first id's delete or a later one is an admin row with that id. */
  lemma DeleteAdminsStepFound(db: Db, ids: seq<RowId>, step: (seq<Admin>, Db), rest: seq<Option<Admin>>)
    requires |ids| > 0 && step == DeleteAdmins(db, AdminById(ids[0]))
    requires |rest| == |ids| - 1
    requires forall i :: 0 <= i < |rest| && rest[i].Some? ==>
      rest[i].value.id == ids[1..][i] && rest[i].value in step.1.admins
    ensures forall i :: 0 <= i < |ids| && ([First(step.0)] + rest)[i].Some? ==>
      ([First(step.0)] + rest)[i].value.id == ids[i] && ([First(step.0)] + rest)[i].value in db.admins
  {
    DeleteByIdsStep(db.admins, (a: Admin) => AdminSelected(AdminById(ids[0]), a),
      (a: Admin) => !AdminSelected(AdminById(ids[0]), a), step.0, step.1.admins, rest);
    ConsFound(First(step.0), rest, ids, db.admins, (a: Admin) => a.id);
  }

  /** One step of `DeleteAdminsByIds`: the first id's delete and the later ones together drop every listed id. */
  lemma DeleteAdminsStepKept(db: Db, ids: seq<RowId>, step: Db, rest: Db)
    requires |ids| > 0
    requires step == db.(admins := Filter(db.admins, (a: Admin) => !AdminSelected(AdminById(ids[0]), a)))
    requires rest == step.(admins := Filter(step.admins, (a: Admin) => a.id !in ids[1..]))
    ensures rest == db.(admins := Filter(db.admins, (a: Admin) => a.id !in ids))
  {
    assert ids == [ids[0]] + ids[1..];
    FilterFilterExt(db.admins, (a: Admin) => !AdminSelected(AdminById(ids[0]), a),
      (a: Admin) => a.id !in ids[1..], (a: Admin) => a.id !in ids);
  }
}

=== FILE: members.dfy ===
/**
 * The member operations of a queue: the eligibility checks and priority of a
 * join, the 1-based position lookup, clearing, and the three ways of pulling
 * members (by user ids, by the holders of a role, by count). Every operation
 * reads the store's guild member list, restricted to the queue, and writes
 * through the store.
 */
module Members {
  import opened Wrappers
  import opened Sorting
  import opened Tables
  import opened Schema
  import opened Queries
  import opened Store
  import opened Access

  /** What an operation hands back: the member rows it returns and the queues whose displays it refreshes. */
  datatype Outcome = Outcome(members: seq<Member>, refresh: seq<RowId>)

  /**
   * `store.dbMembers().filter(member => member.queueId === queue.id)`: the
   * guild's ordered member list cut down to one queue is that queue's own
   * ordered list, holding exactly the queue's rows.
   */
  function QueueLine(db: Db, guildId: Snowflake, queueId: RowId): (r: seq<Member>)
    ensures r == QueueMembers(db, guildId, queueId)
    ensures |r| == |QueueRows(db, guildId, queueId)|
    ensures forall m :: m in r <==> m in db.members && InQueue(m, guildId, queueId)
  {
    GuildLineIsQueueMembers(db, guildId, queueId);
    QueueMembersHoldQueueRows(db, guildId, queueId);
    assert |multiset(QueueMembers(db, guildId, queueId))| == |multiset(QueueRows(db, guildId, queueId))|;
    Filter(GuildMembers(db, guildId), (m: Member) => m.queueId == queueId)
  }

  // Joining.

  /** JavaScript truthiness of the nullable `size` column: null and 0 impose no limit. */
  predicate SizeLimited(q: Queue) {
    q.size.Some? && q.size.value != 0
  }

  /** The queue holds at least as many rows as its (truthy) size. */
  predicate Full(db: Db, guildId: Snowflake, q: Queue) {
    SizeLimited(q) && |QueueRows(db, guildId, q.id)| >= q.size.value
  }

  /** Some whitelist row of the queue names the user. */
  predicate OnWhitelist(db: Db, guildId: Snowflake, queueId: RowId, u: GuildUser) {
    exists i :: 0 <= i < |db.whitelisted| && EntryNames(db.whitelisted[i], guildId, queueId, u)
  }

  /** Some blacklist row of the queue names the user. */
  predicate OnBlacklist(db: Db, guildId: Snowflake, queueId: RowId, u: GuildUser) {
    exists i :: 0 <= i < |db.blacklisted| && EntryNames(db.blacklisted[i], guildId, queueId, u)
  }

  /**
   * `verifyMemberEligibility`: the first failing check, in the order lock,
   * size, whitelist, blacklist.
   */
  function VerifyMemberEligibility(db: Db, guildId: Snowflake, q: Queue, u: GuildUser): (r: Result<(), Error>)
    ensures r == Err(QueueLocked) <==> q.lockToggle
    ensures r == Err(QueueFull) <==> !q.lockToggle && Full(db, guildId, q)
    ensures r == Err(NotOnQueueWhitelist) <==>
      !q.lockToggle && !Full(db, guildId, q) && OnWhitelist(db, guildId, q.id, u)
    ensures r == Err(OnQueueBlacklist) <==>
      !q.lockToggle && !Full(db, guildId, q) && !OnWhitelist(db, guildId, q.id, u) && OnBlacklist(db, guildId, q.id, u)
    ensures r.Ok? <==>
      !q.lockToggle && !Full(db, guildId, q) && !OnWhitelist(db, guildId, q.id, u) && !OnBlacklist(db, guildId, q.id, u)
  {
    if q.lockToggle then Err(QueueLocked)
    else if SizeLimited(q) && |QueueLine(db, guildId, q.id)| >= q.size.value then Err(QueueFull)
    else if IsBlockedByWhitelist(db, guildId, q.id, u) then Err(NotOnQueueWhitelist)
    else if IsBlockedByBlacklist(db, guildId, q.id, u) then Err(OnQueueBlacklist)
    else Ok(())
  }

  /** The queue already has a row for the user. */
  predicate HasRow(db: Db, queueId: RowId, userId: Snowflake) {
    exists i :: 0 <= i < |db.members| && MemberKey(db.members[i]) == (queueId, userId)
  }

  // Queue roles.

  /** Discord's answer to a role change: applied, refused for missing permissions, or any other error. */
  datatype RoleAnswer = RoleDone | RoleRefused | RoleFailed

  /** A role change goes through: the queue has no role, or Discord returns the member and applies the change. */
  predicate RoleChangeSucceeds(roleId: Option<Snowflake>, fetch: UserFetch<GuildUser>, answer: RoleAnswer) {
    roleId.None? || (fetch.UserFound? && answer == RoleDone)
  }

  /**
   * `modifyRole`: nothing happens without a role. Otherwise the member is
   * fetched, where a 404 forgets the user's rows in the guild, and the change
   * is sent. `fetch` is Discord's answer to the fetch and `answer` its answer
   * to the change. An absent member throws a TypeError on `member.roles`; a
   * refusal for missing permissions becomes the "Missing Permissions" error;
   * any other error is rethrown.
   */
  function ModifyRole(db: Db, guildId: Snowflake, roleId: Option<Snowflake>, userId: Snowflake,
                      fetch: UserFetch<GuildUser>, answer: RoleAnswer): (r: (Result<(), Error>, Db))
    ensures r.0.Ok? <==> RoleChangeSucceeds(roleId, fetch, answer)
    ensures r.0.Err? && !fetch.UserFound? ==> r.0.error == MemberUnavailable
    ensures r.0.Err? && fetch.UserFound? ==> r.0.error == (if answer == RoleRefused then RolePermissionMissing else RoleChangeFailed)
    ensures forall m :: m in r.1.members <==>
      m in db.members && !(roleId.Some? && fetch.UserNotFound? && m.guildId == guildId && m.userId == userId)
    ensures r.0.Ok? ==> r.1 == db
    ensures OnlyWrites(db, r.1, MembersTable) && r.1 == db.(members := r.1.members)
    ensures Valid(db) ==> Valid(r.1)
  {
    if roleId.None? then (Ok(()), db)
    else
      var db1 := if fetch.UserNotFound? then MemberNotFound(db, guildId, userId) else db;
      if !fetch.UserFound? then (Err(MemberUnavailable), db1)
      else if answer == RoleDone then (Ok(()), db1)
      else if answer == RoleRefused then (Err(RolePermissionMissing), db1)
      else (Err(RoleChangeFailed), db1)
  }

  /** The join's checks pass: it is forced, or the user is eligible. */
  predicate MayJoin(db: Db, guildId: Snowflake, q: Queue, u: GuildUser, force: bool) {
    force || VerifyMemberEligibility(db, guildId, q, u).Ok?
  }

  /**
   * The write of a join: the user's row upserted with the computed priority.
   * It adds a row only when the user had none; a re-join keeps the row's id
   * and times, and keeps its message and priority when no new one is given.
   */
  function JoinRow(db: Db, guildId: Snowflake, q: Queue, u: GuildUser, message: Option<string>, now: int)
    : (r: (Member, Db))
    ensures MemberKey(r.0) == (q.id, u.id) && r.0.guildId == guildId && r.0 in r.1.members
    ensures message.Some? || !HasRow(db, q.id, u.id) ==> r.0.message == message
    ensures GetMemberPriority(db, guildId, q.id, u).Some? ==> r.0.priority == GetMemberPriority(db, guildId, q.id, u)
    ensures !HasRow(db, q.id, u.id) ==>
      r.0.priority == GetMemberPriority(db, guildId, q.id, u) && |r.1.members| == |db.members| + 1
    ensures HasRow(db, q.id, u.id) ==> |r.1.members| == |db.members|
    ensures Valid(db) ==> forall i :: 0 <= i < |db.members| && MemberKey(db.members[i]) == (q.id, u.id) ==>
      && r.0.id == db.members[i].id && r.0.joinTime == db.members[i].joinTime
      && r.0.positionTime == db.members[i].positionTime
      && (message.None? ==> r.0.message == db.members[i].message)
      && (GetMemberPriority(db, guildId, q.id, u).None? ==> r.0.priority == db.members[i].priority)
    ensures forall i :: 0 <= i < |db.members| && MemberKey(db.members[i]) != (q.id, u.id) ==>
      i < |r.1.members| && r.1.members[i] == db.members[i]
    ensures OnlyWrites(db, r.1, MembersTable)
    ensures Valid(db) ==> Valid(r.1)
  {
    var priority := GetMemberPriority(db, guildId, q.id, u);
    InsertMember(db, NewMember(guildId, q.id, u.id, message, priority), now)
  }

  /**
   * `insertJsMember`: unless forced, the eligibility checks; then the write
   * of the user's row, the queue's role given to the user, and a refresh of
   * the queue's displays. `fetch` and `answer` are Discord's answers to the
   * role step; when that step throws, the row stays written (unless the
   * fetch's 404 forgot the user) and no refresh is requested. `now` is the
   * insert's default time.
   */
  function InsertJsMember(db: Db, guildId: Snowflake, q: Queue, u: GuildUser, message: Option<string>,
                          force: bool, fetch: UserFetch<GuildUser>, answer: RoleAnswer, now: int): (r: (Result<Outcome, Error>, Db))
    ensures r.0.Ok? <==> MayJoin(db, guildId, q, u, force) && RoleChangeSucceeds(q.roleId, fetch, answer)
    ensures !MayJoin(db, guildId, q, u, force) ==>
      Err(r.0.error) == VerifyMemberEligibility(db, guildId, q, u) && r.1 == db
    ensures MayJoin(db, guildId, q, u, force) && r.0.Err? ==>
      && q.roleId.Some?
      && (!fetch.UserFound? ==> r.0.error == MemberUnavailable)
      && (fetch.UserFound? ==> r.0.error == (if answer == RoleRefused then RolePermissionMissing else RoleChangeFailed))
    ensures MayJoin(db, guildId, q, u, force) && !(q.roleId.Some? && fetch.UserNotFound?) ==> HasRow(r.1, q.id, u.id)
    ensures MayJoin(db, guildId, q, u, force) && q.roleId.Some? && fetch.UserNotFound? ==>
      && (forall i :: 0 <= i < |r.1.members| ==> !(r.1.members[i].guildId == guildId && r.1.members[i].userId == u.id))
      && (forall m :: m in db.members && !(m.guildId == guildId && m.userId == u.id) && MemberKey(m) != (q.id, u.id) ==>
            m in r.1.members)
    ensures r.0.Ok? ==> var w := JoinRow(db, guildId, q, u, message, now);
      r.0.value == Outcome([w.0], [q.id]) && r.1 == w.1
    ensures OnlyWrites(db, r.1, MembersTable)
    ensures Valid(db) ==> Valid(r.1)
  {
    var check := if force then Ok(()) else VerifyMemberEligibility(db, guildId, q, u);
    if check.Err? then (Err(check.error), db)
    else
      var ins := JoinRow(db, guildId, q, u, message, now);
      var role := ModifyRole(ins.1, guildId, q.roleId, u.id, fetch, answer);
      InsertedRowKept(db, ins.1, role.1, ins.0, guildId, q.id, u.id, q.roleId.Some? && fetch.UserNotFound?);
      if role.0.Err? then (Err(role.0.error), role.1)
      else (Ok(Outcome([ins.0], [q.id])), role.1)
  }

  /**
   * The store effect of a join whose role step may forget the user: rows of
   * other users survive the upsert and the 404, and the upserted row survives
   * unless the user was forgotten.
   */
  lemma InsertedRowKept(db: Db, ins: Db, out: Db, m: Member, guildId: Snowflake, queueId: RowId, userId: Snowflake,
                        forgot: bool)
    requires MemberKey(m) == (queueId, userId) && m in ins.members
    requires forall i :: 0 <= i < |db.members| && MemberKey(db.members[i]) != (queueId, userId) ==>
      i < |ins.members| && ins.members[i] == db.members[i]
    requires forall x :: x in out.members <==> x in ins.members && !(forgot && x.guildId == guildId && x.userId == userId)
    ensures !forgot ==> HasRow(out, queueId, userId)
    ensures forgot ==> forall i :: 0 <= i < |out.members| ==> !(out.members[i].guildId == guildId && out.members[i].userId == userId)
    ensures forall x :: x in db.members && !(x.guildId == guildId && x.userId == userId) && MemberKey(x) != (queueId, userId) ==>
      x in out.members
  {
    if !forgot {
      assert m in out.members;
      var k :| 0 <= k < |out.members| && out.members[k] == m;
    }
    forall x | x in db.members && !(x.guildId == guildId && x.userId == userId) && MemberKey(x) != (queueId, userId)
      ensures x in out.members
    {
      var i :| 0 <= i < |db.members| && db.members[i] == x;
      assert ins.members[i] == x;
    }
  }

  // Position lookup.

  /** `Array.prototype.indexOf`: the first index holding `x`, or -1. */
  function PositionOf<T(==)>(xs: seq<T>, x: T): (r: int)
    ensures -1 <= r < |xs|
    ensures r == -1 <==> x !in xs
    ensures r >= 0 ==> xs[r] == x && forall i :: 0 <= i < r ==> xs[i] != x
  {
    match FindIndex(xs, (y: T) => y == x)
    case Some(i) => i
    case None => -1
  }

  /**
   * `getMemberPosition`: the user's first row in the queue's ordered list and
   * its 1-based place there; 0 and no row when the user is not queued.
   */
  function GetMemberPosition(db: Db, guildId: Snowflake, queueId: RowId, userId: Snowflake): (r: (nat, Option<Member>))
    ensures var line := QueueMembers(db, guildId, queueId);
      && (r.0 == 0 <==> forall i :: 0 <= i < |line| ==> line[i].userId != userId)
      && (r.0 == 0 ==> r.1.None?)
      && (r.0 > 0 ==> (r.0 <= |line| && r.1 == Some(line[r.0 - 1]) && line[r.0 - 1].userId == userId
            && forall i :: 0 <= i < r.0 - 1 ==> line[i].userId != userId))
  {
    PositionIn(QueueLine(db, guildId, queueId), userId)
  }

  /** `members.find(...)` and `members.indexOf(member) + 1` on one ordered list. */
  function PositionIn(line: seq<Member>, userId: Snowflake): (r: (nat, Option<Member>))
    ensures r.0 == 0 <==> forall i :: 0 <= i < |line| ==> line[i].userId != userId
    ensures r.0 == 0 ==> r.1.None?
    ensures r.0 > 0 ==> (r.0 <= |line| && r.1 == Some(line[r.0 - 1]) && line[r.0 - 1].userId == userId
            && forall i :: 0 <= i < r.0 - 1 ==> line[i].userId != userId)
  {
    var member := FirstWhere(line, (m: Member) => m.userId == userId);
    FoundAtFirstIndex(line, userId);
    if member.None? then (0, None) else (PositionOf(line, member.value) + 1, member)
  }

  /** `indexOf` of the row `find` returned is the index `find` stopped at. */
  lemma FoundAtFirstIndex(line: seq<Member>, userId: Snowflake)
    ensures var member := FirstWhere(line, (m: Member) => m.userId == userId);
      var j := FindIndex(line, (m: Member) => m.userId == userId);
      member.Some? ==> j.Some? && PositionOf(line, member.value) == j.value && member.value == line[j.value]
  {
  }

  /** After a successful join the user has a place in the queue. */
  lemma JoinedUserHasPosition(db: Db, guildId: Snowflake, q: Queue, u: GuildUser, message: Option<string>,
                              force: bool, fetch: UserFetch<GuildUser>, answer: RoleAnswer, now: int)
    requires InsertJsMember(db, guildId, q, u, message, force, fetch, answer, now).0.Ok?
    ensures var r := InsertJsMember(db, guildId, q, u, message, force, fetch, answer, now);
      GetMemberPosition(r.1, guildId, q.id, u.id).0 > 0
  {
    var r := InsertJsMember(db, guildId, q, u, message, force, fetch, answer, now);
    var m := r.0.value.members[0];
    QueueMembersHoldQueueRows(r.1, guildId, q.id);
    var line := QueueMembers(r.1, guildId, q.id);
    assert m in line;
    var k :| 0 <= k < |line| && line[k] == m;
    assert line[k].userId == u.id;
  }

  /**
   * A forced join skips every check, even on a locked queue, where the
   * unforced join fails with `QueueLocked`; the forced join then fails only
   * in the role step.
   */
  lemma ForcedJoinIgnoresLock(db: Db, guildId: Snowflake, q: Queue, u: GuildUser,
                              fetch: UserFetch<GuildUser>, answer: RoleAnswer, now: int)
    requires q.lockToggle
    ensures InsertJsMember(db, guildId, q, u, None, true, fetch, answer, now).0.Ok? <==>
      RoleChangeSucceeds(q.roleId, fetch, answer)
    ensures InsertJsMember(db, guildId, q, u, None, false, fetch, answer, now) == (Err(QueueLocked), db)
  {
  }

  // Clearing.

  /** `clearMembers`: deletes every row of the queue and refreshes its displays. */
  function ClearMembers(db: Db, queueId: RowId): (r: (Outcome, Db))
    ensures forall m :: m in r.0.members <==> m in db.members && m.queueId == queueId
    ensures forall i :: 0 <= i < |r.1.members| ==> r.1.members[i].queueId != queueId
    ensures forall m :: m in db.members && m.queueId != queueId ==> m in r.1.members
    ensures forall m :: m in r.1.members ==> m in db.members
    ensures |r.0.members| + |r.1.members| == |db.members|
    ensures r.0.refresh == [queueId]
    ensures OnlyWrites(db, r.1, MembersTable)
    ensures Valid(db) ==> Valid(r.1)
  {
    var d := DeleteMembers(db, MemberByQueue(queueId, None));
    PartitionLength(db.members, (m: Member) => MemberSelected(MemberByQueue(queueId, None), m),
      (m: Member) => !MemberSelected(MemberByQueue(queueId, None), m));
    assert forall m :: m in d.0 <==> m in db.members && m.queueId == queueId by {
      forall m {
        FilterMembership(db.members, (m: Member) => MemberSelected(MemberByQueue(queueId, None), m), m);
      }
    }
    assert forall m :: m in d.1.members <==> m in db.members && m.queueId != queueId by {
      forall m {
        FilterMembership(db.members, (m: Member) => !MemberSelected(MemberByQueue(queueId, None), m), m);
      }
    }
    (Outcome(d.0, [queueId]), d.1)
  }

  /** After a clear nobody has a place in the queue. */
  lemma ClearedQueueHasNoPositions(db: Db, guildId: Snowflake, queueId: RowId, userId: Snowflake)
    ensures GetMemberPosition(ClearMembers(db, queueId).1, guildId, queueId, userId).0 == 0
  {
    var db' := ClearMembers(db, queueId).1;
    QueueMembersHoldQueueRows(db', guildId, queueId);
  }

  // Pulling by user ids and by role holders.

  /** The row is one of the queue's and belongs to one of the users. */
  predicate Named(queueId: RowId, ids: seq<Snowflake>, m: Member) {
    m.queueId == queueId && m.userId in ids
  }

  /** A member-key filter of a table with unique member keys holds at most one row. */
  lemma AtMostOneKeyed(rows: seq<Member>, crit: MemberBy, queueId: RowId, userId: Snowflake)
    requires crit == MemberByQueue(queueId, Some(userId))
    requires UniqueBy(rows, MemberKey)
    ensures |Filter(rows, (m: Member) => MemberSelected(crit, m))| <= 1
  {
    var f := Filter(rows, (m: Member) => MemberSelected(crit, m));
    FilterOfUnique(rows, (m: Member) => MemberSelected(crit, m), MemberKey);
    if |f| > 1 {
      var first, second := MemberKey(f[0]), MemberKey(f[1]);
    }
  }

  /**
   * `ids.forEach(userId => store.deleteMember({ queueId, userId }))`,
   * keeping the rows that were found: every row of the queue belonging to
   * one of the users goes, and nothing else.
   */
  function DeleteUsersFromQueue(db: Db, queueId: RowId, ids: seq<Snowflake>): (r: (seq<Member>, Db))
    ensures r.1 == db.(members := Filter(db.members, (m: Member) => !Named(queueId, ids, m)))
    ensures Valid(db) ==> Valid(r.1)
    ensures Valid(db) ==> forall m :: m in r.0 <==> m in db.members && Named(queueId, ids, m)
    ensures Valid(db) ==> |r.0| + |r.1.members| == |db.members|
    decreases |ids|
  {
    if |ids| == 0 then
      FilterAll(db.members, (m: Member) => !Named(queueId, ids, m));
      ([], db)
    else
      var step := DeleteMembers(db, MemberByQueue(queueId, Some(ids[0])));
      var rest := DeleteUsersFromQueue(step.1, queueId, ids[1..]);
      var found := First(step.0);
      var r := ((if found.Some? then [found.value] else []) + rest.0, rest.1);
      DeleteUsersStep(db, queueId, ids, step.1, rest.1);
      DeleteUsersCombine(db, queueId, ids, step, rest, r);
      r
  }

  /** The rows found by the first `deleteMember` and by the rest together are the rows of all the users. */
  lemma DeleteUsersCombine(db: Db, queueId: RowId, ids: seq<Snowflake>, step: (seq<Member>, Db),
                           rest: (seq<Member>, Db), r: (seq<Member>, Db))
    requires |ids| > 0
    requires step == DeleteMembers(db, MemberByQueue(queueId, Some(ids[0])))
    requires Valid(step.1) ==> forall m :: m in rest.0 <==> m in step.1.members && Named(queueId, ids[1..], m)
    requires Valid(step.1) ==> |rest.0| + |rest.1.members| == |step.1.members|
    requires r == ((if First(step.0).Some? then [First(step.0).value] else []) + rest.0, rest.1)
    ensures Valid(db) ==> forall m :: m in r.0 <==> m in db.members && Named(queueId, ids, m)
    ensures Valid(db) ==> |r.0| + |r.1.members| == |db.members|
  {
    if Valid(db) {
      DeleteUsersFound(db, queueId, ids, step, rest, r);
      DeleteUsersCounted(db, queueId, ids, step, rest, r);
    }
  }

  lemma DeleteUsersFound(db: Db, queueId: RowId, ids: seq<Snowflake>, step: (seq<Member>, Db),
                         rest: (seq<Member>, Db), r: (seq<Member>, Db))
    requires |ids| > 0 && UniqueBy(db.members, MemberKey)
    requires step == DeleteMembers(db, MemberByQueue(queueId, Some(ids[0])))
    requires forall m :: m in rest.0 <==> m in step.1.members && Named(queueId, ids[1..], m)
    requires r == ((if First(step.0).Some? then [First(step.0).value] else []) + rest.0, rest.1)
    ensures forall m :: m in r.0 <==> m in db.members && Named(queueId, ids, m)
  {
    var crit := MemberByQueue(queueId, Some(ids[0]));
    AtMostOneKeyed(db.members, crit, queueId, ids[0]);
    assert |step.0| <= 1;
    forall m
      ensures m in r.0 <==> m in db.members && Named(queueId, ids, m)
    {
      FoundOrKept(db.members, queueId, ids, step.0, step.1.members, m);
      assert m in r.0 <==> m in step.0 || m in rest.0;
    }
  }

  /** One row against the first id's delete: deleted when selected, kept otherwise. */
  lemma FoundOrKept(rows: seq<Member>, queueId: RowId, ids: seq<Snowflake>, sel: seq<Member>, kept: seq<Member>,
                    m: Member)
    requires |ids| > 0
    requires sel == Filter(rows, (x: Member) => MemberSelected(MemberByQueue(queueId, Some(ids[0])), x))
    requires kept == Filter(rows, (x: Member) => !MemberSelected(MemberByQueue(queueId, Some(ids[0])), x))
    ensures m in sel <==> m in rows && MemberSelected(MemberByQueue(queueId, Some(ids[0])), m)
    ensures m in kept <==> m in rows && !MemberSelected(MemberByQueue(queueId, Some(ids[0])), m)
    ensures Named(queueId, ids, m) <==> MemberSelected(MemberByQueue(queueId, Some(ids[0])), m) || Named(queueId, ids[1..], m)
  {
    FilterMembership(rows, (x: Member) => MemberSelected(MemberByQueue(queueId, Some(ids[0])), x), m);
    FilterMembership(rows, (x: Member) => !MemberSelected(MemberByQueue(queueId, Some(ids[0])), x), m);
  }

  lemma DeleteUsersCounted(db: Db, queueId: RowId, ids: seq<Snowflake>, step: (seq<Member>, Db),
                           rest: (seq<Member>, Db), r: (seq<Member>, Db))
    requires |ids| > 0 && Valid(db)
    requires step == DeleteMembers(db, MemberByQueue(queueId, Some(ids[0])))
    requires |rest.0| + |rest.1.members| == |step.1.members|
    requires r == ((if First(step.0).Some? then [First(step.0).value] else []) + rest.0, rest.1)
    ensures |r.0| + |r.1.members| == |db.members|
  {
    var crit := MemberByQueue(queueId, Some(ids[0]));
    AtMostOneKeyed(db.members, crit, queueId, ids[0]);
    PartitionLength(db.members, (m: Member) => MemberSelected(crit, m), (m: Member) => !MemberSelected(crit, m));
  }

  /** Deleting one user and then the others is deleting all of them. */
  lemma DeleteUsersStep(db: Db, queueId: RowId, ids: seq<Snowflake>, mid: Db, last: Db)
    requires |ids| > 0
    requires mid == db.(members := Filter(db.members, (m: Member) => !MemberSelected(MemberByQueue(queueId, Some(ids[0])), m)))
    requires last == mid.(members := Filter(mid.members, (m: Member) => !Named(queueId, ids[1..], m)))
    ensures last == db.(members := Filter(db.members, (m: Member) => !Named(queueId, ids, m)))
  {
    assert ids == [ids[0]] + ids[1..];
    FilterFilterExt(db.members, (m: Member) => !MemberSelected(MemberByQueue(queueId, Some(ids[0])), m),
      (m: Member) => !Named(queueId, ids[1..], m), (m: Member) => !Named(queueId, ids, m));
  }

  /** The row is one of the listed queues' and belongs to one of the users. */
  predicate Targeted(queueIds: seq<RowId>, ids: seq<Snowflake>, m: Member) {
    m.queueId in queueIds && m.userId in ids
  }

  /** The ids of the queues, in order (`map(queues, queue => queue.id)`). */
  function QueueIdsOf(queues: seq<Queue>): (r: seq<RowId>)
    ensures |r| == |queues|
    ensures forall i :: 0 <= i < |queues| ==> r[i] == queues[i].id
  {
    seq(|queues|, i requires 0 <= i < |queues| => queues[i].id)
  }

  /** All the lists, one after another. */
  function Flatten<T(!new)>(xss: seq<seq<T>>): (r: seq<T>)
    ensures forall x :: x in r <==> exists i :: 0 <= i < |xss| && x in xss[i]
  {
    if |xss| == 0 then []
    else
      var rest := Flatten(xss[1..]);
      assert forall i :: 1 <= i < |xss| ==> xss[i] == xss[1..][i - 1];
      assert forall x :: x in rest ==> exists i :: 0 <= i < |xss| && x in xss[i] by {
        forall x | x in rest
          ensures exists i :: 0 <= i < |xss| && x in xss[i]
        {
          var i :| 0 <= i < |xss[1..]| && x in xss[1..][i];
          assert x in xss[i + 1];
        }
      }
      xss[0] + rest
  }

  lemma FlattenCons<T(!new)>(xs: seq<T>, xss: seq<seq<T>>)
    ensures Flatten([xs] + xss) == xs + Flatten(xss)
  {
    assert ([xs] + xss)[1..] == xss;
  }

  /**
   * The outer `queues.forEach` of the user-id and role branches: per queue,
   * the rows deleted from it.
   */
  function DeleteUsersFromQueues(db: Db, queues: seq<Queue>, ids: seq<Snowflake>): (r: (seq<seq<Member>>, Db))
    ensures |r.0| == |queues|
    ensures r.1 == db.(members := Filter(db.members, (m: Member) => !Targeted(QueueIdsOf(queues), ids, m)))
    ensures Valid(db) ==> Valid(r.1)
    ensures Valid(db) ==> forall m :: m in Flatten(r.0) <==> m in db.members && Targeted(QueueIdsOf(queues), ids, m)
    ensures Valid(db) ==> forall i, m :: 0 <= i < |queues| && m in r.0[i] ==> m.queueId == queues[i].id
    ensures Valid(db) ==> |Flatten(r.0)| + |r.1.members| == |db.members|
    decreases |queues|
  {
    if |queues| == 0 then
      FilterAll(db.members, (m: Member) => !Targeted(QueueIdsOf(queues), ids, m));
      ([], db)
    else
      var step := DeleteUsersFromQueue(db, queues[0].id, ids);
      var rest := DeleteUsersFromQueues(step.1, queues[1..], ids);
      DeleteQueuesStep(db, queues, ids, step.1, rest.1);
      DeleteQueuesCombine(db, queues, ids, step, rest);
      ([step.0] + rest.0, rest.1)
  }

  /** The rows deleted from the first queue and from the others together are the rows of all the queues. */
  lemma DeleteQueuesCombine(db: Db, queues: seq<Queue>, ids: seq<Snowflake>, step: (seq<Member>, Db),
                            rest: (seq<seq<Member>>, Db))
    requires |queues| > 0
    requires step == DeleteUsersFromQueue(db, queues[0].id, ids)
    requires |rest.0| == |queues| - 1
    requires Valid(step.1) ==>
      forall m :: m in Flatten(rest.0) <==> m in step.1.members && Targeted(QueueIdsOf(queues[1..]), ids, m)
    requires Valid(step.1) ==> forall i, m :: 0 <= i < |queues| - 1 && m in rest.0[i] ==> m.queueId == queues[1..][i].id
    requires Valid(step.1) ==> |Flatten(rest.0)| + |rest.1.members| == |step.1.members|
    ensures Valid(db) ==>
      forall m :: m in Flatten([step.0] + rest.0) <==> m in db.members && Targeted(QueueIdsOf(queues), ids, m)
    ensures Valid(db) ==> forall i, m :: 0 <= i < |queues| && m in ([step.0] + rest.0)[i] ==> m.queueId == queues[i].id
    ensures Valid(db) ==> |Flatten([step.0] + rest.0)| + |rest.1.members| == |db.members|
  {
    if Valid(db) {
      forall m
        ensures m in step.1.members <==> m in db.members && !Named(queues[0].id, ids, m)
      {
        FilterMembership(db.members, (m: Member) => !Named(queues[0].id, ids, m), m);
      }
      DeleteQueuesMembership(db, queues, ids, step, rest);
      FlattenCons(step.0, rest.0);
      forall i, m | 0 <= i < |queues| && m in ([step.0] + rest.0)[i]
        ensures m.queueId == queues[i].id
      {
        if i > 0 {
          assert ([step.0] + rest.0)[i] == rest.0[i - 1];
        }
      }
    }
  }

  lemma DeleteQueuesMembership(db: Db, queues: seq<Queue>, ids: seq<Snowflake>, step: (seq<Member>, Db),
                               rest: (seq<seq<Member>>, Db))
    requires |queues| > 0
    requires forall m :: m in step.0 <==> m in db.members && Named(queues[0].id, ids, m)
    requires forall m :: m in step.1.members <==> m in db.members && !Named(queues[0].id, ids, m)
    requires forall m :: m in Flatten(rest.0) <==> m in step.1.members && Targeted(QueueIdsOf(queues[1..]), ids, m)
    ensures forall m :: m in Flatten([step.0] + rest.0) <==> m in db.members && Targeted(QueueIdsOf(queues), ids, m)
  {
    FlattenCons(step.0, rest.0);
    assert QueueIdsOf(queues) == [queues[0].id] + QueueIdsOf(queues[1..]);
  }

  /** Deleting from the first queue and then from the others is deleting from all of them. */
  lemma DeleteQueuesStep(db: Db, queues: seq<Queue>, ids: seq<Snowflake>, mid: Db, last: Db)
    requires |queues| > 0
    requires mid == db.(members := Filter(db.members, (m: Member) => !Named(queues[0].id, ids, m)))
    requires last == mid.(members := Filter(mid.members, (m: Member) => !Targeted(QueueIdsOf(queues[1..]), ids, m)))
    ensures last == db.(members := Filter(db.members, (m: Member) => !Targeted(QueueIdsOf(queues), ids, m)))
  {
    var all, rest := QueueIdsOf(queues), QueueIdsOf(queues[1..]);
    assert all == [queues[0].id] + rest;
    forall i | 0 <= i < |db.members|
      ensures !Targeted(all, ids, db.members[i]) == (!Named(queues[0].id, ids, db.members[i]) && !Targeted(rest, ids, db.members[i]))
    {
      var m := db.members[i];
      assert m.queueId in all <==> m.queueId == queues[0].id || m.queueId in rest;
    }
    FilterFilterExt(db.members, (m: Member) => !Named(queues[0].id, ids, m),
      (m: Member) => !Targeted(QueueIdsOf(queues[1..]), ids, m), (m: Member) => !Targeted(QueueIdsOf(queues), ids, m));
  }

  // Pulling by count.

  /**
   * "Delete the next member of the queue": the head of the queue's ordered
   * list is deleted (by id) and returned; an empty queue is left alone.
   */
  function DeleteNextMember(db: Db, guildId: Snowflake, queueId: RowId): (r: (Option<Member>, Db))
    ensures var line := QueueMembers(db, guildId, queueId);
      && (r.0.None? <==> |line| == 0)
      && (|line| == 0 ==> r.1 == db)
      && (Valid(db) && |line| > 0 ==> r.0 == Some(line[0]) && QueueMembers(r.1, guildId, queueId) == line[1..])
    ensures forall m :: m in r.1.members ==> m in db.members
    ensures Valid(db) ==> forall m :: m in db.members && !InQueue(m, guildId, queueId) ==> m in r.1.members
    ensures r.1 == db.(members := r.1.members)
    ensures Valid(db) ==> Valid(r.1)
  {
    var line := QueueLine(db, guildId, queueId);
    if |line| == 0 then (None, db)
    else
      var d := DeleteMembers(db, MemberById(line[0].id));
      FilterMembership(db.members, (m: Member) => MemberSelected(MemberById(line[0].id), m), line[0]);
      assert forall m :: m in d.1.members <==> m in db.members && m.id != line[0].id by {
        forall m {
          FilterMembership(db.members, (m: Member) => !MemberSelected(MemberById(line[0].id), m), m);
        }
      }
      if Valid(db) then
        HeadDeleted(db, guildId, queueId);
        OthersKept(db, guildId, queueId, line[0]);
        (First(d.0), d.1)
      else
        (First(d.0), d.1)
  }

  /** In a table with unique ids, a row of the queue is the only row with its id. */
  lemma OthersKept(db: Db, guildId: Snowflake, queueId: RowId, head: Member)
    requires Valid(db) && head in db.members && InQueue(head, guildId, queueId)
    ensures forall m :: m in db.members && !InQueue(m, guildId, queueId) ==> m.id != head.id
  {
    AscendingIdsUnique(db.members, MemberId);
  }

  /**
   * Deleting the head of the queue's ordered list by id deletes exactly that
   * row, and the queue's ordered list becomes the rest of the old one.
   */
  lemma HeadDeleted(db: Db, guildId: Snowflake, queueId: RowId)
    requires Valid(db) && |QueueMembers(db, guildId, queueId)| > 0
    ensures var line := QueueMembers(db, guildId, queueId);
      var d := DeleteMembers(db, MemberById(line[0].id));
      && d.0 == [line[0]]
      && QueueMembers(d.1, guildId, queueId) == line[1..]
  {
    var rows := QueueRows(db, guildId, queueId);
    var line := QueueMembers(db, guildId, queueId);
    MemberLeIsTotalPreorder();
    SortCons(MemberLe, rows);
    var k := MinIndex(MemberLe, rows);
    assert line[0] == rows[k];
    assert line[1..] == SortBy(MemberLe, RemoveAt(rows, k));
    var crit := MemberById(rows[k].id);
    var d := DeleteMembers(db, crit);
    RowsWithoutHead(db, guildId, queueId, crit, k);
    assert QueueRows(d.1, guildId, queueId) == RemoveAt(rows, k);
    AscendingIdsUnique(db.members, MemberId);
    SingleIdRow(db.members, crit, rows[k]);
  }

  /** Deleting a queue row by id leaves the queue's rows without it. */
  lemma RowsWithoutHead(db: Db, guildId: Snowflake, queueId: RowId, crit: MemberBy, k: nat)
    requires Valid(db)
    requires k < |QueueRows(db, guildId, queueId)|
    requires crit == MemberById(QueueRows(db, guildId, queueId)[k].id)
    ensures Filter(Filter(db.members, (m: Member) => !MemberSelected(crit, m)), (m: Member) => InQueue(m, guildId, queueId))
      == RemoveAt(QueueRows(db, guildId, queueId), k)
  {
    var rows := QueueRows(db, guildId, queueId);
    FilterAscending(db.members, (m: Member) => InQueue(m, guildId, queueId), MemberId);
    AscendingIdsUnique(rows, MemberId);
    calc {
      Filter(Filter(db.members, (m: Member) => !MemberSelected(crit, m)), (m: Member) => InQueue(m, guildId, queueId));
      { FilterCommute(db.members, (m: Member) => !MemberSelected(crit, m), (m: Member) => InQueue(m, guildId, queueId)); }
      Filter(rows, (m: Member) => !MemberSelected(crit, m));
      { FilterOutId(rows, MemberId, k, (m: Member) => !MemberSelected(crit, m)); }
      rows[..k] + rows[k + 1..];
      RemoveAt(rows, k);
    }
  }

  /** With unique ids, the rows with the id of a present row are that row alone. */
  lemma SingleIdRow(rows: seq<Member>, crit: MemberBy, x: Member)
    requires crit == MemberById(x.id) && x in rows && UniqueBy(rows, MemberId)
    ensures Filter(rows, (m: Member) => MemberSelected(crit, m)) == [x]
  {
    var f := Filter(rows, (m: Member) => MemberSelected(crit, m));
    FilterMembership(rows, (m: Member) => MemberSelected(crit, m), x);
    FilterOfUnique(rows, (m: Member) => MemberSelected(crit, m), MemberId);
    if |f| > 1 {
      var first, second := MemberId(f[0]), MemberId(f[1]);
    }
  }

  /** How many rows a count of `n` can take from a list of `len`. */
  function Taken(n: int, len: nat): (k: nat)
    ensures k <= len
    ensures n <= 0 ==> k == 0
    ensures 0 < n <= len ==> k == n
    ensures n > len ==> k == len
  {
    if n <= 0 then 0 else if n < len then n else len
  }

  /**
   * The count branch's inner loop: `n` times "delete the next member",
   * keeping the rows found. The pulled rows are the first ones of the
   * queue's ordered list and the queue keeps the rest, in order.
   */
  function PullHeads(db: Db, guildId: Snowflake, queueId: RowId, n: int): (r: (seq<Member>, Db))
    ensures Valid(db) ==> Valid(r.1)
    ensures Valid(db) ==> var line := QueueMembers(db, guildId, queueId);
      && r.0 == line[..Taken(n, |line|)]
      && QueueMembers(r.1, guildId, queueId) == line[Taken(n, |line|)..]
    ensures forall m :: m in r.1.members ==> m in db.members
    ensures Valid(db) ==> forall m :: m in db.members && !InQueue(m, guildId, queueId) ==> m in r.1.members
    ensures r.1 == db.(members := r.1.members)
    decreases if n > 0 then n else 0
  {
    if n <= 0 then ([], db)
    else
      var next := DeleteNextMember(db, guildId, queueId);
      var rest := PullHeads(next.1, guildId, queueId, n - 1);
      var r := ((if next.0.Some? then [next.0.value] else []) + rest.0, rest.1);
      if Valid(db) then
        PullHeadsStep(db, guildId, queueId, n, next, rest, r);
        r
      else
        r
  }

  lemma PullHeadsStep(db: Db, guildId: Snowflake, queueId: RowId, n: int, next: (Option<Member>, Db),
                      rest: (seq<Member>, Db), r: (seq<Member>, Db))
    requires n > 0 && Valid(db)
    requires next == DeleteNextMember(db, guildId, queueId)
    requires var line := QueueMembers(next.1, guildId, queueId);
      rest.0 == line[..Taken(n - 1, |line|)] && QueueMembers(rest.1, guildId, queueId) == line[Taken(n - 1, |line|)..]
    requires r == ((if next.0.Some? then [next.0.value] else []) + rest.0, rest.1)
    ensures var line := QueueMembers(db, guildId, queueId);
      r.0 == line[..Taken(n, |line|)] && QueueMembers(r.1, guildId, queueId) == line[Taken(n, |line|)..]
  {
    var line := QueueMembers(db, guildId, queueId);
    if |line| > 0 {
      TakeStep(line, n);
    }
  }

  /** Taking one row and then `n - 1` more is taking `n`. */
  lemma TakeStep(line: seq<Member>, n: int)
    requires |line| > 0 && n > 0
    ensures var tail := line[1..];
      && [line[0]] + tail[..Taken(n - 1, |tail|)] == line[..Taken(n, |line|)]
      && tail[Taken(n - 1, |tail|)..] == line[Taken(n, |line|)..]
  {
  }

  /**
   * The same loop as the source writes it: `deleteMember({ queueId })` names
   * no user, so its first pass deletes every member row of the queue and
   * `.get()` hands back only the first of them in table order; every later
   * pass finds the queue empty and returns nothing.
   */
  function PullCountAsWritten(db: Db, queueId: RowId, n: int): (r: (seq<Member>, Db))
    ensures n <= 0 ==> r == ([], db)
    ensures n > 0 ==> r.1 == db.(members := Filter(db.members, (m: Member) => m.queueId != queueId))
    ensures n > 0 ==> var rows := Filter(db.members, (m: Member) => m.queueId == queueId);
      r.0 == if |rows| == 0 then [] else [rows[0]]
    ensures Valid(db) ==> Valid(r.1)
    decreases if n > 0 then n else 0
  {
    if n <= 0 then ([], db)
    else
      var d := DeleteMembers(db, MemberByQueue(queueId, None));
      DeleteByQueueSplits(db, queueId);
      var rest := PullCountAsWritten(d.1, queueId, n - 1);
      FilterAll(d.1.members, (m: Member) => m.queueId != queueId);
      FilterNone(d.1.members, (m: Member) => m.queueId == queueId);
      ((if |d.0| == 0 then [] else [d.0[0]]) + rest.0, rest.1)
  }

  /** A delete by queue without a user splits the table by queue id. */
  lemma DeleteByQueueSplits(db: Db, queueId: RowId)
    ensures DeleteMembers(db, MemberByQueue(queueId, None))
      == (Filter(db.members, (m: Member) => m.queueId == queueId),
          db.(members := Filter(db.members, (m: Member) => m.queueId != queueId)))
  {
    var crit := MemberByQueue(queueId, None);
    FilterExt(db.members, (m: Member) => MemberSelected(crit, m), (m: Member) => m.queueId == queueId);
    FilterExt(db.members, (m: Member) => !MemberSelected(crit, m), (m: Member) => m.queueId != queueId);
  }

  /**
   * As written, pulling one member from a queue of two or more rows empties
   * the queue and returns one row, where deleting the next member leaves all
   * the others in the queue.
   */
  lemma PullOneAsWrittenEmptiesQueue(db: Db, guildId: Snowflake, queueId: RowId)
    requires Valid(db) && |QueueRows(db, guildId, queueId)| >= 2
    ensures |PullCountAsWritten(db, queueId, 1).0| == 1
    ensures QueueRows(PullCountAsWritten(db, queueId, 1).1, guildId, queueId) == []
    ensures |QueueMembers(PullHeads(db, guildId, queueId, 1).1, guildId, queueId)| == |QueueRows(db, guildId, queueId)| - 1
  {
    var rows := QueueRows(db, guildId, queueId);
    var q := Filter(db.members, (m: Member) => m.queueId == queueId);
    assert rows[0] in q;
    var after := PullCountAsWritten(db, queueId, 1).1;
    FilterNone(after.members, (m: Member) => InQueue(m, guildId, queueId));
    var line := QueueLine(db, guildId, queueId);
  }

  /** `count ?? queue.pullBatchSize ?? 1`; the batch size column is never null. */
  function BatchSize(count: Option<int>, q: Queue): int {
    count.GetOr(q.pullBatchSize)
  }

  /** The queue holds fewer rows than the pull asks for. */
  predicate Short(db: Db, guildId: Snowflake, q: Queue, count: Option<int>) {
    |QueueRows(db, guildId, q.id)| < BatchSize(count, q)
  }

  /** Some queue of the pull has id `queueId` and a positive batch: as written, its rows are all deleted. */
  predicate Emptied(queues: seq<Queue>, count: Option<int>, queueId: RowId) {
    exists i :: 0 <= i < |queues| && queues[i].id == queueId && BatchSize(count, queues[i]) > 0
  }

  /** `Emptied` over a non-empty list: the head queue, or one of the rest. */
  lemma EmptiedCons(queues: seq<Queue>, count: Option<int>, x: RowId)
    requires |queues| > 0
    ensures Emptied(queues, count, x) <==>
      (queues[0].id == x && BatchSize(count, queues[0]) > 0) || Emptied(queues[1..], count, x)
  {
    if Emptied(queues[1..], count, x) {
      var i :| 0 <= i < |queues| - 1 && queues[1..][i].id == x && BatchSize(count, queues[1..][i]) > 0;
      assert queues[i + 1] == queues[1..][i];
    }
    if Emptied(queues, count, x) && queues[0].id != x {
      var i :| 0 <= i < |queues| && queues[i].id == x && BatchSize(count, queues[i]) > 0;
      assert queues[1..][i - 1] == queues[i];
    }
  }

  /**
   * The count branch as the source writes it: per queue in turn, unless
   * forced, a queue shorter than its batch throws; otherwise the inner loop
   * runs, which for a positive batch deletes every row of the queue and
   * returns at most the first. The throw keeps the deletions already made on
   * earlier queues.
   */
  function PullCounts(db: Db, guildId: Snowflake, queues: seq<Queue>, count: Option<int>, force: bool)
    : (r: (Result<seq<Member>, Error>, Db))
    ensures r.1 == db.(members := r.1.members)
    ensures forall m :: m in r.1.members ==> m in db.members
    ensures Valid(db) ==> Valid(r.1)
    ensures r.0.Err? ==> r.0.error == NotEnoughMembers && !force
    ensures |queues| > 0 && !force && Short(db, guildId, queues[0], count) ==> r == (Err(NotEnoughMembers), db)
    ensures r.0.Ok? ==> forall m :: m in r.1.members <==> m in db.members && !Emptied(queues, count, m.queueId)
    ensures r.0.Ok? ==> |r.0.value| <= |queues|
    ensures r.0.Ok? ==> forall m :: m in r.0.value ==> m in db.members && Emptied(queues, count, m.queueId)
    decreases |queues|
  {
    if |queues| == 0 then (Ok([]), db)
    else
      var q := queues[0];
      var n := BatchSize(count, q);
      if !force && |QueueLine(db, guildId, q.id)| < n then (Err(NotEnoughMembers), db)
      else
        var pulled := PullCountAsWritten(db, q.id, n);
        var rest := PullCounts(pulled.1, guildId, queues[1..], count, force);
        if rest.0.Err? then (Err(rest.0.error), rest.1)
        else
          PullCountsStep(db, queues, count, pulled.1.members, pulled.0, rest.1.members, rest.0.value);
          (Ok(pulled.0 + rest.0.value), rest.1)
  }

  /** One step of `PullCounts`: the head queue's pull followed by the rest's keeps the stated contents. */
  lemma PullCountsStep(db: Db, queues: seq<Queue>, count: Option<int>, kept: seq<Member>, got: seq<Member>,
                       out: seq<Member>, taken: seq<Member>)
    requires |queues| > 0
    requires (got, kept) == (PullCountAsWritten(db, queues[0].id, BatchSize(count, queues[0])).0,
                             PullCountAsWritten(db, queues[0].id, BatchSize(count, queues[0])).1.members)
    requires forall m :: m in out <==> m in kept && !Emptied(queues[1..], count, m.queueId)
    requires |taken| <= |queues| - 1
    requires forall m :: m in taken ==> m in kept && Emptied(queues[1..], count, m.queueId)
    ensures forall m :: m in out <==> m in db.members && !Emptied(queues, count, m.queueId)
    ensures |got + taken| <= |queues|
    ensures forall m :: m in got + taken ==> m in db.members && Emptied(queues, count, m.queueId)
  {
    var id, n := queues[0].id, BatchSize(count, queues[0]);
    forall m ensures m in out <==> m in db.members && !Emptied(queues, count, m.queueId) {
      EmptiedCons(queues, count, m.queueId);
      PulledAsWrittenKeeps(db, id, n, m);
    }
    forall m | m in got + taken ensures m in db.members && Emptied(queues, count, m.queueId) {
      EmptiedCons(queues, count, m.queueId);
      PulledAsWrittenKeeps(db, id, n, m);
    }
  }

  /** What one queue's loop as written keeps and returns, for one row. */
  lemma PulledAsWrittenKeeps(db: Db, queueId: RowId, n: int, m: Member)
    ensures var pulled := PullCountAsWritten(db, queueId, n);
      && (m in pulled.1.members <==> m in db.members && !(m.queueId == queueId && n > 0))
      && |pulled.0| <= 1
      && (m in pulled.0 ==> m in db.members && m.queueId == queueId && n > 0)
  {
    if n > 0 {
      FilterMembership(db.members, (m: Member) => m.queueId != queueId, m);
      var rows := Filter(db.members, (m: Member) => m.queueId == queueId);
      if |rows| > 0 {
        FilterMembership(db.members, (m: Member) => m.queueId == queueId, rows[0]);
      }
    }
  }

  /** A count pull from one queue, unfolded: the throw, or the loop as written. */
  lemma PullCountsOne(db: Db, guildId: Snowflake, q: Queue, count: Option<int>, force: bool)
    ensures var n := BatchSize(count, q);
      PullCounts(db, guildId, [q], count, force)
        == if !force && |QueueLine(db, guildId, q.id)| < n then (Err(NotEnoughMembers), db)
           else (Ok(PullCountAsWritten(db, q.id, n).0), PullCountAsWritten(db, q.id, n).1)
  {
    var n := BatchSize(count, q);
    if force || |QueueLine(db, guildId, q.id)| >= n {
      var pulled := PullCountAsWritten(db, q.id, n);
      assert [q][1..] == [];
      assert PullCounts(pulled.1, guildId, [], count, force) == (Ok([]), pulled.1);
      assert pulled.0 + [] == pulled.0;
    }
  }

  /**
   * As written, a count pull from one queue fails exactly when it is not
   * forced and the queue is short; otherwise a positive batch leaves the
   * queue empty and returns at most one row, and one row when the queue had
   * any, while every other queue's rows are kept.
   */
  lemma SingleQueuePull(db: Db, guildId: Snowflake, q: Queue, count: Option<int>, force: bool)
    requires Valid(db)
    ensures var r := PullCounts(db, guildId, [q], count, force);
      var n := BatchSize(count, q);
      && (r.0.Err? <==> !force && |QueueRows(db, guildId, q.id)| < n)
      && (r.0.Ok? && n <= 0 ==> r == (Ok([]), db))
      && (r.0.Ok? && n > 0 ==>
            QueueRows(r.1, guildId, q.id) == [] && |r.0.value| <= 1 && (|QueueRows(db, guildId, q.id)| > 0 ==> |r.0.value| == 1))
      && (r.0.Ok? ==> forall m :: m in db.members && m.queueId != q.id ==> m in r.1.members)
  {
    PullCountsOne(db, guildId, q, count, force);
    var n := BatchSize(count, q);
    var r := PullCounts(db, guildId, [q], count, force);
    if r.0.Ok? && n > 0 {
      FilterNone(r.1.members, (m: Member) => InQueue(m, guildId, q.id));
      var rows := QueueRows(db, guildId, q.id);
      if |rows| > 0 {
        assert rows[0] in Filter(db.members, (m: Member) => m.queueId == q.id);
      }
    }
    if r.0.Ok? {
      forall m | m in db.members && m.queueId != q.id ensures m in r.1.members {
        FilterMembership(db.members, (m: Member) => m.queueId != q.id, m);
      }
    }
  }

  /**
   * A short second queue throws, yet the first queue's pull has already
   * happened: as written, a positive batch leaves the first queue empty and
   * every other row in place.
   */
  lemma ThrowKeepsEarlierPulls(db: Db, guildId: Snowflake, q0: Queue, q1: Queue, count: Option<int>)
    requires !Short(db, guildId, q0, count)
    requires Short(PullCountAsWritten(db, q0.id, BatchSize(count, q0)).1, guildId, q1, count)
    ensures var r := PullCounts(db, guildId, [q0, q1], count, false);
      && r.0 == Err(NotEnoughMembers)
      && (BatchSize(count, q0) > 0 ==> forall m :: m in r.1.members <==> m in db.members && m.queueId != q0.id)
      && (BatchSize(count, q0) <= 0 ==> r.1 == db)
  {
    SecondQueueThrows(db, guildId, q0, q1, count);
    if BatchSize(count, q0) > 0 {
      var after := PullCountAsWritten(db, q0.id, BatchSize(count, q0)).1;
      forall m ensures m in after.members <==> m in db.members && m.queueId != q0.id {
        FilterMembership(db.members, (m: Member) => m.queueId != q0.id, m);
      }
    }
  }

  /** The throw on the second queue leaves the database as the first queue's loop left it. */
  lemma SecondQueueThrows(db: Db, guildId: Snowflake, q0: Queue, q1: Queue, count: Option<int>)
    requires !Short(db, guildId, q0, count)
    requires Short(PullCountAsWritten(db, q0.id, BatchSize(count, q0)).1, guildId, q1, count)
    ensures PullCounts(db, guildId, [q0, q1], count, false)
      == (Err(NotEnoughMembers), PullCountAsWritten(db, q0.id, BatchSize(count, q0)).1)
  {
    var n := BatchSize(count, q0);
    assert |QueueLine(db, guildId, q0.id)| >= n;
    var pulled := PullCountAsWritten(db, q0.id, n);
    assert [q0, q1][1..] == [q1];
    assert PullCounts(pulled.1, guildId, [q1], count, false) == (Err(NotEnoughMembers), pulled.1);
  }

  /**
   * The count branch with the inner loop corrected: per queue in turn, unless
   * forced, a queue shorter than its batch throws; otherwise its first rows
   * are pulled, one per pass.
   */
  function PullCountsCorrected(db: Db, guildId: Snowflake, queues: seq<Queue>, count: Option<int>, force: bool)
    : (r: (Result<seq<Member>, Error>, Db))
    ensures r.1 == db.(members := r.1.members)
    ensures forall m :: m in r.1.members ==> m in db.members
    ensures Valid(db) ==> Valid(r.1)
    ensures r.0.Err? ==> r.0.error == NotEnoughMembers && !force
    ensures |queues| > 0 && !force && Short(db, guildId, queues[0], count) ==> r == (Err(NotEnoughMembers), db)
    decreases |queues|
  {
    if |queues| == 0 then (Ok([]), db)
    else
      var q := queues[0];
      var n := BatchSize(count, q);
      if !force && |QueueLine(db, guildId, q.id)| < n then (Err(NotEnoughMembers), db)
      else
        var pulled := PullHeads(db, guildId, q.id, n);
        var rest := PullCountsCorrected(pulled.1, guildId, queues[1..], count, force);
        if rest.0.Err? then (Err(rest.0.error), rest.1) else (Ok(pulled.0 + rest.0.value), rest.1)
  }

  /**
   * With the loop corrected, a count pull from one queue fails exactly when
   * it is not forced and the queue is short; otherwise it returns the first
   * rows of the queue's ordered list, leaves the rest in order, and keeps
   * every other queue's rows.
   */
  lemma SingleQueuePullCorrected(db: Db, guildId: Snowflake, q: Queue, count: Option<int>, force: bool)
    requires Valid(db)
    ensures var r := PullCountsCorrected(db, guildId, [q], count, force);
      var line := QueueMembers(db, guildId, q.id);
      var k := Taken(BatchSize(count, q), |line|);
      && (r.0.Err? <==> !force && |line| < BatchSize(count, q))
      && (r.0.Ok? ==> r.0.value == line[..k] && QueueMembers(r.1, guildId, q.id) == line[k..])
      && (r.0.Ok? ==> forall m :: m in db.members && !InQueue(m, guildId, q.id) ==> m in r.1.members)
  {
    PullCountsOneCorrected(db, guildId, q, count, force);
  }

  /** A corrected count pull from one queue, unfolded: the throw, or the pull of its first rows. */
  lemma PullCountsOneCorrected(db: Db, guildId: Snowflake, q: Queue, count: Option<int>, force: bool)
    ensures var n := BatchSize(count, q);
      PullCountsCorrected(db, guildId, [q], count, force)
        == if !force && |QueueLine(db, guildId, q.id)| < n then (Err(NotEnoughMembers), db)
           else (Ok(PullHeads(db, guildId, q.id, n).0), PullHeads(db, guildId, q.id, n).1)
  {
    var n := BatchSize(count, q);
    if force || |QueueLine(db, guildId, q.id)| >= n {
      var pulled := PullHeads(db, guildId, q.id, n);
      assert [q][1..] == [];
      assert PullCountsCorrected(pulled.1, guildId, [], count, force) == (Ok([]), pulled.1);
      assert pulled.0 + [] == pulled.0;
    }
  }

  /** The pulled rows come no later in MEMBER_ORDER than any row left in the queue. */
  lemma PulledComeFirst(db: Db, guildId: Snowflake, queueId: RowId, n: int)
    requires Valid(db)
    ensures var r := PullHeads(db, guildId, queueId, n);
      forall a, b :: a in r.0 && b in QueueMembers(r.1, guildId, queueId) ==> MemberLe(a, b)
  {
    var r := PullHeads(db, guildId, queueId, n);
    var line := QueueMembers(db, guildId, queueId);
    SlicesOrdered(line, Taken(n, |line|));
  }

  /** In a sorted list, every row before a cut is `le` every row after it. */
  lemma SlicesOrdered(line: seq<Member>, k: nat)
    requires k <= |line| && SortedBy(MemberLe, line)
    ensures forall a, b :: a in line[..k] && b in line[k..] ==> MemberLe(a, b)
  {
    forall a, b | a in line[..k] && b in line[k..]
      ensures MemberLe(a, b)
    {
      var i :| 0 <= i < k && line[..k][i] == a;
      var j :| 0 <= j < |line| - k && line[k..][j] == b;
      assert line[i] == a && line[k + j] == b;
    }
  }

  // Who is notified.

  /** The rows deleted from queues that notify, in deletion order: the role branch's list. */
  function ToggledNotify(queues: seq<Queue>, per: seq<seq<Member>>): (r: seq<Member>)
    requires |per| == |queues|
    ensures forall m :: m in r <==> exists i :: 0 <= i < |queues| && queues[i].notificationsToggle && m in per[i]
  {
    if |queues| == 0 then []
    else
      var rest := ToggledNotify(queues[1..], per[1..]);
      assert forall m :: m in rest <==> exists i :: 1 <= i < |queues| && queues[i].notificationsToggle && m in per[i] by {
        forall m
          ensures m in rest <==> exists i :: 1 <= i < |queues| && queues[i].notificationsToggle && m in per[i]
        {
          if m in rest {
            var i :| 0 <= i < |queues| - 1 && queues[1..][i].notificationsToggle && m in per[1..][i];
            assert queues[i + 1].notificationsToggle && m in per[i + 1];
          }
          if exists i :: 1 <= i < |queues| && queues[i].notificationsToggle && m in per[i] {
            var i :| 1 <= i < |queues| && queues[i].notificationsToggle && m in per[i];
            assert queues[1..][i - 1] == queues[i] && per[1..][i - 1] == per[i];
          }
        }
      }
      (if queues[0].notificationsToggle then per[0] else []) + rest
  }

  /**
   * The user-id branch's list: after each queue, every row deleted so far
   * from any queue is queued again when that queue notifies.
   */
  function CumulativeNotify(queues: seq<Queue>, per: seq<seq<Member>>, sofar: seq<Member>): (r: seq<Member>)
    requires |per| == |queues|
    ensures forall m :: m in r ==> m in sofar || m in Flatten(per)
    ensures (forall i :: 0 <= i < |queues| ==> !queues[i].notificationsToggle) ==> r == []
  {
    if |queues| == 0 then []
    else
      var acc := sofar + per[0];
      var rest := CumulativeNotify(queues[1..], per[1..], acc);
      FlattenCons(per[0], per[1..]);
      assert per == [per[0]] + per[1..];
      (if queues[0].notificationsToggle then acc else []) + rest
  }

  /** With one queue the two lists agree. */
  lemma NotifyListsAgreeOnOneQueue(q: Queue, deleted: seq<Member>)
    ensures CumulativeNotify([q], [deleted], []) == ToggledNotify([q], [deleted])
  {
    assert [q][1..] == [] && [deleted][1..] == [];
  }

  /**
   * With two notifying queues the user-id branch lists the first queue's
   * rows twice, where the role branch lists every row once.
   */
  lemma CumulativeNotifyRepeatsEarlierRows(q0: Queue, q1: Queue, d0: seq<Member>, d1: seq<Member>)
    requires q0.notificationsToggle && q1.notificationsToggle
    ensures CumulativeNotify([q0, q1], [d0, d1], []) == d0 + (d0 + d1)
    ensures ToggledNotify([q0, q1], [d0, d1]) == d0 + d1
  {
    assert [q0, q1][1..] == [q1] && [d0, d1][1..] == [d1];
    assert [q1][1..] == [] && [d1][1..] == [];
    assert [] + d0 == d0 && d1 + [] == d1;
    assert ToggledNotify([q1], [d1]) == d1 + ToggledNotify([], []);
  }

  // `deleteMembers`.

  /** The fields of the `by` argument; the first present one picks the branch. */
  datatype DeleteBy = DeleteBy(userId: Option<Snowflake>, userIds: Option<seq<Snowflake>>,
                               roleId: Option<Snowflake>, count: Option<int>)

  /** What `deleteMembers` hands back: the deleted rows, who is notified, and the queues refreshed. */
  datatype Deletion = Deletion(deleted: seq<Member>, notify: seq<Member>, refresh: seq<RowId>)

  /** The user-id branch applies. */
  predicate ByUsers(deleteBy: DeleteBy) {
    deleteBy.userId.Some? || deleteBy.userIds.Some?
  }

  /** `!isNil(userId) ? [userId] : userIds`. */
  function UserIdsOf(deleteBy: DeleteBy): (ids: seq<Snowflake>)
    requires ByUsers(deleteBy)
    ensures deleteBy.userId.Some? ==> ids == [deleteBy.userId.value]
    ensures deleteBy.userId.None? ==> ids == deleteBy.userIds.value
  {
    if deleteBy.userId.Some? then [deleteBy.userId.value] else deleteBy.userIds.value
  }

  /**
   * The deletions of `deleteMembers`: an absent `by` throws; user ids, then
   * a role, then a count pick the branch. `roleHolders` is the guild's role cache (role id
   * to the ids of its members); `notifying` says whether notification
   * options were passed. The notify list is the branch's own: cumulative for
   * user ids, per row for a role, and always empty for a count.
   */
  function DeleteBranch(db: Db, guildId: Snowflake, queues: seq<Queue>, deleteBy: Option<DeleteBy>,
                        roleHolders: map<Snowflake, seq<Snowflake>>, notifying: bool, force: bool)
    : (r: (Result<Deletion, Error>, Db))
    ensures deleteBy.None? ==> r == (Err(MissingDeleteBy), db)
    ensures r.1 == db.(members := r.1.members)
    ensures forall m :: m in r.1.members ==> m in db.members
    ensures Valid(db) ==> Valid(r.1)
    ensures r.0.Ok? ==> r.0.value.refresh == QueueIdsOf(queues)
    ensures r.0.Ok? && !notifying ==> r.0.value.notify == []
    ensures deleteBy.Some? && ByUsers(deleteBy.value) ==> (r.0.Ok?
      && r.1.members == Filter(db.members, (m: Member) => !Targeted(QueueIdsOf(queues), UserIdsOf(deleteBy.value), m))
      && (Valid(db) ==> forall m :: m in r.0.value.deleted <==>
            m in db.members && Targeted(QueueIdsOf(queues), UserIdsOf(deleteBy.value), m)))
    ensures deleteBy.Some? && !ByUsers(deleteBy.value) && deleteBy.value.roleId.Some? ==>
      if deleteBy.value.roleId.value !in roleHolders then r == (Err(RoleNotCached), db)
      else (r.0.Ok?
        && r.1.members == Filter(db.members, (m: Member) => !Targeted(QueueIdsOf(queues), roleHolders[deleteBy.value.roleId.value], m))
        && (Valid(db) ==> forall m :: m in r.0.value.deleted <==>
              m in db.members && Targeted(QueueIdsOf(queues), roleHolders[deleteBy.value.roleId.value], m)))
    ensures deleteBy.Some? && !ByUsers(deleteBy.value) && deleteBy.value.roleId.None? ==>
      && (r.0.Err? <==> PullCounts(db, guildId, queues, deleteBy.value.count, force).0.Err?)
      && (r.0.Ok? ==> r.0.value.notify == [])
      && (r.0.Err? ==> r == (Err(NotEnoughMembers), PullCounts(db, guildId, queues, deleteBy.value.count, force).1) && !force)
      && (r.0.Ok? ==> forall m :: m in r.1.members <==> m in db.members && !Emptied(queues, deleteBy.value.count, m.queueId))
      && (r.0.Ok? ==> forall m :: m in r.0.value.deleted ==> m in db.members && Emptied(queues, deleteBy.value.count, m.queueId))
  {
    if deleteBy.None? then (Err(MissingDeleteBy), db)
    else if ByUsers(deleteBy.value) then
      var d := DeleteUsersFromQueues(db, queues, UserIdsOf(deleteBy.value));
      var notify := if notifying then CumulativeNotify(queues, d.0, []) else [];
      (Ok(Deletion(Flatten(d.0), notify, QueueIdsOf(queues))), d.1)
    else if deleteBy.value.roleId.Some? then
      if deleteBy.value.roleId.value !in roleHolders then (Err(RoleNotCached), db)
      else
        var d := DeleteUsersFromQueues(db, queues, roleHolders[deleteBy.value.roleId.value]);
        var notify := if notifying then ToggledNotify(queues, d.0) else [];
        (Ok(Deletion(Flatten(d.0), notify, QueueIdsOf(queues))), d.1)
    else
      var d := PullCounts(db, guildId, queues, deleteBy.value.count, force);
      if d.0.Err? then (Err(d.0.error), d.1)
      else (Ok(Deletion(d.0.value, [], QueueIdsOf(queues))), d.1)
  }


  /**
   * `deleteMembers`: the branch's deletions, then, for every deleted row, an
   * unawaited `jsMember` of its user whose 404 deletes that user's rows in
   * the guild; the role removal that follows a found member changes no row.
   * `users` is Discord's answer per user id. A throw happens before any
   * fetch.
   */
  function DeleteMembersBy(db: Db, guildId: Snowflake, queues: seq<Queue>, deleteBy: Option<DeleteBy>,
                           roleHolders: map<Snowflake, seq<Snowflake>>, users: Snowflake -> UserFetch<GuildUser>,
                           notifying: bool, force: bool)
    : (r: (Result<Deletion, Error>, Db))
    ensures deleteBy.None? ==> r == (Err(MissingDeleteBy), db)
    ensures r.1 == db.(members := r.1.members)
    ensures forall m :: m in r.1.members ==> m in db.members
    ensures Valid(db) ==> Valid(r.1)
    ensures r.0.Ok? ==> r.0.value.refresh == QueueIdsOf(queues)
    ensures r.0.Ok? && !notifying ==> r.0.value.notify == []
    ensures r.0.Ok? ==> forall m :: m in r.1.members ==> !(m.guildId == guildId && Missing(r.0.value.deleted, users, m.userId))
    ensures deleteBy.Some? && ByUsers(deleteBy.value) ==> var ids := UserIdsOf(deleteBy.value);
      && r.0.Ok?
      && (forall m :: m in r.1.members <==>
            m in db.members && !Targeted(QueueIdsOf(queues), ids, m) && !(m.guildId == guildId && Missing(r.0.value.deleted, users, m.userId)))
      && (NoneMissing(r.0.value.deleted, users) ==>
            r.1.members == Filter(db.members, (m: Member) => !Targeted(QueueIdsOf(queues), ids, m)))
      && (Valid(db) ==> forall m :: m in r.0.value.deleted <==> m in db.members && Targeted(QueueIdsOf(queues), ids, m))
    ensures deleteBy.Some? && !ByUsers(deleteBy.value) && deleteBy.value.roleId.Some? ==>
      var role := deleteBy.value.roleId.value;
      if role !in roleHolders then r == (Err(RoleNotCached), db)
      else (r.0.Ok?
        && (forall m :: m in r.1.members <==>
              m in db.members && !Targeted(QueueIdsOf(queues), roleHolders[role], m)
              && !(m.guildId == guildId && Missing(r.0.value.deleted, users, m.userId)))
        && (NoneMissing(r.0.value.deleted, users) ==>
              r.1.members == Filter(db.members, (m: Member) => !Targeted(QueueIdsOf(queues), roleHolders[role], m)))
        && (Valid(db) ==> forall m :: m in r.0.value.deleted <==>
              m in db.members && Targeted(QueueIdsOf(queues), roleHolders[role], m)))
    ensures deleteBy.Some? && !ByUsers(deleteBy.value) && deleteBy.value.roleId.None? ==>
      var count := deleteBy.value.count;
      && (r.0.Err? <==> PullCounts(db, guildId, queues, count, force).0.Err?)
      && (r.0.Err? ==> r == (Err(NotEnoughMembers), PullCounts(db, guildId, queues, count, force).1) && !force)
      && (r.0.Ok? ==> r.0.value.notify == [])
      && (r.0.Ok? ==> forall m :: m in r.1.members <==>
            m in db.members && !Emptied(queues, count, m.queueId) && !(m.guildId == guildId && Missing(r.0.value.deleted, users, m.userId)))
      && (r.0.Ok? ==> forall m :: m in r.0.value.deleted ==> m in db.members && Emptied(queues, count, m.queueId))
  {
    var d := DeleteBranch(db, guildId, queues, deleteBy, roleHolders, notifying, force);
    if d.0.Err? then d
    else
      var out := ForgetMissingUsers(d.1, guildId, d.0.value.deleted, users);
      if ByUsers(deleteBy.value) then
        ForgetAfterFilter(db.members, d.1.members, out.members,
          (m: Member) => !Targeted(QueueIdsOf(queues), UserIdsOf(deleteBy.value), m), guildId, d.0.value.deleted, users);
        (d.0, out)
      else if deleteBy.value.roleId.Some? then
        ForgetAfterFilter(db.members, d.1.members, out.members,
          (m: Member) => !Targeted(QueueIdsOf(queues), roleHolders[deleteBy.value.roleId.value], m), guildId, d.0.value.deleted, users);
        (d.0, out)
      else
        (d.0, out)
  }

  /** A filtered table that then loses the 404'd users' guild rows. */
  lemma ForgetAfterFilter(rows: seq<Member>, kept: seq<Member>, out: seq<Member>, keep: Member -> bool,
                          guildId: Snowflake, deleted: seq<Member>, users: Snowflake -> UserFetch<GuildUser>)
    requires kept == Filter(rows, keep)
    requires forall m :: m in out <==> m in kept && !(m.guildId == guildId && Missing(deleted, users, m.userId))
    ensures forall m :: m in out <==> m in rows && keep(m) && !(m.guildId == guildId && Missing(deleted, users, m.userId))
  {
    forall m ensures m in kept <==> m in rows && keep(m) {
      FilterMembership(rows, keep, m);
    }
  }

  /** Some row of the table that the deletion targets belongs to user `u`. */
  predicate HasTargetedRow(db: Db, queueIds: seq<RowId>, ids: seq<Snowflake>, u: Snowflake) {
    exists i :: 0 <= i < |db.members| && Targeted(queueIds, ids, db.members[i]) && db.members[i].userId == u
  }

  /** The deletion removed a row of `u` and Discord answers 404 for `u`: the clean-up forgets the user. */
  predicate Forgotten(db: Db, queueIds: seq<RowId>, ids: seq<Snowflake>, users: Snowflake -> UserFetch<GuildUser>,
                      u: Snowflake) {
    users(u).UserNotFound? && HasTargetedRow(db, queueIds, ids, u)
  }

  /** When the deleted rows are exactly the targeted ones, their 404'd users are the forgotten ones. */
  lemma MissingDeletedIsForgotten(db: Db, queueIds: seq<RowId>, ids: seq<Snowflake>, deleted: seq<Member>,
                                  users: Snowflake -> UserFetch<GuildUser>, u: Snowflake)
    requires forall m :: m in deleted <==> m in db.members && Targeted(queueIds, ids, m)
    ensures Missing(deleted, users, u) <==> Forgotten(db, queueIds, ids, users, u)
  {
    if Missing(deleted, users, u) {
      var k :| 0 <= k < |deleted| && deleted[k].userId == u;
      assert deleted[k] in db.members;
      var i :| 0 <= i < |db.members| && db.members[i] == deleted[k];
    }
    if Forgotten(db, queueIds, ids, users, u) {
      var i :| 0 <= i < |db.members| && Targeted(queueIds, ids, db.members[i]) && db.members[i].userId == u;
      assert db.members[i] in deleted;
      var k :| 0 <= k < |deleted| && deleted[k] == db.members[i];
    }
  }

  /**
   * A user-id pull on a valid store, in terms of its inputs: the table loses
   * the targeted rows and, for each targeted user Discord answers 404 for,
   * every row of that user in the guild; when Discord knows every listed
   * user, the table loses exactly the targeted rows.
   */
  lemma UserPullForgetsMissing(db: Db, guildId: Snowflake, queues: seq<Queue>, deleteBy: DeleteBy,
                               roleHolders: map<Snowflake, seq<Snowflake>>, users: Snowflake -> UserFetch<GuildUser>,
                               notifying: bool, force: bool)
    requires Valid(db) && ByUsers(deleteBy)
    ensures var r := DeleteMembersBy(db, guildId, queues, Some(deleteBy), roleHolders, users, notifying, force);
      var qs, ids := QueueIdsOf(queues), UserIdsOf(deleteBy);
      && (forall m :: m in r.1.members <==>
            m in db.members && !Targeted(qs, ids, m) && !(m.guildId == guildId && Forgotten(db, qs, ids, users, m.userId)))
      && ((forall i :: 0 <= i < |ids| ==> !users(ids[i]).UserNotFound?) ==>
            r.1.members == Filter(db.members, (m: Member) => !Targeted(qs, ids, m)))
  {
    var r := DeleteMembersBy(db, guildId, queues, Some(deleteBy), roleHolders, users, notifying, force);
    var qs, ids := QueueIdsOf(queues), UserIdsOf(deleteBy);
    forall u {
      MissingDeletedIsForgotten(db, qs, ids, r.0.value.deleted, users, u);
    }
    if forall i :: 0 <= i < |ids| ==> !users(ids[i]).UserNotFound? {
      forall k | 0 <= k < |r.0.value.deleted| ensures !users(r.0.value.deleted[k].userId).UserNotFound? {
        assert r.0.value.deleted[k] in r.0.value.deleted;
      }
    }
  }

  /**
   * After a user-id pull from a queue, none of the users has a place in it;
   * the 404 clean-up only removes more rows.
   */
  lemma PulledUserHasNoPosition(db: Db, guildId: Snowflake, queues: seq<Queue>, deleteBy: DeleteBy,
                                roleHolders: map<Snowflake, seq<Snowflake>>, users: Snowflake -> UserFetch<GuildUser>,
                                notifying: bool, force: bool, k: nat, userId: Snowflake)
    requires ByUsers(deleteBy) && k < |queues| && userId in UserIdsOf(deleteBy)
    ensures var r := DeleteMembersBy(db, guildId, queues, Some(deleteBy), roleHolders, users, notifying, force);
      GetMemberPosition(r.1, guildId, queues[k].id, userId).0 == 0
  {
    var out := DeleteMembersBy(db, guildId, queues, Some(deleteBy), roleHolders, users, notifying, force).1;
    NoTargetedRowLeft(db, guildId, queues, deleteBy, roleHolders, users, notifying, force, out);
    assert QueueIdsOf(queues)[k] == queues[k].id;
    NoRowNoPosition(out, guildId, queues[k].id, userId);
  }

  /** A user with no row in the queue has no place in it. */
  lemma NoRowNoPosition(db: Db, guildId: Snowflake, queueId: RowId, userId: Snowflake)
    requires forall m :: m in db.members && m.queueId == queueId ==> m.userId != userId
    ensures GetMemberPosition(db, guildId, queueId, userId).0 == 0
  {
    var line := QueueMembers(db, guildId, queueId);
    QueueMembersHoldQueueRows(db, guildId, queueId);
    forall i | 0 <= i < |line|
      ensures line[i].userId != userId
    {
      assert line[i] in db.members;
    }
  }

  /** A user-id pull leaves no targeted row. */
  lemma NoTargetedRowLeft(db: Db, guildId: Snowflake, queues: seq<Queue>, deleteBy: DeleteBy,
                          roleHolders: map<Snowflake, seq<Snowflake>>, users: Snowflake -> UserFetch<GuildUser>,
                          notifying: bool, force: bool, out: Db)
    requires ByUsers(deleteBy)
    requires out == DeleteMembersBy(db, guildId, queues, Some(deleteBy), roleHolders, users, notifying, force).1
    ensures forall m :: m in out.members ==> !Targeted(QueueIdsOf(queues), UserIdsOf(deleteBy), m)
  {
  }
}

=== FILE: memo.dfy ===
/**
 * The per-guild `Store` object: the database together with the memoised
 * reads of each table for the store's guild. A read fills its table's memo;
 * every write clears the memo of the table it names.
 */
module Memo {
  import opened Wrappers
  import opened Tables
  import opened Schema
  import opened Queries
  import opened Store

  /** The memoised reads; `None` is a cleared (or never filled) memo. */
  datatype MemoCache = MemoCache(
    queues: Option<seq<Queue>>,
    displays: Option<seq<Display>>,
    members: Option<seq<Member>>,
    schedules: Option<seq<Schedule>>,
    whitelisted: Option<seq<ListEntry>>,
    blacklisted: Option<seq<ListEntry>>,
    prioritized: Option<seq<Prioritized>>,
    admins: Option<seq<Admin>>)

  const Empty := MemoCache(None, None, None, None, None, None, None, None)

  /** A `Store` for one guild. */
  datatype Session = Session(guildId: Snowflake, db: Db, cache: MemoCache)

  // What each read returns when computed afresh.

  function FreshQueues(db: Db, g: Snowflake): seq<Queue> {
    Filter(db.queues, (q: Queue) => q.guildId == g)
  }

  function FreshDisplays(db: Db, g: Snowflake): seq<Display> {
    Filter(db.displays, (d: Display) => d.guildId == g)
  }

  function FreshSchedules(db: Db, g: Snowflake): seq<Schedule> {
    Filter(db.schedules, (s: Schedule) => s.guildId == g)
  }

  function FreshWhitelisted(db: Db, g: Snowflake): seq<ListEntry> {
    Filter(db.whitelisted, (e: ListEntry) => e.guildId == g)
  }

  function FreshBlacklisted(db: Db, g: Snowflake): seq<ListEntry> {
    Filter(db.blacklisted, (e: ListEntry) => e.guildId == g)
  }

  function FreshPrioritized(db: Db, g: Snowflake): seq<Prioritized> {
    Filter(db.prioritized, (p: Prioritized) => p.guildId == g)
  }

  function FreshAdmins(db: Db, g: Snowflake): seq<Admin> {
    Filter(db.admins, (a: Admin) => a.guildId == g)
  }

  /** Every filled memo holds what its read would return now. */
  predicate Coherent(s: Session) {
    && (s.cache.queues.Some? ==> s.cache.queues.value == FreshQueues(s.db, s.guildId))
    && (s.cache.displays.Some? ==> s.cache.displays.value == FreshDisplays(s.db, s.guildId))
    && (s.cache.members.Some? ==> s.cache.members.value == GuildMembers(s.db, s.guildId))
    && (s.cache.schedules.Some? ==> s.cache.schedules.value == FreshSchedules(s.db, s.guildId))
    && (s.cache.whitelisted.Some? ==> s.cache.whitelisted.value == FreshWhitelisted(s.db, s.guildId))
    && (s.cache.blacklisted.Some? ==> s.cache.blacklisted.value == FreshBlacklisted(s.db, s.guildId))
    && (s.cache.prioritized.Some? ==> s.cache.prioritized.value == FreshPrioritized(s.db, s.guildId))
    && (s.cache.admins.Some? ==> s.cache.admins.value == FreshAdmins(s.db, s.guildId))
  }

  /** A new `Store`: nothing memoised yet. */
  function Open(guildId: Snowflake, db: Db): (s: Session)
    ensures Coherent(s)
    ensures s.db == db && s.guildId == guildId
  {
    Session(guildId, db, Empty)
  }

  /** `memo.clear()` on the memo of table `t`. */
  function ClearTable(c: MemoCache, t: Table): (r: MemoCache)
    ensures t == QueuesTable ==> r.queues.None?
    ensures t == DisplaysTable ==> r.displays.None?
    ensures t == MembersTable ==> r.members.None?
    ensures t == SchedulesTable ==> r.schedules.None?
    ensures t == WhitelistedTable ==> r.whitelisted.None?
    ensures t == BlacklistedTable ==> r.blacklisted.None?
    ensures t == PrioritizedTable ==> r.prioritized.None?
    ensures t == AdminsTable ==> r.admins.None?
    ensures t != QueuesTable ==> r.queues == c.queues
    ensures t != DisplaysTable ==> r.displays == c.displays
    ensures t != MembersTable ==> r.members == c.members
    ensures t != SchedulesTable ==> r.schedules == c.schedules
    ensures t != WhitelistedTable ==> r.whitelisted == c.whitelisted
    ensures t != BlacklistedTable ==> r.blacklisted == c.blacklisted
    ensures t != PrioritizedTable ==> r.prioritized == c.prioritized
    ensures t != AdminsTable ==> r.admins == c.admins
  {
    match t
    case QueuesTable => c.(queues := None)
    case DisplaysTable => c.(displays := None)
    case MembersTable => c.(members := None)
    case SchedulesTable => c.(schedules := None)
    case WhitelistedTable => c.(whitelisted := None)
    case BlacklistedTable => c.(blacklisted := None)
    case PrioritizedTable => c.(prioritized := None)
    case AdminsTable => c.(admins := None)
  }

  // The memoised reads.

  /** `dbQueues()`. */
  function ReadQueues(s: Session): (r: (seq<Queue>, Session))
    ensures Coherent(s) ==> r.0 == FreshQueues(s.db, s.guildId) && Coherent(r.1)
    ensures r.1.db == s.db && r.1.guildId == s.guildId && r.1.cache.queues == Some(r.0)
  {
    if s.cache.queues.Some? then (s.cache.queues.value, s)
    else
      var rows := FreshQueues(s.db, s.guildId);
      (rows, s.(cache := s.cache.(queues := Some(rows))))
  }

  /** `dbDisplays()`. */
  function ReadDisplays(s: Session): (r: (seq<Display>, Session))
    ensures Coherent(s) ==> r.0 == FreshDisplays(s.db, s.guildId) && Coherent(r.1)
    ensures r.1.db == s.db && r.1.guildId == s.guildId && r.1.cache.displays == Some(r.0)
  {
    if s.cache.displays.Some? then (s.cache.displays.value, s)
    else
      var rows := FreshDisplays(s.db, s.guildId);
      (rows, s.(cache := s.cache.(displays := Some(rows))))
  }

  /** `dbMembers()`: the guild's members in member order. */
  function ReadMembers(s: Session): (r: (seq<Member>, Session))
    ensures Coherent(s) ==> r.0 == GuildMembers(s.db, s.guildId) && Coherent(r.1)
    ensures r.1.db == s.db && r.1.guildId == s.guildId && r.1.cache.members == Some(r.0)
  {
    if s.cache.members.Some? then (s.cache.members.value, s)
    else
      var rows := GuildMembers(s.db, s.guildId);
      (rows, s.(cache := s.cache.(members := Some(rows))))
  }

  /** `dbSchedules()`. */
  function ReadSchedules(s: Session): (r: (seq<Schedule>, Session))
    ensures Coherent(s) ==> r.0 == FreshSchedules(s.db, s.guildId) && Coherent(r.1)
    ensures r.1.db == s.db && r.1.guildId == s.guildId && r.1.cache.schedules == Some(r.0)
  {
    if s.cache.schedules.Some? then (s.cache.schedules.value, s)
    else
      var rows := FreshSchedules(s.db, s.guildId);
      (rows, s.(cache := s.cache.(schedules := Some(rows))))
  }

  /** `dbWhitelisted()`. */
  function ReadWhitelisted(s: Session): (r: (seq<ListEntry>, Session))
    ensures Coherent(s) ==> r.0 == FreshWhitelisted(s.db, s.guildId) && Coherent(r.1)
    ensures r.1.db == s.db && r.1.guildId == s.guildId && r.1.cache.whitelisted == Some(r.0)
  {
    if s.cache.whitelisted.Some? then (s.cache.whitelisted.value, s)
    else
      var rows := FreshWhitelisted(s.db, s.guildId);
      (rows, s.(cache := s.cache.(whitelisted := Some(rows))))
  }

  /** `dbBlacklisted()`. */
  function ReadBlacklisted(s: Session): (r: (seq<ListEntry>, Session))
    ensures Coherent(s) ==> r.0 == FreshBlacklisted(s.db, s.guildId) && Coherent(r.1)
    ensures r.1.db == s.db && r.1.guildId == s.guildId && r.1.cache.blacklisted == Some(r.0)
  {
    if s.cache.blacklisted.Some? then (s.cache.blacklisted.value, s)
    else
      var rows := FreshBlacklisted(s.db, s.guildId);
      (rows, s.(cache := s.cache.(blacklisted := Some(rows))))
  }

  /** `dbPrioritized()`. */
  function ReadPrioritized(s: Session): (r: (seq<Prioritized>, Session))
    ensures Coherent(s) ==> r.0 == FreshPrioritized(s.db, s.guildId) && Coherent(r.1)
    ensures r.1.db == s.db && r.1.guildId == s.guildId && r.1.cache.prioritized == Some(r.0)
  {
    if s.cache.prioritized.Some? then (s.cache.prioritized.value, s)
    else
      var rows := FreshPrioritized(s.db, s.guildId);
      (rows, s.(cache := s.cache.(prioritized := Some(rows))))
  }

  /** `dbAdmins()`. */
  function ReadAdmins(s: Session): (r: (seq<Admin>, Session))
    ensures Coherent(s) ==> r.0 == FreshAdmins(s.db, s.guildId) && Coherent(r.1)
    ensures r.1.db == s.db && r.1.guildId == s.guildId && r.1.cache.admins == Some(r.0)
  {
    if s.cache.admins.Some? then (s.cache.admins.value, s)
    else
      var rows := FreshAdmins(s.db, s.guildId);
      (rows, s.(cache := s.cache.(admins := Some(rows))))
  }

  // Writes.

  /** A write of table `t` producing `db'`: its memo is cleared first. */
  function Commit(s: Session, t: Table, db': Db): (r: Session)
    ensures r.db == db' && r.guildId == s.guildId
    ensures Coherent(s) && OnlyWrites(s.db, db', t) ==> Coherent(r)
  {
    var r := Session(s.guildId, db', ClearTable(s.cache, t));
    if Coherent(s) && OnlyWrites(s.db, db', t) then
      ClearKeepsCoherent(s, t, db');
      r
    else
      r
  }

  /** Clearing the written table's memo leaves every other memo holding what its read returns. */
  lemma ClearKeepsCoherent(s: Session, t: Table, db': Db)
    requires Coherent(s) && OnlyWrites(s.db, db', t)
    ensures Coherent(Session(s.guildId, db', ClearTable(s.cache, t)))
  {
    ClearKeepsQueueMemos(s, t, db');
    ClearKeepsListMemos(s, t, db');
  }

  /** The queue, display, member and schedule memos after a write of table `t`. */
  lemma ClearKeepsQueueMemos(s: Session, t: Table, db': Db)
    requires Coherent(s) && OnlyWrites(s.db, db', t)
    ensures var r := Session(s.guildId, db', ClearTable(s.cache, t));
      && (r.cache.queues.Some? ==> r.cache.queues.value == FreshQueues(r.db, r.guildId))
      && (r.cache.displays.Some? ==> r.cache.displays.value == FreshDisplays(r.db, r.guildId))
      && (r.cache.members.Some? ==> r.cache.members.value == GuildMembers(r.db, r.guildId))
      && (r.cache.schedules.Some? ==> r.cache.schedules.value == FreshSchedules(r.db, r.guildId))
  {
    assert t != QueuesTable ==> SameTable(s.db, db', QueuesTable);
    assert t != DisplaysTable ==> SameTable(s.db, db', DisplaysTable);
    assert t != MembersTable ==> SameTable(s.db, db', MembersTable);
    assert t != SchedulesTable ==> SameTable(s.db, db', SchedulesTable);
  }

  /** The whitelist, blacklist, priority and admin memos after a write of table `t`. */
  lemma ClearKeepsListMemos(s: Session, t: Table, db': Db)
    requires Coherent(s) && OnlyWrites(s.db, db', t)
    ensures var r := Session(s.guildId, db', ClearTable(s.cache, t));
      && (r.cache.whitelisted.Some? ==> r.cache.whitelisted.value == FreshWhitelisted(r.db, r.guildId))
      && (r.cache.blacklisted.Some? ==> r.cache.blacklisted.value == FreshBlacklisted(r.db, r.guildId))
      && (r.cache.prioritized.Some? ==> r.cache.prioritized.value == FreshPrioritized(r.db, r.guildId))
      && (r.cache.admins.Some? ==> r.cache.admins.value == FreshAdmins(r.db, r.guildId))
  {
    assert t != WhitelistedTable ==> SameTable(s.db, db', WhitelistedTable);
    assert t != BlacklistedTable ==> SameTable(s.db, db', BlacklistedTable);
    assert t != PrioritizedTable ==> SameTable(s.db, db', PrioritizedTable);
    assert t != AdminsTable ==> SameTable(s.db, db', AdminsTable);
  }

  /** `store.insertMember(member)`: clears the members memo and upserts. */
  function SessionInsertMember(s: Session, nm: NewMember, now: int): (r: (Member, Session))
    ensures Coherent(s) ==> Coherent(r.1)
    ensures r.1.db == InsertMember(s.db, nm, now).1
    ensures Valid(s.db) ==> Valid(r.1.db)
  {
    var (m, db') := InsertMember(s.db, nm, now);
    (m, Commit(s, MembersTable, db'))
  }

  /** `store.deleteManyMembers(by)` without a count. */
  function SessionDeleteMembers(s: Session, crit: MemberBy): (r: (seq<Member>, Session))
    ensures Coherent(s) ==> Coherent(r.1)
    ensures r.0 == Filter(s.db.members, (m: Member) => MemberSelected(crit, m))
  {
    var (gone, db') := DeleteMembers(s.db, crit);
    (gone, Commit(s, MembersTable, db'))
  }

  /** `store.deleteQueue({ id })`: clears only the queues memo. */
  function SessionDeleteQueue(s: Session, queueId: RowId): (r: (Option<Queue>, Session))
    ensures r.1.db == DeleteQueues(s.db, QueueByRowId(queueId)).1
    ensures r.1.cache == s.cache.(queues := None)
  {
    var (gone, db') := DeleteQueues(s.db, QueueByRowId(queueId));
    (First(gone), Session(s.guildId, db', ClearTable(s.cache, QueuesTable)))
  }

  /**
   * Deleting a queue cascades to its members but leaves the members memo in
   * place: a later `dbMembers()` still returns the deleted queue's members.
   */
  lemma {:induction false} DeleteQueueLeavesMembersStale(s: Session, queueId: RowId, k: nat, i: nat)
    requires Coherent(s) && s.cache.members.Some?
    requires k < |s.db.queues| && s.db.queues[k].id == queueId
    requires i < |s.db.members| && s.db.members[i].queueId == queueId && s.db.members[i].guildId == s.guildId
    ensures var s' := SessionDeleteQueue(s, queueId).1;
      ReadMembers(s').0 != GuildMembers(s'.db, s.guildId) && !Coherent(s')
  {
    var m := s.db.members[i];
    var r := DeleteQueues(s.db, QueueByRowId(queueId));
    var s' := SessionDeleteQueue(s, queueId).1;
    FilterMembership(s.db.queues, (q: Queue) => QueueSelected(QueueByRowId(queueId), q), s.db.queues[k]);
    assert AmongDeleted(r.0, queueId) by {
      var j :| 0 <= j < |r.0| && r.0[j] == s.db.queues[k];
    }
    DeleteQueuesCascades(s.db, QueueByRowId(queueId));
    assert m !in r.1.members;
    FilterMembership(s.db.members, (x: Member) => x.guildId == s.guildId, m);
    MemberInOrder(Filter(s.db.members, (x: Member) => x.guildId == s.guildId), m);
    assert m in ReadMembers(s').0;
    FilterMembership(r.1.members, (x: Member) => x.guildId == s.guildId, m);
    MemberInOrder(Filter(r.1.members, (x: Member) => x.guildId == s.guildId), m);
    assert m !in GuildMembers(s'.db, s.guildId);
  }

  /** Ordering keeps exactly the rows it is given. */
  lemma MemberInOrder(rows: seq<Member>, m: Member)
    ensures m in OrderMembers(rows) <==> m in rows
  {
    assert multiset(OrderMembers(rows)) == multiset(rows);
    assert m in OrderMembers(rows) <==> m in multiset(OrderMembers(rows));
  }
}

=== FILE: misc.dfy ===
/**
 * The collection helpers of `misc.utils.ts`. A discord.js `Collection` is
 * a JavaScript `Map`: its entries are kept in first-insertion order, and
 * setting a key that is already present replaces its value in place.
 */
module Misc {
  import opened Wrappers
  import opened Sorting
  import opened Tables

  /** A `Map`: distinct keys, in insertion order. */
  type Collection<K, V> = seq<(K, V)>

  predicate DistinctKeys<K(==), V>(c: Collection<K, V>) {
    forall i, j :: 0 <= i < j < |c| ==> c[i].0 != c[j].0
  }

  function Keys<K(==), V>(c: Collection<K, V>): (r: seq<K>)
    ensures |r| == |c| && forall i :: 0 <= i < |c| ==> r[i] == c[i].0
  {
    seq(|c|, i requires 0 <= i < |c| => c[i].0)
  }

  /** `map.set(key, value)`: replaced in place when the key is present, appended otherwise. */
  function Set<K(==), V>(c: Collection<K, V>, key: K, value: V): (r: Collection<K, V>)
    requires DistinctKeys(c)
    ensures DistinctKeys(r)
    ensures key in Keys(c) ==> Keys(r) == Keys(c)
    ensures key !in Keys(c) ==> Keys(r) == Keys(c) + [key]
    ensures forall i :: 0 <= i < |r| ==> r[i] == (if r[i].0 == key then (key, value) else c[i])
  {
    if key in Keys(c) then
      var r := seq(|c|, i requires 0 <= i < |c| => if c[i].0 == key then (key, value) else c[i]);
      assert Keys(r) == Keys(c);
      r
    else
      var r := c + [(key, value)];
      assert Keys(r) == Keys(c) + [key];
      r
  }

  /** The keys of the list's items, in list order. */
  function KeyList<K(==), V>(key: V -> K, list: seq<V>): (r: seq<K>)
    ensures |r| == |list| && forall i :: 0 <= i < |list| ==> r[i] == key(list[i])
  {
    seq(|list|, i requires 0 <= i < |list| => key(list[i]))
  }

  /** The last item of the list with key `k`. */
  function LastWith<K(==), V>(key: V -> K, list: seq<V>, k: K): (r: Option<V>)
    ensures r.Some? ==> r.value in list && key(r.value) == k
    ensures r.None? <==> forall i :: 0 <= i < |list| ==> key(list[i]) != k
  {
    if |list| == 0 then None
    else if key(list[|list| - 1]) == k then Some(list[|list| - 1])
    else
      var r := LastWith(key, list[..|list| - 1], k);
      assert r.Some? ==> r.value in list by {
        if r.Some? {
          var j :| 0 <= j < |list| - 1 && list[..|list| - 1][j] == r.value;
          assert list[j] == r.value;
        }
      }
      assert r.None? ==> forall i :: 0 <= i < |list| ==> key(list[i]) != k by {
        if r.None? {
          forall i | 0 <= i < |list|
            ensures key(list[i]) != k
          {
            if i < |list| - 1 {
              assert list[i] == list[..|list| - 1][i];
            }
          }
        }
      }
      r
  }

  /**
   * `toCollection(property, list)`: `new Collection(list.map(item => [item[property], item]))`.
   * The keys come in first-occurrence order and every key holds its last item.
   */
  function ToCollection<K(==,!new), V>(key: V -> K, list: seq<V>): (r: Collection<K, V>)
    ensures DistinctKeys(r)
    ensures Keys(r) == Uniq(KeyList(key, list))
    ensures forall i :: 0 <= i < |r| ==> LastWith(key, list, r[i].0) == Some(r[i].1)
    decreases |list|
  {
    if |list| == 0 then []
    else
      var init := list[..|list| - 1];
      var x := list[|list| - 1];
      var c := ToCollection(key, init);
      var r := Set(c, key(x), x);
      assert KeyList(key, list) == KeyList(key, init) + [key(x)];
      UniqSnoc(KeyList(key, init), key(x));
      forall i | 0 <= i < |r|
        ensures LastWith(key, list, r[i].0) == Some(r[i].1)
      {
        if r[i].0 != key(x) {
          assert r[i] == c[i];
        }
      }
      r
  }

  /** Adding an element to the end adds it to the distinct elements unless it was already there. */
  lemma UniqSnoc<T(!new)>(xs: seq<T>, x: T)
    ensures Uniq(xs + [x]) == Uniq(xs) + (if x in xs then [] else [x])
  {
    UniqAccSnoc(xs, [], x);
  }

  lemma {:induction false} UniqAccSnoc<T(!new)>(xs: seq<T>, seen: seq<T>, x: T)
    requires forall i, j :: 0 <= i < j < |seen| ==> seen[i] != seen[j]
    ensures UniqAcc(xs + [x], seen) == UniqAcc(xs, seen) + (if x in xs || x in seen then [] else [x])
    decreases |xs|
  {
    if |xs| == 0 {
      assert [x][1..] == [];
    } else {
      assert (xs + [x])[1..] == xs[1..] + [x];
      if xs[0] in seen {
        UniqAccSnoc(xs[1..], seen, x);
        assert x in xs <==> x == xs[0] || x in xs[1..];
      } else {
        UniqAccSnoc(xs[1..], seen + [xs[0]], x);
        assert x in xs <==> x == xs[0] || x in xs[1..];
      }
    }
  }

  /** `collection.get(key)`. */
  function Get<K(==), V>(c: Collection<K, V>, key: K): (r: Option<V>)
    ensures r.None? <==> key !in Keys(c)
    ensures r.Some? ==> exists i :: 0 <= i < |c| && c[i].0 == key && c[i].1 == r.value
  {
    if |c| == 0 then None
    else if c[0].0 == key then Some(c[0].1)
    else
      assert Keys(c) == [c[0].0] + Keys(c[1..]);
      var r := Get(c[1..], key);
      assert forall i :: 0 <= i < |c| - 1 ==> c[1..][i] == c[i + 1];
      r
  }

  /** Looking a key up in `toCollection` gives the last item with that key. */
  lemma ToCollectionGet<K(!new), V>(key: V -> K, list: seq<V>, k: K)
    ensures Get(ToCollection(key, list), k) == LastWith(key, list, k)
  {
    var c := ToCollection(key, list);
    var g := Get(c, k);
    if g.Some? {
      var i :| 0 <= i < |c| && c[i].0 == k && c[i].1 == g.value;
    } else {
      assert k !in Uniq(KeyList(key, list));
      forall i | 0 <= i < |list|
        ensures key(list[i]) != k
      {
        assert KeyList(key, list)[i] == key(list[i]);
      }
    }
  }

  /** A `Collection` or an array. */
  datatype Items<K, T> = ArrayOf(xs: seq<T>) | CollectionOf(c: Collection<K, T>)

  /** The items in iteration order. */
  function Values<K, T>(items: Items<K, T>): (r: seq<T>)
    ensures items.ArrayOf? ==> r == items.xs
    ensures items.CollectionOf? ==> |r| == |items.c| && forall i :: 0 <= i < |r| ==> r[i] == items.c[i].1
  {
    match items
    case ArrayOf(xs) => xs
    case CollectionOf(c) => seq(|c|, i requires 0 <= i < |c| => c[i].1)
  }

  /** `size(items)`: the number of items, 0 for a missing input. */
  function Size<K, T>(items: Option<Items<K, T>>): (r: nat)
    ensures items.None? ==> r == 0
    ensures items.Some? ==> r == |Values(items.value)|
  {
    if items.None? then 0
    else match items.value
      case ArrayOf(xs) => |xs|
      case CollectionOf(c) => |c|
  }

  /** `fn` applied to every element, in order. */
  function MapSeq<T, S>(xs: seq<T>, fn: T -> S): (r: seq<S>)
    ensures |r| == |xs| && forall i :: 0 <= i < |xs| ==> r[i] == fn(xs[i])
  {
    seq(|xs|, i requires 0 <= i < |xs| => fn(xs[i]))
  }

  /** `map(items, fn)`: the same on a collection's values as on an array. */
  function Map<K, T, S>(items: Items<K, T>, fn: T -> S): (r: seq<S>)
    ensures |r| == |Values(items)| && forall i :: 0 <= i < |r| ==> r[i] == fn(Values(items)[i])
  {
    MapSeq(Values(items), fn)
  }

  /** Mapping a permutation gives a permutation of the images. */
  lemma {:induction false} MapPermutes<T, S>(a: seq<T>, b: seq<T>, fn: T -> S)
    requires multiset(a) == multiset(b)
    ensures multiset(MapSeq(a, fn)) == multiset(MapSeq(b, fn))
    decreases |a|
  {
    assert |a| == |multiset(a)| == |b|;
    if |a| > 0 {
      assert a[0] in multiset(b);
      var k :| 0 <= k < |b| && b[k] == a[0];
      assert a == [a[0]] + a[1..];
      MapPermutes(a[1..], RemoveAt(b, k), fn);
      MapCons(a, fn);
      MapRemoveAt(b, k, fn);
    }
  }

  lemma MapCons<T, S>(a: seq<T>, fn: T -> S)
    requires |a| > 0
    ensures multiset(MapSeq(a, fn)) == multiset{fn(a[0])} + multiset(MapSeq(a[1..], fn))
  {
    assert MapSeq(a, fn) == [fn(a[0])] + MapSeq(a[1..], fn);
  }

  lemma MapRemoveAt<T, S>(b: seq<T>, k: nat, fn: T -> S)
    requires k < |b|
    ensures multiset(MapSeq(b, fn)) == multiset{fn(b[k])} + multiset(MapSeq(RemoveAt(b, k), fn))
  {
    var m := MapSeq(b, fn);
    assert MapSeq(RemoveAt(b, k), fn) == m[..k] + m[k + 1..];
    assert m == m[..k] + [m[k]] + m[k + 1..];
  }

  /** `find(items, fn)`: the first value satisfying `fn`, `undefined` when there is none. */
  function Find<K, T>(items: Items<K, T>, fn: T -> bool): (r: Option<T>)
    ensures r.None? <==> forall i :: 0 <= i < |Values(items)| ==> !fn(Values(items)[i])
    ensures r.Some? ==> fn(r.value)
    ensures r.Some? ==> exists i :: 0 <= i < |Values(items)| && Values(items)[i] == r.value
                                    && forall j :: 0 <= j < i ==> !fn(Values(items)[j])
  {
    var k := FindIndex(Values(items), fn);
    if k.Some? then Some(Values(items)[k.value]) else None
  }

  /** An option choice: the value is both the label and the value. */
  datatype Choice<V> = Choice(name: V, value: V)

  /** `toChoices(values)`: one choice per value, in order. */
  function ToChoices<V>(values: seq<V>): (r: seq<Choice<V>>)
    ensures |r| == |values| && forall i :: 0 <= i < |values| ==> r[i] == Choice(values[i], values[i])
  {
    MapSeq(values, v => Choice(v, v))
  }
}

=== FILE: notification.dfy ===
/**
 * `NotificationUtils.notify`: the direct messages sent to members who were
 * added to, removed from or pulled from queues. The rows are grouped by
 * user; each user gets one message naming their queues. Sending is an
 * outcome parameter: a failed send is swallowed and touches no one else.
 */
module Notification {
  import opened Wrappers
  import opened Tables
  import opened Text
  import opened Schema
  import opened Strings
  import opened Store

  datatype NotificationType = AddedToQueue | RemovedFromQueue | PulledFromQueue

  function TypeText(t: NotificationType): string {
    match t
    case AddedToQueue => "added to"
    case RemovedFromQueue => "removed from"
    case PulledFromQueue => "pulled from"
  }

  datatype Message = Message(userId: Snowflake, text: string)

  /**
   * The users of the rows, each once, in first-occurrence order: Discord
   * ids are too large to be array indices, so `Object.entries` of the
   * `groupBy` keeps insertion order.
   */
  function Recipients(members: seq<Member>): (r: seq<Snowflake>)
    ensures forall u :: u in r <==> exists i :: 0 <= i < |members| && members[i].userId == u
    ensures forall i, j :: 0 <= i < j < |r| ==> r[i] != r[j]
  {
    var ids := seq(|members|, i requires 0 <= i < |members| => members[i].userId);
    assert forall u :: u in ids <==> exists i :: 0 <= i < |members| && members[i].userId == u by {
      forall i | 0 <= i < |members|
        ensures members[i].userId in ids
      {
        assert ids[i] == members[i].userId;
      }
    }
    Uniq(ids)
  }

  /** One user's rows, in their original order (a `groupBy` group). */
  function RowsOf(members: seq<Member>, userId: Snowflake): (r: seq<Member>)
    ensures forall m :: m in r <==> m in members && m.userId == userId
  {
    var rows := Filter(members, (m: Member) => m.userId == userId);
    forall m
      ensures m in rows <==> m in members && m.userId == userId
    {
      FilterMembership(members, (m: Member) => m.userId == userId, m);
    }
    rows
  }

  /** `queues.get(member.queueId)` for every row; `None` when some queue is unknown. */
  function QueuesOfRows(queues: seq<Queue>, rows: seq<Member>): (r: Option<seq<Queue>>)
    ensures r.None? <==> exists i :: 0 <= i < |rows| && QueueById(queues, rows[i].queueId).None?
    ensures r.Some? ==> |r.value| == |rows|
    ensures r.Some? ==> forall i :: 0 <= i < |rows| ==> r.value[i] in queues && r.value[i].id == rows[i].queueId
  {
    if |rows| == 0 then Some([])
    else
      var q := QueueById(queues, rows[0].queueId);
      var rest := QueuesOfRows(queues, rows[1..]);
      if q.None? then None
      else if rest.None? then
        var i :| 0 <= i < |rows[1..]| && QueueById(queues, rows[1..][i].queueId).None?;
        assert rows[i + 1] == rows[1..][i];
        None
      else
        var r := [q.value] + rest.value;
        assert forall i :: 0 < i < |rows| ==> rows[i] == rows[1..][i - 1];
        Some(r)
  }

  /** "<mentions> queue", plural for more than one queue; "whole server" for none. */
  function QueuesText(qs: seq<Queue>): (r: string)
    ensures |qs| == 0 ==> r == "whole server"
    ensures |qs| == 1 ==> r == QueueMention(qs[0]) + " queue"
  {
    if |qs| > 0 then Join(Mentions(qs), ", ") + " queue" + (if |qs| > 1 then "s" else "")
    else "whole server"
  }

  /** The queue word is plural exactly when more than one queue is named. */
  lemma QueuesTextPlural(qs: seq<Queue>)
    requires |qs| > 0
    ensures var r := QueuesText(qs);
      |r| >= 6 && (r[|r| - 1] == 's' <==> |qs| > 1) && r[|r| - 6..] == (if |qs| > 1 then "queues" else " queue")
  {
    var m := Join(Mentions(qs), ", ");
    if |qs| > 1 {
      assert QueuesText(qs) == m + " queue" + "s";
    } else {
      assert QueuesText(qs) == m + " queue";
    }
  }

  /** The text of one user's message; the link is the channel, or the guild when none is given. */
  function MessageText(t: NotificationType, queuesStr: string, link: string): (r: string)
    ensures |r| > 16 && r[..14] == "You were just "
  {
    "You were just " + TypeText(t) + " the " + queuesStr + ".\n" + link
  }

  /** The message for one user, if all of that user's queues are known. */
  function MessageFor(queues: seq<Queue>, members: seq<Member>, userId: Snowflake, t: NotificationType,
                      link: string): (r: Option<string>)
    ensures r.None? <==> QueuesOfRows(queues, RowsOf(members, userId)).None?
    ensures r.Some? ==> r.value == MessageText(t, QueuesText(QueuesOfRows(queues, RowsOf(members, userId)).value), link)
  {
    var qs := QueuesOfRows(queues, RowsOf(members, userId));
    if qs.Some? then Some(MessageText(t, QueuesText(qs.value), link)) else None
  }

  /**
   * The messages built for `users` in order, `textOf` giving each user's
   * text. Mentioning an unknown queue throws (`textOf` is `None`): the
   * messages of the users before it are already on their way, the rest are
   * never built.
   */
  function MessagesFor(users: seq<Snowflake>, textOf: Snowflake -> Option<string>): (r: (seq<Message>, Option<Error>))
    ensures |r.0| <= |users|
    ensures forall i :: 0 <= i < |r.0| ==> r.0[i].userId == users[i] && textOf(users[i]) == Some(r.0[i].text)
    ensures r.1.None? <==> |r.0| == |users|
    ensures r.1.Some? ==> r.1 == Some(QueueNotFound) && textOf(users[|r.0|]).None?
  {
    if |users| == 0 then ([], None)
    else
      var text := textOf(users[0]);
      if text.None? then ([], Some(QueueNotFound))
      else
        var rest := MessagesFor(users[1..], textOf);
        ([Message(users[0], text.value)] + rest.0, rest.1)
  }

  /** `notify`, up to the sends. */
  function Notify(queues: seq<Queue>, members: seq<Member>, t: NotificationType, channelToLink: Option<Snowflake>,
                  guildName: string): (r: (seq<Message>, Option<Error>))
    ensures |r.0| <= |Recipients(members)| && forall i :: 0 <= i < |r.0| ==> r.0[i].userId == Recipients(members)[i]
    ensures forall i :: 0 <= i < |r.0| ==>
      MessageFor(queues, members, r.0[i].userId, t, LinkText(channelToLink, guildName)) == Some(r.0[i].text)
  {
    var link := LinkText(channelToLink, guildName);
    MessagesFor(Recipients(members), u => MessageFor(queues, members, u, t, link))
  }

  function LinkText(channelToLink: Option<Snowflake>, guildName: string): string {
    if channelToLink.Some? then ChannelMention(channelToLink.value) else guildName
  }

  /** A user all of whose rows name known queues gets a message. */
  lemma KnownQueuesGiveMessage(queues: seq<Queue>, members: seq<Member>, userId: Snowflake, t: NotificationType,
                               link: string)
    requires forall i :: 0 <= i < |members| ==> QueueById(queues, members[i].queueId).Some?
    ensures MessageFor(queues, members, userId, t, link).Some?
  {
    var rows := RowsOf(members, userId);
    forall i | 0 <= i < |rows|
      ensures QueueById(queues, rows[i].queueId).Some?
    {
      assert rows[i] in members;
      var j :| 0 <= j < |members| && members[j] == rows[i];
    }
  }

  /** When every user has a text, every user gets a message, in order. */
  lemma MessagesForAll(users: seq<Snowflake>, textOf: Snowflake -> Option<string>)
    requires forall i :: 0 <= i < |users| ==> textOf(users[i]).Some?
    ensures var r := MessagesFor(users, textOf);
      r.1.None? && |r.0| == |users| && forall k :: 0 <= k < |users| ==> r.0[k].userId == users[k]
  {
  }

  /** The recipients of the messages, in order. */
  function MessageUsers(ms: seq<Message>): (r: seq<Snowflake>)
    ensures |r| == |ms| && forall k :: 0 <= k < |ms| ==> r[k] == ms[k].userId
  {
    seq(|ms|, k requires 0 <= k < |ms| => ms[k].userId)
  }

  /**
   * When every queue is known, nothing throws and the messages go to
   * exactly the users with rows, one each (`Recipients` lists every such
   * user once).
   */
  lemma NotifyOncePerUser(queues: seq<Queue>, members: seq<Member>, t: NotificationType,
                          channelToLink: Option<Snowflake>, guildName: string)
    requires forall i :: 0 <= i < |members| ==> QueueById(queues, members[i].queueId).Some?
    ensures var r := Notify(queues, members, t, channelToLink, guildName);
      r.1.None? && MessageUsers(r.0) == Recipients(members)
  {
    var users := Recipients(members);
    var link := LinkText(channelToLink, guildName);
    var textOf := u => MessageFor(queues, members, u, t, link);
    forall i | 0 <= i < |users|
      ensures textOf(users[i]).Some?
    {
      KnownQueuesGiveMessage(queues, members, users[i], t, link);
    }
    MessagesForAll(users, textOf);
  }

  /** A user without a text stops the messages, at that user or before. */
  lemma {:induction false} MessagesForStops(users: seq<Snowflake>, textOf: Snowflake -> Option<string>, k: nat)
    requires k < |users| && textOf(users[k]).None?
    ensures MessagesFor(users, textOf).1 == Some(QueueNotFound)
  {
    if textOf(users[0]).Some? {
      assert users[1..][k - 1] == users[k];
      MessagesForStops(users[1..], textOf, k - 1);
    }
  }

  /** A row naming a queue the guild does not hold makes `notify` throw. */
  lemma NotifyUnknownQueueThrows(queues: seq<Queue>, members: seq<Member>, t: NotificationType,
                                 channelToLink: Option<Snowflake>, guildName: string, bad: nat)
    requires bad < |members| && QueueById(queues, members[bad].queueId).None?
    ensures Notify(queues, members, t, channelToLink, guildName).1 == Some(QueueNotFound)
  {
    var users := Recipients(members);
    var link := LinkText(channelToLink, guildName);
    var u := members[bad].userId;
    var rows := RowsOf(members, u);
    assert members[bad] in rows;
    var j :| 0 <= j < |rows| && rows[j] == members[bad];
    assert MessageFor(queues, members, u, t, link).None?;
    assert u in users;
    var k :| 0 <= k < |users| && users[k] == u;
    MessagesForStops(users, u => MessageFor(queues, members, u, t, link), k);
  }

  /**
   * Each message names the user's queues in row order, and says "queues"
   * exactly when the user had more than one row.
   */
  lemma MessageNamesUserQueues(queues: seq<Queue>, members: seq<Member>, userId: Snowflake, t: NotificationType,
                               link: string)
    requires MessageFor(queues, members, userId, t, link).Some?
    requires |RowsOf(members, userId)| > 0
    ensures var qs := QueuesOfRows(queues, RowsOf(members, userId)).value;
      && |qs| == |RowsOf(members, userId)|
      && (forall i :: 0 <= i < |qs| ==> qs[i].id == RowsOf(members, userId)[i].queueId)
      && MessageFor(queues, members, userId, t, link).value == MessageText(t, QueuesText(qs), link)
      && var s := QueuesText(qs);
         s[|s| - 6..] == (if |RowsOf(members, userId)| > 1 then "queues" else " queue")
  {
    QueuesTextPlural(QueuesOfRows(queues, RowsOf(members, userId)).value);
  }

  /**
   * The users whose message arrives: a send succeeds or fails on its own
   * (`.catch(() => null)`), so a failure drops only that user's message.
   */
  function Delivered(messages: seq<Message>, sendOk: Snowflake -> bool): (r: seq<Message>)
    ensures forall m :: m in r <==> m in messages && sendOk(m.userId)
  {
    var ok := (m: Message) => sendOk(m.userId);
    forall m
      ensures m in Filter(messages, ok) <==> m in messages && sendOk(m.userId)
    {
      FilterMembership(messages, ok, m);
    }
    Filter(messages, ok)
  }

  /** The rows of the users in `userIds`, in their original order. */
  function RowsOfUsers(members: seq<Member>, userIds: seq<Snowflake>): (r: seq<Member>)
    ensures forall m :: m in r <==> m in members && m.userId in userIds
    ensures forall k :: 0 <= k < |r| ==> r[k].userId in userIds
  {
    var rows := Filter(members, (m: Member) => m.userId in userIds);
    forall m
      ensures m in rows <==> m in members && m.userId in userIds
    {
      FilterMembership(members, (m: Member) => m.userId in userIds, m);
    }
    rows
  }

  /** Every message goes to a user with a row. */
  lemma MessagesToRecipients(queues: seq<Queue>, members: seq<Member>, t: NotificationType,
                             channelToLink: Option<Snowflake>, guildName: string)
    ensures forall u :: u in MessageUsers(Notify(queues, members, t, channelToLink, guildName).0) ==>
      exists i :: 0 <= i < |members| && members[i].userId == u
  {
    var built := Notify(queues, members, t, channelToLink, guildName);
    forall u | u in MessageUsers(built.0)
      ensures exists i :: 0 <= i < |members| && members[i].userId == u
    {
      var k :| 0 <= k < |MessageUsers(built.0)| && MessageUsers(built.0)[k] == u;
      assert Recipients(members)[k] == u;
      assert u in Recipients(members);
    }
  }

  /** When every id has a row, the users of their rows that 404 are the ids Discord answers 404 for. */
  lemma FetchedAreMissing<U>(members: seq<Member>, ids: seq<Snowflake>, users: Snowflake -> UserFetch<U>)
    requires forall u :: u in ids ==> exists i :: 0 <= i < |members| && members[i].userId == u
    ensures forall u :: Missing(RowsOfUsers(members, ids), users, u) <==> users(u).UserNotFound? && u in ids
  {
    var fetched := RowsOfUsers(members, ids);
    forall u | users(u).UserNotFound? && u in ids
      ensures Missing(fetched, users, u)
    {
      var i :| 0 <= i < |members| && members[i].userId == u;
      assert members[i] in fetched;
      var k :| 0 <= k < |fetched| && fetched[k] == members[i];
    }
  }

  /**
   * `notify` with its sends. Each built message first fetches its user
   * (`jsMember`): a 404 deletes the user's member rows in the guild, and a
   * user Discord does not return gets nothing, since reading `user` of
   * `undefined` rejects that user's send alone. A found user's message
   * arrives when the send succeeds.
   */
  function NotifyAndSend<U>(db: Db, guildId: Snowflake, queues: seq<Queue>, members: seq<Member>, t: NotificationType,
                            channelToLink: Option<Snowflake>, guildName: string,
                            users: Snowflake -> UserFetch<U>, sendOk: Snowflake -> bool): (r: (seq<Message>, Option<Error>, Db))
    ensures var built := Notify(queues, members, t, channelToLink, guildName);
      && r.1 == built.1
      && (forall m :: m in r.0 <==> m in built.0 && users(m.userId).UserFound? && sendOk(m.userId))
      && (forall x :: x in r.2.members <==>
            x in db.members && !(x.guildId == guildId && users(x.userId).UserNotFound? && x.userId in MessageUsers(built.0)))
    ensures r.2 == db.(members := r.2.members)
    ensures Valid(db) ==> Valid(r.2)
  {
    var built := Notify(queues, members, t, channelToLink, guildName);
    var fetched := RowsOfUsers(members, MessageUsers(built.0));
    MessagesToRecipients(queues, members, t, channelToLink, guildName);
    FetchedAreMissing(members, MessageUsers(built.0), users);
    (Delivered(built.0, u => users(u).UserFound? && sendOk(u)), built.1, ForgetMissingUsers(db, guildId, fetched, users))
  }

  /**
   * When every queue is known, every user with a row is fetched, so the
   * 404s delete exactly the guild's rows of the users with a row that
   * Discord answers 404 for.
   */
  lemma NotifyForgetsMissing<U>(db: Db, guildId: Snowflake, queues: seq<Queue>, members: seq<Member>, t: NotificationType,
                                channelToLink: Option<Snowflake>, guildName: string,
                                users: Snowflake -> UserFetch<U>, sendOk: Snowflake -> bool)
    requires forall i :: 0 <= i < |members| ==> QueueById(queues, members[i].queueId).Some?
    ensures var r := NotifyAndSend(db, guildId, queues, members, t, channelToLink, guildName, users, sendOk);
      && r.1.None?
      && (forall x :: x in r.2.members <==>
            x in db.members && !(x.guildId == guildId && users(x.userId).UserNotFound?
              && exists i :: 0 <= i < |members| && members[i].userId == x.userId))
  {
    NotifyOncePerUser(queues, members, t, channelToLink, guildName);
    var ids := MessageUsers(Notify(queues, members, t, channelToLink, guildName).0);
    forall u
      ensures u in ids <==> exists i :: 0 <= i < |members| && members[i].userId == u
    {
      assert ids == Recipients(members);
    }
  }

  /**
   * When every queue is known, a user with a row gets the message exactly
   * when Discord returns the user and the send succeeds.
   */
  lemma NotifyReachesFound<U>(db: Db, guildId: Snowflake, queues: seq<Queue>, members: seq<Member>, t: NotificationType,
                              channelToLink: Option<Snowflake>, guildName: string,
                              users: Snowflake -> UserFetch<U>, sendOk: Snowflake -> bool)
    requires forall i :: 0 <= i < |members| ==> QueueById(queues, members[i].queueId).Some?
    ensures var r := NotifyAndSend(db, guildId, queues, members, t, channelToLink, guildName, users, sendOk);
      forall u :: u in MessageUsers(r.0) <==> u in Recipients(members) && users(u).UserFound? && sendOk(u)
  {
    NotifyOncePerUser(queues, members, t, channelToLink, guildName);
    var built := Notify(queues, members, t, channelToLink, guildName);
    var r := NotifyAndSend(db, guildId, queues, members, t, channelToLink, guildName, users, sendOk);
    KeptMessagesUsers(built.0, r.0, u => users(u).UserFound? && sendOk(u));
  }

  /** Keeping the messages whose user passes `ok` keeps exactly the users that pass. */
  lemma KeptMessagesUsers(messages: seq<Message>, kept: seq<Message>, ok: Snowflake -> bool)
    requires forall m :: m in kept <==> m in messages && ok(m.userId)
    ensures forall u :: u in MessageUsers(kept) <==> u in MessageUsers(messages) && ok(u)
  {
    forall u
      ensures u in MessageUsers(kept) <==> u in MessageUsers(messages) && ok(u)
    {
      if u in MessageUsers(kept) {
        var j :| 0 <= j < |kept| && MessageUsers(kept)[j] == u;
        assert kept[j] in kept;
        var k :| 0 <= k < |messages| && messages[k] == kept[j];
        assert MessageUsers(messages)[k] == u;
      }
      if u in MessageUsers(messages) && ok(u) {
        var k :| 0 <= k < |messages| && MessageUsers(messages)[k] == u;
        assert messages[k] in kept;
        var j :| 0 <= j < |kept| && kept[j] == messages[k];
        assert MessageUsers(kept)[j] == u;
      }
    }
  }
}

=== FILE: options.dfy ===
/**
 * The shared behaviour of every slash-command option (`BaseOptions`): the
 * per-interaction selection cache, the description shown in Discord's UI,
 * and how an option is written onto Discord's option builder.
 */
module Options {
  import opened Wrappers
  import opened Text
  import opened Schema

  // Per-interaction cache.

  /**
   * The interaction parser's cache, by option name. `None` stands for a
   * stored `null` or `undefined` selection.
   */
  type Cache<V> = map<string, Option<V>>

  /** `cache.get(name) == undefined` is false: a selection is stored and it is neither null nor undefined. */
  predicate Cached<V>(cache: Cache<V>, name: string) {
    name in cache && cache[name].Some?
  }

  /**
   * `BaseOptions.get`: the cached selection when there is one; otherwise
   * `uncached` (what the interaction holds for the option, `None` for null)
   * is stored under the name and returned.
   */
  function GetOption<V>(cache: Cache<V>, name: string, uncached: Option<V>): (r: (Option<V>, Cache<V>))
    ensures Cached(cache, name) ==> r.0 == cache[name] && r.1 == cache
    ensures !Cached(cache, name) ==> r.0 == uncached
    ensures name in r.1 && r.1[name] == r.0
    ensures forall k :: k in r.1 && k != name ==> k in cache && r.1[k] == cache[k]
    ensures forall k :: k in cache ==> k in r.1
  {
    if Cached(cache, name) then (cache[name], cache)
    else (uncached, cache[name := uncached])
  }

  /**
   * Once an option's selection is non-null, every later read in the same
   * interaction returns it and leaves the cache as it is, whatever the
   * interaction would now give.
   */
  lemma GetIsStable<V>(cache: Cache<V>, name: string, first: Option<V>, later: Option<V>)
    requires GetOption(cache, name, first).0.Some?
    ensures GetOption(GetOption(cache, name, first).1, name, later) == GetOption(cache, name, first)
  {
    var r := GetOption(cache, name, first);
    assert Cached(r.1, name);
  }

  /** A null selection is not kept: the next read takes the interaction's value again. */
  lemma GetRetriesNull<V>(cache: Cache<V>, name: string, first: Option<V>, later: Option<V>)
    requires GetOption(cache, name, first).0.None?
    ensures GetOption(GetOption(cache, name, first).1, name, later).0 == later
  {
    var r := GetOption(cache, name, first);
    assert !Cached(r.1, name);
  }

  // Description.

  /** A choice offered for the option: its label and its value. */
  datatype ChoiceValue = IntChoice(i: int) | StringChoice(s: string)
  datatype OptionChoice = OptionChoice(name: string, value: ChoiceValue)

  /**
   * An option as configured. `defaultValue` is the default already written
   * out as the template string would print it, `None` for null or
   * undefined. Arrays are truthy even when empty, so `choices` and
   * `channelTypes` are set whenever they are `Some`.
   */
  datatype OptionConfig = OptionConfig(
    name: string,
    description: Option<string>,
    autocomplete: Option<bool>,
    channelTypes: Option<seq<nat>>,
    choices: Option<seq<OptionChoice>>,
    defaultValue: Option<string>,
    required: Option<bool>)

  /** The longest description Discord accepts, in UTF-16 code units. */
  const MaxDescriptionLength := 100

  /** What follows the description when the option has a default. */
  function DefaultSuffix(d: string): string {
    " [default: " + d + "]"
  }

  /**
   * `buildDescription`: the description, followed by the default when there
   * is one. Appending to an undefined description prints "undefined"; with
   * no default it stays undefined and reading its length throws. A text
   * over 100 UTF-16 code units throws.
   */
  function BuildDescription(opt: OptionConfig): (r: Result<string, Error>)
    ensures r.Ok? ==> Utf16Length(r.value) <= MaxDescriptionLength
    ensures opt.description.None? && opt.defaultValue.None? ==> r == Err(DescriptionUndefined)
    ensures r.Ok? && opt.defaultValue.None? ==> opt.description == Some(r.value)
    ensures r.Ok? && opt.defaultValue.Some? ==>
      r.value == opt.description.GetOr("undefined") + DefaultSuffix(opt.defaultValue.value)
    ensures r.Err? && (opt.description.Some? || opt.defaultValue.Some?) ==>
      r.error.DescriptionTooLong? && r.error.length > MaxDescriptionLength
  {
    if opt.description.None? && opt.defaultValue.None? then Err(DescriptionUndefined)
    else
      var base := opt.description.GetOr("undefined");
      var text := if opt.defaultValue.Some? then base + DefaultSuffix(opt.defaultValue.value) else base;
      if Utf16Length(text) > MaxDescriptionLength then Err(DescriptionTooLong(Utf16Length(text)))
      else Ok(text)
  }

  /**
   * The default costs 12 code units plus its own length: a described option
   * builds exactly when its description and default fit together in 88.
   */
  lemma DescriptionBudget(opt: OptionConfig)
    requires opt.description.Some? && opt.defaultValue.Some?
    ensures BuildDescription(opt).Ok? <==>
      Utf16Length(opt.description.value) + Utf16Length(opt.defaultValue.value) <= MaxDescriptionLength - 12
  {
    var d := opt.defaultValue.value;
    Utf16LengthAppend(opt.description.value, DefaultSuffix(d));
    Utf16LengthAppend(" [default: " + d, "]");
    Utf16LengthAppend(" [default: ", d);
  }

  /** Without a default, a described option builds exactly when its description fits. */
  lemma PlainDescriptionBudget(opt: OptionConfig)
    requires opt.description.Some? && opt.defaultValue.None?
    ensures BuildDescription(opt).Ok? <==> Utf16Length(opt.description.value) <= MaxDescriptionLength
  {
  }

  // Builder.

  /** The fields of Discord's option builder that `build` writes. */
  datatype Builder = Builder(
    name: string,
    description: string,
    required: bool,
    autocomplete: bool,
    choices: Option<seq<OptionChoice>>,
    channelTypes: Option<seq<nat>>)

  /** A fresh option builder: nothing set. */
  const FreshBuilder := Builder("", "", false, false, None, None)

  /**
   * `build`: names and describes the builder, then sets `required` and
   * `autocomplete` only when true and `choices` and `channelTypes` only
   * when given. A description that cannot be built throws before any flag
   * is set.
   */
  function Build(opt: OptionConfig, b: Builder): (r: Result<Builder, Error>)
    ensures r.Err? <==> BuildDescription(opt).Err?
    ensures r.Err? ==> r.error == BuildDescription(opt).error
    ensures r.Ok? ==> r.value.name == opt.name && BuildDescription(opt) == Ok(r.value.description)
    ensures r.Ok? ==> r.value.required == (b.required || opt.required == Some(true))
    ensures r.Ok? ==> r.value.autocomplete == (b.autocomplete || opt.autocomplete == Some(true))
    ensures r.Ok? ==> r.value.choices == (if opt.choices.Some? then opt.choices else b.choices)
    ensures r.Ok? ==> r.value.channelTypes == (if opt.channelTypes.Some? then opt.channelTypes else b.channelTypes)
  {
    match BuildDescription(opt)
    case Err(e) => Err(e)
    case Ok(description) =>
      var named := b.(name := opt.name, description := description);
      var withRequired := if opt.required == Some(true) then named.(required := true) else named;
      var withAutocomplete := if opt.autocomplete == Some(true) then withRequired.(autocomplete := true) else withRequired;
      var withChoices := if opt.choices.Some? then withAutocomplete.(choices := opt.choices) else withAutocomplete;
      if opt.channelTypes.Some? then Ok(withChoices.(channelTypes := opt.channelTypes)) else Ok(withChoices)
  }

  /**
   * On a fresh builder, a flag is set exactly when the option sets it, and
   * an option that sets nothing leaves every flag as it was.
   */
  lemma BuildSetsOnlyGiven(opt: OptionConfig)
    requires BuildDescription(opt).Ok?
    ensures var r := Build(opt, FreshBuilder).value;
      && (r.required <==> opt.required == Some(true))
      && (r.autocomplete <==> opt.autocomplete == Some(true))
      && (r.choices.Some? <==> opt.choices.Some?)
      && (r.channelTypes.Some? <==> opt.channelTypes.Some?)
  {
  }
}

=== FILE: queries.dfy ===
/**
 * The read side of the database: the order members are listed in, the
 * member queries (including the LIMITed "first n members" query and the
 * "next member" query), the key-presence dispatch of the select helpers, and
 * the in-memory accumulator of guild statistics.
 */
module Queries {
  import opened Wrappers
  import opened Sorting
  import opened Tables
  import opened Schema

  /** Lexicographic order on triples of integers. */
  predicate Lex3(a: (int, int, int), b: (int, int, int)) {
    a.0 < b.0 || (a.0 == b.0 && (a.1 < b.1 || (a.1 == b.1 && a.2 <= b.2)))
  }

  /**
   * The sort key of MEMBER_ORDER: `CASE WHEN priority IS NULL THEN 1 ELSE 0
   * END`, then `priority`, then `positionTime`. Two NULL priorities tie on the
   * second key, which the constant 0 reproduces.
   */
  function MemberOrderKey(m: Member): (int, int, int) {
    (if m.priority.None? then 1 else 0, m.priority.GetOr(0), m.positionTime)
  }

  predicate MemberLe(a: Member, b: Member) {
    Lex3(MemberOrderKey(a), MemberOrderKey(b))
  }

  /**
   * The sort key of `selectNextMemberByQueue`: `priority`, then
   * `positionTime`. SQLite sorts NULL before every number.
   */
  function NextMemberKey(m: Member): (int, int, int) {
    (if m.priority.None? then 0 else 1, m.priority.GetOr(0), m.positionTime)
  }

  predicate NextMemberLe(a: Member, b: Member) {
    Lex3(NextMemberKey(a), NextMemberKey(b))
  }

  lemma MemberLeIsTotalPreorder()
    ensures TotalPreorder(MemberLe)
  {
  }

  lemma NextMemberLeIsTotalPreorder()
    ensures TotalPreorder(NextMemberLe)
  {
  }

  /** Members sorted by MEMBER_ORDER (ties keep rowid order). */
  function OrderMembers(rows: seq<Member>): (r: seq<Member>)
    ensures multiset(r) == multiset(rows)
    ensures SortedBy(MemberLe, r)
  {
    MemberLeIsTotalPreorder();
    SortBy(MemberLe, rows)
  }

  predicate InQueue(m: Member, guildId: Snowflake, queueId: RowId) {
    m.guildId == guildId && m.queueId == queueId
  }

  /** The member rows of one queue of a guild, in table order. */
  function QueueRows(db: Db, guildId: Snowflake, queueId: RowId): seq<Member> {
    Filter(db.members, (m: Member) => InQueue(m, guildId, queueId))
  }

  /** The first-minimum index is determined by its two defining properties. */
  lemma MinIndexUnique<T(!new)>(le: (T, T) -> bool, xs: seq<T>, k: nat)
    requires TotalPreorder(le)
    requires k < |xs|
    requires forall i :: 0 <= i < |xs| ==> le(xs[k], xs[i])
    requires forall i :: 0 <= i < k ==> !le(xs[i], xs[k])
    ensures MinIndex(le, xs) == k
  {
    var m := MinIndex(le, xs);
  }

  lemma {:induction false} FilterCons<T>(x: T, rest: seq<T>, p: T -> bool)
    ensures Filter([x] + rest, p) == (if p(x) then [x] else []) + Filter(rest, p)
  {
    assert ([x] + rest)[1..] == rest;
  }

  /** Filtering around index `m`, with and without the element there. */
  lemma FilterAround<T>(xs: seq<T>, m: nat, p: T -> bool)
    requires m < |xs|
    ensures Filter(xs, p) == Filter(xs[..m], p) + (if p(xs[m]) then [xs[m]] else []) + Filter(xs[m + 1..], p)
    ensures Filter(RemoveAt(xs, m), p) == Filter(xs[..m], p) + Filter(xs[m + 1..], p)
  {
    FilterAroundKept(xs, m, p);
    FilterAroundRemoved(xs, m, p);
  }

  lemma {:induction false} FilterAroundKept<T>(xs: seq<T>, m: nat, p: T -> bool)
    requires m < |xs|
    ensures Filter(xs, p) == Filter(xs[..m], p) + (if p(xs[m]) then [xs[m]] else []) + Filter(xs[m + 1..], p)
  {
    var a, b := xs[..m], xs[m + 1..];
    assert xs == a + ([xs[m]] + b);
    FilterAppend(a, [xs[m]] + b, p);
    FilterCons(xs[m], b, p);
  }

  lemma {:induction false} FilterAroundRemoved<T>(xs: seq<T>, m: nat, p: T -> bool)
    requires m < |xs|
    ensures Filter(RemoveAt(xs, m), p) == Filter(xs[..m], p) + Filter(xs[m + 1..], p)
  {
    assert RemoveAt(xs, m) == xs[..m] + xs[m + 1..];
    FilterAppend(xs[..m], xs[m + 1..], p);
  }

  /** No element kept from before the first minimum is itself below it. */
  lemma FilteredBeforeMin<T(!new)>(le: (T, T) -> bool, xs: seq<T>, p: T -> bool, m: nat)
    requires TotalPreorder(le)
    requires |xs| > 0 && m == MinIndex(le, xs)
    ensures forall i :: 0 <= i < |Filter(xs[..m], p)| ==> !le(Filter(xs[..m], p)[i], xs[m])
  {
    var before := Filter(xs[..m], p);
    forall i | 0 <= i < |before|
      ensures !le(before[i], xs[m])
    {
      assert before[i] in xs[..m];
      var j :| 0 <= j < m && xs[..m][j] == before[i];
    }
  }

  /** The first minimum is below every element that passes the filter. */
  lemma FilteredAboveMin<T(!new)>(le: (T, T) -> bool, xs: seq<T>, p: T -> bool, m: nat)
    requires TotalPreorder(le)
    requires |xs| > 0 && m == MinIndex(le, xs)
    ensures forall i :: 0 <= i < |Filter(xs, p)| ==> le(xs[m], Filter(xs, p)[i])
  {
    var f := Filter(xs, p);
    forall i | 0 <= i < |f|
      ensures le(xs[m], f[i])
    {
      var j :| 0 <= j < |xs| && xs[j] == f[i];
    }
  }

  /** When the first minimum passes the filter, it is the first minimum of the filtered list. */
  lemma {:induction false} FilteredMinIndex<T(!new)>(le: (T, T) -> bool, xs: seq<T>, p: T -> bool)
    requires TotalPreorder(le)
    requires |xs| > 0 && p(xs[MinIndex(le, xs)])
    ensures var m := MinIndex(le, xs);
      var f := Filter(xs, p);
      && |Filter(xs[..m], p)| < |f|
      && MinIndex(le, f) == |Filter(xs[..m], p)|
      && f[|Filter(xs[..m], p)|] == xs[m]
      && RemoveAt(f, |Filter(xs[..m], p)|) == Filter(RemoveAt(xs, m), p)
  {
    var m := MinIndex(le, xs);
    var f := Filter(xs, p);
    var before := Filter(xs[..m], p);
    var after := Filter(xs[m + 1..], p);
    FilterAround(xs, m, p);
    assert f == before + [xs[m]] + after;
    var k := |before|;
    assert f[k] == xs[m];
    FilteredAboveMin(le, xs, p, m);
    FilteredBeforeMin(le, xs, p, m);
    assert forall i :: 0 <= i < k ==> f[i] == before[i];
    MinIndexUnique(le, f, k);
    RemoveMiddle(before, xs[m], after);
  }

  /** Sorting the filtered list starts with the first minimum when it passes the filter. */
  lemma {:induction false} SortFilteredHead<T(!new)>(le: (T, T) -> bool, xs: seq<T>, p: T -> bool)
    requires TotalPreorder(le)
    requires |xs| > 0 && p(xs[MinIndex(le, xs)])
    ensures SortBy(le, Filter(xs, p)) == [xs[MinIndex(le, xs)]] + SortBy(le, Filter(RemoveAt(xs, MinIndex(le, xs)), p))
  {
    var f := Filter(xs, p);
    FilteredMinIndex(le, xs, p);
    SortByHead(le, f);
    assert SortBy(le, f) == [SortBy(le, f)[0]] + SortBy(le, f)[1..];
  }

  /** Sorting starts with the first minimum. */
  lemma {:induction false} SortCons<T(!new)>(le: (T, T) -> bool, xs: seq<T>)
    requires TotalPreorder(le)
    requires |xs| > 0
    ensures SortBy(le, xs) == [xs[MinIndex(le, xs)]] + SortBy(le, RemoveAt(xs, MinIndex(le, xs)))
  {
    SortByHead(le, xs);
    assert SortBy(le, xs) == [SortBy(le, xs)[0]] + SortBy(le, xs)[1..];
  }

  /** Removing an element the filter drops does not change the filtered list. */
  lemma {:induction false} FilterSkip<T>(xs: seq<T>, m: nat, p: T -> bool)
    requires m < |xs| && !p(xs[m])
    ensures Filter(RemoveAt(xs, m), p) == Filter(xs, p)
  {
    var a, b := xs[..m], xs[m + 1..];
    assert xs == a + ([xs[m]] + b);
    FilterAppend(a, [xs[m]] + b, p);
    FilterCons(xs[m], b, p);
    assert [] + Filter(b, p) == Filter(b, p);
    assert RemoveAt(xs, m) == a + b;
    FilterAppend(a, b, p);
  }

  /** One step of the stability proof, when the first minimum passes the filter. */
  lemma {:induction false} FilterSortStepKept<T(!new)>(le: (T, T) -> bool, xs: seq<T>, p: T -> bool)
    requires TotalPreorder(le)
    requires |xs| > 0 && p(xs[MinIndex(le, xs)])
    requires Filter(SortBy(le, RemoveAt(xs, MinIndex(le, xs))), p) == SortBy(le, Filter(RemoveAt(xs, MinIndex(le, xs)), p))
    ensures Filter(SortBy(le, xs), p) == SortBy(le, Filter(xs, p))
  {
    var m := MinIndex(le, xs);
    var sorted := SortBy(le, RemoveAt(xs, m));
    SortCons(le, xs);
    FilterCons(xs[m], sorted, p);
    SortFilteredHead(le, xs, p);
  }

  /** One step of the stability proof, when the filter drops the first minimum. */
  lemma {:induction false} FilterSortStepDropped<T(!new)>(le: (T, T) -> bool, xs: seq<T>, p: T -> bool)
    requires TotalPreorder(le)
    requires |xs| > 0 && !p(xs[MinIndex(le, xs)])
    requires Filter(SortBy(le, RemoveAt(xs, MinIndex(le, xs))), p) == SortBy(le, Filter(RemoveAt(xs, MinIndex(le, xs)), p))
    ensures Filter(SortBy(le, xs), p) == SortBy(le, Filter(xs, p))
  {
    var m := MinIndex(le, xs);
    var sorted := SortBy(le, RemoveAt(xs, m));
    SortCons(le, xs);
    FilterCons(xs[m], sorted, p);
    assert [] + Filter(sorted, p) == Filter(sorted, p);
    FilterSkip(xs, m, p);
  }

  /**
   * The selection sort is stable, so filtering a sorted list is sorting the
   * filtered list.
   */
  lemma {:induction false} FilterSortBy<T(!new)>(le: (T, T) -> bool, xs: seq<T>, p: T -> bool)
    requires TotalPreorder(le)
    ensures Filter(SortBy(le, xs), p) == SortBy(le, Filter(xs, p))
    decreases |xs|
  {
    if |xs| > 0 {
      var m := MinIndex(le, xs);
      FilterSortBy(le, RemoveAt(xs, m), p);
      if p(xs[m]) {
        FilterSortStepKept(le, xs, p);
      } else {
        FilterSortStepDropped(le, xs, p);
      }
    }
  }

  /**
   * `store.dbMembers().filter(member => member.queueId === queue.id)`, the
   * guild's ordered members restricted to one queue, is the queue's own
   * ordered member list.
   */
  lemma GuildLineIsQueueMembers(db: Db, guildId: Snowflake, queueId: RowId)
    ensures Filter(GuildMembers(db, guildId), (m: Member) => m.queueId == queueId) == QueueMembers(db, guildId, queueId)
  {
    MemberLeIsTotalPreorder();
    var guild := Filter(db.members, (m: Member) => m.guildId == guildId);
    FilterSortBy(MemberLe, guild, (m: Member) => m.queueId == queueId);
    FilterFilterExt(db.members, (m: Member) => m.guildId == guildId, (m: Member) => m.queueId == queueId,
      (m: Member) => InQueue(m, guildId, queueId));
  }

  /** `selectManyMembers({ guildId })`: the guild's members in MEMBER_ORDER. */
  function GuildMembers(db: Db, guildId: Snowflake): seq<Member> {
    OrderMembers(Filter(db.members, (m: Member) => m.guildId == guildId))
  }

  /** The members of one queue, in MEMBER_ORDER: the list every queue operation reads. */
  function QueueMembers(db: Db, guildId: Snowflake, queueId: RowId): seq<Member> {
    OrderMembers(QueueRows(db, guildId, queueId))
  }

  /**
   * MEMBER_ORDER lists prioritized members first, lower priority values
   * first among them, and earlier position times first among equal
   * priorities; the list holds exactly the queue's rows.
   */
  lemma QueueMembersOrder(db: Db, guildId: Snowflake, queueId: RowId)
    ensures var r := QueueMembers(db, guildId, queueId);
      && (forall i, j :: 0 <= i < j < |r| && r[j].priority.Some? ==> r[i].priority.Some?)
      && (forall i, j :: 0 <= i < j < |r| && r[i].priority.Some? && r[j].priority.Some?
            ==> r[i].priority.value <= r[j].priority.value)
      && (forall i, j :: 0 <= i < j < |r| && r[i].priority == r[j].priority
            ==> r[i].positionTime <= r[j].positionTime)
      && (forall m :: m in r <==> m in db.members && InQueue(m, guildId, queueId))
  {
    SortedMembersMeans(QueueMembers(db, guildId, queueId));
    QueueMembersHoldQueueRows(db, guildId, queueId);
  }

  lemma SortedMembersMeans(r: seq<Member>)
    requires SortedBy(MemberLe, r)
    ensures forall i, j :: 0 <= i < j < |r| && r[j].priority.Some? ==> r[i].priority.Some?
    ensures forall i, j :: 0 <= i < j < |r| && r[i].priority.Some? && r[j].priority.Some?
              ==> r[i].priority.value <= r[j].priority.value
    ensures forall i, j :: 0 <= i < j < |r| && r[i].priority == r[j].priority
              ==> r[i].positionTime <= r[j].positionTime
  {
    forall i, j | 0 <= i < j < |r|
      ensures r[j].priority.Some? ==> r[i].priority.Some?
      ensures r[i].priority.Some? && r[j].priority.Some? ==> r[i].priority.value <= r[j].priority.value
      ensures r[i].priority == r[j].priority ==> r[i].positionTime <= r[j].positionTime
    {
      MemberLeMeans(r[i], r[j]);
    }
  }

  lemma QueueMembersHoldQueueRows(db: Db, guildId: Snowflake, queueId: RowId)
    ensures forall m :: m in QueueMembers(db, guildId, queueId) <==> m in db.members && InQueue(m, guildId, queueId)
  {
    var rows := QueueRows(db, guildId, queueId);
    var r := QueueMembers(db, guildId, queueId);
    forall m
      ensures m in r <==> m in db.members && InQueue(m, guildId, queueId)
    {
      assert m in r <==> m in multiset(r);
      assert m in rows <==> m in multiset(rows);
      FilterMembership(db.members, (x: Member) => InQueue(x, guildId, queueId), m);
    }
  }

  /** What one MEMBER_ORDER comparison says about the two rows. */
  lemma MemberLeMeans(a: Member, b: Member)
    requires MemberLe(a, b)
    ensures b.priority.Some? ==> a.priority.Some?
    ensures a.priority.Some? && b.priority.Some? ==> a.priority.value <= b.priority.value
    ensures a.priority == b.priority ==> a.positionTime <= b.positionTime
  {
  }

  /** SQLite's `LIMIT count`: a negative limit means no limit. */
  function Limit<T>(xs: seq<T>, count: int): (r: seq<T>)
    ensures |r| == if 0 <= count < |xs| then count else |xs|
    ensures r == xs[..|r|]
  {
    if 0 <= count < |xs| then xs[..count] else xs
  }

  /** `selectManyMembersByQueueIdAndCount`: MEMBER_ORDER, then LIMIT. */
  function CountQuery(db: Db, guildId: Snowflake, queueId: RowId, count: int): seq<Member> {
    Limit(QueueMembers(db, guildId, queueId), count)
  }

  /**
   * The count query returns the first `count` members of the queue: as many
   * as asked for (or all, when fewer), each one ordered before every member
   * it leaves out.
   */
  lemma CountQueryIsFirst(db: Db, guildId: Snowflake, queueId: RowId, count: int)
    ensures var all := QueueMembers(db, guildId, queueId);
      var r := CountQuery(db, guildId, queueId, count);
      && |r| == (if 0 <= count < |all| then count else |all|)
      && r == all[..|r|]
      && (forall i, j :: 0 <= i < |r| <= j < |all| ==> MemberLe(r[i], all[j]))
  {
  }

  /** `selectNextMemberByQueue(...).get()`: the head in (priority, positionTime) order. */
  function NextMember(db: Db, guildId: Snowflake, queueId: RowId): (r: Option<Member>)
    ensures r.None? <==> |QueueRows(db, guildId, queueId)| == 0
    ensures r.Some? ==> r.value in QueueRows(db, guildId, queueId)
    ensures r.Some? ==> forall m :: m in QueueRows(db, guildId, queueId) ==> NextMemberLe(r.value, m)
  {
    var rows := QueueRows(db, guildId, queueId);
    if |rows| == 0 then None
    else
      NextMemberLeIsTotalPreorder();
      Some(rows[MinIndex(NextMemberLe, rows)])
  }

  /**
   * The next-member query and MEMBER_ORDER disagree: an unprioritized member
   * comes first under the former (NULL sorts first) and last under the latter.
   */
  lemma NextMemberDiffersFromHead()
    ensures var a := Member(1, "g", 7, "alice", None, 10, 10, None);
      var b := Member(2, "g", 7, "bob", None, 20, 20, Some(1));
      var db := Db([], [], [a, b], [], [], [], [], [], [], 3);
      && NextMember(db, "g", 7) == Some(a)
      && QueueMembers(db, "g", 7)[0] == b
  {
    var a := Member(1, "g", 7, "alice", None, 10, 10, None);
    var b := Member(2, "g", 7, "bob", None, 20, 20, Some(1));
    var db := Db([], [], [a, b], [], [], [], [], [], [], 3);
    var p := (m: Member) => InQueue(m, "g", 7);
    assert Filter([b], p) == [b] by {
      assert [b][1..] == [];
      assert Filter([b][1..], p) == [];
    }
    assert QueueRows(db, "g", 7) == [a, b] by {
      assert [a, b][1..] == [b];
      assert Filter([a, b], p) == [a] + Filter([b], p);
    }
    MemberLeIsTotalPreorder();
    NextMemberLeIsTotalPreorder();
    assert MemberLe(b, a) && !MemberLe(a, b);
    assert NextMemberLe(a, b) && !NextMemberLe(b, a);
    var rows := [a, b];
    assert MinIndex(MemberLe, rows) == 1 by {
      assert rows[1..] == [b];
    }
    SortByHead(MemberLe, rows);
  }

  // Key-presence dispatch of the select helpers.

  /** Which keys a `by` object carries (presence, as `"key" in by` tests it). */
  datatype MembersBy = MembersBy(
    guildId: Option<Snowflake>,
    userId: Option<Snowflake>,
    queueId: Option<RowId>,
    count: Option<int>)

  datatype MembersQuery = ByGuildAndUser | ByGuild | ByQueueAndCount | ByQueue | NoMembersQuery

  /** The branch `selectManyMembers` takes: the first key test that passes. */
  function MembersQueryOf(keys: MembersBy): (r: MembersQuery)
    ensures r == ByGuildAndUser <==> keys.guildId.Some? && keys.userId.Some?
    ensures r == ByGuild <==> keys.guildId.Some? && keys.userId.None?
    ensures r == ByQueueAndCount <==> keys.guildId.None? && keys.queueId.Some? && keys.count.Some?
    ensures r == ByQueue <==> keys.guildId.None? && keys.queueId.Some? && keys.count.None?
    ensures r == NoMembersQuery <==> keys.guildId.None? && keys.queueId.None?
  {
    if keys.guildId.Some? && keys.userId.Some? then ByGuildAndUser
    else if keys.guildId.Some? then ByGuild
    else if keys.queueId.Some? && keys.count.Some? then ByQueueAndCount
    else if keys.queueId.Some? then ByQueue
    else NoMembersQuery
  }

  /**
   * Every call the repository makes carries a guild id, so any call without
   * a user id reads the whole guild, whatever queue or count it names.
   */
  lemma GuildCallsReadWholeGuild(guildId: Snowflake, queueId: Option<RowId>, count: Option<int>)
    ensures MembersQueryOf(MembersBy(Some(guildId), None, queueId, count)) == ByGuild
  {
  }

  /**
   * `selectManyMembers`. The queue-scoped branches are only reached without a
   * guild id; `boundGuild` is the value their guild placeholder is bound to.
   */
  function SelectManyMembers(db: Db, keys: MembersBy, boundGuild: Snowflake): (r: Option<seq<Member>>)
    ensures r.None? <==> MembersQueryOf(keys) == NoMembersQuery
    ensures MembersQueryOf(keys) == ByGuild ==> r == Some(GuildMembers(db, keys.guildId.value))
    ensures MembersQueryOf(keys) == ByQueue ==> r == Some(QueueMembers(db, boundGuild, keys.queueId.value))
  {
    match MembersQueryOf(keys)
    case ByGuildAndUser =>
      Some(OrderMembers(Filter(db.members, (m: Member) => m.guildId == keys.guildId.value && m.userId == keys.userId.value)))
    case ByGuild => Some(GuildMembers(db, keys.guildId.value))
    case ByQueueAndCount => Some(CountQuery(db, boundGuild, keys.queueId.value, keys.count.value))
    case ByQueue => Some(QueueMembers(db, boundGuild, keys.queueId.value))
    case NoMembersQuery => None
  }

  datatype DisplaysBy = DisplaysBy(guildId: Option<Snowflake>, queueId: Option<RowId>, displayChannelId: Option<Snowflake>)

  datatype DisplaysQuery = DisplaysByGuild | DisplaysByQueue | DisplaysByChannel | NoDisplaysQuery

  /** The branch `selectManyDisplays` takes; a guild id always wins. */
  function DisplaysQueryOf(keys: DisplaysBy): (r: DisplaysQuery)
    ensures keys.guildId.Some? ==> r == DisplaysByGuild
    ensures r == DisplaysByQueue <==> keys.guildId.None? && keys.queueId.Some?
    ensures r == DisplaysByChannel <==> keys.guildId.None? && keys.queueId.None? && keys.displayChannelId.Some?
  {
    if keys.guildId.Some? then DisplaysByGuild
    else if keys.queueId.Some? then DisplaysByQueue
    else if keys.displayChannelId.Some? then DisplaysByChannel
    else NoDisplaysQuery
  }

  // Guild statistics waiting to be flushed.

  type PendingStats = map<Snowflake, map<string, int>>

  /** The pending value of a counter; a missing guild or counter reads as 0. */
  function StatOf(pending: PendingStats, guildId: Snowflake, stat: string): int {
    if guildId in pending && stat in pending[guildId] then pending[guildId][stat] else 0
  }

  /** `incrementGuildStat(guildId, stat, by)`. */
  function IncrementGuildStat(pending: PendingStats, guildId: Snowflake, stat: string, amount: int): (r: PendingStats)
    ensures guildId in r && stat in r[guildId]
    ensures StatOf(r, guildId, stat) == StatOf(pending, guildId, stat) + amount
    ensures forall g, s :: (g != guildId || s != stat) ==> StatOf(r, g, s) == StatOf(pending, g, s)
    ensures r.Keys == pending.Keys + {guildId}
  {
    var stats := if guildId in pending then pending[guildId] else map[];
    var current := if stat in stats then stats[stat] else 0;
    pending[guildId := stats[stat := current + amount]]
  }

  /** `flushPendingGuildUpdatesToDB` ends by emptying the pending map. */
  function FlushPending(pending: PendingStats): (r: PendingStats)
    ensures forall g, s :: StatOf(r, g, s) == 0
  {
    map[]
  }

  /** After a flush, one increment is the whole pending value. */
  lemma IncrementAfterFlush(pending: PendingStats, guildId: Snowflake, stat: string, amount: int)
    ensures StatOf(IncrementGuildStat(FlushPending(pending), guildId, stat, amount), guildId, stat) == amount
  {
  }
}

=== FILE: queue_settings.dfy ===
/**
 * The queue settings listing (`QueueUtils.getQueueProperties`): one line per
 * configurable column of the queue table, in declaration order, showing the
 * value, and the struck-through default when the value differs from it.
 * The identity columns (id, name, guild id) are not settings and have no
 * constructor here, so they can never be printed.
 */
module QueueSettings {
  import opened Wrappers
  import opened Text
  import opened Schema
  import opened Strings

  /** The configurable columns of the queue table, named by their properties. */
  datatype Column =
    | AutopullToggle | ButtonsToggle | Color | GracePeriod | Header | InlineToggle
    | LockToggle | LogChannelId | LogLevelColumn | MemberDisplayTypeColumn
    | NotificationsToggle | PullBatchSize | RoleId | Size | TimestampTypeColumn
    | UpdateType | SourceVoiceChannelId | DestinationVoiceChannelId

  /** The printed columns, in the order the queue table declares them. */
  const PrintedColumns: seq<Column> := [
    AutopullToggle, ButtonsToggle, Color, GracePeriod, Header, InlineToggle,
    LockToggle, LogChannelId, LogLevelColumn, MemberDisplayTypeColumn,
    NotificationsToggle, PullBatchSize, RoleId, Size, TimestampTypeColumn,
    UpdateType, SourceVoiceChannelId, DestinationVoiceChannelId]

  /** The SQL column name, which is what the listing prints. */
  function ColumnName(c: Column): string {
    match c
    case AutopullToggle => "autopull_toggle"
    case ButtonsToggle => "buttons_toggle"
    case Color => "color"
    case GracePeriod => "grace_period"
    case Header => "header"
    case InlineToggle => "inline_toggle"
    case LockToggle => "lock_toggle"
    case LogChannelId => "log_channel_id"
    case LogLevelColumn => "log_level"
    case MemberDisplayTypeColumn => "member_display_type"
    case NotificationsToggle => "notifications_toggle"
    case PullBatchSize => "pull_batch_size"
    case RoleId => "role_id"
    case Size => "size"
    case TimestampTypeColumn => "time_display_type"
    case UpdateType => "update_type"
    case SourceVoiceChannelId => "source_voice_channel_id"
    case DestinationVoiceChannelId => "destination_voice_channel_id"
  }

  function LogLevelValue(l: LogLevel): string {
    match l
    case Default => "default"
    case Everything => "everything"
  }

  function MemberDisplayTypeValue(t: MemberDisplayType): string {
    match t
    case Mention => "mention"
    case Plaintext => "plaintext"
  }

  function UpdateTypeValue(t: DisplayUpdateType): string {
    match t
    case Edit => "edit"
    case Replace => "replace"
    case New => "new"
  }

  function TextOf(s: Option<string>): Option<Value> {
    if s.Some? then Some(VText(s.value)) else None
  }

  /** The column's declared default; absent for the nullable columns without one. */
  function ColumnDefault(c: Column, defaultColor: string): Option<Value> {
    match c
    case AutopullToggle => Some(VBool(false))
    case ButtonsToggle => Some(VBool(true))
    case Color => Some(VText(defaultColor))
    case GracePeriod => Some(VInt(0))
    case InlineToggle => Some(VBool(false))
    case LockToggle => Some(VBool(false))
    case LogLevelColumn => Some(VText(LogLevelValue(LogLevel.Default)))
    case MemberDisplayTypeColumn => Some(VText(MemberDisplayTypeValue(MemberDisplayType.Mention)))
    case NotificationsToggle => Some(VBool(false))
    case PullBatchSize => Some(VInt(1))
    case TimestampTypeColumn => Some(VText(TimestampValue(TimestampType.Off)))
    case UpdateType => Some(VText(UpdateTypeValue(DisplayUpdateType.Edit)))
    case _ => None
  }

  /** The stored value of a column; `None` is SQL NULL. */
  function ValueOf(q: Queue, c: Column): Option<Value> {
    match c
    case AutopullToggle => Some(VBool(q.autopullToggle))
    case ButtonsToggle => Some(VBool(q.buttonsToggle))
    case Color => Some(VText(q.color))
    case GracePeriod => Some(VInt(q.gracePeriod))
    case Header => TextOf(q.header)
    case InlineToggle => Some(VBool(q.inlineToggle))
    case LockToggle => Some(VBool(q.lockToggle))
    case LogChannelId => TextOf(q.logChannelId)
    case LogLevelColumn => Some(VText(LogLevelValue(q.logLevel)))
    case MemberDisplayTypeColumn => Some(VText(MemberDisplayTypeValue(q.memberDisplayType)))
    case NotificationsToggle => Some(VBool(q.notificationsToggle))
    case PullBatchSize => Some(VInt(q.pullBatchSize))
    case RoleId => TextOf(q.roleId)
    case Size => if q.size.Some? then Some(VInt(q.size.value)) else None
    case TimestampTypeColumn => if q.timestampType.Some? then Some(VText(TimestampValue(q.timestampType.value))) else None
    case UpdateType => Some(VText(UpdateTypeValue(q.updateType)))
    case SourceVoiceChannelId => TextOf(q.sourceVoiceChannelId)
    case DestinationVoiceChannelId => TextOf(q.destinationVoiceChannelId)
  }

  datatype Formatter = AsChannel | AsRole | Plain

  /** The columns with a mention formatter. */
  function FormatterOf(c: Column): Formatter {
    match c
    case LogChannelId => AsChannel
    case SourceVoiceChannelId => AsChannel
    case DestinationVoiceChannelId => AsChannel
    case RoleId => AsRole
    case _ => Plain
  }

  /** JavaScript's `String(value)`. */
  function ValueString(v: Value): string {
    match v
    case VBool(b) => if b then "true" else "false"
    case VInt(i) => IntToString(i)
    case VText(s) => s
  }

  /** `formatValue`: "" for NULL, else inline code, of a mention for id columns. */
  function FormatValue(value: Option<Value>, f: Formatter): (r: string)
    ensures r == "" <==> value.None?
    ensures value.Some? ==> |r| >= 2 && r[0] == '`' && r[|r| - 1] == '`'
    ensures value.Some? && f == Plain ==> r[1..|r| - 1] == ValueString(value.value)
    ensures value.Some? && f == AsRole ==> r[1..|r| - 1] == RoleMention(ValueString(value.value))
    ensures value.Some? && f == AsChannel ==> r[1..|r| - 1] == ChannelMention(ValueString(value.value))
  {
    if value.None? then ""
    else
      var s := ValueString(value.value);
      match f
      case AsChannel => InlineCode(ChannelMention(s))
      case AsRole => InlineCode(RoleMention(s))
      case Plain => InlineCode(s)
  }

  /**
   * The struck-through default. A missing default goes through
   * `String(undefined)`, so it prints as "undefined".
   */
  function DefaultString(d: Option<Value>): (r: string)
    ensures |r| > 0
    ensures |r| >= 6 && r[..3] == "~~`" && r[|r| - 3..] == "`~~"
    ensures r[3..|r| - 3] == if d.Some? then ValueString(d.value) else "undefined"
  {
    Strikethrough(InlineCode(if d.Some? then ValueString(d.value) else "undefined"))
  }

  /**
   * `formatSettingWithFallBack`: nothing when both the value and the default
   * are nil; otherwise "- name = value default", with the name in bold and
   * the default shown only when the value differs from it. The loose `==`
   * of the source is plain equality here: a column's value and default have
   * the same type, and NULL and a missing default are both `None`.
   */
  function FormatSetting(q: Queue, c: Column, defaultColor: string): (r: Option<string>)
    ensures r.None? <==> ValueOf(q, c).None? && ColumnDefault(c, defaultColor).None?
  {
    var value := ValueOf(q, c);
    var default := ColumnDefault(c, defaultColor);
    if value.None? && default.None? then None
    else
      var isDefault := value == default;
      var settingStr := if isDefault then ColumnName(c) else Bold(ColumnName(c));
      var valueStr := FormatValue(value, FormatterOf(c));
      var defaultStr := if isDefault then "" else DefaultString(default);
      var connector := if |valueStr| > 0 || |defaultStr| > 0 then " = " else "";
      Some("- " + settingStr + " " + connector + " " + valueStr + " " + defaultStr)
  }

  /**
   * What a printed line shows: the name, plain exactly when the value is
   * the default; the connector, which the guard can never leave out; the
   * formatted value; and the struck-through default exactly when the value
   * differs from it.
   */
  lemma SettingLineShape(q: Queue, c: Column, defaultColor: string)
    requires FormatSetting(q, c, defaultColor).Some?
    ensures var value := ValueOf(q, c);
      var default := ColumnDefault(c, defaultColor);
      var name := if value == default then ColumnName(c) else Bold(ColumnName(c));
      var tail := if value == default then "" else DefaultString(default);
      FormatSetting(q, c, defaultColor).value
        == "- " + name + " " + " = " + " " + FormatValue(value, FormatterOf(c)) + " " + tail
  {
    var value := ValueOf(q, c);
    if value == ColumnDefault(c, defaultColor) {
      assert value.Some?;
      assert |FormatValue(value, FormatterOf(c))| > 0;
    }
  }

  /** A line starts with a bold name exactly when the value is not the default. */
  lemma BoldIffChanged(q: Queue, c: Column, defaultColor: string)
    requires FormatSetting(q, c, defaultColor).Some?
    ensures var line := FormatSetting(q, c, defaultColor).value;
      |line| >= 3 && (line[2] == '*' <==> ValueOf(q, c) != ColumnDefault(c, defaultColor))
  {
    var value := ValueOf(q, c);
    var name := if value == ColumnDefault(c, defaultColor) then ColumnName(c) else Bold(ColumnName(c));
    SettingLineShape(q, c, defaultColor);
    ColumnNameStart(c);
    assert name[0] == if value == ColumnDefault(c, defaultColor) then ColumnName(c)[0] else '*';
    assert FormatSetting(q, c, defaultColor).value[2] == ("- " + name)[2] == name[0];
  }

  /** Every column name starts with a lower-case letter, never with the asterisk of bold text. */
  lemma ColumnNameStart(c: Column)
    ensures |ColumnName(c)| > 0 && 'a' <= ColumnName(c)[0] <= 'z'
  {
  }

  /** The lines of `getQueueProperties`: the printed columns' lines, nil ones dropped (`compact`). */
  function SettingLines(q: Queue, columns: seq<Column>, defaultColor: string): (r: seq<string>)
    ensures |r| <= |columns|
    ensures forall i :: 0 <= i < |r| ==> exists k :: 0 <= k < |columns| && FormatSetting(q, columns[k], defaultColor) == Some(r[i])
  {
    if |columns| == 0 then []
    else
      var rest := SettingLines(q, columns[1..], defaultColor);
      var line := FormatSetting(q, columns[0], defaultColor);
      if line.Some? then
        var r := [line.value] + rest;
        forall i | 0 < i < |r|
          ensures exists k :: 0 <= k < |columns| && FormatSetting(q, columns[k], defaultColor) == Some(r[i])
        {
          var k :| 0 <= k < |columns[1..]| && FormatSetting(q, columns[1..][k], defaultColor) == Some(rest[i - 1]);
          assert columns[k + 1] == columns[1..][k];
        }
        r
      else
        forall i | 0 <= i < |rest|
          ensures exists k :: 0 <= k < |columns| && FormatSetting(q, columns[k], defaultColor) == Some(rest[i])
        {
          var k :| 0 <= k < |columns[1..]| && FormatSetting(q, columns[1..][k], defaultColor) == Some(rest[i]);
          assert columns[k + 1] == columns[1..][k];
        }
        rest
  }

  /** `getQueueProperties`: the setting lines joined with newlines. */
  function QueueProperties(q: Queue, defaultColor: string): string {
    Join(SettingLines(q, PrintedColumns, defaultColor), "\n")
  }

  /** 1 when the column has a value or a default, else 0. */
  function Shown(q: Queue, c: Column, defaultColor: string): nat {
    if ValueOf(q, c).Some? || ColumnDefault(c, defaultColor).Some? then 1 else 0
  }

  /** How many of `columns` have a value or a default. */
  function ShownCount(q: Queue, columns: seq<Column>, defaultColor: string): nat {
    if |columns| == 0 then 0
    else Shown(q, columns[0], defaultColor) + ShownCount(q, columns[1..], defaultColor)
  }

  /** One line per column that has a value or a default, and no other. */
  lemma {:induction false} SettingLinesCount(q: Queue, columns: seq<Column>, defaultColor: string)
    ensures |SettingLines(q, columns, defaultColor)| == ShownCount(q, columns, defaultColor)
  {
    if |columns| > 0 {
      SettingLinesCount(q, columns[1..], defaultColor);
    }
  }

  /** The number of nullable settings without a default that `q` sets. */
  function OptionalSet(q: Queue): nat {
    (if q.header.Some? then 1 else 0) + (if q.logChannelId.Some? then 1 else 0)
    + (if q.roleId.Some? then 1 else 0) + (if q.size.Some? then 1 else 0)
    + (if q.sourceVoiceChannelId.Some? then 1 else 0)
    + (if q.destinationVoiceChannelId.Some? then 1 else 0)
  }

  lemma {:induction false} ShownCountAppend(q: Queue, a: seq<Column>, b: seq<Column>, defaultColor: string)
    ensures ShownCount(q, a + b, defaultColor) == ShownCount(q, a, defaultColor) + ShownCount(q, b, defaultColor)
    decreases |a|
  {
    if |a| == 0 {
      assert a + b == b;
    } else {
      assert (a + b)[1..] == a[1..] + b;
      ShownCountAppend(q, a[1..], b, defaultColor);
    }
  }

  /** Three columns, counted one by one. */
  lemma ShownThree(q: Queue, a: Column, b: Column, c: Column, defaultColor: string)
    ensures ShownCount(q, [a, b, c], defaultColor)
      == Shown(q, a, defaultColor) + Shown(q, b, defaultColor) + Shown(q, c, defaultColor)
  {
    assert ShownCount(q, [c], defaultColor) == Shown(q, c, defaultColor) by {
      assert [c][1..] == [];
    }
    assert ShownCount(q, [b, c], defaultColor) == Shown(q, b, defaultColor) + ShownCount(q, [c], defaultColor) by {
      assert [b, c][1..] == [c];
    }
    assert [a, b, c][1..] == [b, c];
  }

  /** The listing in six groups of three columns. */
  lemma PrintedInGroups(q: Queue, defaultColor: string)
    ensures ShownCount(q, PrintedColumns, defaultColor)
      == ShownCount(q, [AutopullToggle, ButtonsToggle, Color], defaultColor)
       + ShownCount(q, [GracePeriod, Header, InlineToggle], defaultColor)
       + ShownCount(q, [LockToggle, LogChannelId, LogLevelColumn], defaultColor)
       + ShownCount(q, [MemberDisplayTypeColumn, NotificationsToggle, PullBatchSize], defaultColor)
       + ShownCount(q, [RoleId, Size, TimestampTypeColumn], defaultColor)
       + ShownCount(q, [UpdateType, SourceVoiceChannelId, DestinationVoiceChannelId], defaultColor)
  {
    var g0 := [AutopullToggle, ButtonsToggle, Color];
    var g1 := [GracePeriod, Header, InlineToggle];
    var g2 := [LockToggle, LogChannelId, LogLevelColumn];
    var g3 := [MemberDisplayTypeColumn, NotificationsToggle, PullBatchSize];
    var g4 := [RoleId, Size, TimestampTypeColumn];
    var g5 := [UpdateType, SourceVoiceChannelId, DestinationVoiceChannelId];
    assert PrintedColumns == g0 + (g1 + (g2 + (g3 + (g4 + g5))));
    ShownCountAppend(q, g4, g5, defaultColor);
    ShownCountAppend(q, g3, g4 + g5, defaultColor);
    ShownCountAppend(q, g2, g3 + (g4 + g5), defaultColor);
    ShownCountAppend(q, g1, g2 + (g3 + (g4 + g5)), defaultColor);
    ShownCountAppend(q, g0, g1 + (g2 + (g3 + (g4 + g5))), defaultColor);
  }

  lemma ShownGroup0(q: Queue, defaultColor: string)
    ensures ShownCount(q, [AutopullToggle, ButtonsToggle, Color], defaultColor) == 3
  {
    ShownThree(q, AutopullToggle, ButtonsToggle, Color, defaultColor);
  }

  lemma ShownGroup1(q: Queue, defaultColor: string)
    ensures ShownCount(q, [GracePeriod, Header, InlineToggle], defaultColor) == 2 + (if q.header.Some? then 1 else 0)
  {
    ShownThree(q, GracePeriod, Header, InlineToggle, defaultColor);
  }

  lemma ShownGroup2(q: Queue, defaultColor: string)
    ensures ShownCount(q, [LockToggle, LogChannelId, LogLevelColumn], defaultColor) == 2 + (if q.logChannelId.Some? then 1 else 0)
  {
    ShownThree(q, LockToggle, LogChannelId, LogLevelColumn, defaultColor);
  }

  lemma ShownGroup3(q: Queue, defaultColor: string)
    ensures ShownCount(q, [MemberDisplayTypeColumn, NotificationsToggle, PullBatchSize], defaultColor) == 3
  {
    ShownThree(q, MemberDisplayTypeColumn, NotificationsToggle, PullBatchSize, defaultColor);
  }

  lemma ShownGroup4(q: Queue, defaultColor: string)
    ensures ShownCount(q, [RoleId, Size, TimestampTypeColumn], defaultColor)
      == 1 + (if q.roleId.Some? then 1 else 0) + (if q.size.Some? then 1 else 0)
  {
    ShownThree(q, RoleId, Size, TimestampTypeColumn, defaultColor);
  }

  lemma ShownGroup5(q: Queue, defaultColor: string)
    ensures ShownCount(q, [UpdateType, SourceVoiceChannelId, DestinationVoiceChannelId], defaultColor)
      == 1 + (if q.sourceVoiceChannelId.Some? then 1 else 0) + (if q.destinationVoiceChannelId.Some? then 1 else 0)
  {
    ShownThree(q, UpdateType, SourceVoiceChannelId, DestinationVoiceChannelId, defaultColor);
  }

  /** The twelve columns with a default are always listed; the six others only when set. */
  lemma PropertiesLineCount(q: Queue, defaultColor: string)
    ensures |SettingLines(q, PrintedColumns, defaultColor)| == 12 + OptionalSet(q)
  {
    SettingLinesCount(q, PrintedColumns, defaultColor);
    PrintedInGroups(q, defaultColor);
    ShownGroup0(q, defaultColor);
    ShownGroup1(q, defaultColor);
    ShownGroup2(q, defaultColor);
    ShownGroup3(q, defaultColor);
    ShownGroup4(q, defaultColor);
    ShownGroup5(q, defaultColor);
  }

  function BoolOf(b: Option<bool>): Option<Value> {
    if b.Some? then Some(VBool(b.value)) else None
  }

  function IntOf(i: Option<int>): Option<Value> {
    if i.Some? then Some(VInt(i.value)) else None
  }

  /** The value an insert supplies for a column; `None` when it leaves the column out. */
  function Supplied(nq: NewQueue, c: Column): Option<Value> {
    match c
    case AutopullToggle => BoolOf(nq.autopullToggle)
    case ButtonsToggle => BoolOf(nq.buttonsToggle)
    case Color => TextOf(nq.color)
    case GracePeriod => IntOf(nq.gracePeriod)
    case Header => TextOf(nq.header)
    case InlineToggle => BoolOf(nq.inlineToggle)
    case LockToggle => BoolOf(nq.lockToggle)
    case LogChannelId => TextOf(nq.logChannelId)
    case LogLevelColumn => if nq.logLevel.Some? then Some(VText(LogLevelValue(nq.logLevel.value))) else None
    case MemberDisplayTypeColumn =>
      if nq.memberDisplayType.Some? then Some(VText(MemberDisplayTypeValue(nq.memberDisplayType.value))) else None
    case NotificationsToggle => BoolOf(nq.notificationsToggle)
    case PullBatchSize => IntOf(nq.pullBatchSize)
    case RoleId => TextOf(nq.roleId)
    case Size => IntOf(nq.size)
    case TimestampTypeColumn => if nq.timestampType.Some? then Some(VText(TimestampValue(nq.timestampType.value))) else None
    case UpdateType => if nq.updateType.Some? then Some(VText(UpdateTypeValue(nq.updateType.value))) else None
    case SourceVoiceChannelId => TextOf(nq.sourceVoiceChannelId)
    case DestinationVoiceChannelId => TextOf(nq.destinationVoiceChannelId)
  }

  /**
   * Every column of an inserted queue holds the value the insert supplied,
   * or else the default the listing shows for it (NULL for a nullable
   * column without one).
   */
  lemma InsertTakesSuppliedOrDefault(nq: NewQueue, id: RowId, defaultColor: string, c: Column)
    ensures var q := ApplyQueueDefaults(nq, id, defaultColor);
      ValueOf(q, c) == if Supplied(nq, c).Some? then Supplied(nq, c) else ColumnDefault(c, defaultColor)
  {
  }

  /**
   * The listing's defaults are the ones the schema applies: every printed
   * column of a queue inserted with only a name holds its listed default,
   * so such a queue lists every column in plain text.
   */
  lemma DefaultsMatchSchema(name: string, guildId: Snowflake, id: RowId, defaultColor: string, c: Column)
    ensures var q := ApplyQueueDefaults(BareNewQueue(name, guildId), id, defaultColor);
      ValueOf(q, c) == ColumnDefault(c, defaultColor)
  {
    QueueDefaults(name, guildId, id, defaultColor);
  }
}

=== FILE: reorder.dfy ===
/**
 * Moving one member and shuffling a queue. Neither rewrites the order of
 * the rows: both hand the queue's recorded position times out again, one
 * per member, and MEMBER_ORDER does the rest. Moving computes a new member
 * order with two JavaScript `splice` calls; shuffling reuses the queue's
 * order and permutes the times (the permutation is a parameter, since the
 * source draws it from `Math.random`).
 */
module Reorder {
  import opened Wrappers
  import opened Sorting
  import opened Tables
  import opened Schema
  import opened Queries
  import opened Store
  import opened Members

  // JavaScript `splice`.

  /** Where `splice(start, …)` acts: a negative start counts from the end; both ends are clamped. */
  function SpliceStart(start: int, len: nat): (k: nat)
    ensures k <= len
    ensures 0 <= start <= len ==> k == start
    ensures start > len ==> k == len
    ensures start < 0 ==> k == if len + start < 0 then 0 else len + start
  {
    if start < 0 then (if len + start < 0 then 0 else len + start)
    else if start > len then len
    else start
  }

  /** `xs.splice(start, 1)`: the element at the start goes, if there is one. */
  function SpliceOut<T>(xs: seq<T>, start: int): (r: seq<T>)
    ensures SpliceStart(start, |xs|) < |xs| ==> r == RemoveAt(xs, SpliceStart(start, |xs|))
    ensures SpliceStart(start, |xs|) == |xs| ==> r == xs
  {
    var k := SpliceStart(start, |xs|);
    if k < |xs| then xs[..k] + xs[k + 1..] else xs
  }

  /** `xs.splice(start, 0, x)`: `x` lands at the start and nothing else moves relative to the rest. */
  function SpliceIn<T>(xs: seq<T>, start: int, x: T): (r: seq<T>)
    ensures |r| == |xs| + 1
    ensures r[SpliceStart(start, |xs|)] == x
    ensures RemoveAt(r, SpliceStart(start, |xs|)) == xs
    ensures multiset(r) == multiset(xs) + multiset{x}
  {
    var k := SpliceStart(start, |xs|);
    var r := xs[..k] + [x] + xs[k..];
    assert xs == xs[..k] + xs[k..];
    assert RemoveAt(r, k) == xs[..k] + xs[k..];
    r
  }

  // Moving.

  /** The queue's position times, in its order (`members.map(m => m.positionTime)`). */
  function Positions(line: seq<Member>): (r: seq<int>)
    ensures |r| == |line|
    ensures forall i :: 0 <= i < |line| ==> r[i] == line[i].positionTime
  {
    seq(|line|, i requires 0 <= i < |line| => line[i].positionTime)
  }

  /** `positions.indexOf(member.positionTime)`: where `moveMember` takes the member from, or -1. */
  function OriginalPosition(line: seq<Member>, member: Member): int {
    PositionOf(Positions(line), member.positionTime)
  }

  /** The member is found where `moveMember` looks for it. */
  predicate Located(line: seq<Member>, member: Member) {
    var o := OriginalPosition(line, member);
    0 <= o && line[o] == member
  }

  /**
   * The order `moveMember` computes: from a later place, the member is
   * taken out and put back at `newPosition`; from an earlier one, at
   * `newPosition - 1`; at `newPosition` itself, nothing moves.
   */
  function MoveOrder(line: seq<Member>, member: Member, newPosition: int): (r: seq<Member>)
    ensures OriginalPosition(line, member) == newPosition ==> r == line
    ensures Located(line, member) ==> multiset(r) == multiset(line) && |r| == |line|
  {
    var o := OriginalPosition(line, member);
    if o > newPosition then SpliceIn(SpliceOut(line, o), newPosition, member)
    else if o < newPosition then
      assert Located(line, member) ==> multiset(SpliceOut(line, o)) == multiset(line) - multiset{member};
      SpliceIn(SpliceOut(line, o), newPosition - 1, member)
    else line
  }

  /**
   * A member found at index `o` moves to index `newPosition` when it came
   * from further back and to `newPosition - 1` when it came from further
   * forward; the other members keep their relative order.
   */
  lemma MovePlacesMember(line: seq<Member>, member: Member, newPosition: int)
    requires Located(line, member)
    ensures var o := OriginalPosition(line, member);
      var r := MoveOrder(line, member, newPosition);
      && (0 <= newPosition < o ==> r[newPosition] == member && RemoveAt(r, newPosition) == RemoveAt(line, o))
      && (o < newPosition <= |line| ==> r[newPosition - 1] == member && RemoveAt(r, newPosition - 1) == RemoveAt(line, o))
  {
  }

  /**
   * A member that `indexOf` does not find (-1) makes the first `splice`
   * take out the last member of the queue instead.
   */
  lemma MissingMemberDropsLast(line: seq<Member>, member: Member, newPosition: int)
    requires |line| > 0 && OriginalPosition(line, member) == -1 && newPosition >= 0
    ensures var r := MoveOrder(line, member, newPosition);
      member in r && RemoveAt(r, SpliceStart(newPosition - 1, |line| - 1)) == line[..|line| - 1]
  {
  }

  /** `{ ...member, positionTime: positions[i] }`; past the end the time is `undefined` and left as it is. */
  function Patch(m: Member, positions: seq<int>, i: nat): (r: Member)
    ensures r.(positionTime := m.positionTime) == m
    ensures i < |positions| ==> r.positionTime == positions[i]
    ensures i >= |positions| ==> r == m
  {
    if i < |positions| then m.(positionTime := positions[i]) else m
  }

  /**
   * What the updates from index `i` on do to one row: each later
   * `updateMember` with the row's id overwrites it.
   */
  function AssignedFrom(order: seq<Member>, positions: seq<int>, i: nat, row: Member): (r: Member)
    requires i <= |order|
    ensures r.id == row.id
    ensures (forall j :: i <= j < |order| ==> order[j].id != row.id) ==> r == row
    decreases |order| - i
  {
    if i == |order| then row
    else AssignedFrom(order, positions, i + 1, if order[i].id == row.id then Patch(order[i], positions, i) else row)
  }

  /** With distinct ids, the row receives the patch of the one member with its id. */
  lemma {:induction false} AssignedFromMatch(order: seq<Member>, positions: seq<int>, i: nat, j: nat, row: Member)
    requires i <= j < |order| && UniqueBy(order, MemberId) && order[j].id == row.id
    ensures AssignedFrom(order, positions, i, row) == Patch(order[j], positions, j)
    decreases |order| - i
  {
    if i < j {
      assert order[i].id != order[j].id;
      AssignedFromMatch(order, positions, i + 1, j, row);
    } else {
      forall k | i + 1 <= k < |order|
        ensures order[k].id != row.id
      {
        assert MemberId(order[j]) != MemberId(order[k]);
      }
    }
  }

  /** Every stored row with the id of a member still to be written carries that member's key. */
  predicate KeysAgree(db: Db, order: seq<Member>, i: nat) {
    forall j, k :: i <= j < |order| && 0 <= k < |db.members| && db.members[k].id == order[j].id
      ==> MemberKey(db.members[k]) == MemberKey(order[j])
  }

  /**
   * The transaction of `moveMember` and `shuffleMembers`: `updateMember`
   * for each member of `order` from index `i` on, the `i`-th one getting
   * the `i`-th position time. The first failing update throws and the
   * transaction rolls back, so the caller keeps its own store.
   */
  function ApplyPositions(db: Db, order: seq<Member>, positions: seq<int>, i: nat): (r: Result<Db, Error>)
    requires i <= |order|
    ensures r.Err? ==> r.error == UniqueViolation
    ensures r.Ok? ==> r.value == db.(members := r.value.members) && |r.value.members| == |db.members|
    ensures r.Ok? && Valid(db) ==> Valid(r.value)
    decreases |order| - i
  {
    if i == |order| then Ok(db)
    else
      var u := UpdateMember(db, Patch(order[i], positions, i));
      if u.0.Err? then Err(u.0.error) else ApplyPositions(u.1, order, positions, i + 1)
  }

  /**
   * When the members' keys agree with the store, the transaction succeeds
   * and each row ends up as the member-by-member reference `AssignedFrom`
   * says.
   */
  lemma {:induction false} ApplyPositionsMeans(db: Db, order: seq<Member>, positions: seq<int>, i: nat)
    requires i <= |order| && Valid(db) && KeysAgree(db, order, i)
    ensures var r := ApplyPositions(db, order, positions, i);
      && r.Ok?
      && forall k :: 0 <= k < |db.members| ==> r.value.members[k] == AssignedFrom(order, positions, i, db.members[k])
    decreases |order| - i
  {
    if i < |order| {
      var m := Patch(order[i], positions, i);
      var u := UpdateMember(db, m);
      AscendingIdsUnique(db.members, MemberId);
      assert u.0.Ok?;
      forall j, k | i + 1 <= j < |order| && 0 <= k < |u.1.members| && u.1.members[k].id == order[j].id
        ensures MemberKey(u.1.members[k]) == MemberKey(order[j])
      {
        assert db.members[k].id == u.1.members[k].id;
        if db.members[k].id == m.id {
          assert MemberKey(db.members[k]) == MemberKey(order[i]);
        }
      }
      ApplyPositionsMeans(u.1, order, positions, i + 1);
    }
  }

  /**
   * `moveMember`: the queue's new order and, unless the member stays where
   * it is, a transaction handing the old position times out along the new
   * order. The queue's displays are refreshed after the transaction.
   */
  function MoveMember(db: Db, guildId: Snowflake, q: Queue, member: Member, newPosition: int)
    : (r: (Result<Outcome, Error>, Db))
    ensures r.0.Err? ==> r.1 == db
    ensures r.0.Ok? ==> (r.0.value.members == MoveOrder(QueueMembers(db, guildId, q.id), member, newPosition)
      && r.0.value.refresh == [q.id])
    ensures OriginalPosition(QueueMembers(db, guildId, q.id), member) == newPosition ==>
      r == (Ok(Outcome(QueueMembers(db, guildId, q.id), [q.id])), db)
    ensures r.1 == db.(members := r.1.members) && |r.1.members| == |db.members|
    ensures Valid(db) ==> Valid(r.1)
  {
    var line := QueueLine(db, guildId, q.id);
    var order := MoveOrder(line, member, newPosition);
    if OriginalPosition(line, member) == newPosition then (Ok(Outcome(order, [q.id])), db)
    else
      match ApplyPositions(db, order, Positions(line), 0)
      case Err(e) => (Err(e), db)
      case Ok(d) => (Ok(Outcome(order, [q.id])), d)
  }

  /** A list of rows of a table with unique ids, each present once, keeps its ids distinct under permutation. */
  lemma PermutationKeepsIdsUnique(a: seq<Member>, b: seq<Member>)
    requires multiset(a) == multiset(b) && UniqueBy(a, MemberId)
    ensures UniqueBy(b, MemberId)
  {
    forall x, y | 0 <= x < y < |b|
      ensures MemberId(b[x]) != MemberId(b[y])
    {
      assert b[x] in multiset(a) && b[y] in multiset(a);
      var i :| 0 <= i < |a| && a[i] == b[x];
      var j :| 0 <= j < |a| && a[j] == b[y];
      if i == j {
        assert b == b[..y] + b[y..];
        assert b[x] in b[..y] && b[y] in b[y..];
        assert multiset(b)[b[x]] >= 2 by {
          assert multiset(b) == multiset(b[..y]) + multiset(b[y..]);
        }
        OccursOnce(a, i);
      }
    }
  }

  /** In a list with unique ids, each row occurs once. */
  lemma OccursOnce(a: seq<Member>, i: nat)
    requires i < |a| && UniqueBy(a, MemberId)
    ensures multiset(a)[a[i]] == 1
  {
    assert a == a[..i] + [a[i]] + a[i + 1..];
    assert a[i] !in a[..i] by {
      forall k | 0 <= k < i
        ensures a[..i][k] != a[i]
      {
        assert MemberId(a[k]) != MemberId(a[i]);
      }
    }
    assert a[i] !in a[i + 1..] by {
      forall k | i < k < |a|
        ensures a[k] != a[i]
      {
        assert MemberId(a[i]) != MemberId(a[k]);
      }
    }
  }

  /** The queue's members are stored rows with distinct ids, so their keys agree with the store. */
  lemma LineKeysAgree(db: Db, order: seq<Member>)
    requires Valid(db) && forall j :: 0 <= j < |order| ==> order[j] in db.members
    ensures KeysAgree(db, order, 0)
  {
    AscendingIdsUnique(db.members, MemberId);
    forall j, k | 0 <= j < |order| && 0 <= k < |db.members| && db.members[k].id == order[j].id
      ensures MemberKey(db.members[k]) == MemberKey(order[j])
    {
      var k' :| 0 <= k' < |db.members| && db.members[k'] == order[j];
      var a, b := MemberId(db.members[k]), MemberId(db.members[k']);
      assert k == k';
    }
  }

  /** The queue's members, in their order, have distinct ids. */
  lemma LineIdsUnique(db: Db, guildId: Snowflake, queueId: RowId)
    requires Valid(db)
    ensures UniqueBy(QueueMembers(db, guildId, queueId), MemberId)
  {
    var rows := QueueRows(db, guildId, queueId);
    FilterAscending(db.members, (m: Member) => InQueue(m, guildId, queueId), MemberId);
    AscendingIdsUnique(rows, MemberId);
    PermutationKeepsIdsUnique(rows, QueueMembers(db, guildId, queueId));
  }

  /**
   * Handing out times along a list of stored rows with distinct ids
   * succeeds: each listed row is rewritten with its time, and every row
   * whose id is not listed keeps its values.
   */
  lemma ApplyToStoredRows(db: Db, order: seq<Member>, positions: seq<int>)
    requires Valid(db) && UniqueBy(order, MemberId)
    requires forall j :: 0 <= j < |order| ==> order[j] in db.members
    ensures var r := ApplyPositions(db, order, positions, 0);
      && r.Ok?
      && (forall i :: 0 <= i < |order| ==> Patch(order[i], positions, i) in r.value.members)
      && forall k :: 0 <= k < |db.members| && (forall j :: 0 <= j < |order| ==> order[j].id != db.members[k].id)
           ==> r.value.members[k] == db.members[k]
  {
    LineKeysAgree(db, order);
    ApplyPositionsMeans(db, order, positions, 0);
    var d := ApplyPositions(db, order, positions, 0).value;
    forall i | 0 <= i < |order|
      ensures Patch(order[i], positions, i) in d.members
    {
      var k :| 0 <= k < |db.members| && db.members[k] == order[i];
      AssignedFromMatch(order, positions, 0, i, db.members[k]);
      assert d.members[k] == Patch(order[i], positions, i);
    }
  }

  /** A row outside the queue shares its id with no row of the queue. */
  lemma OutsideRowsUntouched(db: Db, guildId: Snowflake, queueId: RowId, order: seq<Member>, k: nat)
    requires Valid(db) && k < |db.members| && !InQueue(db.members[k], guildId, queueId)
    requires forall j :: 0 <= j < |order| ==> order[j] in db.members && InQueue(order[j], guildId, queueId)
    ensures forall j :: 0 <= j < |order| ==> order[j].id != db.members[k].id
  {
    AscendingIdsUnique(db.members, MemberId);
    forall j | 0 <= j < |order|
      ensures order[j].id != db.members[k].id
    {
      var k' :| 0 <= k' < |db.members| && db.members[k'] == order[j];
      assert MemberId(db.members[k']) != MemberId(db.members[k]);
    }
  }

  /** The members of the queue, in any order that permutes them, are stored rows of the queue with distinct ids. */
  lemma QueuePermutation(db: Db, guildId: Snowflake, queueId: RowId, order: seq<Member>)
    requires Valid(db) && multiset(order) == multiset(QueueMembers(db, guildId, queueId))
    ensures UniqueBy(order, MemberId)
    ensures forall j :: 0 <= j < |order| ==> order[j] in db.members && InQueue(order[j], guildId, queueId)
  {
    var line := QueueMembers(db, guildId, queueId);
    QueueMembersHoldQueueRows(db, guildId, queueId);
    LineIdsUnique(db, guildId, queueId);
    PermutationKeepsIdsUnique(line, order);
    forall j | 0 <= j < |order|
      ensures order[j] in db.members && InQueue(order[j], guildId, queueId)
    {
      assert order[j] in multiset(line);
    }
  }

  /**
   * Handing times out along any permutation of a queue's members succeeds,
   * rewrites each member with its time, and leaves the rows of other queues
   * as they were.
   */
  lemma RewriteQueue(db: Db, guildId: Snowflake, queueId: RowId, order: seq<Member>, positions: seq<int>)
    requires Valid(db) && multiset(order) == multiset(QueueMembers(db, guildId, queueId))
    ensures var r := ApplyPositions(db, order, positions, 0);
      && r.Ok?
      && (forall i :: 0 <= i < |order| ==> Patch(order[i], positions, i) in r.value.members)
      && forall k :: 0 <= k < |db.members| && !InQueue(db.members[k], guildId, queueId) ==> r.value.members[k] == db.members[k]
  {
    QueuePermutation(db, guildId, queueId, order);
    ApplyToStoredRows(db, order, positions);
    forall k | 0 <= k < |db.members| && !InQueue(db.members[k], guildId, queueId) {
      OutsideRowsUntouched(db, guildId, queueId, order, k);
    }
  }

  /**
   * Moving a member that is found in the queue succeeds, and the new order
   * holds the same rows as the old one.
   */
  lemma MoveSucceeds(db: Db, guildId: Snowflake, q: Queue, member: Member, newPosition: int)
    requires Valid(db) && Located(QueueMembers(db, guildId, q.id), member)
    ensures var line := QueueMembers(db, guildId, q.id);
      && MoveMember(db, guildId, q, member, newPosition).0.Ok?
      && multiset(MoveOrder(line, member, newPosition)) == multiset(line)
  {
    var line := QueueMembers(db, guildId, q.id);
    var order := MoveOrder(line, member, newPosition);
    if OriginalPosition(line, member) != newPosition {
      RewriteQueue(db, guildId, q.id, order, Positions(line));
    }
  }

  /**
   * After a move of a member found in the queue, the `i`-th member of the
   * new order carries the `i`-th position time of the old order, every
   * other column unchanged, and rows of other queues keep their values.
   */
  lemma MoveConservesKeys(db: Db, guildId: Snowflake, q: Queue, member: Member, newPosition: int)
    requires Valid(db) && Located(QueueMembers(db, guildId, q.id), member)
    requires OriginalPosition(QueueMembers(db, guildId, q.id), member) != newPosition
    ensures var line := QueueMembers(db, guildId, q.id);
      var order := MoveOrder(line, member, newPosition);
      var r := MoveMember(db, guildId, q, member, newPosition);
      && (forall i :: 0 <= i < |order| ==> order[i].(positionTime := line[i].positionTime) in r.1.members)
      && forall k :: 0 <= k < |db.members| && !InQueue(db.members[k], guildId, q.id) ==> r.1.members[k] == db.members[k]
  {
    var line := QueueMembers(db, guildId, q.id);
    var order := MoveOrder(line, member, newPosition);
    RewriteQueue(db, guildId, q.id, order, Positions(line));
    var d := ApplyPositions(db, order, Positions(line), 0);
    assert MoveMember(db, guildId, q, member, newPosition).1 == d.value;
    assert |order| == |line|;
    forall i | 0 <= i < |order|
      ensures order[i].(positionTime := line[i].positionTime) in d.value.members
    {
      assert Patch(order[i], Positions(line), i) == order[i].(positionTime := line[i].positionTime);
    }
  }

  // Shuffling.

  /** The list backwards: the order in which `pop()` hands the elements out. */
  function Reverse<T>(xs: seq<T>): (r: seq<T>)
    ensures |r| == |xs|
    ensures forall i :: 0 <= i < |xs| ==> r[i] == xs[|xs| - 1 - i]
    ensures multiset(r) == multiset(xs)
  {
    if |xs| == 0 then []
    else
      assert xs == [xs[0]] + xs[1..];
      Reverse(xs[1..]) + [xs[0]]
  }

  /**
   * `shuffleMembers`: the queue's members, in order, each receive the last
   * remaining time of `shuffled` (`pop()`), inside one transaction; the
   * queue's displays are refreshed after it. `shuffled` is the randomly
   * sorted copy of the queue's position times.
   */
  function ShuffleMembers(db: Db, guildId: Snowflake, q: Queue, shuffled: seq<int>): (r: (Result<Outcome, Error>, Db))
    ensures r.0.Err? ==> r.1 == db
    ensures r.0.Ok? ==> r.0.value == Outcome(QueueMembers(db, guildId, q.id), [q.id])
    ensures r.1 == db.(members := r.1.members) && |r.1.members| == |db.members|
    ensures Valid(db) ==> Valid(r.1)
  {
    var line := QueueLine(db, guildId, q.id);
    match ApplyPositions(db, line, Reverse(shuffled), 0)
    case Err(e) => (Err(e), db)
    case Ok(d) => (Ok(Outcome(line, [q.id])), d)
  }

  /**
   * Given a permutation of the queue's own position times, a shuffle
   * succeeds, and the times it hands out are exactly the times the queue had.
   */
  lemma ShuffleSucceeds(db: Db, guildId: Snowflake, q: Queue, shuffled: seq<int>)
    requires Valid(db)
    requires multiset(shuffled) == multiset(Positions(QueueMembers(db, guildId, q.id)))
    ensures ShuffleMembers(db, guildId, q, shuffled).0.Ok?
    ensures var line := QueueMembers(db, guildId, q.id);
      multiset(Positions(Patched(line, Reverse(shuffled)))) == multiset(Positions(line))
  {
    var line := QueueMembers(db, guildId, q.id);
    var ps := Reverse(shuffled);
    assert |shuffled| == |line| by {
      assert |multiset(shuffled)| == |multiset(Positions(line))|;
    }
    RewriteQueue(db, guildId, q.id, line, ps);
    assert Positions(Patched(line, ps)) == ps;
  }

  /**
   * Under the same permutation, the `i`-th member of the queue receives the
   * `i`-th time from the end of `shuffled`, every other column unchanged,
   * and rows of other queues keep their values.
   */
  lemma ShuffleConservesKeys(db: Db, guildId: Snowflake, q: Queue, shuffled: seq<int>)
    requires Valid(db)
    requires multiset(shuffled) == multiset(Positions(QueueMembers(db, guildId, q.id)))
    ensures var line := QueueMembers(db, guildId, q.id);
      var r := ShuffleMembers(db, guildId, q, shuffled);
      && (forall i :: 0 <= i < |line| ==> line[i].(positionTime := shuffled[|shuffled| - 1 - i]) in r.1.members)
      && forall k :: 0 <= k < |db.members| && !InQueue(db.members[k], guildId, q.id) ==> r.1.members[k] == db.members[k]
  {
    var line := QueueMembers(db, guildId, q.id);
    var ps := Reverse(shuffled);
    assert |shuffled| == |line| by {
      assert |multiset(shuffled)| == |multiset(Positions(line))|;
    }
    RewriteQueue(db, guildId, q.id, line, ps);
    var d := ApplyPositions(db, line, ps, 0);
    assert ShuffleMembers(db, guildId, q, shuffled).1 == d.value;
    forall i | 0 <= i < |line|
      ensures line[i].(positionTime := shuffled[|shuffled| - 1 - i]) in d.value.members
    {
      assert Patch(line[i], ps, i) == line[i].(positionTime := shuffled[|shuffled| - 1 - i]);
    }
  }

  /** The members as the transaction writes them: each patched with its time. */
  function Patched(order: seq<Member>, positions: seq<int>): (r: seq<Member>)
    ensures |r| == |order|
    ensures forall i :: 0 <= i < |order| ==> r[i] == Patch(order[i], positions, i)
  {
    seq(|order|, i requires 0 <= i < |order| => Patch(order[i], positions, i))
  }
}

=== FILE: schema.dfy ===
/**
 * The database schema: one datatype per table, the column defaults of the
 * queue table, the UNIQUE constraints as predicates, and the ON DELETE
 * CASCADE of a queue to the rows that reference it.
 *
 * Every table is the sequence of its rows in rowid order; `id` is the
 * AUTOINCREMENT primary key. Snowflakes (Discord ids) are strings.
 */
module Schema {
  import opened Wrappers
  import opened Tables

  type Snowflake = string
  type RowId = nat

  datatype DisplayUpdateType = Edit | Replace | New
  datatype TimestampType = Off | Date | Time | DateAndTime | Relative
  datatype LogLevel = Default | Everything
  datatype MemberDisplayType = Mention | Plaintext
  datatype ScheduleCommand = Clear | Pull | Show | Shuffle
  datatype ArchivedMemberReason = Kicked | Pulled

  /** The errors the core raises, named after the repository's error classes. */
  datatype Error =
    | QueueLocked
    | QueueFull
    | NotOnQueueWhitelist
    | OnQueueBlacklist
    | QueueAlreadyExists
    | ScheduleAlreadyExists
    | WhitelistedAlreadyExists
    | BlacklistedAlreadyExists
    | PrioritizedAlreadyExists
    | AdminAlreadyExists
    | AdminAccess
    | NotEnoughMembers
    | DescriptionTooLong(length: nat)
    | MissingRow
    | UniqueViolation
    // A TypeError: destructuring an absent `by`, or reading the members of a role not in the cache.
    | MissingDeleteBy
    | RoleNotCached
    // A TypeError: mentioning a queue id the guild's queues do not hold.
    | QueueNotFound
    // A TypeError: reading the length of an option description that was never given.
    | DescriptionUndefined
    // A TypeError: mentioning a member Discord no longer knows.
    | MemberUnavailable
    // The `CustomError` "Missing Permissions": Discord refused to add or remove a queue's role.
    | RolePermissionMissing
    // Any other error Discord raised while adding or removing a queue's role, rethrown as it is.
    | RoleChangeFailed
    // A TypeError: calling `updatePrioritized`, which the `Store` class does not define.
    | StoreMethodMissing

  /** A typed SQL value; a nullable column holds `Option<Value>`. */
  datatype Value = VBool(b: bool) | VInt(i: int) | VText(s: string)

  datatype Queue = Queue(
    id: RowId,
    name: string,
    guildId: Snowflake,
    autopullToggle: bool,
    buttonsToggle: bool,
    color: string,
    gracePeriod: int,
    header: Option<string>,
    inlineToggle: bool,
    lockToggle: bool,
    logChannelId: Option<Snowflake>,
    logLevel: LogLevel,
    memberDisplayType: MemberDisplayType,
    notificationsToggle: bool,
    pullBatchSize: int,
    roleId: Option<Snowflake>,
    size: Option<int>,
    timestampType: Option<TimestampType>,
    updateType: DisplayUpdateType,
    sourceVoiceChannelId: Option<Snowflake>,
    destinationVoiceChannelId: Option<Snowflake>)

  /**
   * The values an insert supplies; `None` leaves the column to its default.
   * (For the nullable columns without a default, omitting and NULL agree.)
   */
  datatype NewQueue = NewQueue(
    name: string,
    guildId: Snowflake,
    autopullToggle: Option<bool>,
    buttonsToggle: Option<bool>,
    color: Option<string>,
    gracePeriod: Option<int>,
    header: Option<string>,
    inlineToggle: Option<bool>,
    lockToggle: Option<bool>,
    logChannelId: Option<Snowflake>,
    logLevel: Option<LogLevel>,
    memberDisplayType: Option<MemberDisplayType>,
    notificationsToggle: Option<bool>,
    pullBatchSize: Option<int>,
    roleId: Option<Snowflake>,
    size: Option<int>,
    timestampType: Option<TimestampType>,
    updateType: Option<DisplayUpdateType>,
    sourceVoiceChannelId: Option<Snowflake>,
    destinationVoiceChannelId: Option<Snowflake>)

  datatype Display = Display(
    id: RowId,
    guildId: Snowflake,
    queueId: RowId,
    displayChannelId: Snowflake,
    lastMessageId: Option<Snowflake>)

  /** A queue member; `priority` is absent for unprioritized members. */
  datatype Member = Member(
    id: RowId,
    guildId: Snowflake,
    queueId: RowId,
    userId: Snowflake,
    message: Option<string>,
    positionTime: int,
    joinTime: int,
    priority: Option<int>)

  datatype Schedule = Schedule(
    id: RowId,
    guildId: Snowflake,
    queueId: RowId,
    command: ScheduleCommand,
    cron: string,
    timezone: string,
    reason: Option<string>)

  /** A whitelist or blacklist entry: a user, or a role when `isRole`. */
  datatype ListEntry = ListEntry(
    id: RowId,
    guildId: Snowflake,
    queueId: RowId,
    subjectId: Snowflake,
    isRole: bool,
    reason: Option<string>)

  datatype Prioritized = Prioritized(
    id: RowId,
    guildId: Snowflake,
    queueId: RowId,
    subjectId: Snowflake,
    isRole: bool,
    reason: Option<string>,
    priorityOrder: Option<int>)

  datatype Admin = Admin(
    id: RowId,
    guildId: Snowflake,
    subjectId: Snowflake,
    isRole: bool)

  datatype ArchivedMember = ArchivedMember(
    id: RowId,
    guildId: Snowflake,
    queueId: RowId,
    userId: Snowflake,
    message: Option<string>,
    positionTime: int,
    joinTime: int,
    archivedTime: int,
    reason: ArchivedMemberReason)

  /** The whole database; `nextId` is the next AUTOINCREMENT value. */
  datatype Db = Db(
    queues: seq<Queue>,
    displays: seq<Display>,
    members: seq<Member>,
    schedules: seq<Schedule>,
    whitelisted: seq<ListEntry>,
    blacklisted: seq<ListEntry>,
    prioritized: seq<Prioritized>,
    admins: seq<Admin>,
    archived: seq<ArchivedMember>,
    nextId: nat)

  // Row ids and unique keys of every table.

  function QueueId(q: Queue): nat { q.id }
  function DisplayId(d: Display): nat { d.id }
  function MemberId(m: Member): nat { m.id }
  function ScheduleId(s: Schedule): nat { s.id }
  function EntryId(e: ListEntry): nat { e.id }
  function PrioritizedId(p: Prioritized): nat { p.id }
  function AdminId(a: Admin): nat { a.id }
  function ArchivedId(a: ArchivedMember): nat { a.id }

  function QueueKey(q: Queue): (string, Snowflake) { (q.name, q.guildId) }
  function DisplayKey(d: Display): (RowId, Snowflake) { (d.queueId, d.displayChannelId) }
  function MemberKey(m: Member): (RowId, Snowflake) { (m.queueId, m.userId) }
  function ScheduleKey(s: Schedule): (RowId, ScheduleCommand, string, string) { (s.queueId, s.command, s.cron, s.timezone) }
  function EntryKey(e: ListEntry): (RowId, Snowflake) { (e.queueId, e.subjectId) }
  function PrioritizedKey(p: Prioritized): (Snowflake, Snowflake) { (p.guildId, p.subjectId) }
  function AdminKey(a: Admin): (Snowflake, Snowflake) { (a.guildId, a.subjectId) }
  function ArchivedKey(a: ArchivedMember): (RowId, Snowflake) { (a.queueId, a.userId) }

  /** Every id of a table is below the next AUTOINCREMENT value. */
  predicate IdsBelow<R>(rows: seq<R>, id: R -> nat, bound: nat) {
    forall i :: 0 <= i < |rows| ==> id(rows[i]) < bound
  }

  /** A table in rowid order whose ids were all handed out already. */
  predicate WellIded<R>(rows: seq<R>, id: R -> nat, bound: nat) {
    IdsAscending(rows, id) && IdsBelow(rows, id, bound)
  }

  /** Primary keys in rowid order, and every UNIQUE constraint of the schema. */
  predicate Valid(db: Db) {
    && WellIded(db.queues, QueueId, db.nextId)
    && WellIded(db.displays, DisplayId, db.nextId)
    && WellIded(db.members, MemberId, db.nextId)
    && WellIded(db.schedules, ScheduleId, db.nextId)
    && WellIded(db.whitelisted, EntryId, db.nextId)
    && WellIded(db.blacklisted, EntryId, db.nextId)
    && WellIded(db.prioritized, PrioritizedId, db.nextId)
    && WellIded(db.admins, AdminId, db.nextId)
    && WellIded(db.archived, ArchivedId, db.nextId)
    && UniqueBy(db.queues, QueueKey)
    && UniqueBy(db.displays, DisplayKey)
    && UniqueBy(db.members, MemberKey)
    && UniqueBy(db.schedules, ScheduleKey)
    && UniqueBy(db.whitelisted, EntryKey)
    && UniqueBy(db.blacklisted, EntryKey)
    && UniqueBy(db.prioritized, PrioritizedKey)
    && UniqueBy(db.admins, AdminKey)
    && UniqueBy(db.archived, ArchivedKey)
  }

  /** Filtering a well-ided table keeps it well-ided. */
  lemma FilterWellIded<R>(rows: seq<R>, p: R -> bool, id: R -> nat, bound: nat)
    requires WellIded(rows, id, bound)
    ensures WellIded(Filter(rows, p), id, bound)
  {
    FilterAscending(rows, p, id);
  }

  /** Appending a row with a fresh id keeps a table well-ided under the next bound. */
  lemma AppendWellIded<R>(rows: seq<R>, id: R -> nat, bound: nat, row: R)
    requires WellIded(rows, id, bound)
    requires id(row) == bound
    ensures WellIded(rows + [row], id, bound + 1)
  {
  }

  /**
   * The defaults the queue table declares for every column an insert leaves
   * out. The colour default comes from the environment and is a parameter.
   */
  function ApplyQueueDefaults(nq: NewQueue, id: RowId, defaultColor: string): (q: Queue)
    ensures q.id == id && q.name == nq.name && q.guildId == nq.guildId
    ensures q.header == nq.header && q.roleId == nq.roleId && q.size == nq.size
    ensures q.logChannelId == nq.logChannelId
    ensures q.sourceVoiceChannelId == nq.sourceVoiceChannelId
    ensures q.destinationVoiceChannelId == nq.destinationVoiceChannelId
  {
    Queue(
      id, nq.name, nq.guildId,
      nq.autopullToggle.GetOr(false),
      nq.buttonsToggle.GetOr(true),
      nq.color.GetOr(defaultColor),
      nq.gracePeriod.GetOr(0),
      nq.header,
      nq.inlineToggle.GetOr(false),
      nq.lockToggle.GetOr(false),
      nq.logChannelId,
      nq.logLevel.GetOr(LogLevel.Default),
      nq.memberDisplayType.GetOr(MemberDisplayType.Mention),
      nq.notificationsToggle.GetOr(false),
      nq.pullBatchSize.GetOr(1),
      nq.roleId,
      nq.size,
      Some(nq.timestampType.GetOr(TimestampType.Off)),
      nq.updateType.GetOr(DisplayUpdateType.Edit),
      nq.sourceVoiceChannelId,
      nq.destinationVoiceChannelId)
  }

  /** A queue inserted with only a name and a guild. */
  function BareNewQueue(name: string, guildId: Snowflake): NewQueue {
    NewQueue(name, guildId, None, None, None, None, None, None, None, None,
      None, None, None, None, None, None, None, None, None, None)
  }

  /** The declared defaults of an otherwise empty queue insert. */
  lemma QueueDefaults(name: string, guildId: Snowflake, id: RowId, defaultColor: string)
    ensures var q := ApplyQueueDefaults(BareNewQueue(name, guildId), id, defaultColor);
      && q.pullBatchSize == 1
      && q.buttonsToggle
      && !q.lockToggle && !q.autopullToggle && !q.inlineToggle && !q.notificationsToggle
      && q.gracePeriod == 0
      && q.updateType == DisplayUpdateType.Edit
      && q.timestampType == Some(TimestampType.Off)
      && q.size.None? && q.header.None? && q.roleId.None?
      && q.logLevel == LogLevel.Default
      && q.memberDisplayType == MemberDisplayType.Mention
      && q.color == defaultColor
  {
  }

  /** Supplied values always win over the defaults. */
  lemma SuppliedValuesKept(nq: NewQueue, id: RowId, defaultColor: string)
    ensures var q := ApplyQueueDefaults(nq, id, defaultColor);
      && (nq.pullBatchSize.Some? ==> q.pullBatchSize == nq.pullBatchSize.value)
      && (nq.lockToggle.Some? ==> q.lockToggle == nq.lockToggle.value)
      && (nq.buttonsToggle.Some? ==> q.buttonsToggle == nq.buttonsToggle.value)
      && (nq.updateType.Some? ==> q.updateType == nq.updateType.value)
      && (nq.timestampType.Some? ==> q.timestampType == nq.timestampType)
      && (nq.gracePeriod.Some? ==> q.gracePeriod == nq.gracePeriod.value)
      && (nq.autopullToggle.Some? ==> q.autopullToggle == nq.autopullToggle.value)
      && (nq.color.Some? ==> q.color == nq.color.value)
      && (nq.inlineToggle.Some? ==> q.inlineToggle == nq.inlineToggle.value)
      && (nq.logLevel.Some? ==> q.logLevel == nq.logLevel.value)
      && (nq.memberDisplayType.Some? ==> q.memberDisplayType == nq.memberDisplayType.value)
      && (nq.notificationsToggle.Some? ==> q.notificationsToggle == nq.notificationsToggle.value)
  {
  }

  /**
   * Deleting queue `queueId` (or every queue satisfying `gone`): SQLite's
   * ON DELETE CASCADE removes the displays, members, schedules, list entries
   * and archived members that reference a deleted queue. Admins reference
   * only the guild and are kept.
   */
  function CascadeDeleteQueues(db: Db, gone: RowId -> bool): (r: Db)
    ensures r.queues == Filter(db.queues, (q: Queue) => !gone(q.id))
    ensures forall i :: 0 <= i < |r.displays| ==> !gone(r.displays[i].queueId)
    ensures forall i :: 0 <= i < |r.members| ==> !gone(r.members[i].queueId)
    ensures forall i :: 0 <= i < |r.schedules| ==> !gone(r.schedules[i].queueId)
    ensures forall i :: 0 <= i < |r.whitelisted| ==> !gone(r.whitelisted[i].queueId)
    ensures forall i :: 0 <= i < |r.blacklisted| ==> !gone(r.blacklisted[i].queueId)
    ensures forall i :: 0 <= i < |r.prioritized| ==> !gone(r.prioritized[i].queueId)
    ensures forall i :: 0 <= i < |r.archived| ==> !gone(r.archived[i].queueId)
    ensures forall i :: 0 <= i < |db.members| && !gone(db.members[i].queueId) ==> db.members[i] in r.members
    ensures forall i :: 0 <= i < |db.displays| && !gone(db.displays[i].queueId) ==> db.displays[i] in r.displays
    ensures forall i :: 0 <= i < |db.schedules| && !gone(db.schedules[i].queueId) ==> db.schedules[i] in r.schedules
    ensures forall i :: 0 <= i < |db.whitelisted| && !gone(db.whitelisted[i].queueId) ==> db.whitelisted[i] in r.whitelisted
    ensures forall i :: 0 <= i < |db.blacklisted| && !gone(db.blacklisted[i].queueId) ==> db.blacklisted[i] in r.blacklisted
    ensures forall i :: 0 <= i < |db.prioritized| && !gone(db.prioritized[i].queueId) ==> db.prioritized[i] in r.prioritized
    ensures forall i :: 0 <= i < |db.archived| && !gone(db.archived[i].queueId) ==> db.archived[i] in r.archived
    ensures r.admins == db.admins && r.nextId == db.nextId
    ensures Valid(db) ==> Valid(r)
  {
    var r := Db(
      Filter(db.queues, (q: Queue) => !gone(q.id)),
      Filter(db.displays, (d: Display) => !gone(d.queueId)),
      Filter(db.members, (m: Member) => !gone(m.queueId)),
      Filter(db.schedules, (s: Schedule) => !gone(s.queueId)),
      Filter(db.whitelisted, (e: ListEntry) => !gone(e.queueId)),
      Filter(db.blacklisted, (e: ListEntry) => !gone(e.queueId)),
      Filter(db.prioritized, (p: Prioritized) => !gone(p.queueId)),
      db.admins,
      Filter(db.archived, (a: ArchivedMember) => !gone(a.queueId)),
      db.nextId);
    CascadeKeepsValid(db, gone);
    r
  }

  lemma CascadeKeepsValid(db: Db, gone: RowId -> bool)
    ensures Valid(db) ==> Valid(Db(
      Filter(db.queues, (q: Queue) => !gone(q.id)),
      Filter(db.displays, (d: Display) => !gone(d.queueId)),
      Filter(db.members, (m: Member) => !gone(m.queueId)),
      Filter(db.schedules, (s: Schedule) => !gone(s.queueId)),
      Filter(db.whitelisted, (e: ListEntry) => !gone(e.queueId)),
      Filter(db.blacklisted, (e: ListEntry) => !gone(e.queueId)),
      Filter(db.prioritized, (p: Prioritized) => !gone(p.queueId)),
      db.admins,
      Filter(db.archived, (a: ArchivedMember) => !gone(a.queueId)),
      db.nextId))
  {
    if !Valid(db) {
      return;
    }
    var n := db.nextId;
    FilterWellIded(db.queues, (q: Queue) => !gone(q.id), QueueId, n);
    FilterWellIded(db.displays, (d: Display) => !gone(d.queueId), DisplayId, n);
    FilterWellIded(db.members, (m: Member) => !gone(m.queueId), MemberId, n);
    FilterWellIded(db.schedules, (s: Schedule) => !gone(s.queueId), ScheduleId, n);
    FilterWellIded(db.whitelisted, (e: ListEntry) => !gone(e.queueId), EntryId, n);
    FilterWellIded(db.blacklisted, (e: ListEntry) => !gone(e.queueId), EntryId, n);
    FilterWellIded(db.prioritized, (p: Prioritized) => !gone(p.queueId), PrioritizedId, n);
    FilterWellIded(db.archived, (a: ArchivedMember) => !gone(a.queueId), ArchivedId, n);
    FilterOfUnique(db.queues, (q: Queue) => !gone(q.id), QueueKey);
    FilterOfUnique(db.displays, (d: Display) => !gone(d.queueId), DisplayKey);
    FilterOfUnique(db.members, (m: Member) => !gone(m.queueId), MemberKey);
    FilterOfUnique(db.schedules, (s: Schedule) => !gone(s.queueId), ScheduleKey);
    FilterOfUnique(db.whitelisted, (e: ListEntry) => !gone(e.queueId), EntryKey);
    FilterOfUnique(db.blacklisted, (e: ListEntry) => !gone(e.queueId), EntryKey);
    FilterOfUnique(db.prioritized, (p: Prioritized) => !gone(p.queueId), PrioritizedKey);
    FilterOfUnique(db.archived, (a: ArchivedMember) => !gone(a.queueId), ArchivedKey);
  }
}

=== FILE: sorting.dfy ===
/**
 * Sorting by an arbitrary total preorder. The repository sorts in two ways:
 * SQLite's ORDER BY (members) and JavaScript's `Array.prototype.sort` on
 * strings (mentions, list entries). Both are modelled by `SortBy`, a selection
 * sort that always picks the FIRST minimal element, so ties keep their input
 * order.
 */
module Sorting {

  ghost predicate Total<T(!new)>(le: (T, T) -> bool) {
    forall a, b :: le(a, b) || le(b, a)
  }

  ghost predicate Transitive<T(!new)>(le: (T, T) -> bool) {
    forall a, b, c :: le(a, b) && le(b, c) ==> le(a, c)
  }

  ghost predicate TotalPreorder<T(!new)>(le: (T, T) -> bool) {
    Total(le) && Transitive(le)
  }

  /** Every element is `le` every later element. */
  predicate SortedBy<T>(le: (T, T) -> bool, xs: seq<T>) {
    forall i, j :: 0 <= i < j < |xs| ==> le(xs[i], xs[j])
  }

  /** `xs` without the element at index `i`. */
  function RemoveAt<T>(xs: seq<T>, i: nat): (r: seq<T>)
    requires i < |xs|
    ensures |r| == |xs| - 1
    ensures forall k :: 0 <= k < i ==> r[k] == xs[k]
    ensures forall k :: i <= k < |r| ==> r[k] == xs[k + 1]
    ensures multiset(r) == multiset(xs) - multiset{xs[i]}
  {
    assert xs == xs[..i] + [xs[i]] + xs[i + 1..];
    xs[..i] + xs[i + 1..]
  }

  /** Removing the element between two runs joins the runs. */
  lemma RemoveMiddle<T>(a: seq<T>, x: T, b: seq<T>)
    ensures RemoveAt(a + [x] + b, |a|) == a + b
  {
    var xs := a + [x] + b;
    assert xs[..|a|] == a && xs[|a| + 1..] == b;
  }

  /** Index of the first element that is `le` all others. */
  function MinIndex<T(!new)>(le: (T, T) -> bool, xs: seq<T>): (m: nat)
    requires |xs| > 0
    requires TotalPreorder(le)
    ensures m < |xs|
    ensures forall i :: 0 <= i < |xs| ==> le(xs[m], xs[i])
    ensures forall i :: 0 <= i < m ==> !le(xs[i], xs[m])
  {
    if |xs| == 1 then 0
    else
      var m' := MinIndex(le, xs[1..]);
      if le(xs[0], xs[1 + m']) then 0 else 1 + m'
  }

  /** Selection sort: the first minimum, then the sorted rest. */
  function SortBy<T(!new)>(le: (T, T) -> bool, xs: seq<T>): (r: seq<T>)
    requires TotalPreorder(le)
    ensures |r| == |xs|
    ensures multiset(r) == multiset(xs)
    ensures SortedBy(le, r)
    decreases |xs|
  {
    if |xs| == 0 then []
    else
      var m := MinIndex(le, xs);
      var rest := SortBy(le, RemoveAt(xs, m));
      MinimumLeAll(le, xs, m, rest);
      ConsSorted(le, xs[m], rest);
      [xs[m]] + rest
  }

  /** The minimum of `xs` is `le` every element of a permutation of the remainder. */
  lemma MinimumLeAll<T(!new)>(le: (T, T) -> bool, xs: seq<T>, m: nat, rest: seq<T>)
    requires m < |xs|
    requires forall i :: 0 <= i < |xs| ==> le(xs[m], xs[i])
    requires multiset(rest) == multiset(RemoveAt(xs, m))
    ensures forall k :: 0 <= k < |rest| ==> le(xs[m], rest[k])
  {
    forall k | 0 <= k < |rest|
      ensures le(xs[m], rest[k])
    {
      assert rest[k] in multiset(rest);
      assert rest[k] in multiset(xs);
      var j :| 0 <= j < |xs| && xs[j] == rest[k];
    }
  }

  lemma ConsSorted<T>(le: (T, T) -> bool, x: T, rest: seq<T>)
    requires SortedBy(le, rest)
    requires forall k :: 0 <= k < |rest| ==> le(x, rest[k])
    ensures SortedBy(le, [x] + rest)
  {
    var r := [x] + rest;
    forall i, j | 0 <= i < j < |r|
      ensures le(r[i], r[j])
    {
      if i == 0 {
        assert r[j] == rest[j - 1];
      } else {
        assert r[i] == rest[i - 1] && r[j] == rest[j - 1];
      }
    }
  }

  /** Sorting does not change the set of elements. */
  lemma SortByElements<T(!new)>(le: (T, T) -> bool, xs: seq<T>, x: T)
    requires TotalPreorder(le)
    ensures x in SortBy(le, xs) <==> x in xs
  {
    var r := SortBy(le, xs);
    assert x in r <==> x in multiset(r);
    assert x in xs <==> x in multiset(xs);
  }

  /** The head of a sorted sequence is the first minimum of the input. */
  lemma {:induction false} SortByHead<T(!new)>(le: (T, T) -> bool, xs: seq<T>)
    requires TotalPreorder(le)
    requires |xs| > 0
    ensures SortBy(le, xs)[0] == xs[MinIndex(le, xs)]
    ensures SortBy(le, xs)[1..] == SortBy(le, RemoveAt(xs, MinIndex(le, xs)))
  {
  }
}

=== FILE: store.dfy ===
/**
 * The writes of the `Store` class over the in-memory tables:
 *
 * - inserts: members and displays are upserted, the other tables fail with
 *   the table's `*AlreadyExists` error on a UNIQUE conflict;
 * - updates by id;
 * - deletes through the `createCondition` filter language, including the
 *   `or(...)` of ids of `deleteManyMembers` with a count;
 * - the clean-ups after a 404 from Discord.
 *
 * Every write changes one table (a queue delete also cascades) and keeps the
 * schema's invariants. The memoised reads are in the `Memo` module.
 */
module Store {
  import opened Wrappers
  import opened Tables
  import opened Schema
  import opened Queries

  // The condition language of `createCondition`.

  /** One test of a WHERE clause on a column (a function of the row; SQL NULL is `None`). */
  datatype Test<!R> = IsNull(col: R -> Option<Value>) | Eq(col: R -> Option<Value>, value: Value)

  datatype Cond<!R> = Single(test: Test<R>) | And(tests: seq<Test<R>>) | Or(tests: seq<Test<R>>)

  /** A WHERE clause; `NoWhere` is a statement without one, which every row satisfies. */
  datatype Where<!R> = NoWhere | Where(cond: Cond<R>)

  /** One key of a `by` object with its value; `None` is `null` or `undefined`. */
  datatype Param<!R> = Param(col: R -> Option<Value>, value: Option<Value>)

  /** SQL truth of a test: `col = v` is not true when `col` is NULL. */
  predicate TestHolds<R>(t: Test<R>, row: R) {
    match t
    case IsNull(col) => col(row).None?
    case Eq(col, v) => col(row) == Some(v)
  }

  predicate CondHolds<R>(c: Cond<R>, row: R) {
    match c
    case Single(t) => TestHolds(t, row)
    case And(ts) => forall i :: 0 <= i < |ts| ==> TestHolds(ts[i], row)
    case Or(ts) => exists i :: 0 <= i < |ts| && TestHolds(ts[i], row)
  }

  predicate WhereHolds<R>(w: Where<R>, row: R) {
    match w
    case NoWhere => true
    case Where(c) => CondHolds(c, row)
  }

  /** Every supplied column holds the supplied value, NULL for a nil value. */
  predicate Matches<R>(params: seq<Param<R>>, row: R) {
    forall i :: 0 <= i < |params| ==> params[i].col(row) == params[i].value
  }

  /** `createSingleCondition`: IS NULL for a nil value, equality otherwise. */
  function SingleCondition<R>(p: Param<R>): (t: Test<R>)
    ensures t.IsNull? <==> p.value.None?
    ensures t.Eq? ==> p.value == Some(t.value)
  {
    match p.value
    case None => IsNull(p.col)
    case Some(v) => Eq(p.col, v)
  }

  /** `createCondition`: the test of a single key alone, the AND of the tests of several. */
  function CreateCondition<R>(params: seq<Param<R>>): (c: Cond<R>)
    requires |params| >= 1
    ensures |params| == 1 ==> c.Single?
    ensures |params| > 1 ==> c.And? && |c.tests| == |params|
  {
    if |params| > 1 then And(seq(|params|, i requires 0 <= i < |params| => SingleCondition(params[i])))
    else Single(SingleCondition(params[0]))
  }

  /** A row satisfies `createCondition(params)` exactly when it matches every key. */
  lemma CreateConditionMeans<R>(params: seq<Param<R>>, row: R)
    requires |params| >= 1
    ensures CondHolds(CreateCondition(params), row) <==> Matches(params, row)
  {
    var c := CreateCondition(params);
    if |params| > 1 {
      forall i | 0 <= i < |params|
        ensures TestHolds(c.tests[i], row) <==> params[i].col(row) == params[i].value
      {
        assert c.tests[i] == SingleCondition(params[i]);
      }
    }
  }

  /**
   * `or(...ids.map(id => eq(table.id, id)))`. drizzle's `or()` of nothing is
   * `undefined`, and `.where(undefined)` is a statement without WHERE.
   */
  function OrOfIds<R>(id: R -> Option<Value>, ids: seq<RowId>): (w: Where<R>)
    ensures w.NoWhere? <==> |ids| == 0
  {
    if |ids| == 0 then NoWhere
    else Where(Or(seq(|ids|, i requires 0 <= i < |ids| => Eq(id, VInt(ids[i])))))
  }

  lemma OrOfIdsMeans<R>(id: R -> Option<Value>, ids: seq<RowId>, row: R)
    ensures WhereHolds(OrOfIds(id, ids), row)
      <==> |ids| == 0 || exists i :: 0 <= i < |ids| && id(row) == Some(VInt(ids[i]))
  {
    if |ids| > 0 {
      var w := OrOfIds(id, ids);
      if WhereHolds(w, row) {
        var i :| 0 <= i < |w.cond.tests| && TestHolds(w.cond.tests[i], row);
        assert w.cond.tests[i] == Eq(id, VInt(ids[i]));
      }
      if exists i :: 0 <= i < |ids| && id(row) == Some(VInt(ids[i])) {
        var i :| 0 <= i < |ids| && id(row) == Some(VInt(ids[i]));
        assert TestHolds(w.cond.tests[i], row);
      }
    }
  }

  /**
   * Deleting through `createCondition(params)` deletes the rows `sel` picks
   * when `sel` is what the params say.
   */
  lemma DeleteByParams<R>(rows: seq<R>, params: seq<Param<R>>, sel: R -> bool)
    requires |params| >= 1
    requires forall i :: 0 <= i < |rows| ==> (Matches(params, rows[i]) <==> sel(rows[i]))
    ensures Filter(rows, (x: R) => WhereHolds(Where(CreateCondition(params)), x)) == Filter(rows, sel)
    ensures Filter(rows, (x: R) => !WhereHolds(Where(CreateCondition(params)), x)) == Filter(rows, (x: R) => !sel(x))
  {
    forall i | 0 <= i < |rows|
      ensures WhereHolds(Where(CreateCondition(params)), rows[i]) == sel(rows[i])
    {
      CreateConditionMeans(params, rows[i]);
    }
    FilterExt(rows, (x: R) => WhereHolds(Where(CreateCondition(params)), x), sel);
    FilterExt(rows, (x: R) => !WhereHolds(Where(CreateCondition(params)), x), (x: R) => !sel(x));
  }

  function IntCol(n: int): Option<Value> { Some(VInt(n)) }
  function TextCol(s: string): Option<Value> { Some(VText(s)) }
  function NullableTextCol(s: Option<string>): Option<Value> {
    match s
    case None => None
    case Some(t) => Some(VText(t))
  }

  // Which table a write touches.

  datatype Table =
    | QueuesTable | DisplaysTable | MembersTable | SchedulesTable
    | WhitelistedTable | BlacklistedTable | PrioritizedTable | AdminsTable

  predicate SameTable(a: Db, b: Db, t: Table) {
    match t
    case QueuesTable => a.queues == b.queues
    case DisplaysTable => a.displays == b.displays
    case MembersTable => a.members == b.members
    case SchedulesTable => a.schedules == b.schedules
    case WhitelistedTable => a.whitelisted == b.whitelisted
    case BlacklistedTable => a.blacklisted == b.blacklisted
    case PrioritizedTable => a.prioritized == b.prioritized
    case AdminsTable => a.admins == b.admins
  }

  /** `b` differs from `a` at most in table `t` (and the id counter). */
  predicate OnlyWrites(a: Db, b: Db, t: Table) {
    forall u :: u != t ==> SameTable(a, b, u)
  }

  // Invariant bookkeeping.

  lemma FilterKeepsTable<R, K>(rows: seq<R>, p: R -> bool, id: R -> nat, key: R -> K, bound: nat)
    ensures WellIded(rows, id, bound) && UniqueBy(rows, key) ==>
      WellIded(Filter(rows, p), id, bound) && UniqueBy(Filter(rows, p), key)
  {
    if WellIded(rows, id, bound) && UniqueBy(rows, key) {
      FilterWellIded(rows, p, id, bound);
      FilterOfUnique(rows, p, key);
    }
  }

  /** Handing out the next id keeps every table below the counter. */
  lemma BumpKeepsValid(db: Db)
    requires Valid(db)
    ensures Valid(db.(nextId := db.nextId + 1))
  {
  }

  lemma AppendKeepsTable<R, K>(rows: seq<R>, id: R -> nat, key: R -> K, bound: nat, row: R)
    requires WellIded(rows, id, bound) && UniqueBy(rows + [row], key)
    requires id(row) == bound
    ensures WellIded(rows + [row], id, bound + 1) && UniqueBy(rows + [row], key)
  {
    AppendWellIded(rows, id, bound, row);
  }

  // Inserts that fail on a conflict.

  /** `insertQueue`: the row with the schema defaults, or `QueueAlreadyExists`. */
  function InsertQueue(db: Db, nq: NewQueue, defaultColor: string): (r: (Result<Queue, Error>, Db))
    ensures r.0.Err? <==> exists i :: 0 <= i < |db.queues| && QueueKey(db.queues[i]) == (nq.name, nq.guildId)
    ensures r.0.Err? ==> r.0.error == QueueAlreadyExists && r.1 == db
    ensures r.0.Ok? ==> (r.0.value == ApplyQueueDefaults(nq, db.nextId, defaultColor)
      && r.1 == db.(queues := db.queues + [r.0.value], nextId := db.nextId + 1))
    ensures OnlyWrites(db, r.1, QueuesTable)
    ensures Valid(db) ==> Valid(r.1)
  {
    var q := ApplyQueueDefaults(nq, db.nextId, defaultColor);
    match InsertUnique(db.queues, QueueKey, q)
    case None => (Err(QueueAlreadyExists), db)
    case Some(rows) =>
      var db' := db.(queues := rows, nextId := db.nextId + 1);
      assert Valid(db) ==> Valid(db') by {
        if Valid(db) {
          BumpKeepsValid(db);
          AppendKeepsTable(db.queues, QueueId, QueueKey, db.nextId, q);
        }
      }
      (Ok(q), db')
  }

  datatype NewSchedule = NewSchedule(guildId: Snowflake, queueId: RowId, command: ScheduleCommand,
    cron: string, timezone: string, reason: Option<string>)

  function NewScheduleKey(ns: NewSchedule): (RowId, ScheduleCommand, string, string) {
    (ns.queueId, ns.command, ns.cron, ns.timezone)
  }

  /** `insertSchedule`: fails with `ScheduleAlreadyExists` on a repeated (queue, command, cron, timezone). */
  function InsertSchedule(db: Db, ns: NewSchedule): (r: (Result<Schedule, Error>, Db))
    ensures r.0.Err? <==> exists i :: 0 <= i < |db.schedules| && ScheduleKey(db.schedules[i]) == NewScheduleKey(ns)
    ensures r.0.Err? ==> r.0.error == ScheduleAlreadyExists && r.1 == db
    ensures r.0.Ok? ==> (r.1 == db.(schedules := db.schedules + [r.0.value], nextId := db.nextId + 1)
      && r.0.value == Schedule(db.nextId, ns.guildId, ns.queueId, ns.command, ns.cron, ns.timezone, ns.reason))
    ensures OnlyWrites(db, r.1, SchedulesTable)
    ensures Valid(db) ==> Valid(r.1)
  {
    var s := Schedule(db.nextId, ns.guildId, ns.queueId, ns.command, ns.cron, ns.timezone, ns.reason);
    match InsertUnique(db.schedules, ScheduleKey, s)
    case None => (Err(ScheduleAlreadyExists), db)
    case Some(rows) =>
      var db' := db.(schedules := rows, nextId := db.nextId + 1);
      assert Valid(db) ==> Valid(db') by {
        if Valid(db) {
          BumpKeepsValid(db);
          AppendKeepsTable(db.schedules, ScheduleId, ScheduleKey, db.nextId, s);
        }
      }
      (Ok(s), db')
  }

  /** A new whitelist, blacklist or prioritized entry. */
  datatype NewEntry = NewEntry(guildId: Snowflake, queueId: RowId, subjectId: Snowflake, isRole: bool,
    reason: Option<string>)

  /** `insertWhitelisted`: fails with `WhitelistedAlreadyExists` on a repeated (queue, subject). */
  function InsertWhitelisted(db: Db, ne: NewEntry): (r: (Result<ListEntry, Error>, Db))
    ensures r.0.Err? <==> exists i :: 0 <= i < |db.whitelisted| && EntryKey(db.whitelisted[i]) == (ne.queueId, ne.subjectId)
    ensures r.0.Err? ==> r.0.error == WhitelistedAlreadyExists && r.1 == db
    ensures r.0.Ok? ==> (r.1 == db.(whitelisted := db.whitelisted + [r.0.value], nextId := db.nextId + 1)
      && r.0.value == ListEntry(db.nextId, ne.guildId, ne.queueId, ne.subjectId, ne.isRole, ne.reason))
    ensures OnlyWrites(db, r.1, WhitelistedTable)
    ensures Valid(db) ==> Valid(r.1)
  {
    var e := ListEntry(db.nextId, ne.guildId, ne.queueId, ne.subjectId, ne.isRole, ne.reason);
    match InsertUnique(db.whitelisted, EntryKey, e)
    case None => (Err(WhitelistedAlreadyExists), db)
    case Some(rows) =>
      var db' := db.(whitelisted := rows, nextId := db.nextId + 1);
      assert Valid(db) ==> Valid(db') by {
        if Valid(db) {
          BumpKeepsValid(db);
          AppendKeepsTable(db.whitelisted, EntryId, EntryKey, db.nextId, e);
        }
      }
      (Ok(e), db')
  }

  /** `insertBlacklisted`: fails with `BlacklistedAlreadyExists` on a repeated (queue, subject). */
  function InsertBlacklisted(db: Db, ne: NewEntry): (r: (Result<ListEntry, Error>, Db))
    ensures r.0.Err? <==> exists i :: 0 <= i < |db.blacklisted| && EntryKey(db.blacklisted[i]) == (ne.queueId, ne.subjectId)
    ensures r.0.Err? ==> r.0.error == BlacklistedAlreadyExists && r.1 == db
    ensures r.0.Ok? ==> (r.1 == db.(blacklisted := db.blacklisted + [r.0.value], nextId := db.nextId + 1)
      && r.0.value == ListEntry(db.nextId, ne.guildId, ne.queueId, ne.subjectId, ne.isRole, ne.reason))
    ensures OnlyWrites(db, r.1, BlacklistedTable)
    ensures Valid(db) ==> Valid(r.1)
  {
    var e := ListEntry(db.nextId, ne.guildId, ne.queueId, ne.subjectId, ne.isRole, ne.reason);
    match InsertUnique(db.blacklisted, EntryKey, e)
    case None => (Err(BlacklistedAlreadyExists), db)
    case Some(rows) =>
      var db' := db.(blacklisted := rows, nextId := db.nextId + 1);
      assert Valid(db) ==> Valid(db') by {
        if Valid(db) {
          BumpKeepsValid(db);
          AppendKeepsTable(db.blacklisted, EntryId, EntryKey, db.nextId, e);
        }
      }
      (Ok(e), db')
  }

  /**
   * `insertPrioritized`: fails with `PrioritizedAlreadyExists` on a repeated
   * (guild, subject), whatever the queue.
   */
  function InsertPrioritized(db: Db, ne: NewEntry, priorityOrder: Option<int>): (r: (Result<Prioritized, Error>, Db))
    ensures r.0.Err? <==> exists i :: 0 <= i < |db.prioritized| && PrioritizedKey(db.prioritized[i]) == (ne.guildId, ne.subjectId)
    ensures r.0.Err? ==> r.0.error == PrioritizedAlreadyExists && r.1 == db
    ensures r.0.Ok? ==> (r.1 == db.(prioritized := db.prioritized + [r.0.value], nextId := db.nextId + 1)
      && r.0.value == Prioritized(db.nextId, ne.guildId, ne.queueId, ne.subjectId, ne.isRole, ne.reason, priorityOrder))
    ensures OnlyWrites(db, r.1, PrioritizedTable)
    ensures Valid(db) ==> Valid(r.1)
  {
    var p := Prioritized(db.nextId, ne.guildId, ne.queueId, ne.subjectId, ne.isRole, ne.reason, priorityOrder);
    match InsertUnique(db.prioritized, PrioritizedKey, p)
    case None => (Err(PrioritizedAlreadyExists), db)
    case Some(rows) =>
      var db' := db.(prioritized := rows, nextId := db.nextId + 1);
      assert Valid(db) ==> Valid(db') by {
        if Valid(db) {
          BumpKeepsValid(db);
          AppendKeepsTable(db.prioritized, PrioritizedId, PrioritizedKey, db.nextId, p);
        }
      }
      (Ok(p), db')
  }

  /** `insertAdmin`: fails with `AdminAlreadyExists` on a repeated (guild, subject). */
  function InsertAdmin(db: Db, guildId: Snowflake, subjectId: Snowflake, isRole: bool): (r: (Result<Admin, Error>, Db))
    ensures r.0.Err? <==> exists i :: 0 <= i < |db.admins| && AdminKey(db.admins[i]) == (guildId, subjectId)
    ensures r.0.Err? ==> r.0.error == AdminAlreadyExists && r.1 == db
    ensures r.0.Ok? ==> (r.1 == db.(admins := db.admins + [r.0.value], nextId := db.nextId + 1)
      && r.0.value == Admin(db.nextId, guildId, subjectId, isRole))
    ensures OnlyWrites(db, r.1, AdminsTable)
    ensures Valid(db) ==> Valid(r.1)
  {
    var a := Admin(db.nextId, guildId, subjectId, isRole);
    match InsertUnique(db.admins, AdminKey, a)
    case None => (Err(AdminAlreadyExists), db)
    case Some(rows) =>
      var db' := db.(admins := rows, nextId := db.nextId + 1);
      assert Valid(db) ==> Valid(db') by {
        if Valid(db) {
          BumpKeepsValid(db);
          AppendKeepsTable(db.admins, AdminId, AdminKey, db.nextId, a);
        }
      }
      (Ok(a), db')
  }

  // Upserts.

  /** The values `insertMember` supplies; `None` is a field left `undefined`. */
  datatype NewMember = NewMember(guildId: Snowflake, queueId: RowId, userId: Snowflake,
    message: Option<string>, priority: Option<int>)

  /**
   * The row an upsert on (queueId, userId) leaves behind: drizzle drops the
   * `undefined` fields from the SET clause, so they keep their old values, and
   * the position and join times (set only by the insert's defaults) are kept.
   */
  function MergeMember(prev: Member, nm: NewMember): (m: Member)
    ensures m.id == prev.id && m.positionTime == prev.positionTime && m.joinTime == prev.joinTime
    ensures m.guildId == nm.guildId && m.queueId == nm.queueId && m.userId == nm.userId
    ensures m.message == (if nm.message.Some? then nm.message else prev.message)
    ensures m.priority == (if nm.priority.Some? then nm.priority else prev.priority)
  {
    prev.(guildId := nm.guildId, queueId := nm.queueId, userId := nm.userId,
         message := if nm.message.Some? then nm.message else prev.message,
         priority := if nm.priority.Some? then nm.priority else prev.priority)
  }

  /** Upserting the same values twice leaves the row the first upsert left. */
  lemma MergeIdempotent(prev: Member, nm: NewMember)
    ensures MergeMember(MergeMember(prev, nm), nm) == MergeMember(prev, nm)
  {
  }

  /** An upsert that supplies no message and no priority for the row's own key changes nothing. */
  lemma MergeNothingKeepsRow(prev: Member)
    ensures MergeMember(prev, NewMember(prev.guildId, prev.queueId, prev.userId, None, None)) == prev
  {
  }

  /** A brand-new member row; both times default to the current time `now`. */
  function FreshMember(id: RowId, nm: NewMember, now: int): Member {
    Member(id, nm.guildId, nm.queueId, nm.userId, nm.message, now, now, nm.priority)
  }

  /**
   * `insertMember`: INSERT ... ON CONFLICT (queueId, userId) DO UPDATE. A
   * re-insert updates the existing row in place and never adds a second one.
   */
  function InsertMember(db: Db, nm: NewMember, now: int): (r: (Member, Db))
    ensures MemberKey(r.0) == (nm.queueId, nm.userId)
    ensures r.0 in r.1.members
    ensures (forall i :: 0 <= i < |db.members| ==> MemberKey(db.members[i]) != (nm.queueId, nm.userId)) ==>
      r.0 == FreshMember(db.nextId, nm, now) && r.1.members == db.members + [r.0]
    ensures forall i :: 0 <= i < |db.members| && MemberKey(db.members[i]) == (nm.queueId, nm.userId) ==>
      |r.1.members| == |db.members| && (UniqueBy(db.members, MemberKey) ==> r.0 == MergeMember(db.members[i], nm))
    ensures forall i :: 0 <= i < |db.members| && MemberKey(db.members[i]) != (nm.queueId, nm.userId) ==>
      i < |r.1.members| && r.1.members[i] == db.members[i]
    ensures OnlyWrites(db, r.1, MembersTable)
    ensures Valid(db) ==> Valid(r.1)
  {
    var key := (nm.queueId, nm.userId);
    match FindIndex(db.members, (m: Member) => MemberKey(m) == key)
    case Some(i) =>
      assert forall j :: 0 <= j < |db.members| && MemberKey(db.members[j]) == key && UniqueBy(db.members, MemberKey) ==> j == i;
      MergeAt(db, i, nm)
    case None => AppendFresh(db, nm, now)
  }

  /** The conflict branch of `insertMember`: row `i`, which has the new row's key, is merged in place. */
  function MergeAt(db: Db, i: nat, nm: NewMember): (r: (Member, Db))
    requires i < |db.members| && MemberKey(db.members[i]) == (nm.queueId, nm.userId)
    ensures r.0 == MergeMember(db.members[i], nm) && r.1 == db.(members := db.members[i := r.0])
    ensures r.1.members[i] == r.0
    ensures Valid(db) ==> Valid(r.1)
  {
    var m := MergeMember(db.members[i], nm);
    MergeKeepsValid(db, i, m);
    (m, db.(members := db.members[i := m]))
  }

  /** The insert branch of `insertMember`: a fresh row is appended under the next id. */
  function AppendFresh(db: Db, nm: NewMember, now: int): (r: (Member, Db))
    requires forall i :: 0 <= i < |db.members| ==> MemberKey(db.members[i]) != (nm.queueId, nm.userId)
    ensures r.0 == FreshMember(db.nextId, nm, now)
    ensures r.1 == db.(members := db.members + [r.0], nextId := db.nextId + 1)
    ensures r.1.members[|db.members|] == r.0
    ensures Valid(db) ==> Valid(r.1)
  {
    var m := FreshMember(db.nextId, nm, now);
    if Valid(db) then
      AppendMemberKeepsValid(db, m);
      (m, db.(members := db.members + [m], nextId := db.nextId + 1))
    else
      (m, db.(members := db.members + [m], nextId := db.nextId + 1))
  }

  /** A member row with a fresh id and a new (queue, user) pair keeps the database consistent. */
  lemma AppendMemberKeepsValid(db: Db, m: Member)
    requires Valid(db) && m.id == db.nextId
    requires forall i :: 0 <= i < |db.members| ==> MemberKey(db.members[i]) != MemberKey(m)
    ensures Valid(db.(members := db.members + [m], nextId := db.nextId + 1))
  {
    BumpKeepsValid(db);
    AppendKeepsTable(db.members, MemberId, MemberKey, db.nextId, m);
  }

  lemma MergeKeepsValid(db: Db, i: nat, m: Member)
    requires i < |db.members| && m.id == db.members[i].id && MemberKey(m) == MemberKey(db.members[i])
    ensures Valid(db) ==> Valid(db.(members := db.members[i := m]))
  {
    if Valid(db) {
      ReplaceKeepsUnique(db.members, MemberKey, i, m);
      assert forall k :: 0 <= k < |db.members| ==> db.members[i := m][k].id == db.members[k].id;
    }
  }

  /** The values `insertDisplay` supplies. */
  datatype NewDisplay = NewDisplay(guildId: Snowflake, queueId: RowId, displayChannelId: Snowflake,
    lastMessageId: Option<Snowflake>)

  function MergeDisplay(prev: Display, nd: NewDisplay): (d: Display)
    ensures d.id == prev.id && DisplayKey(d) == (nd.queueId, nd.displayChannelId) && d.guildId == nd.guildId
    ensures d.lastMessageId == (if nd.lastMessageId.Some? then nd.lastMessageId else prev.lastMessageId)
  {
    prev.(guildId := nd.guildId, queueId := nd.queueId, displayChannelId := nd.displayChannelId,
         lastMessageId := if nd.lastMessageId.Some? then nd.lastMessageId else prev.lastMessageId)
  }

  /** `insertDisplay`: INSERT ... ON CONFLICT (queueId, displayChannelId) DO UPDATE. */
  function InsertDisplay(db: Db, nd: NewDisplay): (r: (Display, Db))
    ensures DisplayKey(r.0) == (nd.queueId, nd.displayChannelId)
    ensures r.0 in r.1.displays
    ensures (forall i :: 0 <= i < |db.displays| ==> DisplayKey(db.displays[i]) != (nd.queueId, nd.displayChannelId)) ==>
      r.0 == Display(db.nextId, nd.guildId, nd.queueId, nd.displayChannelId, nd.lastMessageId)
      && r.1.displays == db.displays + [r.0]
    ensures forall i :: 0 <= i < |db.displays| && DisplayKey(db.displays[i]) == (nd.queueId, nd.displayChannelId) ==>
      |r.1.displays| == |db.displays| && (UniqueBy(db.displays, DisplayKey) ==> r.0 == MergeDisplay(db.displays[i], nd))
    ensures OnlyWrites(db, r.1, DisplaysTable)
    ensures Valid(db) ==> Valid(r.1)
  {
    var key := (nd.queueId, nd.displayChannelId);
    match FindIndex(db.displays, (d: Display) => DisplayKey(d) == key)
    case Some(i) =>
      assert forall j :: 0 <= j < |db.displays| && DisplayKey(db.displays[j]) == key && UniqueBy(db.displays, DisplayKey) ==> j == i;
      MergeDisplayAt(db, i, nd)
    case None => AppendDisplay(db, nd)
  }

  /** The conflict branch of `insertDisplay`: row `i`, which has the new row's key, is merged in place. */
  function MergeDisplayAt(db: Db, i: nat, nd: NewDisplay): (r: (Display, Db))
    requires i < |db.displays| && DisplayKey(db.displays[i]) == (nd.queueId, nd.displayChannelId)
    ensures r.0 == MergeDisplay(db.displays[i], nd) && r.1 == db.(displays := db.displays[i := r.0])
    ensures r.1.displays[i] == r.0
    ensures Valid(db) ==> Valid(r.1)
  {
    var d := MergeDisplay(db.displays[i], nd);
    MergeDisplayKeepsValid(db, i, d);
    (d, db.(displays := db.displays[i := d]))
  }

  /** The insert branch of `insertDisplay`: a fresh row is appended under the next id. */
  function AppendDisplay(db: Db, nd: NewDisplay): (r: (Display, Db))
    requires forall i :: 0 <= i < |db.displays| ==> DisplayKey(db.displays[i]) != (nd.queueId, nd.displayChannelId)
    ensures r.0 == Display(db.nextId, nd.guildId, nd.queueId, nd.displayChannelId, nd.lastMessageId)
    ensures r.1 == db.(displays := db.displays + [r.0], nextId := db.nextId + 1)
    ensures r.1.displays[|db.displays|] == r.0
    ensures Valid(db) ==> Valid(r.1)
  {
    var d := Display(db.nextId, nd.guildId, nd.queueId, nd.displayChannelId, nd.lastMessageId);
    if Valid(db) then
      BumpKeepsValid(db);
      AppendKeepsTable(db.displays, DisplayId, DisplayKey, db.nextId, d);
      (d, db.(displays := db.displays + [d], nextId := db.nextId + 1))
    else
      (d, db.(displays := db.displays + [d], nextId := db.nextId + 1))
  }

  lemma MergeDisplayKeepsValid(db: Db, i: nat, d: Display)
    requires i < |db.displays| && d.id == db.displays[i].id && DisplayKey(d) == DisplayKey(db.displays[i])
    ensures Valid(db) ==> Valid(db.(displays := db.displays[i := d]))
  {
    if Valid(db) {
      ReplaceKeepsUnique(db.displays, DisplayKey, i, d);
      assert forall k :: 0 <= k < |db.displays| ==> db.displays[i := d][k].id == db.displays[k].id;
    }
  }

  // Updates by id.

  /**
   * `updateMember` with the complete new row: the row with that id is
   * replaced; `None` when no row has the id. A new (queueId, userId) that
   * another row holds fails the UNIQUE constraint.
   */
  function UpdateMember(db: Db, m: Member): (r: (Result<Option<Member>, Error>, Db))
    ensures r.0.Err? ==> r.0.error == UniqueViolation && r.1 == db
    ensures r.0.Ok? ==> |r.1.members| == |db.members|
    ensures r.0.Ok? && UniqueBy(db.members, MemberId) ==>
      forall k :: 0 <= k < |db.members| ==> r.1.members[k] == if db.members[k].id == m.id then m else db.members[k]
    ensures r.0 == Ok(Some(m)) <==> r.0.Ok? && exists k :: 0 <= k < |db.members| && db.members[k].id == m.id
    ensures r.0 == Ok(None) <==> r.0.Ok? && forall k :: 0 <= k < |db.members| ==> db.members[k].id != m.id
    ensures UniqueBy(db.members, MemberId) && UniqueBy(db.members, MemberKey)
        && (forall k :: 0 <= k < |db.members| && db.members[k].id == m.id ==> MemberKey(db.members[k]) == MemberKey(m))
      ==> r.0.Ok?
    ensures OnlyWrites(db, r.1, MembersTable) && r.1 == db.(members := r.1.members)
    ensures Valid(db) ==> Valid(r.1)
  {
    match ReplaceById(db.members, MemberId, MemberKey, m)
    case None =>
      (Err(UniqueViolation), db)
    case Some(rows) =>
      var db' := db.(members := rows);
      assert Valid(db) ==> Valid(db') by {
        if Valid(db) {
          AscendingIdsUnique(db.members, MemberId);
        }
      }
      var found := exists k :: 0 <= k < |db.members| && db.members[k].id == m.id;
      (Ok(if found then Some(m) else None), db')
  }

  /** `updateDisplay({ id, lastMessageId })`. */
  function UpdateDisplay(db: Db, id: RowId, lastMessageId: Snowflake): (r: (Option<Display>, Db))
    ensures |r.1.displays| == |db.displays|
    ensures forall k :: 0 <= k < |db.displays| ==>
      r.1.displays[k] == if db.displays[k].id == id then db.displays[k].(lastMessageId := Some(lastMessageId)) else db.displays[k]
    ensures r.0.Some? <==> exists k :: 0 <= k < |db.displays| && db.displays[k].id == id
    ensures r.0.Some? ==> r.0.value.id == id && r.0.value.lastMessageId == Some(lastMessageId) && r.0.value in r.1.displays
    ensures OnlyWrites(db, r.1, DisplaysTable) && r.1 == db.(displays := r.1.displays)
    ensures Valid(db) ==> Valid(r.1)
  {
    var rows := UpdateWhere(db.displays, (d: Display) => d.id == id, (d: Display) => d.(lastMessageId := Some(lastMessageId)));
    var db' := db.(displays := rows);
    assert Valid(db) ==> Valid(db') by {
      if Valid(db) {
        assert forall k :: 0 <= k < |rows| ==> DisplayKey(rows[k]) == DisplayKey(db.displays[k]) && rows[k].id == db.displays[k].id;
      }
    }
    match FindIndex(rows, (d: Display) => d.id == id)
    case None => (None, db')
    case Some(k) => (Some(rows[k]), db')
  }

  /**
   * `updateQueue` with the complete new row; renaming a queue to the name of
   * another queue of the guild fails the UNIQUE constraint.
   */
  function UpdateQueue(db: Db, q: Queue): (r: (Result<Option<Queue>, Error>, Db))
    ensures r.0.Err? ==> r.0.error == UniqueViolation && r.1 == db
    ensures r.0.Err? && UniqueBy(db.queues, QueueId) ==>
      exists j :: 0 <= j < |db.queues| && db.queues[j].id != q.id && QueueKey(db.queues[j]) == QueueKey(q)
    ensures UniqueBy(db.queues, QueueId)
        && (forall j :: 0 <= j < |db.queues| && QueueKey(db.queues[j]) == QueueKey(q) ==> db.queues[j].id == q.id)
      ==> r.0.Ok?
    ensures r.0.Ok? && UniqueBy(db.queues, QueueId) ==>
      |r.1.queues| == |db.queues| &&
      forall k :: 0 <= k < |db.queues| ==> r.1.queues[k] == if db.queues[k].id == q.id then q else db.queues[k]
    ensures r.0 == Ok(Some(q)) <==> r.0.Ok? && exists k :: 0 <= k < |db.queues| && db.queues[k].id == q.id
    ensures OnlyWrites(db, r.1, QueuesTable)
    ensures Valid(db) ==> Valid(r.1)
  {
    match ReplaceById(db.queues, QueueId, QueueKey, q)
    case None => (Err(UniqueViolation), db)
    case Some(rows) =>
      var db' := db.(queues := rows);
      assert Valid(db) ==> Valid(db') by {
        if Valid(db) {
          ReplaceQueueKeepsValid(db, q);
        }
      }
      var found := exists k :: 0 <= k < |db.queues| && db.queues[k].id == q.id;
      (Ok(if found then Some(q) else None), db')
  }

  /** Replacing a queue row in place, when no other queue has its key, keeps the database consistent. */
  lemma ReplaceQueueKeepsValid(db: Db, q: Queue)
    requires Valid(db) && ReplaceById(db.queues, QueueId, QueueKey, q).Some?
    ensures Valid(db.(queues := ReplaceById(db.queues, QueueId, QueueKey, q).value))
  {
    AscendingIdsUnique(db.queues, QueueId);
  }

  /**
   * `updateSchedule` with the complete new row; a change that makes it equal
   * to another schedule of the queue fails the UNIQUE constraint.
   */
  function UpdateSchedule(db: Db, sc: Schedule): (r: (Result<Option<Schedule>, Error>, Db))
    ensures r.0.Err? ==> r.0.error == UniqueViolation && r.1 == db
    ensures r.0.Err? && UniqueBy(db.schedules, ScheduleId) ==>
      exists j :: 0 <= j < |db.schedules| && db.schedules[j].id != sc.id && ScheduleKey(db.schedules[j]) == ScheduleKey(sc)
    ensures UniqueBy(db.schedules, ScheduleId)
        && (forall j :: 0 <= j < |db.schedules| && ScheduleKey(db.schedules[j]) == ScheduleKey(sc) ==> db.schedules[j].id == sc.id)
      ==> r.0.Ok?
    ensures r.0.Ok? && UniqueBy(db.schedules, ScheduleId) ==>
      |r.1.schedules| == |db.schedules| &&
      forall k :: 0 <= k < |db.schedules| ==> r.1.schedules[k] == if db.schedules[k].id == sc.id then sc else db.schedules[k]
    ensures r.0 == Ok(Some(sc)) <==> r.0.Ok? && exists k :: 0 <= k < |db.schedules| && db.schedules[k].id == sc.id
    ensures OnlyWrites(db, r.1, SchedulesTable)
    ensures Valid(db) ==> Valid(r.1)
  {
    match ReplaceById(db.schedules, ScheduleId, ScheduleKey, sc)
    case None => (Err(UniqueViolation), db)
    case Some(rows) =>
      var db' := db.(schedules := rows);
      assert Valid(db) ==> Valid(db') by {
        if Valid(db) {
          AscendingIdsUnique(db.schedules, ScheduleId);
        }
      }
      var found := exists k :: 0 <= k < |db.schedules| && db.schedules[k].id == sc.id;
      (Ok(if found then Some(sc) else None), db')
  }

  // Deletes through `createCondition`.

  /**
   * DELETE ... WHERE createCondition(params) RETURNING *: the rows kept and
   * the rows deleted, both in table order, where `sel` is what the params
   * select and `unsel` its complement.
   */
  function DeleteWhereParams<R>(rows: seq<R>, params: seq<Param<R>>, sel: R -> bool, unsel: R -> bool)
    : (r: (seq<R>, seq<R>))
    requires |params| >= 1
    requires forall i :: 0 <= i < |rows| ==> (Matches(params, rows[i]) <==> sel(rows[i]))
    requires forall i :: 0 <= i < |rows| ==> unsel(rows[i]) == !sel(rows[i])
    ensures r.0 == Filter(rows, unsel)
    ensures r.1 == Filter(rows, sel)
  {
    DeleteByParams(rows, params, sel);
    FilterExt(rows, (x: R) => !sel(x), unsel);
    (Filter(rows, (x: R) => !WhereHolds(Where(CreateCondition(params)), x)),
     Filter(rows, (x: R) => WhereHolds(Where(CreateCondition(params)), x)))
  }

  /** The `by` objects of `deleteMember` and `deleteManyMembers` without a count. */
  datatype MemberBy =
    | MemberById(id: RowId)
    | MemberByQueue(queueId: RowId, userId: Option<Snowflake>)
    | MembersByGuild(guildId: Snowflake, userId: Option<Snowflake>)

  /** The keys of a member `by`; an absent optional key is left out. */
  function MemberParams(crit: MemberBy): (ps: seq<Param<Member>>)
    ensures |ps| >= 1
  {
    match crit
    case MemberById(id) => [Param((m: Member) => IntCol(m.id), IntCol(id))]
    case MemberByQueue(q, None) => [Param((m: Member) => IntCol(m.queueId), IntCol(q))]
    case MemberByQueue(q, Some(u)) =>
      [Param((m: Member) => IntCol(m.queueId), IntCol(q)), Param((m: Member) => TextCol(m.userId), TextCol(u))]
    case MembersByGuild(g, None) => [Param((m: Member) => TextCol(m.guildId), TextCol(g))]
    case MembersByGuild(g, Some(u)) =>
      [Param((m: Member) => TextCol(m.guildId), TextCol(g)), Param((m: Member) => TextCol(m.userId), TextCol(u))]
  }

  /** The member rows a `by` names. */
  predicate MemberSelected(crit: MemberBy, m: Member) {
    match crit
    case MemberById(id) => m.id == id
    case MemberByQueue(q, u) => m.queueId == q && (u.Some? ==> m.userId == u.value)
    case MembersByGuild(g, u) => m.guildId == g && (u.Some? ==> m.userId == u.value)
  }

  lemma MatchesOne<R>(a: Param<R>, row: R)
    ensures Matches([a], row) <==> a.col(row) == a.value
  {
    assert [a][0] == a;
  }

  lemma MatchesTwo<R>(a: Param<R>, b: Param<R>, row: R)
    ensures Matches([a, b], row) <==> a.col(row) == a.value && b.col(row) == b.value
  {
    assert [a, b][0] == a && [a, b][1] == b;
  }

  lemma MemberParamsMean(crit: MemberBy)
    ensures forall m :: Matches(MemberParams(crit), m) <==> MemberSelected(crit, m)
  {
    forall m
      ensures Matches(MemberParams(crit), m) <==> MemberSelected(crit, m)
    {
      var ps := MemberParams(crit);
      if |ps| == 1 {
        MatchesOne(ps[0], m);
        assert ps == [ps[0]];
      } else {
        MatchesTwo(ps[0], ps[1], m);
        assert ps == [ps[0], ps[1]];
      }
    }
  }

  /**
   * `deleteMember(by)` and `deleteManyMembers(by)` without a count: every row
   * the `by` names is deleted (`deleteMember` returns the first of them).
   */
  function DeleteMembers(db: Db, crit: MemberBy): (r: (seq<Member>, Db))
    ensures r.0 == Filter(db.members, (m: Member) => MemberSelected(crit, m))
    ensures r.1 == db.(members := Filter(db.members, (m: Member) => !MemberSelected(crit, m)))
    ensures Valid(db) ==> Valid(r.1)
  {
    MemberParamsMean(crit);
    var d := DeleteWhereParams(db.members, MemberParams(crit),
      (m: Member) => MemberSelected(crit, m), (m: Member) => !MemberSelected(crit, m));
    FilterKeepsTable(db.members, (m: Member) => !MemberSelected(crit, m), MemberId, MemberKey, db.nextId);
    (d.1, db.(members := d.0))
  }

  /**
   * `deleteMember({ queueId })` without a user deletes every member of the
   * queue, and returns only the first.
   */
  lemma DeleteMemberByQueueEmptiesQueue(db: Db, queueId: RowId)
    ensures var r := DeleteMembers(db, MemberByQueue(queueId, None));
      && (forall i :: 0 <= i < |r.1.members| ==> r.1.members[i].queueId != queueId)
      && (forall i :: 0 <= i < |db.members| && db.members[i].queueId == queueId ==> db.members[i] in r.0)
  {
  }

  /** The ids of the rows a select returned. */
  function IdsOf(rows: seq<Member>): (ids: seq<RowId>)
    ensures |ids| == |rows|
    ensures forall j :: 0 <= j < |rows| ==> ids[j] == rows[j].id
  {
    seq(|rows|, j requires 0 <= j < |rows| => rows[j].id)
  }

  /**
   * The WHERE clause of `deleteManyMembers({ queueId, count })`: the OR of the
   * ids the count query returns. When it returns nothing, `or()` yields no
   * WHERE clause at all.
   */
  predicate CountHits(db: Db, guildId: Snowflake, queueId: RowId, count: int, m: Member) {
    WhereHolds(OrOfIds((x: Member) => IntCol(x.id), IdsOf(CountQuery(db, guildId, queueId, count))), m)
  }

  lemma CountHitsMeans(db: Db, guildId: Snowflake, queueId: RowId, count: int, m: Member)
    ensures var picked := CountQuery(db, guildId, queueId, count);
      CountHits(db, guildId, queueId, count, m)
      <==> |picked| == 0 || exists j :: 0 <= j < |picked| && picked[j].id == m.id
  {
    var picked := CountQuery(db, guildId, queueId, count);
    var ids := IdsOf(picked);
    OrOfIdsMeans((x: Member) => IntCol(x.id), ids, m);
    if exists j :: 0 <= j < |ids| && IntCol(m.id) == Some(VInt(ids[j])) {
      var j :| 0 <= j < |ids| && IntCol(m.id) == Some(VInt(ids[j]));
      assert picked[j].id == m.id;
    }
    if exists j :: 0 <= j < |picked| && picked[j].id == m.id {
      var j :| 0 <= j < |picked| && picked[j].id == m.id;
      assert IntCol(m.id) == Some(VInt(ids[j]));
    }
  }

  /** `deleteManyMembers({ queueId, count })`. */
  function DeleteMembersByCount(db: Db, guildId: Snowflake, queueId: RowId, count: int): (r: (seq<Member>, Db))
    ensures r.0 == Filter(db.members, (m: Member) => CountHits(db, guildId, queueId, count, m))
    ensures r.1 == db.(members := Filter(db.members, (m: Member) => !CountHits(db, guildId, queueId, count, m)))
    ensures |r.1.members| + |r.0| == |db.members|
    ensures Valid(db) ==> Valid(r.1)
  {
    PartitionLength(db.members, (m: Member) => CountHits(db, guildId, queueId, count, m),
      (m: Member) => !CountHits(db, guildId, queueId, count, m));
    FilterKeepsTable(db.members, (m: Member) => !CountHits(db, guildId, queueId, count, m), MemberId, MemberKey, db.nextId);
    (Filter(db.members, (m: Member) => CountHits(db, guildId, queueId, count, m)),
     db.(members := Filter(db.members, (m: Member) => !CountHits(db, guildId, queueId, count, m))))
  }

  /** The count delete removes exactly the members the count query picked. */
  lemma CountDeleteRemovesPicked(db: Db, guildId: Snowflake, queueId: RowId, count: int)
    requires |CountQuery(db, guildId, queueId, count)| > 0
    ensures var picked := CountQuery(db, guildId, queueId, count);
      var r := DeleteMembersByCount(db, guildId, queueId, count);
      forall i :: 0 <= i < |db.members| ==>
        (db.members[i] in r.0 <==> exists j :: 0 <= j < |picked| && picked[j].id == db.members[i].id)
  {
    var r := DeleteMembersByCount(db, guildId, queueId, count);
    forall i | 0 <= i < |db.members|
      ensures db.members[i] in r.0 <==> CountHits(db, guildId, queueId, count, db.members[i])
    {
      FilterMembership(db.members, (m: Member) => CountHits(db, guildId, queueId, count, m), db.members[i]);
    }
    forall i | 0 <= i < |db.members| {
      CountHitsMeans(db, guildId, queueId, count, db.members[i]);
    }
  }

  /** With nothing to pull, the count delete empties the members table of every guild. */
  lemma {:induction false} EmptyCountDeletesEveryMember(db: Db, guildId: Snowflake, queueId: RowId, count: int)
    requires |CountQuery(db, guildId, queueId, count)| == 0
    ensures DeleteMembersByCount(db, guildId, queueId, count).1.members == []
    ensures DeleteMembersByCount(db, guildId, queueId, count).0 == db.members
  {
    var kept := Filter(db.members, (m: Member) => !CountHits(db, guildId, queueId, count, m));
    forall i | 0 <= i < |db.members|
      ensures CountHits(db, guildId, queueId, count, db.members[i])
    {
      CountHitsMeans(db, guildId, queueId, count, db.members[i]);
    }
    FilterAll(db.members, (m: Member) => CountHits(db, guildId, queueId, count, m));
    if |kept| > 0 {
      assert kept[0] in db.members;
    }
  }

  /** The `by` objects of `deleteDisplay` and `deleteManyDisplays`. */
  datatype DisplayBy =
    | DisplayById(id: RowId)
    | DisplayByLastMessage(lastMessageId: Snowflake)
    | DisplayByQueueAndChannel(queueId: RowId, displayChannelId: Snowflake)
    | DisplaysOfGuild(guildId: Snowflake)
    | DisplaysOfQueue(queueId: RowId)
    | DisplaysInChannel(displayChannelId: Snowflake)

  function DisplayParams(crit: DisplayBy): (ps: seq<Param<Display>>)
    ensures |ps| >= 1
  {
    match crit
    case DisplayById(id) => [Param((d: Display) => IntCol(d.id), IntCol(id))]
    case DisplayByLastMessage(mid) => [Param((d: Display) => NullableTextCol(d.lastMessageId), TextCol(mid))]
    case DisplayByQueueAndChannel(q, c) =>
      [Param((d: Display) => IntCol(d.queueId), IntCol(q)), Param((d: Display) => TextCol(d.displayChannelId), TextCol(c))]
    case DisplaysOfGuild(g) => [Param((d: Display) => TextCol(d.guildId), TextCol(g))]
    case DisplaysOfQueue(q) => [Param((d: Display) => IntCol(d.queueId), IntCol(q))]
    case DisplaysInChannel(c) => [Param((d: Display) => TextCol(d.displayChannelId), TextCol(c))]
  }

  predicate DisplaySelected(crit: DisplayBy, d: Display) {
    match crit
    case DisplayById(id) => d.id == id
    case DisplayByLastMessage(mid) => d.lastMessageId == Some(mid)
    case DisplayByQueueAndChannel(q, c) => d.queueId == q && d.displayChannelId == c
    case DisplaysOfGuild(g) => d.guildId == g
    case DisplaysOfQueue(q) => d.queueId == q
    case DisplaysInChannel(c) => d.displayChannelId == c
  }

  lemma DisplayParamsMean(crit: DisplayBy)
    ensures forall d :: Matches(DisplayParams(crit), d) <==> DisplaySelected(crit, d)
  {
    forall d
      ensures Matches(DisplayParams(crit), d) <==> DisplaySelected(crit, d)
    {
      var ps := DisplayParams(crit);
      if |ps| == 1 {
        MatchesOne(ps[0], d);
        assert ps == [ps[0]];
      } else {
        MatchesTwo(ps[0], ps[1], d);
        assert ps == [ps[0], ps[1]];
      }
    }
  }

  /** `deleteDisplay(by)` and `deleteManyDisplays(by)`: every display the `by` names. */
  function DeleteDisplays(db: Db, crit: DisplayBy): (r: (seq<Display>, Db))
    ensures r.0 == Filter(db.displays, (d: Display) => DisplaySelected(crit, d))
    ensures r.1 == db.(displays := Filter(db.displays, (d: Display) => !DisplaySelected(crit, d)))
    ensures Valid(db) ==> Valid(r.1)
  {
    DisplayParamsMean(crit);
    var r := DeleteWhereParams(db.displays, DisplayParams(crit),
      (d: Display) => DisplaySelected(crit, d), (d: Display) => !DisplaySelected(crit, d));
    FilterKeepsTable(db.displays, (d: Display) => !DisplaySelected(crit, d), DisplayId, DisplayKey, db.nextId);
    (r.1, db.(displays := r.0))
  }

  /** The `by` objects of `deleteSchedule` and `deleteManySchedules`. */
  datatype ScheduleBy = ScheduleById(id: RowId) | SchedulesByGuild(guildId: Snowflake) | SchedulesByQueue(queueId: RowId)

  function ScheduleParams(crit: ScheduleBy): (ps: seq<Param<Schedule>>)
    ensures |ps| >= 1
  {
    match crit
    case ScheduleById(id) => [Param((s: Schedule) => IntCol(s.id), IntCol(id))]
    case SchedulesByGuild(g) => [Param((s: Schedule) => TextCol(s.guildId), TextCol(g))]
    case SchedulesByQueue(q) => [Param((s: Schedule) => IntCol(s.queueId), IntCol(q))]
  }

  predicate ScheduleSelected(crit: ScheduleBy, s: Schedule) {
    match crit
    case ScheduleById(id) => s.id == id
    case SchedulesByGuild(g) => s.guildId == g
    case SchedulesByQueue(q) => s.queueId == q
  }

  /** `deleteSchedule(by)` and `deleteManySchedules(by)`. */
  function DeleteSchedules(db: Db, crit: ScheduleBy): (r: (seq<Schedule>, Db))
    ensures r.0 == Filter(db.schedules, (s: Schedule) => ScheduleSelected(crit, s))
    ensures r.1 == db.(schedules := Filter(db.schedules, (s: Schedule) => !ScheduleSelected(crit, s)))
    ensures Valid(db) ==> Valid(r.1)
  {
    assert forall s :: Matches(ScheduleParams(crit), s) <==> ScheduleSelected(crit, s) by {
      forall s ensures Matches(ScheduleParams(crit), s) <==> ScheduleSelected(crit, s) {
        assert ScheduleParams(crit)[0].col(s) == ScheduleParams(crit)[0].value <==> ScheduleSelected(crit, s);
      }
    }
    var r := DeleteWhereParams(db.schedules, ScheduleParams(crit),
      (s: Schedule) => ScheduleSelected(crit, s), (s: Schedule) => !ScheduleSelected(crit, s));
    FilterKeepsTable(db.schedules, (s: Schedule) => !ScheduleSelected(crit, s), ScheduleId, ScheduleKey, db.nextId);
    (r.1, db.(schedules := r.0))
  }

  /**
   * The `by` objects of the whitelist, blacklist and prioritized deletes:
   * an id, a queue and subject, a guild (and subject, when present), or a queue.
   */
  datatype EntryBy =
    | EntryById(id: RowId)
    | EntryByQueueAndSubject(queueId: RowId, subjectId: Snowflake)
    | EntriesByGuild(guildId: Snowflake, subject: Option<Snowflake>)
    | EntriesByQueue(queueId: RowId)

  /** The keys of an entry `by`, over the columns `id`, `guild`, `queue` and `subject` of a row type. */
  function EntryParams<R>(crit: EntryBy, id: R -> RowId, guild: R -> Snowflake, queue: R -> RowId, subject: R -> Snowflake)
    : (ps: seq<Param<R>>)
    ensures |ps| >= 1
  {
    match crit
    case EntryById(i) => [Param((x: R) => IntCol(id(x)), IntCol(i))]
    case EntryByQueueAndSubject(q, s) =>
      [Param((x: R) => IntCol(queue(x)), IntCol(q)), Param((x: R) => TextCol(subject(x)), TextCol(s))]
    case EntriesByGuild(g, s) =>
      [Param((x: R) => TextCol(guild(x)), TextCol(g))]
      + (if s.Some? then [Param((x: R) => TextCol(subject(x)), TextCol(s.value))] else [])
    case EntriesByQueue(q) => [Param((x: R) => IntCol(queue(x)), IntCol(q))]
  }

  predicate EntrySelected<R>(crit: EntryBy, x: R, id: R -> RowId, guild: R -> Snowflake, queue: R -> RowId, subject: R -> Snowflake) {
    match crit
    case EntryById(i) => id(x) == i
    case EntryByQueueAndSubject(q, s) => queue(x) == q && subject(x) == s
    case EntriesByGuild(g, s) => guild(x) == g && (s.Some? ==> subject(x) == s.value)
    case EntriesByQueue(q) => queue(x) == q
  }

  lemma EntryParamsMean<R>(crit: EntryBy, x: R, id: R -> RowId, guild: R -> Snowflake, queue: R -> RowId, subject: R -> Snowflake)
    ensures Matches(EntryParams(crit, id, guild, queue, subject), x) <==> EntrySelected(crit, x, id, guild, queue, subject)
  {
    var ps := EntryParams(crit, id, guild, queue, subject);
    match crit
    case EntryById(i) =>
      assert ps[0].col(x) == ps[0].value <==> id(x) == i;
    case EntryByQueueAndSubject(q, s) =>
      assert ps[0].col(x) == ps[0].value <==> queue(x) == q;
      assert ps[1].col(x) == ps[1].value <==> subject(x) == s;
    case EntriesByGuild(g, s) =>
      assert ps[0].col(x) == ps[0].value <==> guild(x) == g;
      if s.Some? {
        assert ps[1].col(x) == ps[1].value <==> subject(x) == s.value;
      }
    case EntriesByQueue(q) =>
      assert ps[0].col(x) == ps[0].value <==> queue(x) == q;
  }

  function EntryGuild(e: ListEntry): Snowflake { e.guildId }
  function EntryQueue(e: ListEntry): RowId { e.queueId }
  function EntrySubject(e: ListEntry): Snowflake { e.subjectId }

  predicate ListEntrySelected(crit: EntryBy, e: ListEntry) {
    EntrySelected(crit, e, EntryId, EntryGuild, EntryQueue, EntrySubject)
  }

  /** Deleting whitelist or blacklist entries: every entry the `by` names. */
  function DeleteEntries(rows: seq<ListEntry>, crit: EntryBy): (r: (seq<ListEntry>, seq<ListEntry>))
    ensures r.0 == Filter(rows, (e: ListEntry) => !ListEntrySelected(crit, e))
    ensures r.1 == Filter(rows, (e: ListEntry) => ListEntrySelected(crit, e))
  {
    assert forall e :: Matches(EntryParams(crit, EntryId, EntryGuild, EntryQueue, EntrySubject), e) <==> ListEntrySelected(crit, e) by {
      forall e ensures Matches(EntryParams(crit, EntryId, EntryGuild, EntryQueue, EntrySubject), e) <==> ListEntrySelected(crit, e) {
        EntryParamsMean(crit, e, EntryId, EntryGuild, EntryQueue, EntrySubject);
      }
    }
    DeleteWhereParams(rows, EntryParams(crit, EntryId, EntryGuild, EntryQueue, EntrySubject),
      (e: ListEntry) => ListEntrySelected(crit, e), (e: ListEntry) => !ListEntrySelected(crit, e))
  }

  /** `deleteWhitelisted(by)` and `deleteManyWhitelisted(by)`. */
  function DeleteWhitelisted(db: Db, crit: EntryBy): (r: (seq<ListEntry>, Db))
    ensures r.0 == Filter(db.whitelisted, (e: ListEntry) => ListEntrySelected(crit, e))
    ensures r.1 == db.(whitelisted := Filter(db.whitelisted, (e: ListEntry) => !ListEntrySelected(crit, e)))
    ensures Valid(db) ==> Valid(r.1)
  {
    var r := DeleteEntries(db.whitelisted, crit);
    FilterKeepsTable(db.whitelisted, (e: ListEntry) => !ListEntrySelected(crit, e), EntryId, EntryKey, db.nextId);
    (r.1, db.(whitelisted := r.0))
  }

  /** `deleteBlacklisted(by)` and `deleteManyBlacklisted(by)`. */
  function DeleteBlacklisted(db: Db, crit: EntryBy): (r: (seq<ListEntry>, Db))
    ensures r.0 == Filter(db.blacklisted, (e: ListEntry) => ListEntrySelected(crit, e))
    ensures r.1 == db.(blacklisted := Filter(db.blacklisted, (e: ListEntry) => !ListEntrySelected(crit, e)))
    ensures Valid(db) ==> Valid(r.1)
  {
    var r := DeleteEntries(db.blacklisted, crit);
    FilterKeepsTable(db.blacklisted, (e: ListEntry) => !ListEntrySelected(crit, e), EntryId, EntryKey, db.nextId);
    (r.1, db.(blacklisted := r.0))
  }

  function PrioritizedGuild(p: Prioritized): Snowflake { p.guildId }
  function PrioritizedQueue(p: Prioritized): RowId { p.queueId }
  function PrioritizedSubject(p: Prioritized): Snowflake { p.subjectId }

  predicate PrioritizedSelected(crit: EntryBy, p: Prioritized) {
    EntrySelected(crit, p, PrioritizedId, PrioritizedGuild, PrioritizedQueue, PrioritizedSubject)
  }

  /** `deletePrioritized(by)` and `deleteManyPrioritized(by)`. */
  function DeletePrioritized(db: Db, crit: EntryBy): (r: (seq<Prioritized>, Db))
    ensures r.0 == Filter(db.prioritized, (p: Prioritized) => PrioritizedSelected(crit, p))
    ensures r.1 == db.(prioritized := Filter(db.prioritized, (p: Prioritized) => !PrioritizedSelected(crit, p)))
    ensures Valid(db) ==> Valid(r.1)
  {
    assert forall p :: (Matches(EntryParams(crit, PrioritizedId, PrioritizedGuild, PrioritizedQueue, PrioritizedSubject), p)
      <==> PrioritizedSelected(crit, p)) by {
      forall p ensures Matches(EntryParams(crit, PrioritizedId, PrioritizedGuild, PrioritizedQueue, PrioritizedSubject), p)
        <==> PrioritizedSelected(crit, p) {
        EntryParamsMean(crit, p, PrioritizedId, PrioritizedGuild, PrioritizedQueue, PrioritizedSubject);
      }
    }
    var r := DeleteWhereParams(db.prioritized, EntryParams(crit, PrioritizedId, PrioritizedGuild, PrioritizedQueue, PrioritizedSubject),
      (p: Prioritized) => PrioritizedSelected(crit, p), (p: Prioritized) => !PrioritizedSelected(crit, p));
    FilterKeepsTable(db.prioritized, (p: Prioritized) => !PrioritizedSelected(crit, p), PrioritizedId, PrioritizedKey, db.nextId);
    (r.1, db.(prioritized := r.0))
  }

  /** The `by` objects of `deleteAdmin` and `deleteManyAdmin`. */
  datatype AdminBy =
    | AdminById(id: RowId)
    | AdminByGuildAndSubject(guildId: Snowflake, subjectId: Snowflake)
    | AdminsBySubject(subjectId: Snowflake)
    | AdminsByGuild(guildId: Snowflake)

  function AdminParams(crit: AdminBy): (ps: seq<Param<Admin>>)
    ensures |ps| >= 1
  {
    match crit
    case AdminById(id) => [Param((a: Admin) => IntCol(a.id), IntCol(id))]
    case AdminByGuildAndSubject(g, s) =>
      [Param((a: Admin) => TextCol(a.guildId), TextCol(g)), Param((a: Admin) => TextCol(a.subjectId), TextCol(s))]
    case AdminsBySubject(s) => [Param((a: Admin) => TextCol(a.subjectId), TextCol(s))]
    case AdminsByGuild(g) => [Param((a: Admin) => TextCol(a.guildId), TextCol(g))]
  }

  predicate AdminSelected(crit: AdminBy, a: Admin) {
    match crit
    case AdminById(id) => a.id == id
    case AdminByGuildAndSubject(g, s) => a.guildId == g && a.subjectId == s
    case AdminsBySubject(s) => a.subjectId == s
    case AdminsByGuild(g) => a.guildId == g
  }

  /** `deleteAdmin(by)` and `deleteManyAdmin(by)`; a subject alone reaches every guild. */
  function DeleteAdmins(db: Db, crit: AdminBy): (r: (seq<Admin>, Db))
    ensures r.0 == Filter(db.admins, (a: Admin) => AdminSelected(crit, a))
    ensures r.1 == db.(admins := Filter(db.admins, (a: Admin) => !AdminSelected(crit, a)))
    ensures Valid(db) ==> Valid(r.1)
  {
    assert forall a :: Matches(AdminParams(crit), a) <==> AdminSelected(crit, a) by {
      forall a ensures Matches(AdminParams(crit), a) <==> AdminSelected(crit, a) {
        var ps := AdminParams(crit);
        assert ps[0].col(a) == ps[0].value <==> match crit
          case AdminById(id) => a.id == id
          case AdminByGuildAndSubject(g, _) => a.guildId == g
          case AdminsBySubject(s) => a.subjectId == s
          case AdminsByGuild(g) => a.guildId == g;
        if crit.AdminByGuildAndSubject? {
          assert ps[1].col(a) == ps[1].value <==> a.subjectId == crit.subjectId;
        }
      }
    }
    var r := DeleteWhereParams(db.admins, AdminParams(crit),
      (a: Admin) => AdminSelected(crit, a), (a: Admin) => !AdminSelected(crit, a));
    FilterKeepsTable(db.admins, (a: Admin) => !AdminSelected(crit, a), AdminId, AdminKey, db.nextId);
    (r.1, db.(admins := r.0))
  }

  // Queue deletes and the cascade.

  datatype QueueBy = QueueByRowId(id: RowId) | QueuesByGuild(guildId: Snowflake)

  function QueueParams(crit: QueueBy): (ps: seq<Param<Queue>>)
    ensures |ps| >= 1
  {
    match crit
    case QueueByRowId(id) => [Param((q: Queue) => IntCol(q.id), IntCol(id))]
    case QueuesByGuild(g) => [Param((q: Queue) => TextCol(q.guildId), TextCol(g))]
  }

  predicate QueueSelected(crit: QueueBy, q: Queue) {
    match crit
    case QueueByRowId(id) => q.id == id
    case QueuesByGuild(g) => q.guildId == g
  }

  /** `id` is the id of one of the `deleted` queues. */
  predicate AmongDeleted(deleted: seq<Queue>, id: RowId) {
    exists j :: 0 <= j < |deleted| && deleted[j].id == id
  }

  /**
   * `deleteQueue(by)` and `deleteManyQueues(by)`: the queues the `by` names
   * are deleted and SQLite's ON DELETE CASCADE removes every row that
   * references one of them.
   */
  function DeleteQueues(db: Db, crit: QueueBy): (r: (seq<Queue>, Db))
    ensures r.0 == Filter(db.queues, (q: Queue) => QueueSelected(crit, q))
    ensures r.1 == CascadeDeleteQueues(db, (id: RowId) => AmongDeleted(r.0, id))
  {
    assert forall q :: Matches(QueueParams(crit), q) <==> QueueSelected(crit, q) by {
      forall q ensures Matches(QueueParams(crit), q) <==> QueueSelected(crit, q) {
        MatchesOne(QueueParams(crit)[0], q);
        assert QueueParams(crit) == [QueueParams(crit)[0]];
      }
    }
    var d := DeleteWhereParams(db.queues, QueueParams(crit),
      (q: Queue) => QueueSelected(crit, q), (q: Queue) => !QueueSelected(crit, q));
    (d.1, CascadeDeleteQueues(db, (id: RowId) => AmongDeleted(d.1, id)))
  }

  /** Deleting queues leaves exactly the queues the `by` does not name. */
  lemma DeleteQueuesKeepsOthers(db: Db, crit: QueueBy)
    requires UniqueBy(db.queues, QueueId)
    ensures DeleteQueues(db, crit).1.queues == Filter(db.queues, (q: Queue) => !QueueSelected(crit, q))
  {
    var deleted := DeleteQueues(db, crit).0;
    GoneMeansSelected(db.queues, crit, deleted, (id: RowId) => AmongDeleted(deleted, id));
  }

  /**
   * After deleting queues no member, display or schedule references one of
   * them, every member of a surviving queue is still there, and the admins
   * are untouched.
   */
  lemma DeleteQueuesCascades(db: Db, crit: QueueBy)
    ensures var r := DeleteQueues(db, crit);
      && (forall i :: 0 <= i < |r.1.members| ==> !AmongDeleted(r.0, r.1.members[i].queueId))
      && (forall i :: 0 <= i < |r.1.displays| ==> !AmongDeleted(r.0, r.1.displays[i].queueId))
      && (forall i :: 0 <= i < |r.1.schedules| ==> !AmongDeleted(r.0, r.1.schedules[i].queueId))
      && (forall i :: 0 <= i < |db.members| && !AmongDeleted(r.0, db.members[i].queueId) ==> db.members[i] in r.1.members)
      && r.1.admins == db.admins
  {
  }

  lemma DeleteQueuesKeepsValid(db: Db, crit: QueueBy)
    requires Valid(db)
    ensures Valid(DeleteQueues(db, crit).1)
  {
  }

  lemma GoneMeansSelected(queues: seq<Queue>, crit: QueueBy, deleted: seq<Queue>, gone: RowId -> bool)
    requires deleted == Filter(queues, (q: Queue) => QueueSelected(crit, q))
    requires forall id :: gone(id) == AmongDeleted(deleted, id)
    ensures UniqueBy(queues, QueueId) ==>
      Filter(queues, (q: Queue) => !gone(q.id)) == Filter(queues, (q: Queue) => !QueueSelected(crit, q))
  {
    if UniqueBy(queues, QueueId) {
      forall i | 0 <= i < |queues|
        ensures AmongDeleted(deleted, queues[i].id) <==> QueueSelected(crit, queues[i])
      {
        if QueueSelected(crit, queues[i]) {
          SelectedIsGone(queues, crit, deleted, i);
        }
        if AmongDeleted(deleted, queues[i].id) {
          GoneIsSelected(queues, crit, deleted, i);
        }
      }
      FilterExt(queues, (q: Queue) => !gone(q.id), (q: Queue) => !QueueSelected(crit, q));
    }
  }

  /** A selected queue's id is among the deleted ones. */
  lemma SelectedIsGone(queues: seq<Queue>, crit: QueueBy, deleted: seq<Queue>, i: nat)
    requires deleted == Filter(queues, (q: Queue) => QueueSelected(crit, q))
    requires i < |queues| && QueueSelected(crit, queues[i])
    ensures AmongDeleted(deleted, queues[i].id)
  {
    FilterMembership(queues, (q: Queue) => QueueSelected(crit, q), queues[i]);
    var j :| 0 <= j < |deleted| && deleted[j] == queues[i];
  }

  /** With unique ids, a deleted id belongs to a selected queue. */
  lemma GoneIsSelected(queues: seq<Queue>, crit: QueueBy, deleted: seq<Queue>, i: nat)
    requires deleted == Filter(queues, (q: Queue) => QueueSelected(crit, q))
    requires UniqueBy(queues, QueueId) && i < |queues| && AmongDeleted(deleted, queues[i].id)
    ensures QueueSelected(crit, queues[i])
  {
    var j :| 0 <= j < |deleted| && deleted[j].id == queues[i].id;
    FilterMembership(queues, (q: Queue) => QueueSelected(crit, q), deleted[j]);
    var k :| 0 <= k < |queues| && queues[k] == deleted[j];
    assert QueueId(queues[k]) == QueueId(queues[i]);
  }

  // Clean-ups after Discord answers 404.

  /** `jsMember` on a 404: the user's member rows in the guild are deleted. */
  function MemberNotFound(db: Db, guildId: Snowflake, userId: Snowflake): (r: Db)
    ensures forall i :: 0 <= i < |r.members| ==> !(r.members[i].guildId == guildId && r.members[i].userId == userId)
    ensures forall i :: (0 <= i < |db.members| && (db.members[i].guildId != guildId || db.members[i].userId != userId)
      ==> db.members[i] in r.members)
    ensures forall m :: m in r.members <==> m in db.members && !(m.guildId == guildId && m.userId == userId)
    ensures OnlyWrites(db, r, MembersTable) && r == db.(members := r.members)
    ensures Valid(db) ==> Valid(r)
  {
    var r := DeleteMembers(db, MembersByGuild(guildId, Some(userId))).1;
    forall m {
      FilterMembership(db.members, (x: Member) => !MemberSelected(MembersByGuild(guildId, Some(userId)), x), m);
    }
    r
  }

  /** `jsChannel` on a 404: the channel's displays are deleted. */
  function ChannelNotFound(db: Db, channelId: Snowflake): (r: Db)
    ensures forall i :: 0 <= i < |r.displays| ==> r.displays[i].displayChannelId != channelId
    ensures forall i :: 0 <= i < |db.displays| && db.displays[i].displayChannelId != channelId ==> db.displays[i] in r.displays
    ensures forall d :: d in r.displays <==> d in db.displays && d.displayChannelId != channelId
    ensures OnlyWrites(db, r, DisplaysTable) && r == db.(displays := r.displays)
    ensures Valid(db) ==> Valid(r)
  {
    var r := DeleteDisplays(db, DisplaysInChannel(channelId)).1;
    forall d {
      FilterMembership(db.displays, (x: Display) => !DisplaySelected(DisplaysInChannel(channelId), x), d);
    }
    r
  }

  /**
   * What `jsMember` got from Discord: the guild member, a 404 (after which
   * the user's member rows in the guild are deleted), or another failure,
   * which is swallowed. Both failures leave the member undefined.
   */
  datatype UserFetch<U> = UserFound(user: U) | UserNotFound | UserFetchFailed

  /** `u` is a user of `members` whom Discord answers 404 for. */
  predicate Missing<U>(members: seq<Member>, users: Snowflake -> UserFetch<U>, u: Snowflake) {
    users(u).UserNotFound? && exists k :: 0 <= k < |members| && members[k].userId == u
  }

  /** Discord answers no 404 for any user of `members`. */
  predicate NoneMissing<U>(members: seq<Member>, users: Snowflake -> UserFetch<U>) {
    forall k :: 0 <= k < |members| ==> !users(members[k].userId).UserNotFound?
  }

  /**
   * One `jsMember` per member, each 404 deleting that user's member rows in
   * the guild: only the guild's rows of the missing users go.
   */
  function ForgetMissingUsers<U>(db: Db, guildId: Snowflake, members: seq<Member>, users: Snowflake -> UserFetch<U>): (r: Db)
    ensures r == db.(members := r.members)
    ensures forall m :: m in r.members <==> m in db.members && !(m.guildId == guildId && Missing(members, users, m.userId))
    ensures NoneMissing(members, users) ==> r == db
    ensures Valid(db) ==> Valid(r)
    decreases |members|
  {
    if |members| == 0 then db
    else
      var u := members[0].userId;
      var db1 := if users(u).UserNotFound? then MemberNotFound(db, guildId, u) else db;
      var r := ForgetMissingUsers(db1, guildId, members[1..], users);
      assert forall v :: Missing(members, users, v) <==> (v == u && users(u).UserNotFound?) || Missing(members[1..], users, v) by {
        forall v ensures Missing(members, users, v) <==> (v == u && users(u).UserNotFound?) || Missing(members[1..], users, v) {
          if Missing(members, users, v) && v != u {
            var k :| 0 <= k < |members| && members[k].userId == v;
            assert members[1..][k - 1] == members[k];
          }
          if Missing(members[1..], users, v) {
            var k :| 0 <= k < |members[1..]| && members[1..][k].userId == v;
            assert members[k + 1] == members[1..][k];
          }
        }
      }
      r
  }
}

=== FILE: strings.dfy ===
/**
 * The text the bot shows: durations, queue and member mentions, user and
 * role mentions, timestamps and the per-queue tables of list entries.
 * Discord's markdown helpers are written out: `bold` is `**…**`,
 * `userMention` is `<@id>`, `roleMention` `<@&id>`, `channelMention` `<#id>`.
 */
module Strings {
  import opened Wrappers
  import opened Sorting
  import opened Tables
  import opened Text
  import opened Schema
  import opened Misc

  // Markdown.

  function Bold(s: string): string { "**" + s + "**" }
  function InlineCode(s: string): string { "`" + s + "`" }
  function Strikethrough(s: string): string { "~~" + s + "~~" }
  function UserMention(id: Snowflake): string { "<@" + id + ">" }
  function RoleMention(id: Snowflake): string { "<@&" + id + ">" }
  function ChannelMention(id: Snowflake): string { "<#" + id + ">" }

  /** A Discord id: a non-empty run of decimal digits. */
  predicate IsSnowflake(id: Snowflake) {
    |id| > 0 && forall i :: 0 <= i < |id| ==> IsDigit(id[i])
  }

  // Durations.

  /** JavaScript's `%`: the remainder takes the sign of the dividend. */
  function JsRem(a: int, b: int): (r: int)
    requires b > 0
    ensures a >= 0 ==> r == a % b
    ensures a < 0 ==> -b < r <= 0
  {
    if a >= 0 then a % b else -((-a) % b)
  }

  /**
   * `convertSecondsToMinutesAndSeconds`: "m minute(s) and r second(s)",
   * each part only when positive, "s" only above one. Zero and negative
   * inputs give the empty string.
   */
  function Duration(seconds: int): (r: string)
    ensures r == "" <==> seconds <= 0
  {
    if seconds == 0 then ""
    else
      var minutes := seconds / 60;
      var rest := JsRem(seconds, 60);
      CountPhrase(minutes, "minute")
      + ((if minutes > 0 && rest > 0 then " and " else "") + CountPhrase(rest, "second"))
  }

  /** "<n> <unit>", with "s" when `n` is above one; empty unless `n` is positive. */
  function CountPhrase(n: int, unit: string): (r: string)
    ensures r == "" <==> n <= 0
  {
    (if n > 0 then IntToString(n) + " " + unit else "") + Plural(n)
  }

  /** The number of leading decimal digits. */
  function DigitRun(t: string): (k: nat)
    ensures k <= |t|
    ensures forall i :: 0 <= i < k ==> IsDigit(t[i])
    ensures k < |t| ==> !IsDigit(t[k])
  {
    if |t| == 0 || !IsDigit(t[0]) then 0 else 1 + DigitRun(t[1..])
  }

  /** Reads "<n> <unit>" with an optional plural "s", returning `n` and what follows. */
  function ReadCount(t: string, unit: string): Option<(nat, string)> {
    var k := DigitRun(t);
    if k == 0 then None
    else
      var rest := t[k..];
      if |rest| >= |unit| + 1 && rest[..|unit| + 1] == " " + unit then
        var after := rest[|unit| + 1..];
        if |after| > 0 && after[0] == 's' then Some((ParseNat(t[..k]), after[1..]))
        else Some((ParseNat(t[..k]), after))
      else None
  }

  /** Reads a duration phrase back as a number of seconds. */
  function ReadDuration(t: string): Option<nat> {
    if t == "" then Some(0)
    else
      match ReadCount(t, "minute")
      case Some((m, rest)) =>
        if rest == "" then Some(60 * m)
        else if |rest| >= 5 && rest[..5] == " and " then
          match ReadCount(rest[5..], "second")
          case Some((s, tail)) => if tail == "" then Some(60 * m + s) else None
          case None => None
        else None
      case None =>
        match ReadCount(t, "second")
        case Some((s, tail)) => if tail == "" then Some(s) else None
        case None => None
  }

  lemma {:induction false} DigitRunOf(d: string, rest: string)
    requires forall i :: 0 <= i < |d| ==> IsDigit(d[i])
    requires |rest| == 0 || !IsDigit(rest[0])
    ensures DigitRun(d + rest) == |d|
    decreases |d|
  {
    if |d| > 0 {
      assert (d + rest)[1..] == d[1..] + rest;
      DigitRunOf(d[1..], rest);
    }
  }

  function Plural(n: int): string {
    if n > 1 then "s" else ""
  }

  /** "<n> <unit>[s]" followed by text that starts with a space reads back as `n`. */
  lemma ReadCountOf(n: nat, unit: string, tail: string)
    requires |tail| == 0 || tail[0] == ' '
    ensures ReadCount(NatToString(n) + (" " + unit + (Plural(n) + tail)), unit) == Some((n, tail))
  {
    var d := NatToString(n);
    var after := Plural(n) + tail;
    var rest := " " + unit + after;
    var t := d + rest;
    DigitRunOf(d, rest);
    assert t[..|d|] == d && t[|d|..] == rest;
    ParseNatToString(n);
    assert rest[..|unit| + 1] == " " + unit && rest[|unit| + 1..] == after;
    if n > 1 {
      assert after[0] == 's' && after[1..] == tail;
    } else {
      assert after == tail;
    }
  }

  /** A positive duration reads back as the number of seconds it was made from. */
  lemma DurationRoundTrip(seconds: int)
    requires seconds > 0
    ensures ReadDuration(Duration(seconds)) == Some(seconds)
  {
    if seconds / 60 > 0 && seconds % 60 > 0 {
      RoundTripBoth(seconds, seconds / 60, seconds % 60);
    } else if seconds / 60 > 0 {
      RoundTripMinutes(seconds);
    } else {
      RoundTripSeconds(seconds);
    }
  }

  lemma RoundTripBoth(seconds: int, m: nat, s: nat)
    requires m == seconds / 60 > 0 && s == seconds % 60 > 0 && seconds == 60 * m + s
    ensures ReadDuration(Duration(seconds)) == Some(seconds)
  {
    var secs := CountPhrase(s, "second");
    var tail := " and " + secs;
    var r := Duration(seconds);
    BothShape(seconds, m, s, tail);
    ReadTail(tail, secs, s);
    ReadCountAt(r, m, "minute", tail);
    ReadBoth(r, m, s, tail);
    assert ReadDuration(r) == Some(seconds);
  }

  lemma BothShape(seconds: int, m: nat, s: nat, tail: string)
    requires m == seconds / 60 > 0 && s == seconds % 60 > 0
    requires tail == " and " + CountPhrase(s, "second")
    ensures Duration(seconds) == NatToString(m) + (" " + "minute" + (Plural(m) + tail))
  {
    assert JsRem(seconds, 60) == s;
    PhraseOf(m, "minute", tail);
  }

  lemma ReadTail(tail: string, secs: string, s: nat)
    requires s > 0 && secs == CountPhrase(s, "second") && tail == " and " + secs
    ensures |tail| >= 5 && tail[..5] == " and " && ReadCount(tail[5..], "second") == Some((s, ""))
  {
    assert tail[5..] == secs;
    PhraseOf(s, "second", "");
    assert secs == secs + "";
    ReadCountOf(s, "second", "");
  }

  lemma ReadCountAt(r: string, n: nat, unit: string, tail: string)
    requires |tail| == 0 || tail[0] == ' '
    requires r == NatToString(n) + (" " + unit + (Plural(n) + tail))
    ensures r != "" && ReadCount(r, unit) == Some((n, tail))
  {
    ReadCountOf(n, unit, tail);
  }

  lemma RoundTripMinutes(seconds: int)
    requires seconds / 60 > 0 && seconds % 60 == 0
    ensures ReadDuration(Duration(seconds)) == Some(seconds)
  {
    var m := seconds / 60;
    MinutesShape(seconds, m);
    ReadCountAt(Duration(seconds), m, "minute", "");
    ReadMinutesOnly(Duration(seconds), m);
  }

  lemma MinutesShape(seconds: int, m: nat)
    requires m == seconds / 60 > 0 && seconds % 60 == 0
    ensures Duration(seconds) == NatToString(m) + (" " + "minute" + (Plural(m) + ""))
  {
    assert JsRem(seconds, 60) == 0;
    PhraseOf(m, "minute", "");
  }

  lemma RoundTripSeconds(seconds: int)
    requires seconds > 0 && seconds / 60 == 0
    ensures ReadDuration(Duration(seconds)) == Some(seconds)
  {
    SecondsShape(seconds);
    ReadCountAt(Duration(seconds), seconds, "second", "");
    SecondsAreNotMinutes(seconds, Duration(seconds));
    ReadSecondsOnly(Duration(seconds), seconds);
  }

  lemma SecondsShape(seconds: int)
    requires seconds > 0 && seconds / 60 == 0
    ensures Duration(seconds) == NatToString(seconds) + (" " + "second" + (Plural(seconds) + ""))
  {
    assert JsRem(seconds, 60) == seconds;
    PhraseOf(seconds, "second", "");
  }

  /** A positive count phrase, followed by `tail`, in the shape the reader expects. */
  lemma PhraseOf(n: int, unit: string, tail: string)
    requires n > 0
    ensures CountPhrase(n, unit) + tail == NatToString(n) + (" " + unit + (Plural(n) + tail))
  {
    var d := NatToString(n);
    assert IntToString(n) == d;
    assert CountPhrase(n, unit) == d + " " + unit + Plural(n);
  }

  lemma ReadBoth(r: string, m: nat, s: nat, tail: string)
    requires r != "" && ReadCount(r, "minute") == Some((m, tail))
    requires |tail| >= 5 && tail[..5] == " and " && ReadCount(tail[5..], "second") == Some((s, ""))
    ensures ReadDuration(r) == Some(60 * m + s)
  {
  }

  lemma ReadMinutesOnly(r: string, m: nat)
    requires r != "" && ReadCount(r, "minute") == Some((m, ""))
    ensures ReadDuration(r) == Some(60 * m)
  {
  }

  lemma ReadSecondsOnly(r: string, s: nat)
    requires r != "" && ReadCount(r, "minute") == None && ReadCount(r, "second") == Some((s, ""))
    ensures ReadDuration(r) == Some(s)
  {
  }

  lemma SecondsAreNotMinutes(s: nat, r: string)
    requires r == NatToString(s) + (" " + "second" + (Plural(s) + ""))
    ensures ReadCount(r, "minute") == None
  {
    var d := NatToString(s);
    DigitRunOf(d, " " + "second" + (Plural(s) + ""));
    assert r[|d|..][1] == 's';
  }

  // Queue mentions.

  const LockBadge: char := '\U{1F512}'
  const BellBadge: char := '\U{1F514}'
  const AutopullBadge: char := '\U{1F501}'

  predicate IsBadge(c: char) {
    c == LockBadge || c == BellBadge || c == AutopullBadge
  }

  /** Where a badge stands in the fixed order lock, bell, autopull. */
  function BadgeRank(c: char): nat {
    if c == LockBadge then 0 else if c == BellBadge then 1 else 2
  }

  function Badges(q: Queue): seq<string> {
    (if q.lockToggle then [[LockBadge]] else [])
    + (if q.notificationsToggle then [[BellBadge]] else [])
    + (if q.autopullToggle then [[AutopullBadge]] else [])
  }

  /** Each badge whose toggle is on, each preceded by one space. */
  function SpacedBadges(q: Queue): string {
    (if q.lockToggle then [' ', LockBadge] else [])
    + (if q.notificationsToggle then [' ', BellBadge] else [])
    + (if q.autopullToggle then [' ', AutopullBadge] else [])
  }

  /**
   * `queueMention`: the bolded name, then, only when some toggle is on, a
   * space and the badges joined by spaces: every badge that is on gets one
   * leading space, in the order lock, bell, autopull.
   */
  function QueueMention(q: Queue): (r: string)
    ensures r == Bold(q.name) + SpacedBadges(q)
  {
    var badges := Badges(q);
    JoinedBadges(q);
    Bold(q.name) + (if |badges| > 0 then " " + Join(badges, " ") else "")
  }

  lemma JoinedBadges(q: Queue)
    ensures (if |Badges(q)| > 0 then " " + Join(Badges(q), " ") else "") == SpacedBadges(q)
  {
    var l, b, a := [LockBadge], [BellBadge], [AutopullBadge];
    var badges := Badges(q);
    if |badges| == 3 {
      assert badges == [l, b, a];
      assert Join(badges, " ") == l + " " + (b + " " + a);
    } else if |badges| == 2 {
      assert Join(badges, " ") == badges[0] + " " + badges[1];
    }
  }

  /** The suffix after the bold name shows exactly the badges whose toggles are on. */
  lemma QueueMentionBadges(q: Queue)
    ensures var suffix := QueueMention(q)[|q.name| + 4..];
      && (suffix == "" <==> !q.lockToggle && !q.notificationsToggle && !q.autopullToggle)
      && (suffix != "" ==> suffix[0] == ' ')
      && (LockBadge in suffix <==> q.lockToggle)
      && (BellBadge in suffix <==> q.notificationsToggle)
      && (AutopullBadge in suffix <==> q.autopullToggle)
      && (forall i, j :: 0 <= i < j < |suffix| && IsBadge(suffix[i]) && IsBadge(suffix[j]) ==>
            BadgeRank(suffix[i]) < BadgeRank(suffix[j]))
  {
    var suffix := SpacedBadges(q);
    assert QueueMention(q)[|q.name| + 4..] == suffix;
  }

  /** Mentions of each queue, in order. */
  function Mentions(queues: seq<Queue>): (r: seq<string>)
    ensures |r| == |queues|
    ensures forall i :: 0 <= i < |queues| ==> r[i] == QueueMention(queues[i])
  {
    MapSeq(queues, QueueMention)
  }

  /** `queuesMention`: the mentions sorted and joined with ", ". */
  function QueuesMention(queues: seq<Queue>): (r: string)
    ensures |queues| == 0 ==> r == ""
    ensures |queues| == 1 ==> r == QueueMention(queues[0])
  {
    var sorted := SortStrings(Mentions(queues));
    assert |queues| == 1 ==> sorted == [QueueMention(queues[0])] by {
      if |queues| == 1 {
        assert sorted[0] in multiset(Mentions(queues));
      }
    }
    Join(sorted, ", ")
  }

  /** The list of queues reads the same whatever order the queues come in. */
  lemma QueuesMentionIgnoresOrder(a: seq<Queue>, b: seq<Queue>)
    requires multiset(a) == multiset(b)
    ensures QueuesMention(a) == QueuesMention(b)
  {
    MapPermutes(a, b, QueueMention);
    SortedStringsUnique(SortStrings(Mentions(a)), SortStrings(Mentions(b)));
  }

  // User and role mentions.

  /** `mentionableMention`: a role mention for a role entry, a user mention otherwise. */
  function MentionableMention(isRole: bool, subjectId: Snowflake): (r: string)
    ensures |r| == |subjectId| + (if isRole then 4 else 3)
    ensures r[..2] == "<@" && r[|r| - 1] == '>'
  {
    if isRole then RoleMention(subjectId) else UserMention(subjectId)
  }

  /** Reads a user or role mention back into its kind and id. */
  function ReadMention(s: string): Option<(bool, Snowflake)> {
    if |s| >= 4 && s[..3] == "<@&" && s[|s| - 1] == '>' then Some((true, s[3..|s| - 1]))
    else if |s| >= 3 && s[..2] == "<@" && s[|s| - 1] == '>' then Some((false, s[2..|s| - 1]))
    else None
  }

  /** A mention of a Discord id says whether it names a role and which id. */
  lemma MentionRoundTrip(isRole: bool, subjectId: Snowflake)
    requires IsSnowflake(subjectId)
    ensures ReadMention(MentionableMention(isRole, subjectId)) == Some((isRole, subjectId))
  {
    var r := MentionableMention(isRole, subjectId);
    if isRole {
      assert r[3..|r| - 1] == subjectId;
    } else {
      assert r[2] == subjectId[0];
      assert r[2..|r| - 1] == subjectId;
    }
  }

  // Timestamps.

  /** The string value of each `TimestampType`. */
  function TimestampValue(t: TimestampType): string {
    match t
    case Off => "off"
    case Date => "d"
    case Time => "T"
    case DateAndTime => "f"
    case Relative => "R"
  }

  /** The `timestampToStyle` collection: a style letter for every type but Off; `get(undefined)` is absent. */
  function StyleOf(t: Option<TimestampType>): (r: Option<char>)
    ensures r.Some? <==> t.Some? && t.value != Off
    ensures r.Some? ==> [r.value] == TimestampValue(t.value)
  {
    match t
    case Some(Date) => Some('d')
    case Some(Time) => Some('T')
    case Some(DateAndTime) => Some('f')
    case Some(Relative) => Some('R')
    case _ => None
  }

  /**
   * `formatTimestamp`: nothing when the type is Off, otherwise Discord's
   * `time` formatter (a parameter here) with the type's style.
   */
  function FormatTimestamp(joinTime: int, t: Option<TimestampType>, time: (int, Option<char>) -> string): (r: string)
    ensures t == Some(Off) ==> r == ""
    ensures t != Some(Off) ==> r == time(joinTime, StyleOf(t))
  {
    if t != Some(Off) then time(joinTime, StyleOf(t)) else ""
  }

  // Member mentions.

  /** What the bot knows of a fetched Discord member. */
  datatype DiscordUser = DiscordUser(id: Snowflake, username: Option<string>, discriminator: Option<string>)

  predicate Truthy(s: Option<string>) {
    s.Some? && s.value != ""
  }

  const Sparkle: string := "\U{2728}"

  /** The priority marker: shown only for a truthy priority, so priority 0 shows none. */
  function PriorityMarker(priority: Option<int>): (r: string)
    ensures r == Sparkle <==> priority.Some? && priority.value != 0
    ensures r != Sparkle ==> r == ""
  {
    if priority.Some? && priority.value != 0 then Sparkle else ""
  }

  /** " -- message", only for a non-empty message. */
  function MessageSuffix(message: Option<string>): (r: string)
    ensures Truthy(message) ==> r == " -- " + message.value
    ensures !Truthy(message) ==> r == ""
  {
    if Truthy(message) then " -- " + message.value else ""
  }

  /** The member's name: plain text when the queue says so and a username is known, else a mention. */
  function MemberName(displayType: MemberDisplayType, user: DiscordUser): (r: string)
    ensures displayType == Mention || !Truthy(user.username) ==> r == UserMention(user.id)
    ensures displayType == Plaintext && Truthy(user.username) ==>
      |r| >= |user.username.value| && r[..|user.username.value|] == user.username.value
  {
    if displayType == Plaintext && Truthy(user.username) then
      user.username.value + (if Truthy(user.discriminator) then "#" + user.discriminator.value else "")
    else UserMention(user.id)
  }

  /**
   * `memberMention`: timestamp, priority marker, name and message suffix,
   * in that order. The queue is the member's own queue.
   */
  function MemberMention(q: Queue, m: Member, user: DiscordUser, time: (int, Option<char>) -> string): (r: string)
    ensures var ts := FormatTimestamp(m.joinTime, q.timestampType, time);
      && |r| >= |ts| && r[..|ts|] == ts
      && r == ts + PriorityMarker(m.priority) + MemberName(q.memberDisplayType, user) + MessageSuffix(m.message)
  {
    var ts := FormatTimestamp(m.joinTime, q.timestampType, time);
    var r := ts + PriorityMarker(m.priority) + MemberName(q.memberDisplayType, user) + MessageSuffix(m.message);
    assert r[..|ts|] == ts;
    r
  }

  /** As written, a member with priority 0 is shown exactly like an unprioritized one. */
  lemma ZeroPriorityShowsNoMarker(q: Queue, m: Member, user: DiscordUser, time: (int, Option<char>) -> string)
    ensures MemberMention(q, m.(priority := Some(0)), user, time) == MemberMention(q, m.(priority := None), user, time)
    ensures m.priority.Some? && m.priority.value != 0 ==>
      MemberMention(q, m, user, time) != MemberMention(q, m.(priority := None), user, time)
  {
    var ts := FormatTimestamp(m.joinTime, q.timestampType, time);
    var rest := MemberName(q.memberDisplayType, user) + MessageSuffix(m.message);
    if m.priority.Some? && m.priority.value != 0 {
      assert MemberMention(q, m, user, time) == ts + Sparkle + rest;
      assert MemberMention(q, m.(priority := None), user, time) == ts + rest;
      assert |ts + Sparkle + rest| != |ts + rest|;
    }
  }

  // Tables of entries.

  /**
   * A row of a listed table: `isRole` is absent for tables without that
   * column, and `queueId` is absent for admin rows, which are per guild.
   */
  datatype TableItem = TableItem(queueId: Option<RowId>, subjectId: Snowflake, isRole: Option<bool>, reason: Option<string>)

  datatype Embed = Embed(title: string, color: string, description: string)

  /** The smallest of a non-empty run of ids. */
  function MinOf(ids: seq<RowId>): (m: RowId)
    requires |ids| > 0
    ensures m in ids
    ensures forall i :: 0 <= i < |ids| ==> m <= ids[i]
  {
    if |ids| == 1 then ids[0]
    else
      var rest := MinOf(ids[1..]);
      if ids[0] <= rest then ids[0] else rest
  }

  /** The distinct ids, smallest first. */
  function AscendingKeys(ids: seq<RowId>): (r: seq<RowId>)
    ensures forall i, j :: 0 <= i < j < |r| ==> r[i] < r[j]
    ensures forall q :: q in r <==> q in ids
    decreases |ids|
  {
    if |ids| == 0 then []
    else
      var m := MinOf(ids);
      var other := (x: RowId) => x != m;
      var rest := Filter(ids, other);
      KeysShrink(ids, m, other);
      var tail := AscendingKeys(rest);
      KeysStep(ids, m, other, tail);
      [m] + tail
  }

  lemma KeysShrink(ids: seq<RowId>, m: RowId, other: RowId -> bool)
    requires m in ids
    requires forall x :: other(x) == (x != m)
    ensures |Filter(ids, other)| < |ids|
  {
    var same := (x: RowId) => !other(x);
    PartitionLength(ids, other, same);
    FilterMembership(ids, same, m);
  }

  lemma KeysStep(ids: seq<RowId>, m: RowId, other: RowId -> bool, tail: seq<RowId>)
    requires m in ids && forall i :: 0 <= i < |ids| ==> m <= ids[i]
    requires forall x :: other(x) == (x != m)
    requires forall i, j :: 0 <= i < j < |tail| ==> tail[i] < tail[j]
    requires forall q :: q in tail <==> q in Filter(ids, other)
    ensures forall i, j :: 0 <= i < j < |[m] + tail| ==> ([m] + tail)[i] < ([m] + tail)[j]
    ensures forall q :: q in [m] + tail <==> q in ids
  {
    forall q | q in tail
      ensures m < q
    {
      FilterMembership(ids, other, q);
    }
    ConsAscending(m, tail);
    forall q | q in ids
      ensures q in [m] + tail
    {
      FilterMembership(ids, other, q);
    }
    forall q | q in [m] + tail
      ensures q in ids
    {
      if q != m {
        FilterMembership(ids, other, q);
      }
    }
  }

  lemma ConsAscending(m: RowId, tail: seq<RowId>)
    requires forall i, j :: 0 <= i < j < |tail| ==> tail[i] < tail[j]
    requires forall q :: q in tail ==> m < q
    ensures forall i, j :: 0 <= i < j < |[m] + tail| ==> ([m] + tail)[i] < ([m] + tail)[j]
  {
    var r := [m] + tail;
    forall i, j | 0 <= i < j < |r|
      ensures r[i] < r[j]
    {
      assert r[j] == tail[j - 1];
      if i == 0 {
        assert tail[j - 1] in tail;
      } else {
        assert r[i] == tail[i - 1];
      }
    }
  }

  /** The queue ids the entries carry, in entry order. */
  function ScopedIds(entries: seq<TableItem>): (r: seq<RowId>)
    ensures forall q :: q in r <==> exists k :: 0 <= k < |entries| && entries[k].queueId == Some(q)
    ensures (forall k :: 0 <= k < |entries| ==> entries[k].queueId.None?) ==> r == []
  {
    if |entries| == 0 then []
    else
      var rest := ScopedIds(entries[1..]);
      assert forall k :: 1 <= k < |entries| ==> entries[k] == entries[1..][k - 1];
      if entries[0].queueId.Some? then [entries[0].queueId.value] + rest else rest
  }

  /** Some entry carries no queue id: an admin row, which belongs to every queue. */
  predicate HasUnscoped(entries: seq<TableItem>) {
    exists k :: 0 <= k < |entries| && entries[k].queueId.None?
  }

  /**
   * The keys of `groupBy(entries, "queueId")` in `Object.entries` order.
   * Integer-like keys enumerate first, in ascending numeric order. Rows
   * without a queue id are grouped under the string key "undefined", which
   * enumerates after them.
   */
  function GroupKeys(entries: seq<TableItem>): (r: seq<Option<RowId>>)
    ensures forall i, j :: 0 <= i < j < |r| ==> r[i].Some? && (r[j].Some? ==> r[i].value < r[j].value)
    ensures forall q :: q in r <==> exists k :: 0 <= k < |entries| && entries[k].queueId == q
  {
    var ids := ScopedIds(entries);
    var scoped := AsKeys(AscendingKeys(ids));
    var r := if HasUnscoped(entries) then scoped + [None] else scoped;
    KeysMembership(entries, ids, r);
    KeysOrder(scoped, r);
    r
  }

  /** The keys are those of the scoped ids, plus the key of unscoped rows when there are any. */
  lemma KeysMembership(entries: seq<TableItem>, ids: seq<RowId>, r: seq<Option<RowId>>)
    requires forall q :: q in ids <==> exists k :: 0 <= k < |entries| && entries[k].queueId == Some(q)
    requires forall q: Option<RowId> :: q in r <==> (q.Some? && q.value in ids) || (q.None? && HasUnscoped(entries))
    ensures forall q :: q in r <==> exists k :: 0 <= k < |entries| && entries[k].queueId == q
  {
    forall q: Option<RowId>
      ensures q in r <==> exists k :: 0 <= k < |entries| && entries[k].queueId == q
    {
      if q.Some? {
        assert q in r <==> q.value in ids;
      }
    }
  }

  /** Appending the unscoped key after ascending scoped keys keeps it last. */
  lemma KeysOrder(scoped: seq<Option<RowId>>, r: seq<Option<RowId>>)
    requires forall i :: 0 <= i < |scoped| ==> scoped[i].Some?
    requires forall i, j :: 0 <= i < j < |scoped| ==> scoped[i].value < scoped[j].value
    requires r == scoped || r == scoped + [None]
    ensures forall i, j :: 0 <= i < j < |r| ==> r[i].Some? && (r[j].Some? ==> r[i].value < r[j].value)
  {
  }

  /** Ascending ids as `groupBy` keys. */
  function AsKeys(ids: seq<RowId>): (r: seq<Option<RowId>>)
    requires forall i, j :: 0 <= i < j < |ids| ==> ids[i] < ids[j]
    ensures |r| == |ids|
    ensures forall i :: 0 <= i < |r| ==> r[i] == Some(ids[i])
    ensures forall q: Option<RowId> :: q in r <==> q.Some? && q.value in ids
  {
    var r: seq<Option<RowId>> := seq(|ids|, i requires 0 <= i < |ids| => Some(ids[i]));
    forall q: Option<RowId> | q.Some? && q.value in ids
      ensures q in r
    {
      var i :| 0 <= i < |ids| && ids[i] == q.value;
      assert r[i] == q;
    }
    r
  }

  /** "- <mention>", then " - reason" for a non-empty reason. */
  function EntryLine(e: TableItem, asRole: bool): string {
    "- " + (if asRole then RoleMention(e.subjectId) else UserMention(e.subjectId))
    + (if Truthy(e.reason) then " - " + e.reason.value else "")
  }

  predicate IsRoleItem(e: TableItem) {
    e.isRole == Some(true)
  }

  function Lines(items: seq<TableItem>, asRole: bool): (r: seq<string>)
    ensures |r| == |items|
    ensures forall i :: 0 <= i < |items| ==> r[i] == EntryLine(items[i], asRole)
  {
    seq(|items|, i requires 0 <= i < |items| => EntryLine(items[i], asRole))
  }

  /**
   * The lines of one queue's group. When the group's first row has an
   * `isRole` column, role entries come first and user entries after, each
   * block sorted; otherwise the lines come from `mentionFn`, sorted, or
   * there are none.
   */
  function ItemStrings(group: seq<TableItem>, mentionFn: Option<TableItem -> string>): (r: seq<string>)
    requires |group| > 0
    ensures group[0].isRole.Some? ==>
      var roles := Filter(group, IsRoleItem);
      var users := Filter(group, (e: TableItem) => !IsRoleItem(e));
      && |r| == |group|
      && SortedBy(LexLe, r[..|roles|]) && multiset(r[..|roles|]) == multiset(Lines(roles, true))
      && SortedBy(LexLe, r[|roles|..]) && multiset(r[|roles|..]) == multiset(Lines(users, false))
    ensures group[0].isRole.None? && mentionFn.None? ==> r == []
    ensures group[0].isRole.None? && mentionFn.Some? ==>
      |r| == |group| && SortedBy(LexLe, r) && multiset(r) == multiset(MapSeq(group, mentionFn.value))
  {
    if group[0].isRole.Some? then
      var roles := Filter(group, IsRoleItem);
      var users := Filter(group, (e: TableItem) => !IsRoleItem(e));
      PartitionLength(group, IsRoleItem, (e: TableItem) => !IsRoleItem(e));
      var a, b := SortStrings(Lines(roles, true)), SortStrings(Lines(users, false));
      assert |a| == |roles| by { assert |a| == |multiset(a)| == |multiset(Lines(roles, true))|; }
      assert |b| == |users| by { assert |b| == |multiset(b)| == |multiset(Lines(users, false))|; }
      assert (a + b)[..|roles|] == a && (a + b)[|roles|..] == b;
      a + b
    else if mentionFn.Some? then
      var lines := MapSeq(group, mentionFn.value);
      var r := SortStrings(lines);
      assert |r| == |multiset(r)| == |multiset(lines)|;
      r
    else []
  }

  /** `dbQueues().get(id)`. */
  function QueueById(queues: seq<Queue>, id: RowId): (r: Option<Queue>)
    ensures r.Some? ==> r.value in queues && r.value.id == id
    ensures r.None? ==> forall i :: 0 <= i < |queues| ==> queues[i].id != id
  {
    if |queues| == 0 then None
    else if queues[0].id == id then Some(queues[0])
    else QueueById(queues[1..], id)
  }

  function NoneText(tableName: string): string {
    "No " + Lower(tableName) + "."
  }

  /**
   * The embed of one group. The key "undefined" of rows without a queue id
   * makes `BigInt` throw, and the caught error leaves no queue: the title
   * then reads "all queues".
   */
  function GroupEmbed(queues: seq<Queue>, tableName: string, color: string, group: seq<TableItem>, queueId: Option<RowId>,
                      mentionFn: Option<TableItem -> string>): Embed
    requires |group| > 0
  {
    var q := if queueId.Some? then QueueById(queues, queueId.value) else None;
    var items := ItemStrings(group, mentionFn);
    Embed(TableTitle(tableName, q), color, if |items| > 0 then Join(items, "\n") else NoneText(tableName))
  }

  /** "<table> of the '<queue>' queue", or "<table> of all queues" without a queue. */
  function TableTitle(tableName: string, q: Option<Queue>): string {
    tableName + " of " + (if q.Some? then "the '" + QueueMention(q.value) + "' queue" else "all queues")
  }

  /** One queue's share of the entries, in their original order (a `groupBy` group). */
  function QueueGroup(entries: seq<TableItem>, queueId: Option<RowId>): (r: seq<TableItem>)
    ensures forall e :: e in r <==> e in entries && e.queueId == queueId
    ensures (forall k :: 0 <= k < |entries| ==> entries[k].queueId == queueId) ==> r == entries
  {
    var group := Filter(entries, (e: TableItem) => e.queueId == queueId);
    forall e
      ensures e in group <==> e in entries && e.queueId == queueId
    {
      FilterMembership(entries, (e: TableItem) => e.queueId == queueId, e);
    }
    if forall k :: 0 <= k < |entries| ==> entries[k].queueId == queueId then
      FilterAll(entries, (e: TableItem) => e.queueId == queueId);
      group
    else group
  }

  /** Every entry belongs to the group of its own queue, and that group has a key. */
  lemma EntryInOwnGroup(entries: seq<TableItem>, k: nat)
    requires k < |entries|
    ensures entries[k].queueId in GroupKeys(entries)
    ensures entries[k] in QueueGroup(entries, entries[k].queueId)
  {
  }

  /** The group of every key is non-empty. */
  lemma KeyGroupNonEmpty(entries: seq<TableItem>, key: Option<RowId>)
    requires key in GroupKeys(entries)
    ensures |QueueGroup(entries, key)| > 0
  {
    var k :| 0 <= k < |entries| && entries[k].queueId == key;
    assert entries[k] in QueueGroup(entries, key);
  }

  /** The embed of the queue `key`, describing that queue's group. */
  function KeyEmbed(queues: seq<Queue>, tableName: string, color: string, entries: seq<TableItem>, key: Option<RowId>,
                    mentionFn: Option<TableItem -> string>): Embed
    requires key in GroupKeys(entries)
  {
    KeyGroupNonEmpty(entries, key);
    GroupEmbed(queues, tableName, color, QueueGroup(entries, key), key, mentionFn)
  }

  /**
   * `describeTable`: one embed per queue that has entries, in ascending
   * queue id order, each describing that queue's entries, then one embed
   * for the rows without a queue id; a single "No …" embed when there are
   * no entries at all.
   */
  function DescribeTable(queues: seq<Queue>, tableName: string, color: string, entries: seq<TableItem>,
                         mentionFn: Option<TableItem -> string>): (r: seq<Embed>)
    ensures |r| >= 1
    ensures |entries| == 0 ==> r == [Embed(tableName, color, NoneText(tableName))]
    ensures |entries| > 0 ==> |r| == |GroupKeys(entries)|
    ensures |entries| > 0 ==> forall i :: 0 <= i < |r| ==>
      r[i] == KeyEmbed(queues, tableName, color, entries, GroupKeys(entries)[i], mentionFn)
  {
    if |entries| == 0 then
      [Embed(tableName, color, NoneText(tableName))]
    else
      var keys := GroupKeys(entries);
      EntryInOwnGroup(entries, 0);
      seq(|keys|, i requires 0 <= i < |keys| => KeyEmbed(queues, tableName, color, entries, keys[i], mentionFn))
  }

  /**
   * The admins table: when no entry carries a queue id, there is a single
   * embed, titled for all queues, and it describes every entry.
   */
  lemma UnscopedTableIsOneEmbed(queues: seq<Queue>, tableName: string, color: string, entries: seq<TableItem>,
                                mentionFn: Option<TableItem -> string>)
    requires |entries| > 0
    requires forall k :: 0 <= k < |entries| ==> entries[k].queueId.None?
    ensures var r := DescribeTable(queues, tableName, color, entries, mentionFn);
      && r == [GroupEmbed(queues, tableName, color, entries, None, mentionFn)]
      && r[0].title == tableName + " of " + "all queues"
  {
    UnscopedKeys(entries);
    var r := DescribeTable(queues, tableName, color, entries, mentionFn);
    assert |r| == 1;
    assert QueueGroup(entries, None) == entries;
    assert r[0] == KeyEmbed(queues, tableName, color, entries, None, mentionFn);
    UnscopedTitle(queues, tableName, color, entries, mentionFn);
  }

  /** Without a queue the title names all queues. */
  lemma UnscopedTitle(queues: seq<Queue>, tableName: string, color: string, group: seq<TableItem>,
                      mentionFn: Option<TableItem -> string>)
    requires |group| > 0
    ensures GroupEmbed(queues, tableName, color, group, None, mentionFn).title == tableName + " of " + "all queues"
  {
    assert GroupEmbed(queues, tableName, color, group, None, mentionFn).title == TableTitle(tableName, None);
  }

  /** Rows without a queue id all fall under the one key "undefined". */
  lemma UnscopedKeys(entries: seq<TableItem>)
    requires |entries| > 0
    requires forall k :: 0 <= k < |entries| ==> entries[k].queueId.None?
    ensures GroupKeys(entries) == [None]
  {
    assert ScopedIds(entries) == [];
    assert HasUnscoped(entries) by {
      assert entries[0].queueId.None?;
    }
  }


}

=== FILE: tables.dfy ===
/**
 * A table is the sequence of its rows in rowid order (the order SQLite
 * returns rows in when a query has no ORDER BY). This module holds the
 * row-level operations every table shares: filtering, insertion with or
 * without a conflict, upsert on a unique key, update by id, and deletion by a
 * condition.
 */
module Tables {
  import opened Wrappers

  /** No two rows agree on `key`: a UNIQUE constraint. */
  predicate UniqueBy<R, K(==)>(rows: seq<R>, key: R -> K) {
    forall i, j :: 0 <= i < j < |rows| ==> key(rows[i]) != key(rows[j])
  }

  /** Row ids are strictly increasing (rowid order). */
  predicate IdsAscending<R>(rows: seq<R>, id: R -> nat) {
    forall i, j :: 0 <= i < j < |rows| ==> id(rows[i]) < id(rows[j])
  }

  /** Ascending ids are in particular unique. */
  lemma AscendingIdsUnique<R>(rows: seq<R>, id: R -> nat)
    requires IdsAscending(rows, id)
    ensures UniqueBy(rows, id)
  {
  }

  /** The rows satisfying `p`, in table order (a WHERE clause). */
  function Filter<R>(rows: seq<R>, p: R -> bool): (r: seq<R>)
    ensures |r| <= |rows|
    ensures forall i :: 0 <= i < |r| ==> r[i] in rows
    ensures forall i :: 0 <= i < |rows| && p(rows[i]) ==> rows[i] in r
    ensures forall i :: 0 <= i < |r| ==> p(r[i])
  {
    if |rows| == 0 then []
    else if p(rows[0]) then [rows[0]] + Filter(rows[1..], p)
    else Filter(rows[1..], p)
  }

  lemma {:induction false} FilterAppend<R>(a: seq<R>, b: seq<R>, p: R -> bool)
    ensures Filter(a + b, p) == Filter(a, p) + Filter(b, p)
  {
    if |a| > 0 {
      assert (a + b)[1..] == a[1..] + b;
      FilterAppend(a[1..], b, p);
    } else {
      assert a + b == b;
    }
  }

  /** Filtering twice is filtering by the conjunction. */
  lemma {:induction false} FilterFilter<R>(rows: seq<R>, p: R -> bool, q: R -> bool)
    ensures Filter(Filter(rows, p), q) == Filter(rows, x => p(x) && q(x))
  {
    if |rows| > 0 {
      FilterFilter(rows[1..], p, q);
    }
  }

  /** Filtering twice is filtering by any predicate that agrees with the conjunction. */
  lemma FilterFilterExt<R>(rows: seq<R>, p: R -> bool, q: R -> bool, both: R -> bool)
    requires forall i :: 0 <= i < |rows| ==> both(rows[i]) == (p(rows[i]) && q(rows[i]))
    ensures Filter(Filter(rows, p), q) == Filter(rows, both)
  {
    FilterFilter(rows, p, q);
    FilterExt(rows, x => p(x) && q(x), both);
  }

  /** A filter keeps the table's order: it is a subsequence. */
  lemma {:induction false} FilterOfUnique<R, K>(rows: seq<R>, p: R -> bool, key: R -> K)
    requires UniqueBy(rows, key)
    ensures UniqueBy(Filter(rows, p), key)
  {
    if |rows| > 0 {
      FilterOfUnique(rows[1..], p, key);
      var rest := Filter(rows[1..], p);
      forall x | x in rest
        ensures key(x) != key(rows[0])
      {
        var k :| 0 <= k < |rows[1..]| && rows[1..][k] == x;
        assert rows[k + 1] == x;
      }
    }
  }

  /** A row is in the filter exactly when it is in the table and passes `p`. */
  lemma FilterMembership<R>(rows: seq<R>, p: R -> bool, x: R)
    ensures x in Filter(rows, p) <==> x in rows && p(x)
  {
    if x in Filter(rows, p) {
      var k :| 0 <= k < |Filter(rows, p)| && Filter(rows, p)[k] == x;
    }
    if x in rows && p(x) {
      var k :| 0 <= k < |rows| && rows[k] == x;
    }
  }

  /** Index of the first row satisfying `p`. */
  function FindIndex<R>(rows: seq<R>, p: R -> bool): (r: Option<nat>)
    ensures r.Some? ==> r.value < |rows| && p(rows[r.value])
    ensures r.Some? ==> forall i :: 0 <= i < r.value ==> !p(rows[i])
    ensures r.None? ==> forall i :: 0 <= i < |rows| ==> !p(rows[i])
  {
    if |rows| == 0 then None
    else if p(rows[0]) then Some(0)
    else match FindIndex(rows[1..], p)
      case None => None
      case Some(i) => Some(i + 1)
  }

  /** The first row satisfying `p` (`Array.prototype.find`). */
  function FirstWhere<R>(rows: seq<R>, p: R -> bool): (r: Option<R>)
    ensures r.Some? <==> exists i :: 0 <= i < |rows| && p(rows[i])
    ensures r.Some? ==> r.value in rows && p(r.value)
  {
    match FindIndex(rows, p)
    case None => None
    case Some(i) => Some(rows[i])
  }

  /** INSERT without ON CONFLICT: `None` when a row with the same unique key exists. */
  function InsertUnique<R, K(==)>(rows: seq<R>, key: R -> K, row: R): (r: Option<seq<R>>)
    ensures r.None? <==> exists i :: 0 <= i < |rows| && key(rows[i]) == key(row)
    ensures r.Some? ==> r.value == rows + [row]
    ensures r.Some? && UniqueBy(rows, key) ==> UniqueBy(r.value, key)
  {
    match FindIndex(rows, x => key(x) == key(row))
    case Some(_) => None
    case None => Some(rows + [row])
  }

  /**
   * INSERT ... ON CONFLICT (key) DO UPDATE: when a row has the key of `row`,
   * it becomes `merge(old, row)`; otherwise `row` is appended.
   */
  function Upsert<R, K(==)>(rows: seq<R>, key: R -> K, row: R, merge: (R, R) -> R): (r: seq<R>)
    requires forall i :: 0 <= i < |rows| ==> key(merge(rows[i], row)) == key(row)
    ensures (exists i :: 0 <= i < |rows| && key(rows[i]) == key(row)) ==> |r| == |rows|
    ensures (forall i :: 0 <= i < |rows| ==> key(rows[i]) != key(row)) ==> r == rows + [row]
    ensures exists i :: 0 <= i < |r| && key(r[i]) == key(row)
    ensures UniqueBy(rows, key) ==> UniqueBy(r, key)
    ensures forall i :: 0 <= i < |rows| && key(rows[i]) != key(row) ==> i < |r| && r[i] == rows[i]
  {
    match FindIndex(rows, x => key(x) == key(row))
    case Some(i) =>
      var r := rows[i := merge(rows[i], row)];
      assert key(r[i]) == key(row);
      r
    case None =>
      var r := rows + [row];
      assert key(r[|rows|]) == key(row);
      r
  }

  /**
   * UPDATE ... SET row WHERE id = id(row): the row with that id becomes
   * `row`. `None` when the new values repeat the unique key of another row
   * (the UNIQUE constraint fails); the table is unchanged when no row has
   * the id.
   */
  function ReplaceById<R, K(==)>(rows: seq<R>, id: R -> nat, key: R -> K, row: R): (r: Option<seq<R>>)
    ensures r.Some? ==> |r.value| == |rows|
    ensures r.Some? ==> forall k :: 0 <= k < |rows| ==> id(r.value[k]) == id(rows[k])
    ensures r.Some? && UniqueBy(rows, id) ==>
      forall k :: 0 <= k < |rows| ==> r.value[k] == if id(rows[k]) == id(row) then row else rows[k]
    ensures r.Some? && UniqueBy(rows, key) ==> UniqueBy(r.value, key)
    ensures r.None? && UniqueBy(rows, id) ==>
      exists j :: 0 <= j < |rows| && id(rows[j]) != id(row) && key(rows[j]) == key(row)
    ensures UniqueBy(rows, id) && (forall j :: 0 <= j < |rows| && key(rows[j]) == key(row) ==> id(rows[j]) == id(row))
      ==> r.Some?
    ensures (forall k :: 0 <= k < |rows| ==> id(rows[k]) != id(row)) ==> r == Some(rows)
  {
    match FindIndex(rows, x => id(x) == id(row))
    case None => Some(rows)
    case Some(i) =>
      if exists j :: 0 <= j < |rows| && j != i && key(rows[j]) == key(row) then
        assert UniqueBy(rows, id) ==>
          exists j :: 0 <= j < |rows| && id(rows[j]) != id(row) && key(rows[j]) == key(row) by {
          if UniqueBy(rows, id) {
            var j :| 0 <= j < |rows| && j != i && key(rows[j]) == key(row);
            assert id(rows[j]) != id(rows[i]);
          }
        }
        None
      else
        var r := rows[i := row];
        assert UniqueBy(rows, key) ==> UniqueBy(r, key) by {
          if UniqueBy(rows, key) {
            forall a, b | 0 <= a < b < |r|
              ensures key(r[a]) != key(r[b])
            {
              if a == i || b == i {
                assert key(row) == key(r[i]);
              }
            }
          }
        }
        Some(r)
  }

  /** Replacing a row by one with the same key keeps the key unique. */
  lemma ReplaceKeepsUnique<R, K>(rows: seq<R>, key: R -> K, i: nat, x: R)
    requires i < |rows| && key(x) == key(rows[i])
    requires UniqueBy(rows, key)
    ensures UniqueBy(rows[i := x], key)
  {
    var r := rows[i := x];
    forall a, b | 0 <= a < b < |r|
      ensures key(r[a]) != key(r[b])
    {
      assert key(r[a]) == key(rows[a]) && key(r[b]) == key(rows[b]);
    }
  }

  /** UPDATE ... WHERE id = target: `f` applied to the row(s) with that id. */
  function UpdateWhere<R>(rows: seq<R>, p: R -> bool, f: R -> R): (r: seq<R>)
    ensures |r| == |rows|
    ensures forall i :: 0 <= i < |rows| ==> r[i] == if p(rows[i]) then f(rows[i]) else rows[i]
  {
    seq(|rows|, i requires 0 <= i < |rows| => if p(rows[i]) then f(rows[i]) else rows[i])
  }

  /** DELETE ... WHERE p RETURNING *: the rows kept and the rows deleted, both in table order. */
  function DeleteWhere<R>(rows: seq<R>, p: R -> bool): (r: (seq<R>, seq<R>))
    ensures r.0 == Filter(rows, x => !p(x))
    ensures r.1 == Filter(rows, p)
    ensures multiset(r.0) + multiset(r.1) == multiset(rows)
  {
    PartitionMultiset(rows, p);
    (Filter(rows, x => !p(x)), Filter(rows, p))
  }

  /** A filter and its complement split the rows between them. */
  lemma PartitionLength<R>(rows: seq<R>, p: R -> bool, q: R -> bool)
    requires forall i :: 0 <= i < |rows| ==> q(rows[i]) == !p(rows[i])
    ensures |Filter(rows, q)| + |Filter(rows, p)| == |rows|
  {
    FilterExt(rows, x => !p(x), q);
    PartitionMultiset(rows, p);
    assert |multiset(Filter(rows, q))| + |multiset(Filter(rows, p))| == |multiset(rows)|;
  }

  lemma {:induction false} PartitionMultiset<R>(rows: seq<R>, p: R -> bool)
    ensures multiset(Filter(rows, x => !p(x))) + multiset(Filter(rows, p)) == multiset(rows)
  {
    if |rows| > 0 {
      PartitionMultiset(rows[1..], p);
      assert rows == [rows[0]] + rows[1..];
    }
  }

  /** `.returning().get()`: the first returned row, if any. */
  function First<R>(rows: seq<R>): (r: Option<R>)
    ensures r.Some? <==> |rows| > 0
    ensures r.Some? ==> r.value == rows[0]
  {
    if |rows| == 0 then None else Some(rows[0])
  }

  /** Filtering keeps ascending ids ascending. */
  lemma {:induction false} FilterAscending<R>(rows: seq<R>, p: R -> bool, id: R -> nat)
    requires IdsAscending(rows, id)
    ensures IdsAscending(Filter(rows, p), id)
  {
    if |rows| > 0 {
      FilterAscending(rows[1..], p, id);
      var rest := Filter(rows[1..], p);
      forall k | 0 <= k < |rest|
        ensures id(rows[0]) < id(rest[k])
      {
        var j :| 0 <= j < |rows[1..]| && rows[1..][j] == rest[k];
        assert rows[j + 1] == rest[k];
      }
    }
  }

  /** Filters by pointwise-equal predicates agree. */
  lemma {:induction false} FilterExt<R>(rows: seq<R>, p: R -> bool, q: R -> bool)
    requires forall i :: 0 <= i < |rows| ==> p(rows[i]) == q(rows[i])
    ensures Filter(rows, p) == Filter(rows, q)
  {
    if |rows| > 0 {
      FilterExt(rows[1..], p, q);
    }
  }

  /** Two filters commute. */
  lemma FilterCommute<R>(rows: seq<R>, p: R -> bool, q: R -> bool)
    ensures Filter(Filter(rows, p), q) == Filter(Filter(rows, q), p)
  {
    FilterFilter(rows, p, q);
    FilterFilter(rows, q, p);
    FilterExt(rows, x => p(x) && q(x), x => q(x) && p(x));
  }

  /** Every row of `rows` passes `p`: the filter is the identity. */
  lemma {:induction false} FilterAll<R>(rows: seq<R>, p: R -> bool)
    requires forall i :: 0 <= i < |rows| ==> p(rows[i])
    ensures Filter(rows, p) == rows
  {
    if |rows| > 0 {
      FilterAll(rows[1..], p);
      assert rows == [rows[0]] + rows[1..];
    }
  }

  /** No row passes `p`: the filter is empty. */
  lemma {:induction false} FilterNone<R>(rows: seq<R>, p: R -> bool)
    requires forall i :: 0 <= i < |rows| ==> !p(rows[i])
    ensures Filter(rows, p) == []
  {
    if |rows| > 0 {
      FilterNone(rows[1..], p);
    }
  }

  /**
   * In a table with unique ids, deleting the row whose id is that of
   * `rows[m]` (by any predicate `p` that tests exactly that) is removing index `m`.
   */
  lemma {:induction false} FilterOutId<R>(rows: seq<R>, id: R -> nat, m: nat, p: R -> bool)
    requires m < |rows|
    requires UniqueBy(rows, id)
    requires forall i :: 0 <= i < |rows| ==> p(rows[i]) == (id(rows[i]) != id(rows[m]))
    ensures Filter(rows, p) == rows[..m] + rows[m + 1..]
  {
    if m == 0 {
      FilterAll(rows[1..], p);
      assert rows[m + 1..] == rows[1..];
    } else {
      var tail := rows[1..];
      UniqueTail(rows, id);
      assert forall i :: 0 <= i < |tail| ==> tail[i] == rows[i + 1];
      FilterOutId(tail, id, m - 1, p);
      assert p(rows[0]);
      assert Filter(rows, p) == [rows[0]] + Filter(tail, p);
      SpliceCons(rows, m);
    }
  }

  lemma UniqueTail<R, K>(rows: seq<R>, key: R -> K)
    requires |rows| > 0 && UniqueBy(rows, key)
    ensures UniqueBy(rows[1..], key)
  {
    var tail := rows[1..];
    forall i, j | 0 <= i < j < |tail|
      ensures key(tail[i]) != key(tail[j])
    {
      assert tail[i] == rows[i + 1] && tail[j] == rows[j + 1];
    }
  }

  /** Cutting index `m > 0` out of a sequence keeps its head in front. */
  lemma SpliceCons<R>(rows: seq<R>, m: nat)
    requires 0 < m < |rows|
    ensures rows[..m] + rows[m + 1..] == [rows[0]] + (rows[1..][..m - 1] + rows[1..][m..])
  {
    assert rows[..m] == [rows[0]] + rows[1..][..m - 1];
    assert rows[m + 1..] == rows[1..][m..];
  }

  /** `uniq(xs)`: the first occurrence of every element, in order. */
  function Uniq<T(==,!new)>(xs: seq<T>): (r: seq<T>)
    ensures forall x :: x in r <==> x in xs
    ensures forall i, j :: 0 <= i < j < |r| ==> r[i] != r[j]
    ensures |r| <= |xs|
  {
    UniqAcc(xs, [])
  }

  function UniqAcc<T(==,!new)>(xs: seq<T>, seen: seq<T>): (r: seq<T>)
    requires forall i, j :: 0 <= i < j < |seen| ==> seen[i] != seen[j]
    ensures forall x :: x in r <==> x in xs || x in seen
    ensures forall i, j :: 0 <= i < j < |r| ==> r[i] != r[j]
    ensures |r| <= |xs| + |seen|
    ensures |seen| <= |r| && r[..|seen|] == seen
    decreases |xs|
  {
    if |xs| == 0 then seen
    else if xs[0] in seen then UniqAcc(xs[1..], seen)
    else UniqAcc(xs[1..], seen + [xs[0]])
  }
}

=== FILE: text.dfy ===
/**
 * String helpers the rest of the model is written with: decimal rendering of
 * numbers (JavaScript's `String(n)`), joining, ASCII lower-casing,
 * case-insensitive search, right padding, and the code-point order used to
 * model JavaScript's default string sort.
 */
module Text {
  import opened Sorting
  import opened Wrappers

  predicate IsDigit(c: char) {
    '0' <= c <= '9'
  }

  function DigitChar(d: nat): (c: char)
    requires d < 10
    ensures IsDigit(c)
  {
    "0123456789"[d]
  }

  function DigitValue(c: char): (d: nat)
    requires IsDigit(c)
    ensures d < 10
  {
    (c as int) - ('0' as int)
  }

  /** Decimal rendering of a natural number, without leading zeros. */
  function NatToString(n: nat): (s: string)
    ensures |s| >= 1
    ensures forall i :: 0 <= i < |s| ==> IsDigit(s[i])
    ensures |s| > 1 ==> s[0] != '0'
    decreases n
  {
    if n < 10 then [DigitChar(n)] else NatToString(n / 10) + [DigitChar(n % 10)]
  }

  /** Reads a string of decimal digits back as a number. */
  function ParseNat(s: string): nat
    requires forall i :: 0 <= i < |s| ==> IsDigit(s[i])
  {
    if |s| == 0 then 0 else ParseNat(s[..|s| - 1]) * 10 + DigitValue(s[|s| - 1])
  }

  /** `NatToString` is injective: reading the digits back gives the number. */
  lemma {:induction false} ParseNatToString(n: nat)
    ensures ParseNat(NatToString(n)) == n
    decreases n
  {
    var s := NatToString(n);
    if n < 10 {
      assert DigitValue(DigitChar(n)) == n by {
        assert "0123456789"[n] as int == '0' as int + n;
      }
    } else {
      ParseNatToString(n / 10);
      assert s[..|s| - 1] == NatToString(n / 10);
      var d := n % 10;
      assert DigitValue(DigitChar(d)) == d by {
        assert "0123456789"[d] as int == '0' as int + d;
      }
    }
  }

  /** JavaScript's `String(i)` for an integer. */
  function IntToString(i: int): (s: string)
    ensures |s| >= 1
    ensures i >= 0 ==> s == NatToString(i)
    ensures i < 0 ==> s[0] == '-'
  {
    if i >= 0 then NatToString(i) else "-" + NatToString(-i)
  }

  /** `parts.join(sep)`. */
  function Join(parts: seq<string>, sep: string): (r: string)
    ensures |parts| == 0 ==> r == ""
    ensures |parts| == 1 ==> r == parts[0]
  {
    if |parts| == 0 then ""
    else if |parts| == 1 then parts[0]
    else parts[0] + sep + Join(parts[1..], sep)
  }

  /** Joining with a separator adds exactly one separator between neighbours. */
  lemma {:induction false} JoinLength(parts: seq<string>, sep: string)
    requires |parts| > 0
    ensures |Join(parts, sep)| == SumLengths(parts) + (|parts| - 1) * |sep|
  {
    if |parts| > 1 {
      JoinLength(parts[1..], sep);
    }
  }

  function SumLengths(parts: seq<string>): nat {
    if |parts| == 0 then 0 else |parts[0]| + SumLengths(parts[1..])
  }

  /** Concatenation of the parts without separator (`parts.join("")`). */
  function Concat(parts: seq<string>): string {
    if |parts| == 0 then "" else parts[0] + Concat(parts[1..])
  }

  lemma {:induction false} ConcatAppend(parts: seq<string>, last: string)
    ensures Concat(parts + [last]) == Concat(parts) + last
  {
    if |parts| > 0 {
      assert (parts + [last])[1..] == parts[1..] + [last];
      ConcatAppend(parts[1..], last);
    }
  }

  /** UTF-16 code units of one character: two for a character outside the Basic Multilingual Plane. */
  function Utf16Units(c: char): nat {
    if c as int >= 0x10000 then 2 else 1
  }

  /** JavaScript's `s.length`: the number of UTF-16 code units. */
  function Utf16Length(s: string): (r: nat)
    ensures |s| <= r <= 2 * |s|
    ensures (forall i :: 0 <= i < |s| ==> s[i] as int < 0x10000) ==> r == |s|
  {
    if |s| == 0 then 0 else Utf16Units(s[0]) + Utf16Length(s[1..])
  }

  lemma {:induction false} Utf16LengthAppend(a: string, b: string)
    ensures Utf16Length(a + b) == Utf16Length(a) + Utf16Length(b)
  {
    if |a| == 0 {
      assert a + b == b;
    } else {
      assert (a + b)[1..] == a[1..] + b;
      Utf16LengthAppend(a[1..], b);
    }
  }

  /** ASCII lower-casing (`toLowerCase` on the ASCII range). */
  function LowerChar(c: char): char {
    if 'A' <= c <= 'Z' then (c as int + 32) as char else c
  }

  function Lower(s: string): (r: string)
    ensures |r| == |s|
    ensures forall i :: 0 <= i < |s| ==> r[i] == LowerChar(s[i])
  {
    seq(|s|, i requires 0 <= i < |s| => LowerChar(s[i]))
  }

  /** `t` occurs in `s` starting at index `i`. */
  predicate OccursAt(s: string, t: string, i: nat) {
    i + |t| <= |s| && s[i..i + |t|] == t
  }

  /** Substring search. */
  function IndexOf(s: string, t: string, from: nat): (r: Option<nat>)
    ensures r.Some? ==> from <= r.value && OccursAt(s, t, r.value)
    ensures r.None? ==> forall i :: from <= i ==> !OccursAt(s, t, i)
    decreases |s| - from
  {
    if from + |t| > |s| then None
    else if s[from..from + |t|] == t then Some(from)
    else IndexOf(s, t, from + 1)
  }

  predicate Contains(s: string, t: string) {
    IndexOf(s, t, 0).Some?
  }

  /** `Contains` is substring containment. */
  lemma ContainsMeans(s: string, t: string)
    ensures Contains(s, t) <==> exists i :: OccursAt(s, t, i)
  {
    if Contains(s, t) {
      assert OccursAt(s, t, IndexOf(s, t, 0).value);
    }
  }

  /** Text around a string does not hide what it contains. */
  lemma ContainsWithin(before: string, s: string, after: string, t: string)
    requires Contains(s, t)
    ensures Contains(before + s + after, t)
  {
    ContainsMeans(s, t);
    var i: nat :| OccursAt(s, t, i);
    var whole := before + s + after;
    assert whole[|before| + i..|before| + i + |t|] == s[i..i + |t|];
    assert OccursAt(whole, t, |before| + i);
    ContainsMeans(whole, t);
  }

  /** Lower-casing works character by character, so it distributes over concatenation. */
  lemma LowerAppend(a: string, b: string)
    ensures Lower(a + b) == Lower(a) + Lower(b)
  {
  }

  /** `s.padEnd(width)`: pads with spaces on the right up to `width`. */
  function PadEnd(s: string, width: int): (r: string)
    ensures |r| == if |s| >= width then |s| else width
    ensures r[..|s|] == s
    ensures forall i :: |s| <= i < |r| ==> r[i] == ' '
  {
    if |s| >= width then s else s + seq(width - |s|, _ => ' ')
  }

  /** Code-point lexicographic order on strings. */
  predicate LexLe(a: string, b: string)
    decreases |a|
  {
    if |a| == 0 then true
    else if |b| == 0 then false
    else if a[0] != b[0] then a[0] < b[0]
    else LexLe(a[1..], b[1..])
  }

  lemma {:induction false} LexLeTotalAt(a: string, b: string)
    ensures LexLe(a, b) || LexLe(b, a)
    decreases |a|
  {
    if |a| > 0 && |b| > 0 && a[0] == b[0] {
      LexLeTotalAt(a[1..], b[1..]);
    }
  }

  lemma {:induction false} LexLeTransitiveAt(a: string, b: string, c: string)
    requires LexLe(a, b) && LexLe(b, c)
    ensures LexLe(a, c)
    decreases |a|
  {
    if |a| > 0 && |b| > 0 && |c| > 0 && a[0] == b[0] && b[0] == c[0] {
      LexLeTransitiveAt(a[1..], b[1..], c[1..]);
    }
  }

  lemma {:induction false} LexLeAntisymmetric(a: string, b: string)
    requires LexLe(a, b) && LexLe(b, a)
    ensures a == b
    decreases |a|
  {
    if |a| > 0 && |b| > 0 {
      LexLeAntisymmetric(a[1..], b[1..]);
      assert a == [a[0]] + a[1..] && b == [b[0]] + b[1..];
    }
  }

  lemma {:induction false} LexLeReflexive(a: string)
    ensures LexLe(a, a)
    decreases |a|
  {
    if |a| > 0 {
      LexLeReflexive(a[1..]);
    }
  }

  lemma LexLeIsTotalPreorder()
    ensures TotalPreorder(LexLe)
  {
    forall a, b
      ensures LexLe(a, b) || LexLe(b, a)
    {
      LexLeTotalAt(a, b);
    }
    forall a, b, c | LexLe(a, b) && LexLe(b, c)
      ensures LexLe(a, c)
    {
      LexLeTransitiveAt(a, b, c);
    }
  }

  /** JavaScript's `strings.sort()` (modelled on code points). */
  function SortStrings(xs: seq<string>): (r: seq<string>)
    ensures multiset(r) == multiset(xs)
    ensures SortedBy(LexLe, r)
  {
    LexLeIsTotalPreorder();
    SortBy(LexLe, xs)
  }

  /** Sorting strings is canonical: two permutations of each other sort alike. */
  lemma {:induction false} SortedStringsUnique(a: seq<string>, b: seq<string>)
    requires multiset(a) == multiset(b)
    requires SortedBy(LexLe, a) && SortedBy(LexLe, b)
    ensures a == b
    decreases |a|
  {
    assert |a| == |multiset(a)| == |b|;
    if |a| > 0 {
      SortedHeadsEqual(a, b);
      TailMultiset(a, b);
      SortedStringsUnique(a[1..], b[1..]);
      assert a == [a[0]] + a[1..] && b == [b[0]] + b[1..];
    }
  }

  lemma SortedHeadsEqual(a: seq<string>, b: seq<string>)
    requires |a| > 0 && |b| > 0
    requires multiset(a) == multiset(b)
    requires SortedBy(LexLe, a) && SortedBy(LexLe, b)
    ensures a[0] == b[0]
  {
    assert a[0] in multiset(b);
    assert b[0] in multiset(a);
    var i :| 0 <= i < |b| && b[i] == a[0];
    var j :| 0 <= j < |a| && a[j] == b[0];
    LexLeReflexive(a[0]);
    LexLeReflexive(b[0]);
    assert LexLe(b[0], b[i]);
    assert LexLe(a[0], a[j]);
    LexLeAntisymmetric(a[0], b[0]);
  }

  lemma TailMultiset<T>(a: seq<T>, b: seq<T>)
    requires |a| > 0 && |b| > 0 && a[0] == b[0]
    requires multiset(a) == multiset(b)
    ensures multiset(a[1..]) == multiset(b[1..])
  {
    assert a == [a[0]] + a[1..];
    assert b == [b[0]] + b[1..];
    assert multiset(a) == multiset{a[0]} + multiset(a[1..]);
    assert multiset(b) == multiset{a[0]} + multiset(b[1..]);
    forall x
      ensures multiset(a[1..])[x] == multiset(b[1..])[x]
    {
      assert multiset(a)[x] == multiset{a[0]}[x] + multiset(a[1..])[x];
      assert multiset(b)[x] == multiset{a[0]}[x] + multiset(b[1..])[x];
    }
  }
}

=== FILE: wrappers.dfy ===
/** Failure-carrying value types shared by every module of the model. */
module Wrappers {

  /** A value that may be absent: JavaScript's `null` / `undefined`. */
  datatype Option<+T> = None | Some(value: T) {
    /** The wrapped value, or `default` when absent (JavaScript's `??`). */
    function GetOr(default: T): T {
      match this
      case Some(v) => v
      case None => default
    }
  }

  /** The outcome of an operation that either returns a value or throws. */
  datatype Result<+T, +E> = Ok(value: T) | Err(error: E)
}
